=== FILE: README.md ===
# fuel-plugins core, modelled in Dafny

This project models the core of the fuel-plugins repository. Most of it is
`fpb`, the Fuel plugin builder, in both of its source trees: the newer
package under `fuel_plugin_builder/` and the older one under
`fuel_plugin_builder/fuel_plugin_builder/`. The model covers:

- the validation report tree and its text rendering;
- the report-producing checks and the check/inspection framework;
- the v1–v5 validators and the deployment-task schema generator;
- the loaders, the path helpers and `which`;
- the checksums file, StrictVersion ordering and the rpm name split;
- the builders, the version mapping, `fpb --create` and the command line.

Two smaller parts complete the core:

- the STONITH catalogue that the `pcs_fencing` Puppet module's rspec
  expectations describe;
- the two redis Puppet parser functions, `sentinel_confs` and
  `redis_backend_url`.

Python values are `Json` trees with Python's dictionary semantics. An
exception is a `Result` error with the class Python would raise. The file
system, `glob`, the JSON-Schema engine, YAML parsing, SHA-1, the clock and
external processes are function-typed parameters: a build is the sequence of
steps it asks for, not their effect.

Some names the source reads at run time are not defined where it reads them:
a missing module attribute, a missing exception class, a missing import, an
unexpected keyword argument. The module `Namespaces` resolves such names
against the names each source file defines. Where such a read is the first
failure on some path through a call, an `…AsWritten` member fails the way
Python does, a corrected member does what the code evidently intends, and a
lemma names an input on which the two differ (see "## Findings"). A read
that is only reached after an earlier failure in the same call has no
member of its own; "## Left out" lists those reads. The rest of the model is
built on the corrected members.

One file per component, one module per file:

| file | module | source |
|---|---|---|
| base.dfy | Base | shared `Option`, `Result`, error classes and sequence helpers |
| text.dfy | Text | string helpers (join, split, strip, ASCII case, decimal rendering) |
| json.dfy | Json | data trees with Python dictionary semantics |
| sorting.dfy | Sorting | Python's stable `sorted` |
| namespaces.dfy | Namespaces | run-time name resolution, `errors.py` classes |
| reports.dfy | Reports | `utils/reports.py` |
| paths.dfy | Paths | `utils/fs.py`, `utils/path_tools.py`, the older `utils.py` |
| versions.dfy | Versions | `utils/version.py`, StrictVersion |
| checksums.dfy | Checksums | `utils/checksum.py` |
| schema_errors.dfy | SchemaErrors | the JSON-Schema error tree the validators read |
| checks.dfy | Checks | `checks.py` |
| inspection.dfy | Inspection | the check framework of `validators/base.py` |
| validator_checks.dfy | ValidatorChecks | `validators/checks.py` |
| legacy_validator.dfy | LegacyValidator | both `validators/base.py` legacy bases, `validator_v3.py` |
| validator_base.dfy | ValidatorBase | `validators/validator_base.py`, `validator_v5.py` |
| task_schema.dfy | TaskSchema | `schemas/task.py` |
| loaders.dfy | Loaders | `loaders/files_manager.py`, `loaders/loader_base.py` |
| builders.dfy | Builders | `builders/*.py`, the older `actions/build.py` |
| version_mapping.dfy | VersionMapping | both `version_mapping.py` |
| create.dfy | Create | both `actions/create.py` |
| cli.dfy | Cli | both `cli.py` |
| fencing.dfy | Fencing | the `pcs_fencing` rspec expectations |
| redis.dfy | Redis | `sentinel_confs.rb`, `redis_backend_url.rb` |

## Model

| member | source | states |
|---|---|---|
| Reports.MakeNode | fuel_plugin_builder/utils/reports.py:101-127 | a new node keeps its text, level and children; it is failed exactly when its level is `error`, unless an explicit `failed` flag overrides that |
| Reports.AddNodes | fuel_plugin_builder/utils/reports.py:234-243 | `add_nodes` appends the given nodes after the existing children, in order, and changes nothing else |
| Reports.KeywordNodes | fuel_plugin_builder/utils/reports.py:224-230 | one unlevelled `key: value` child per keyword argument, in the order the keywords are given (Python 2's hash order is not modelled, see "## Left out") |
| Reports.AttachMessage | fuel_plugin_builder/utils/reports.py:216-232 | `_attach_message` adds one child at the message's level, then the keyword children |
| Reports.FormatExceptionAsWritten | fuel_plugin_builder/utils/reports.py:209-212 | as written, an exception is formatted as its message when that is non-empty, and otherwise `TypeError` is raised from adding a string to the exception |
| Reports.FormatException | fuel_plugin_builder/utils/reports.py:209-212 | the intended formatting is the message, or the exception's description when the message is empty; it is empty only when both are |
| Reports.FormatExceptionAgrees | fuel_plugin_builder/utils/reports.py:209-212 | the intended formatting equals the one as written wherever that succeeds, and is the description wherever it raises |
| Reports.FormatExceptionDiscrepancy | fuel_plugin_builder/utils/reports.py:209-212 | an `IOError` with an empty message is described under the intended formatting and raises `TypeError` as written |
| Reports.CountFailuresIsFailedNodes | fuel_plugin_builder/utils/reports.py:329-342 | `count_failures(s)` is `s` plus the number of failed nodes in the whole subtree, an independent pre-order description |
| Reports.IsFailedIffSomeNodeFailed | fuel_plugin_builder/utils/reports.py:344-358 | a report is failed exactly when some node of its subtree is failed, and it is successful exactly when it is not failed |
| Reports.MessageCounts | fuel_plugin_builder/utils/reports.py:245-292 | `error` adds one child and raises the failure count by exactly one; `warning` and `info` each add one child and leave the count unchanged |
| Reports.AddNodesCounts | fuel_plugin_builder/utils/reports.py:234-243 | adding nodes raises the failure count by exactly the failed nodes they carry |
| Reports.LevelPrefix | fuel_plugin_builder/utils/reports.py:185-186 | the level prefix is empty exactly when there is no level |
| Reports.OwnLineColumn | fuel_plugin_builder/utils/reports.py:166-202 | at depth d ≥ 1 a node's level and text start at column 4·d; a failed node's indent ends in the `> ` failure pointer, a healthy node's is all spaces |
| Reports.NoLineWithoutTextOrLevel | fuel_plugin_builder/utils/reports.py:189-198 | a node with neither text nor level emits no line of its own, and its children render one level deeper |
| Reports.RenderLinesCount | fuel_plugin_builder/utils/reports.py:166-202 | the text rendering has exactly one line per node of the subtree that has a text or a level |
| Reports.InfoChild | fuel_plugin_builder/utils/reports.py:279-292 | `info(msg)` appends exactly one unfailed `info` leaf and keeps the node's own text and level |
| Reports.SummaryShape | fuel_plugin_builder/utils/reports.py:309-322 | the summary node is `Summary:` followed by `Success!` for zero failures, and by `Failure!` and the fix-count message otherwise |
| Reports.SummaryLinesFailure | fuel_plugin_builder/utils/reports.py:312-317 | with k ≠ 0 failures the summary renders as `Summary:`, `INFO: Failure!` and `INFO: Please fix k errors listed above.`, indented one level |
| Reports.RenderStructure | fuel_plugin_builder/utils/reports.py:294-327 | `render()` joins the report's lines at depth 0 with newlines, followed by the summary's lines when a summary is asked for |
| Reports.RenderSuccessful | fuel_plugin_builder/utils/reports.py:309-325 | a successful report renders as its lines, then `Summary:` and `INFO: Success!` |
| Reports.RenderFailed | fuel_plugin_builder/utils/reports.py:309-325 | a failed report renders as its lines, then `Summary:`, `INFO: Failure!` and the count of failures to fix |
| Reports.RenderWithoutSummary | fuel_plugin_builder/utils/reports.py:294-327 | with `add_summary` false the rendering is the report's own lines only |
| Reports.SummarySaysSuccessIffSuccessful | fuel_plugin_builder/utils/reports.py:310-322 | the summary says `Success!` exactly when `is_successful()` holds, and has two lines otherwise |
| Paths.Basename | fuel_plugin_builder/utils/fs.py:299-305 | the base name holds no '/' and is the whole path when the path has none |
| Paths.BasenameOfJoin | fuel_plugin_builder/utils/fs.py:59-68 | joining a directory with a plain file name and taking the base name gives the file name back |
| Paths.NormalizeExtension | fuel_plugin_builder/utils/fs.py:331-351 | one leading '.' is dropped and every remaining character is lower-cased; nothing else is removed |
| Paths.NormalizeExtensionExamples | fuel_plugin_builder/utils/fs.py:331-351 | the doc-comment examples hold, and "" and "." give "" where the doc comment promises an error |
| Paths.NormalizeExtensionStrict | fuel_plugin_builder/utils/path_tools.py:158-182 | the `path_tools` variant fails with `InvalidFileExtension` exactly for "" and "."; otherwise it gives the same non-empty result as the `fs` variant |
| Paths.NormalizeExtensionStrictExamples | fuel_plugin_builder/utils/path_tools.py:158-182 | every doc-comment example holds, the two error cases included |
| Paths.GetPathExtension | fuel_plugin_builder/utils/fs.py:374-382 | the extension holds no '.' or '/', and a non-empty one is the lower-cased text after some '.' of the path |
| Paths.GetPathWithoutExtension | fuel_plugin_builder/utils/fs.py:354-371 | None exactly for the empty path; otherwise a prefix of the path missing only a final '.'-led extension that holds no further '.' or '/' |
| Paths.GetPathWithoutExtensionExamples | fuel_plugin_builder/utils/fs.py:354-371 | only the last extension goes, a path without one is kept whole, and "" gives None |
| Paths.GetBestPathByMask | fuel_plugin_builder/utils/fs.py:180-215 | succeeds exactly when some globbed path has an allowed extension (an empty format list means the supported ones), returns the first such path in glob order whatever its format, as the loop at lines 199-206 does, and otherwise fails with `FilesInPathDoesNotExist` naming the mask and the formats |
| Paths.GetPreferredPathByMask | fuel_plugin_builder/utils/fs.py:180-198 | the documented choice: it succeeds exactly when some globbed path has an allowed extension, and then returns such a path, otherwise the same `FilesInPathDoesNotExist` |
| Paths.PreferredPathRanksFirst | fuel_plugin_builder/utils/fs.py:183-185 | no globbed path with an allowed extension has a format ranked before the chosen path's format in the allowed list |
| Paths.GetBestPathByMaskPreferenceDiscrepancy | fuel_plugin_builder/utils/fs.py:183-206 | for `m.json` globbed before `m.yaml` the code returns `m.json`, while the documented preference of YAML over JSON picks `m.yaml` |
| Paths.GetBestPathByMaskAsWritten | fuel_plugin_builder/utils/fs.py:208-215 | as written, it finds the same paths, but every failure is the `AttributeError` of the missing `errors.FilesInPathDoesNotExist` |
| Paths.GetBestPathByMaskRaiseDiscrepancy | fuel_plugin_builder/utils/fs.py:208-215 | for a mask that matches nothing, the intended error is `FilesInPathDoesNotExist`, while the code as written raises `AttributeError` |
| Paths.GetPathExtensionToolsAgrees | fuel_plugin_builder/utils/path_tools.py:185-193 | the intended `path_tools.get_path_extension` raises exactly where the `fs` version returns "", and otherwise returns the same extension |
| Paths.GetPathExtensionToolsAsWritten | fuel_plugin_builder/utils/path_tools.py:185-193 | as written, every call raises `NameError`, because `path_tools` is not bound inside itself |
| Paths.GetBestPathByMaskToolsAsWritten | fuel_plugin_builder/utils/path_tools.py:25-58 | as written, it returns None exactly when the glob is empty and otherwise raises `NameError` on the unbound `utils` |
| Paths.GetBestPathByMaskToolsDiscrepancy | fuel_plugin_builder/utils/path_tools.py:25-58 | against the `fs` version it duplicates: a matching YAML file is found there and raises here, and an empty glob raises there and returns None here |
| Paths.Which | fuel_plugin_builder/utils/fs.py:275-296 | an executable command with a directory part is returned as is; otherwise the result is the first `PATH` entry that holds it as an executable; whatever is returned is executable |
| Paths.WhichFindsIffSomeEntry | fuel_plugin_builder/utils/fs.py:275-296 | a bare command is found exactly when some `PATH` entry holds an executable of that name |
| Paths.WhichQuoted | fuel_plugin_builder/fuel_plugin_builder/utils.py:37-58 | the older `which` searches the same way after stripping surrounding quotes from each `PATH` entry |
| Paths.WhichQuotedAgrees | fuel_plugin_builder/fuel_plugin_builder/utils.py:37-58 | the two versions of `which` agree whenever no `PATH` entry is quoted |
| Paths.FilesInPath | fuel_plugin_builder/utils/fs.py:308-328 | a missing path gives nothing, a non-directory gives itself, and a directory gives every walked `root/name` in walk order |
| Paths.TransferTargets | fuel_plugin_builder/utils/fs.py:59-68 | each globbed source, in glob order, is copied or moved to `dst/basename(source)` |
| Paths.TransferKeepsBasename | fuel_plugin_builder/utils/fs.py:138-149 | every transfer target keeps its source's base name |
| Versions.LessIsStrictTotalOrder | fuel_plugin_builder/utils/version.py:20-21 | StrictVersion comparison is a strict total order on parsed versions |
| Versions.Parse | fuel_plugin_builder/utils/version.py:20-21 | `StrictVersion(s)` accepts exactly two or three dot-separated numbers, a final newline read past and a missing patch read as 0; the empty text raises `AttributeError` and anything else `ValueError` |
| Versions.Components | fuel_plugin_builder/utils/version.py:20-21 | there is one component per dot-separated part, and every component but the last is that part unchanged |
| Versions.ComponentsOfThree | fuel_plugin_builder/utils/version.py:20-21 | three dot-free parts give back those parts, with one final newline dropped from the last |
| Versions.ParseTrailingNewline | fuel_plugin_builder/utils/version.py:20-21 | as with `re.match` and `$`, a version followed by one newline parses to that version |
| Versions.ParseTwoNewlines | fuel_plugin_builder/utils/version.py:20-21 | a version followed by two newlines is refused |
| Versions.ParseEmpty | fuel_plugin_builder/utils/version.py:20-21 | the empty text raises the `AttributeError` of the unset `version` attribute, not a `ValueError` |
| Versions.ParseRender | fuel_plugin_builder/utils/version.py:20-21 | the canonical `X.Y.Z` spelling of a version parses back to that version |
| Versions.ShortFormHasZeroPatch | fuel_plugin_builder/utils/version.py:20-21 | `X.Y` and `X.Y.0` are the same version |
| Versions.SplitNameRpm | fuel_plugin_builder/utils/version.py:24-29 | the name part is the major and minor number joined by '.', and the version part is the text unchanged |
| Versions.SplitNameRpmAsWritten | fuel_plugin_builder/utils/version.py:24-29 | as written, every call raises the `AttributeError` of `distutils.StrictVersion` |
| Versions.SplitNameRpmIgnoresPatch | fuel_plugin_builder/utils/version.py:24-29 | versions that differ only in the patch number share a name part, and the name part tells major and minor apart |
| Versions.SplitNameRpmOfRender | fuel_plugin_builder/utils/version.py:24-29 | the canonical spelling of a version splits into its `major.minor` and itself |
| Versions.SplitNameRpmDiscrepancy | fuel_plugin_builder/utils/version.py:24-29 | `1.2.3` splits into `1.2` under the corrected definition and raises under the one as written |
| Versions.AtLeast | fuel_plugin_builder/checks.py:240-246 | `strict_version(s) >= strict_version(minimum)` holds exactly when both parse and s is not below the minimum; an unparsable side is a `ValueError` |
| Checksums.StepEntries | fuel_plugin_builder/utils/checksum.py:37-54 | one entry per file of a walk step: the digest of its full path and its path relative to the walked directory |
| Checksums.CalculateFileChecksums | fuel_plugin_builder/utils/checksum.py:37-54 | `calculate_file_checksums` has one entry per file of every walk step |
| Checksums.ChecksumEntryOrigin | fuel_plugin_builder/utils/checksum.py:37-54 | every entry belongs to a file of some walk step, recorded by its relative path and the digest of its full path |
| Checksums.RelativePathRejoins | fuel_plugin_builder/utils/checksum.py:46-52 | the recorded path is relative, and joining it back onto the walked directory gives the file's full path |
| Checksums.ChecksumLine | fuel_plugin_builder/utils/checksum.py:68-72 | a line is `<checksum> <path>` ending in a newline |
| Checksums.ParseChecksumLine | fuel_plugin_builder/utils/checksum.py:68-72 | a line reads back as its entry whenever the checksum holds no space |
| Checksums.SortedEntries | fuel_plugin_builder/utils/checksum.py:66 | the entries are written as a permutation of the computed ones, ordered by path; entries with the same path keep their computed order, as Python's stable sort keeps them |
| Sorting.SortStable | fuel_plugin_builder/utils/checksum.py:66 | `sorted` is stable: for every key, the elements with that key come out in their input order |
| Checksums.CreateChecksumsFile | fuel_plugin_builder/utils/checksum.py:57-72 | one newline-terminated line per computed entry |
| Checksums.ChecksumFileContents | fuel_plugin_builder/utils/checksum.py:57-72 | the written file reads back as exactly the computed entries, permuted into path order, when no digest holds a space |
| SchemaErrors.SortByPathCount | fuel_plugin_builder/checks.py:101 | `sorted(errors, key=path)` neither loses nor adds an error, at any depth |
| SchemaErrors.SortByPathMembers | fuel_plugin_builder/checks.py:101 | every sorted error is one of the errors given |
| SchemaErrors.SortByPathMessages | fuel_plugin_builder/validators/checks.py:77 | sorting keeps every error that has a message, at any depth |
| SchemaErrors.Deepest | fuel_plugin_builder/validators/base.py:92-94 | the sub-error chosen has a schema path at least as long as every other's and is the first one of that length, as a stable reverse sort picks it |
| SchemaErrors.AbsolutePath | fuel_plugin_builder/validators/base.py:95 | a sub-error's absolute path is its parent's absolute path followed by its own relative path |
| SchemaErrors.DropTwo | fuel_plugin_builder/validators/base.py:95 | `list(path)[2:]` is the path without its first two steps, and empty for shorter paths |
| Checks.CheckTitle | fuel_plugin_builder/checks.py:49-53 | the `@check` title is the given one, or `Running check function '<name>'` for a bare decorator |
| Checks.CheckedAsWritten | fuel_plugin_builder/checks.py:56-60 | as written, every decorated check raises the `AttributeError` of `utils.ReportNode` before its body runs |
| Checks.CheckDecoratorDiscrepancy | fuel_plugin_builder/checks.py:33-60 | data the engine accepts gives a successful schema report through the intended decorator, and an error through the decorator as written |
| Checks.ErrorEntry | fuel_plugin_builder/checks.py:102-109 | one schema error becomes exactly one failure: its error leaf, placed under a node titled with the value path when that path is not empty |
| Checks.ConvertFlatCounts | fuel_plugin_builder/checks.py:90-117 | as written, every error at every depth becomes one entry of the same flat list, each holding exactly one failure |
| Checks.ConvertNestedCounts | fuel_plugin_builder/checks.py:90-117 | as intended (sub-errors nested under their parent), the nodes still hold exactly one failure per error at every depth |
| Checks.FlatHoistsSubErrors | fuel_plugin_builder/checks.py:106-115 | one error with one sub-error gives two sibling entries as written and one nested entry as intended |
| Checks.JsonSchemaIsValid | fuel_plugin_builder/checks.py:69-123 | the report has one entry per top-level engine error, as many failures as errors at every depth, and is successful exactly when the engine finds no error |
| Checks.JsonSchemaIsValidAsWritten | fuel_plugin_builder/checks.py:69-123 | the body of `json_schema_is_valid` as written, run on the node the intended decorator hands it, gives one top-level entry per error at every depth, and the same failure count |
| Checks.SchemaReportClean | fuel_plugin_builder/checks.py:69-123 | the schema report holds no failed node exactly when the engine finds no error |
| Checks.SchemaFor | fuel_plugin_builder/checks.py:149-150 | `schemas.get(type)`: a list or dict type is unhashable and raises; a schema is found exactly for a string key with a non-`None` value |
| Checks.RecordNodes | fuel_plugin_builder/checks.py:148-160 | each record adds an info line, then its schema report or an `Invalid type` error; the pair is clean exactly when the record conforms to its type's schema |
| Checks.RecordsNodes | fuel_plugin_builder/checks.py:148-160 | every record can be checked exactly when none raises, and the records' nodes are clean exactly when every record conforms |
| Checks.MultiJsonSchemaIsValid | fuel_plugin_builder/checks.py:126-161 | a non-list is one `Data should be a list of entities` error; for a list, the report is successful exactly when every record conforms to the schema its type selects |
| Checks.Probe | fuel_plugin_builder/checks.py:164-220 | the existence checks share one shape: an info line, plus an error line (one failure) exactly when the test does not hold |
| Checks.PathExists | fuel_plugin_builder/checks.py:164-182 | `path_exists` fails exactly when the path or mask resolves to no path |
| Checks.DirExists | fuel_plugin_builder/checks.py:185-201 | `dir_exists` fails exactly when the path is not a directory |
| Checks.FileExists | fuel_plugin_builder/checks.py:204-220 | `file_exists` fails, with `File not found`, exactly when the path does not exist or is not a regular file |
| Checks.BelowMinimal | fuel_plugin_builder/checks.py:240-246 | the versions collected are exactly the listed ones below the minimum, in order; any unparsable version raises |
| Checks.FuelVersions | fuel_plugin_builder/checks.py:240 | `metadata.get('fuel_version', [])` is empty when the key is missing, and raises on a non-dictionary or a non-iterable value |
| Checks.FuelVerCompatible | fuel_plugin_builder/checks.py:223-262 | an info line with the expected minimum, then one error naming every listed version below it, or the compatibility info line when there is none |
| Checks.FuelVerCompatibleVerdict | fuel_plugin_builder/checks.py:223-262 | the compatibility report fails exactly when some listed Fuel version is below the minimum |
| Checks.LegacyFuelVersion | fuel_plugin_builder/checks.py:265-270 | a deprecation warning, never a failure, exactly when `fuel_version` is set and non-empty |
| Checks.ModeDirective | fuel_plugin_builder/checks.py:316-322 | a deprecation warning, never a failure, exactly when the release sets `mode` to something other than `None` |
| Checks.AttributeSchema | fuel_plugin_builder/checks.py:302-306 | the attribute named `metadata` is checked against the meta schema, every other one against the attribute schema |
| Checks.AttributeNodes | fuel_plugin_builder/checks.py:301-309 | one schema report per attribute, in mapping order; all clean exactly when every attribute conforms to its schema |
| Checks.Attributes | fuel_plugin_builder/checks.py:300 | `data.get('attributes', {}) or {}` is iterable exactly when it is missing, falsy or a mapping |
| Checks.EnvAttributes | fuel_plugin_builder/checks.py:273-313 | the root schema is checked with the default Draft4 engine and its report comes first, and a failed root stops the check; otherwise one report per attribute follows, checked with the given engine, and the check succeeds exactly when the root and every attribute conform |
| Inspection.AddNodes | fuel_plugin_builder/validators/base.py:347-359 | the simpler node's `add_nodes` appends the nodes after the existing children, in order |
| Inspection.AddError | fuel_plugin_builder/validators/base.py:361-367 | `error(msg)` appends exactly one failed, childless `ERROR: msg` node |
| Inspection.CountFailuresIsFailedNodes | fuel_plugin_builder/validators/base.py:419-432 | `count_failures(s)` is `s` plus the number of failed nodes in the subtree |
| Inspection.AddNodesCounts | fuel_plugin_builder/validators/base.py:347-359 | adding nodes raises the failure count by exactly the failed nodes they carry |
| Inspection.RenderFailedIffCounted | fuel_plugin_builder/validators/base.py:385-412 | the failure flag `_render` returns is set exactly when the subtree holds a failed node |
| Inspection.RenderFailedIffCountPositive | fuel_plugin_builder/validators/base.py:385-432 | the rendered failure flag agrees with `count_failures()` being positive |
| Inspection.OwnLineFirst | fuel_plugin_builder/validators/base.py:405-411 | a node with a text renders its own line first, marked by its subtree's failure flag |
| Inspection.OwnLineColumn | fuel_plugin_builder/validators/base.py:394-411 | from level 1 on a line's text starts at column 4·level; a failed line's indent ends in `> `, a healthy one's is all spaces |
| Inspection.MakeInspection | fuel_plugin_builder/validators/base.py:271-287 | an inspection is built exactly when the check list is non-empty; otherwise `CheckConfigurationError("No checks provided")` |
| Inspection.MakeInspectionAsWritten | fuel_plugin_builder/validators/base.py:282-285 | as written, it builds the same inspections, but the refusal is the `AttributeError` of the missing `errors.CheckConfigurationError` |
| Inspection.MakeInspectionRaiseDiscrepancy | fuel_plugin_builder/validators/base.py:282-285 | an empty check list is refused with `CheckConfigurationError` as intended and with `AttributeError` as written |
| Inspection.CheckOutcomes | fuel_plugin_builder/validators/base.py:301-316 | one check yields its path result first, then one result per file, in file order |
| Inspection.CollectReports | fuel_plugin_builder/validators/base.py:301-316 | the reports are collected in order when every outcome is a report; otherwise the first non-report raises `CheckConfigurationError` naming its check |
| Inspection.RunInspection | fuel_plugin_builder/validators/base.py:289-326 | the inspection report is built exactly when there are checks and every outcome is a report; it is titled with the inspection and holds one path node with one block per check; every refusal is `CheckConfigurationError` |
| Inspection.RunInspectionAsWritten | fuel_plugin_builder/validators/base.py:296-314 | as written, the run builds the same reports, but every refusal is the `AttributeError` of the missing `errors.CheckConfigurationError` |
| Inspection.RunInspectionDiscrepancy | fuel_plugin_builder/validators/base.py:301-307 | a first check that answers the path with a non-report raises `CheckConfigurationError` as intended and `AttributeError` as written |
| Inspection.InspectionReportOrder | fuel_plugin_builder/validators/base.py:301-326 | check k's reports fill the k-th block under the path node: its report on the path, then one per file, in file order |
| Inspection.RunInspectionReportAt | fuel_plugin_builder/validators/base.py:301-326 | every report under the path node is exactly the outcome at that position |
| Inspection.RunInspections | fuel_plugin_builder/validators/base.py:251-252 | inspections run in order, one report each, and the first one that raises stops the validation |
| Inspection.Validate | fuel_plugin_builder/validators/base.py:245-267 | `validate()` outputs the rendered `Validating: <path>` report followed by the verdict, and returns true exactly when no inspection report holds a failed node |
| Inspection.VerdictText | fuel_plugin_builder/validators/base.py:257-265 | the verdict says `Validation successful!` with no failures, and otherwise `VALIDATION FAILED!` and the number of errors to fix |
| ValidatorChecks.MessageOnBlank | fuel_plugin_builder/validators/base.py:361-383 | on an empty node an error is its only child and its one failure, and an info line is its only child and no failure |
| ValidatorChecks.LoadMessage | fuel_plugin_builder/validators/checks.py:36-56 | a parse failure is reported as `Can't parse YAML file`, with one-based positions when known; an I/O failure as `I/O error(...)` |
| ValidatorChecks.LoadYaml | fuel_plugin_builder/validators/checks.py:36-56 | a loaded file gives its data with the report unchanged; a failed load gives `None` and exactly one more failure |
| ValidatorChecks.ExceptionsReportOrder | fuel_plugin_builder/validators/checks.py:76-86 | the error nodes follow the errors sorted by path, each titled with its error's value path and not failed itself |
| ValidatorChecks.ExceptionsReportCounts | fuel_plugin_builder/validators/checks.py:76-86 | every error with a message, at every depth, adds exactly one failure |
| ValidatorChecks.CheckJsonSchema | fuel_plugin_builder/validators/checks.py:62-89 | the report keeps its own children and gains one node per engine error, and one failure per error with a message |
| ValidatorChecks.JsonSchemaIsValidFile | fuel_plugin_builder/validators/checks.py:92-107 | the failures are the load failure, if any, plus one per engine error with a message |
| ValidatorChecks.MultiJsonSchemaIsValidFile | fuel_plugin_builder/validators/checks.py:110-140 | data that is not a list gives one error and stops; otherwise the report is clean exactly when every record passes its type's schema |
| ValidatorChecks.DoPathHaveFiles | fuel_plugin_builder/validators/checks.py:143-158 | one `Path contain no files` error exactly when the path holds no file |
| ValidatorChecks.IsFile | fuel_plugin_builder/validators/checks.py:161-180 | an existing non-file is an error; a missing path is one only when required; nothing else fails |
| ValidatorChecks.ReleaseErrors | fuel_plugin_builder/validators/checks.py:197-211 | one failed leaf per listed release below the basic version; every release must parse |
| ValidatorChecks.ReleaseErrorsHeadFirst | fuel_plugin_builder/validators/checks.py:197-211 | the first release below the basic version reads `package_version` before any later release is parsed, so its `KeyError` comes first |
| ValidatorChecks.IsReleaseCompatible | fuel_plugin_builder/validators/checks.py:183-212 | the expectation comes first as an info line, then there is exactly one failure per `fuel_version` entry below the basic version |
| ValidatorChecks.FieldErrors | fuel_plugin_builder/validators/checks.py:228-243 | an absent or `None` path field is `not specified`; a given one is an error exactly when its joined path does not exist; at most one failed leaf per field |
| ValidatorChecks.ReleasePathErrors | fuel_plugin_builder/validators/checks.py:230-243 | a release's errors are its scripts-path errors, then its repository-path errors |
| ValidatorChecks.ScriptsAndRepoPathsIsValid | fuel_plugin_builder/validators/checks.py:215-243 | the report holds exactly the path errors of the releases, in order, one failure each |
| ValidatorChecks.EnvConfigAttrsIsValidV1 | fuel_plugin_builder/validators/checks.py:246-265 | the root schema errors, then one node per attribute, even after a failed root; failures are the load failure plus one per error with a message |
| ValidatorChecks.EnvConfigAttrsVerdict | fuel_plugin_builder/validators/checks.py:246-265 | the check is clean exactly when the file loads and neither the root nor any attribute reports an error with a message |
| ValidatorChecks.ChecksImportsAsWritten | fuel_plugin_builder/validators/checks.py:25 | as written, importing the module raises `ImportError: cannot import name BaseCheck` |
| ValidatorChecks.ChecksImports | fuel_plugin_builder/validators/base.py:435-456 | importing the base class the module defines, `Check`, succeeds |
| ValidatorChecks.LoadYamlAsWritten | fuel_plugin_builder/validators/checks.py:47 | as written, every load raises the `AttributeError` of `utils.parse_yaml` |
| ValidatorChecks.LoadYamlDiscrepancy | fuel_plugin_builder/validators/checks.py:47 | a file that loads gives its data under the corrected reading and raises as written |
| ValidatorChecks.IsFileAsWritten | fuel_plugin_builder/validators/checks.py:174-175 | as written, every call raises the `AttributeError` of `utils.exists` |
| ValidatorChecks.IsFileDiscrepancy | fuel_plugin_builder/validators/checks.py:174-175 | an existing file passes the corrected check and raises as written |
| ValidatorChecks.FieldErrorsAsWritten | fuel_plugin_builder/validators/checks.py:239 | as written, a given path field raises the `AttributeError` of `utils.exists`; only absent or `None` fields get through |
| ValidatorChecks.FieldErrorsDiscrepancy | fuel_plugin_builder/validators/checks.py:239 | a release whose directory exists passes the corrected check and raises as written |
| LegacyValidator.CombinedPath | fuel_plugin_builder/validators/base.py:84-95 | the reported value path is the caller's path, then the error's own path, then (with sub-errors) the deepest sub-error's absolute path without its first two steps |
| LegacyValidator.CombinedPathCountsFromTop | fuel_plugin_builder/validators/base.py:88-95 | an error at `a` whose deepest sub-error sits at `b -> c` below it is reported at `a -> c`: the two dropped steps are counted from the top of the absolute path |
| LegacyValidator.ReportedMessage | fuel_plugin_builder/validators/base.py:91-98 | the message is the error's own without sub-errors, and otherwise one of the sub-errors' messages |
| LegacyValidator.PathSuffix | fuel_plugin_builder/validators/base.py:102-105 | the `value path` tail is present exactly when the path is not empty |
| LegacyValidator.MessagesAgreeWithoutContext | fuel_plugin_builder/fuel_plugin_builder/validators/base.py:51-65 | the older and newer `_make_error_message` word an error without sub-errors identically |
| LegacyValidator.CallerPathFirst | fuel_plugin_builder/validators/base.py:84-107 | with a caller path given, the message is `File '<f>', <message>, value path '<caller path> -> <rest>'`, the caller's steps first |
| LegacyValidator.CallerPathFirstOlder | fuel_plugin_builder/fuel_plugin_builder/validators/base.py:51-65 | the older message puts the caller's path first as well, followed by the error's own path |
| LegacyValidator.ValidateSchema | fuel_plugin_builder/validators/base.py:74-82 | `validate_schema` succeeds exactly when the engine accepts the data; otherwise it raises `ValidationError` with the message of the matching `_make_error_message` |
| LegacyValidator.ValidateFileBySchema | fuel_plugin_builder/validators/base.py:109-135 | a missing file is skipped or raises `FileDoesNotExist`, an empty one is accepted or raises `FileIsEmpty`, and any other file is schema-checked |
| LegacyValidator.ValidateFileBySchemaOlder | fuel_plugin_builder/fuel_plugin_builder/validators/base.py:67-69 | the older version always parses and schema-checks, and passes exactly when the engine accepts the data |
| LegacyValidator.FileVerdictsAgree | fuel_plugin_builder/validators/base.py:109-135 | for a file that exists and is not empty, both versions reach the same verdict |
| LegacyValidator.AttrSchema | fuel_plugin_builder/validators/base.py:170-175 | the attribute `metadata` is checked against the meta schema, every other one against the element schema |
| LegacyValidator.CheckAttribute | fuel_plugin_builder/validators/base.py:177-181 | one attribute passes exactly when it conforms to the schema its id selects, and is reported at value path `attributes -> <id>` |
| LegacyValidator.CheckAttributes | fuel_plugin_builder/validators/base.py:168-181 | the attributes pass exactly when every one conforms; a failure is the error of one of them |
| LegacyValidator.CheckEnvConfigAttrs | fuel_plugin_builder/validators/base.py:152-181 | a false config is accepted as is; otherwise a config the root schema rejects raises that error, before any attribute is checked |
| LegacyValidator.EnvConfigAttributesChecked | fuel_plugin_builder/validators/base.py:152-181 | a dictionary config that passes the root schema passes exactly when every attribute conforms to its schema |
| LegacyValidator.JoinValue | fuel_plugin_builder/validators/base.py:186-191 | joining a release value onto the plugin path succeeds exactly for strings; anything else raises `AttributeError` |
| LegacyValidator.ReleaseDirs | fuel_plugin_builder/validators/base.py:186-191 | a release's two directories are the plugin path joined with its scripts path and with its repository path |
| LegacyValidator.ReleaseDirsScriptsFirst | fuel_plugin_builder/validators/base.py:186-191 | a scripts path that is not a string fails the release before the repository path is read |
| LegacyValidator.MissingDirs | fuel_plugin_builder/validators/base.py:193-196 | the wrong paths are exactly the missing directories, the scripts directory first |
| LegacyValidator.CheckRelease | fuel_plugin_builder/validators/base.py:185-201 | a release passes exactly when both directories exist; otherwise `ReleasesDirectoriesError` names exactly the missing ones |
| LegacyValidator.CheckReleases | fuel_plugin_builder/validators/base.py:185-201 | the releases pass exactly when each one does; a failure is that of one of them |
| LegacyValidator.CheckReleasesPaths | fuel_plugin_builder/validators/base.py:183-201 | `check_releases_paths` checks the metadata's `releases`, in order |
| LegacyValidator.ParseValue | fuel_plugin_builder/validators/base.py:210 | a false value (`None`, `0`, `False`, `''`, `[]`, `{}`) is never parsed and gives the `AttributeError` of the missing `version`; a true value that is not a string raises `TypeError`; a string is parsed |
| LegacyValidator.ParseValueOkIffParsedString | fuel_plugin_builder/validators/base.py:210 | a metadata value gives a version exactly when it is a string that parses; for any other value the error class depends only on its truth value |
| LegacyValidator.CheckFuelVersion | fuel_plugin_builder/validators/base.py:209-219 | one `fuel_version` entry passes exactly when it parses and is not below the basic version; otherwise the incompatibility message names the package version, the basic version and the entry |
| LegacyValidator.CheckFuelVersions | fuel_plugin_builder/validators/base.py:209-219 | all entries pass exactly when each does; the error is that of the first failing entry |
| LegacyValidator.CheckCompatibility | fuel_plugin_builder/validators/base.py:203-219 | `check_compatibility` checks the metadata's `fuel_version` entries against the basic version, in order |
| LegacyValidator.CheckTask | fuel_plugin_builder/validators/validator_v3.py:107-116 | a task passes exactly when its `type` is a known task type and the task conforms to that type's schema; a list or dict type raises `TypeError`; an unknown type raises `There is no such task type:` |
| LegacyValidator.CheckTasks | fuel_plugin_builder/validators/validator_v3.py:107-116 | the tasks pass exactly when each does; the error is that of the first failing task |
| LegacyValidator.CheckDeploymentTasks | fuel_plugin_builder/validators/validator_v3.py:90-116 | `check_deployment_tasks` checks the tasks of `deployment_tasks.yaml` in file order |
| LegacyValidator.SchemaStepsV3 | fuel_plugin_builder/validators/validator_v3.py:51-88 | the v3 `check_schemas` covers metadata, the optional tasks file, the environment config, the required deployment tasks, then the optional network roles, node roles and volumes |
| LegacyValidator.RunSteps | fuel_plugin_builder/validators/validator_v3.py:51-65 | the steps pass exactly when each does; a failure is the first failing step's error |
| LegacyValidator.CheckSchemasV3 | fuel_plugin_builder/validators/validator_v3.py:51-65 | a missing metadata file raises `FileDoesNotExist` first |
| LegacyValidator.ParseTasks | fuel_plugin_builder/validators/validator_v3.py:118-125 | `_parse_tasks` never yields tasks, and raises `FileIsEmpty` exactly for a tasks file that exists but is empty |
| LegacyValidator.ValidateFileBySchemaAsWritten | fuel_plugin_builder/validators/base.py:123 | as written, every call raises the `AttributeError` of `utils.exists` |
| LegacyValidator.ValidateFileBySchemaDiscrepancy | fuel_plugin_builder/validators/base.py:123-126 | a missing file that may be missing passes the corrected check and raises as written |
| LegacyValidator.CheckDeploymentTasksAsWritten | fuel_plugin_builder/validators/validator_v3.py:95 | as written, every call raises the `AttributeError` of `utils.parse_yaml` |
| LegacyValidator.CheckDeploymentTasksDiscrepancy | fuel_plugin_builder/validators/validator_v3.py:95 | an empty task list passes the corrected check and raises as written |
| LegacyValidator.ParseTasksAsWritten | fuel_plugin_builder/validators/validator_v3.py:119 | as written, every call raises the `AttributeError` of `utils.exists` |
| LegacyValidator.ParseTasksDiscrepancy | fuel_plugin_builder/validators/validator_v3.py:119 | a plugin without a tasks file parses under the corrected reading and raises as written |
| LegacyValidator.ValidateFileBySchemaOlderAsWritten | fuel_plugin_builder/fuel_plugin_builder/validators/base.py:67-69 | as written, every call raises the `AttributeError` of `utils.parse_yaml`, which the older `utils.py` does not define |
| LegacyValidator.ValidateFileBySchemaOlderDiscrepancy | fuel_plugin_builder/fuel_plugin_builder/validators/base.py:67-69 | a file whose data the schema accepts passes the corrected older check and raises as written |
| ValidatorBase.Pick | fuel_plugin_builder/validators/validator_base.py:76-95 | a table entry with an empty key always selects the whole tree as `metadata`; any other entry is selected exactly when the tree's value under its key is truthy, and then with that value |
| ValidatorBase.SelectMembers | fuel_plugin_builder/validators/validator_base.py:76-95 | the selected branches are exactly the table entries `Pick` selects |
| ValidatorBase.SelectAppend | fuel_plugin_builder/validators/validator_base.py:76-95 | selecting from two tables one after the other is selecting from their concatenation |
| ValidatorBase.Group | fuel_plugin_builder/validators/validator_base.py:75-97 | a group report succeeds in being built exactly when every branch check does; it has the group title and one titled child per selected branch holding that branch's report |
| ValidatorBase.GroupEachOk | fuel_plugin_builder/validators/validator_base.py:99-114 | a group is built exactly when the check of every selected branch is |
| ValidatorBase.GroupSuccess | fuel_plugin_builder/validators/validator_base.py:75-97 | a group report is successful exactly when each of its child reports is |
| ValidatorBase.CheckBranches | fuel_plugin_builder/validators/validator_base.py:74-97 | `Checking schemas` has one child per selected branch, each holding `json_schema_is_valid` of that branch; a tree that is not a dictionary fails exactly when some entry needs `get` |
| ValidatorBase.CheckMultiBranches | fuel_plugin_builder/validators/validator_base.py:99-114 | `Checking multi schemas` has one child per truthy branch; with entries, a tree that is not a dictionary fails |
| ValidatorBase.CheckMultiBranchesOk | fuel_plugin_builder/validators/validator_base.py:99-114 | the multi-schema report is built exactly when every selected branch's `multi_json_schema_is_valid` is |
| ValidatorBase.CheckMultiBranchesReports | fuel_plugin_builder/validators/validator_base.py:103-112 | each child is titled with its branch key and holds that branch's multi-schema report |
| ValidatorBase.CheckEnvAttributes | fuel_plugin_builder/validators/validator_base.py:116-131 | `Checking env attributes schemas` has one child per truthy branch; with entries, a tree that is not a dictionary fails |
| ValidatorBase.CheckEnvAttributesOk | fuel_plugin_builder/validators/validator_base.py:116-131 | the env-attributes report is built exactly when every selected branch's `env_attributes` check is |
| ValidatorBase.CheckEnvAttributesReports | fuel_plugin_builder/validators/validator_base.py:122-130 | each child is titled with its branch key and holds that branch's `env_attributes` report |
| ValidatorBase.Validate | fuel_plugin_builder/validators/validator_base.py:46-72 | `validate` builds `Validating data` exactly when its four parts are built, and its children are the compatibility check, then the branch, multi-branch and env-attribute reports, in that order |
| ValidatorBase.ValidateAsWritten | fuel_plugin_builder/validators/validator_base.py:55 | as written, `validate` raises the `AttributeError` of `utils.ReportNode` on its first line, for every validator and tree |
| ValidatorBase.ValidateDiscrepancy | fuel_plugin_builder/validators/validator_base.py:46-72 | the default validator builds a successful report for an empty tree, while the code as written raises |
| ValidatorBase.FourClean | fuel_plugin_builder/validators/validator_base.py:55-72 | the `validate` report is successful exactly when each of its four parts is |
| ValidatorBase.DefaultsVerdict | fuel_plugin_builder/validators/validator_base.py:38-72 | with the base class's empty tables, the verdict is the verdict of the compatibility check against fuel version 0.1 |
| ValidatorBase.AttributeTable | fuel_plugin_builder/validators/validator_v5.py:102-123 | the node attributes use the node schema; the nic and bond attributes share the nic schema |
| ValidatorBase.AttributeSectionsSelected | fuel_plugin_builder/validators/validator_v5.py:102-123 | an attribute section is checked exactly when its value is truthy, and the nic and bond sections are checked against the nic schema |
| ValidatorBase.SchemaReports | fuel_plugin_builder/validators/validator_v5.py:102-123 | one `json_schema_is_valid` report per selected section, in table order |
| ValidatorBase.SchemaReportsClean | fuel_plugin_builder/validators/validator_v5.py:102-123 | those reports are clean exactly when each section conforms to its schema |
| ValidatorBase.GraphLine | fuel_plugin_builder/validators/validator_v5.py:128-130 | a graph with a string `type` is announced as `Graph: "<type>"` |
| ValidatorBase.GraphNodesAt | fuel_plugin_builder/validators/validator_v5.py:127-137 | each graph contributes its info line followed by its schema report |
| ValidatorBase.GraphNodesClean | fuel_plugin_builder/validators/validator_v5.py:127-137 | a release's graph reports are clean exactly when every graph conforms to the graph schema |
| ValidatorBase.ReleaseNode | fuel_plugin_builder/validators/validator_v5.py:125-139 | a release report is built exactly when the release is a dictionary whose `graphs` iterate to dictionaries; it is `Checking release:` holding the graph lines |
| ValidatorBase.ReleaseNodes | fuel_plugin_builder/validators/validator_v5.py:125-139 | one release report per release, in order, built exactly when each one is |
| ValidatorBase.SectionsV5 | fuel_plugin_builder/validators/validator_v5.py:84-140 | the v5 sections are the metadata schema report, `mode_directive`, `legacy_fuel_version`, the attribute reports and the release reports, in that order |
| ValidatorBase.SectionsV5Clean | fuel_plugin_builder/validators/validator_v5.py:84-140 | the v5 sections are clean exactly when the metadata conforms, every selected attribute section conforms and every release report is successful |
| ValidatorBase.ValidateV5 | fuel_plugin_builder/validators/validator_v5.py:84-140 | the v5 report is the base `validate` report with the v5 sections appended after its four children |
| ValidatorBase.ValidateV5Verdict | fuel_plugin_builder/validators/validator_v5.py:84-140 | the v5 report is successful exactly when the base report is and the appended sections are clean |
| ValidatorBase.FixedClean | fuel_plugin_builder/validators/validator_v5.py:87-100 | the three fixed v5 sections are clean exactly when the metadata conforms: `mode_directive` and `legacy_fuel_version` only ever warn |
| TaskSchema.SetDefaultLookup | fuel_plugin_builder/schemas/task.py:156-157 | `setdefault` on a missing key makes the key read as the default and changes no other key |
| TaskSchema.PatchParameters | fuel_plugin_builder/schemas/task.py:153-157 | the parameters patch succeeds exactly when the (defaulted) parameters are a dictionary whose `properties`, if present, is a dictionary; otherwise `setdefault` raises |
| TaskSchema.PatchedStrategy | fuel_plugin_builder/schemas/task.py:153-157 | after the patch, `properties.strategy` is the strategy the parameters brought or `_task_strategy`, and every other key is kept |
| TaskSchema.RequiredFields | fuel_plugin_builder/schemas/task.py:158-160 | a field is required exactly when it is obligatory for every task or listed as required by the type |
| TaskSchema.GenTaskSchema | fuel_plugin_builder/schemas/task.py:133-199 | empty task types raise `ValueError`; a single name becomes a one-element enum, a list is used as is; the required fields and the patched parameters are those above |
| TaskSchema.DefaultParametersSchema | fuel_plugin_builder/schemas/task.py:153-157 | a type without a parameters schema gets `{type: object, properties: {strategy: _task_strategy}}` |
| TaskSchema.DefaultPatch | fuel_plugin_builder/schemas/task.py:153-157 | falsy parameters patch to the default parameters schema |
| TaskSchema.TypeSchema | fuel_plugin_builder/schemas/task.py:222-348 | a task type without a `<type>_task` property raises `AttributeError` naming the property |
| TaskSchema.PatchesCleanly | fuel_plugin_builder/schemas/task.py:153-157 | parameters whose `properties` is a dictionary always patch |
| TaskSchema.BuiltinPatches | fuel_plugin_builder/schemas/task.py:222-348 | every built-in parameters schema patches |
| TaskSchema.SingleTypeShape | fuel_plugin_builder/schemas/task.py:146-166 | a non-empty type name gives the enum of that name, and `parameters` is required exactly when the type asks for it |
| TaskSchema.TypeSchemaShape | fuel_plugin_builder/schemas/task.py:222-348 | each known type's schema has exactly that type as its enum; exactly `copy_files`, `sync` and `upload_file` require `parameters` |
| TaskSchema.TypeArgumentsKnown | fuel_plugin_builder/schemas/task.py:222-348 | each known type passes a built-in parameters schema, and lists `parameters` as required exactly for `copy_files`, `sync` and `upload_file` |
| TaskSchema.TasksSchema | fuel_plugin_builder/schemas/task.py:201-219 | the `tasks` item schema admits exactly the nine task types and requires exactly the obligatory fields |
| Loaders.MergeDataRecords | fuel_plugin_builder/loaders/files_manager.py:130-156 | any list item makes the result a list of every list item followed by every dictionary; otherwise dictionaries merge into one; with neither the result is `None` |
| Loaders.MergeDictsLookup | fuel_plugin_builder/loaders/files_manager.py:153-156 | after `update`, a key reads as in the last dictionary that defines it |
| Loaders.MergedDictLookup | fuel_plugin_builder/loaders/files_manager.py:152-156 | in dictionary mode, `merged[k]` is the value of the last record that defines `k`, and keys stay unique |
| Loaders.ScalarRecordIgnored | fuel_plugin_builder/loaders/files_manager.py:143-147 | records that are neither lists nor dictionaries do not affect the merge, wherever they stand |
| Loaders.EmptyListDoesNotForceList | fuel_plugin_builder/loaders/files_manager.py:149-156 | an empty list record leaves the merge in dictionary mode |
| Loaders.SupportedPaths | fuel_plugin_builder/loaders/files_manager.py:173-177 | the paths kept are exactly those whose extension has a deserializer, in order |
| Loaders.ReadFile | fuel_plugin_builder/loaders/files_manager.py:177-180 | a supported file is opened and read whole, and its text goes to the deserializer of its extension; a failed open raises before any deserializer runs |
| Loaders.ReadFileAsWritten | fuel_plugin_builder/loaders/files_manager.py:24-34 | as written, a JSON file that opens raises `AttributeError`, because `json.load` is handed text; other files, and a failed open, fare as intended |
| Loaders.JsonLoadDiscrepancy | fuel_plugin_builder/loaders/files_manager.py:24-34 | a JSON file that opens and parses loads as its data under the intended reading, and the load as written raises `AttributeError` on it |
| Loaders.LoadRecordsValues | fuel_plugin_builder/loaders/files_manager.py:172-181 | a successful load holds one record per supported path, what reading it gave, in path order |
| Loaders.LoadRecordsError | fuel_plugin_builder/loaders/files_manager.py:172-186 | a failed load raises the error of the first path that fails |
| Loaders.AllowErrorsSkips | fuel_plugin_builder/loaders/files_manager.py:177-186 | with `allow_errors`, paths without a deserializer are skipped: the load equals the strict load of the supported paths |
| Loaders.LoadGate | fuel_plugin_builder/loaders/files_manager.py:182-186 | without `allow_errors`, a matched path without a deserializer makes the load raise `InvalidFileFormat` |
| Loaders.PathOutcomeAsWritten | fuel_plugin_builder/loaders/files_manager.py:172-186 | as written, a path handled the same way except that an unsupported path in a strict load raises the `AttributeError` of `errors.InvalidFileFormat` |
| Loaders.PathOutcomeDiscrepancy | fuel_plugin_builder/loaders/files_manager.py:182-186 | an unsupported path in a strict load raises `InvalidFileFormat` as intended and `AttributeError` as written |
| Loaders.FilesManagerLoadAsWritten | fuel_plugin_builder/loaders/files_manager.py:171 | as written, every load raises the `AttributeError` of `utils.fs.get_files_by_mask` |
| Loaders.FilesManagerLoadDiscrepancy | fuel_plugin_builder/loaders/files_manager.py:171-188 | a mask matching nothing loads as `None` under the corrected reading and raises as written |
| Loaders.Cleaned | fuel_plugin_builder/loaders/loader_base.py:95 | with a non-empty suffix the cleaned key plus the suffix is the key; with an empty suffix the slice `key[:-0]` is empty |
| Loaders.NewLoaderAsWritten | fuel_plugin_builder/loaders/loader_base.py:35 | as written, defining the loader class raises the `AttributeError` of `consts.PATHS_SUFFIX` |
| Loaders.NewLoaderDiscrepancy | fuel_plugin_builder/loaders/loader_base.py:35-57 | with the intended constants the root report is titled `Loading root metadata file:` and the joined root path, while the code as written raises |
| Loaders.ProcessEntry | fuel_plugin_builder/loaders/loader_base.py:87-109 | a path key naming a directory stays and notes the directory; one whose file loads is stored, cleaned, with the data; one whose file fails stays and notes the error's message, or its description when the message is empty; any other entry is processed recursively |
| Loaders.ProcessPaths | fuel_plugin_builder/loaders/loader_base.py:59-118 | dictionaries stay dictionaries, lists stay lists of the same length, and other values come back as they are |
| Loaders.UpdateFresh | fuel_plugin_builder/loaders/loader_base.py:72-109 | rebuilding a dictionary with unique keys entry by entry gives it back |
| Loaders.ProcessIdentity | fuel_plugin_builder/loaders/loader_base.py:59-118 | a tree without path keys comes back unchanged and adds no report node |
| Loaders.NoteFailures | fuel_plugin_builder/loaders/loader_base.py:89-105 | a failed load's note carries one failure and a directory note none |
| Loaders.ProcessFailures | fuel_plugin_builder/loaders/loader_base.py:59-118 | path processing reports exactly one failure per path key whose file fails to load, counted independently over the tree |
| Loaders.LoadRootMetadata | fuel_plugin_builder/loaders/loader_base.py:120-135 | an unreadable root file gives `{}` and a report whose one child is the error's text; otherwise the processed tree and one failure per path that did not load |
| Loaders.RootLoadError | fuel_plugin_builder/loaders/loader_base.py:126-133 | the root report of an unreadable file keeps its title and holds exactly one failed child, carrying the message |
| Loaders.LoadFixedFile | fuel_plugin_builder/loaders/loader_base.py:155-163 | a fixed-location file that loads into a dictionary tree is stored under its key; otherwise the tree is unchanged and an info note titled with the path is added, never a failure, whose text is the load error's message, `list indices must be integers, not str` for a list, or the item-assignment `TypeError` for another value |
| Loaders.InfoNoteClean | fuel_plugin_builder/loaders/loader_base.py:162-163 | a fixed-file note carries no failure |
| Loaders.LoadFixedFiles | fuel_plugin_builder/loaders/loader_base.py:154-163 | the fixed-location files are loaded in table order |
| Loaders.FixedFileStored | fuel_plugin_builder/loaders/loader_base.py:154-163 | a fixed key whose file loads into a dictionary tree holds that data at the end, unless a later entry assigns it again |
| Loaders.FixedFileData | fuel_plugin_builder/loaders/loader_base.py:157-160 | one fixed entry sets its own key and leaves every other key alone |
| Loaders.KeepsKey | fuel_plugin_builder/loaders/loader_base.py:154-163 | entries for other keys leave a key's value alone |
| Loaders.Load | fuel_plugin_builder/loaders/loader_base.py:137-164 | the report is titled with the given non-empty path or the loader's own, its first child is the root report, and its failures are the root report's: fixed-file problems never fail the load |
| Builders.WhichHost | fuel_plugin_builder/builders/builder_base.py:84-127 | the newer builders find a command exactly when `utils.which` finds it on `PATH` |
| Builders.LegacyWhichHost | fuel_plugin_builder/fuel_plugin_builder/actions/build.py:105-112 | the older builders find a command exactly when the older `which`, which strips quotes from `PATH` entries, finds it |
| Builders.CommandProgram | fuel_plugin_builder/builders/builder_base.py:108-120 | each command line starts with its program, so `createrepo`, `rpmbuild` and `dpkg-scanpackages` lines are told apart by their text |
| Builders.BuildLayout | fuel_plugin_builder/builders/builder_base.py:64-66 | the source tree lies inside the build directory and the checksums file inside the source tree it lists |
| Builders.ChecksumsFileName | fuel_plugin_builder/builders/builder_base.py:66 | the checksums file is named `checksums.sha1` |
| Builders.BuildSrcDirOfPlain | fuel_plugin_builder/builders/builder_base.py:64-65 | below a plain plugin directory the source tree is `<plugin>/.build/src` |
| Builders.GroupFromSpec | fuel_plugin_builder/builders/builder_base.py:97-101 | the `setdefault`/`append` loop adds to each os exactly the repository paths of its own releases, in release order |
| Builders.RepoGroupIsFilter | fuel_plugin_builder/builders/builder_base.py:97-104 | each os gets exactly the repository paths of its releases, and `[]` when it has none |
| Builders.CentosRepos | fuel_plugin_builder/builders/builder_base.py:112-120 | the centos repositories are indexed, and nothing is validated, checksummed or packaged |
| Builders.CentosReposAt | fuel_plugin_builder/builders/builder_base.py:114-120 | repository `i` gets its `Packages` directory, the rpm move and `createrepo`, in that order, at steps `3i` to `3i + 2` |
| Builders.Missing | fuel_plugin_builder/builders/builder_base.py:127 | the missing commands are exactly the required ones `which` does not find |
| Builders.MissingConcat | fuel_plugin_builder/builders/builder_base.py:127 | the missing commands keep the order of `requires` |
| Builders.CheckRequirements | fuel_plugin_builder/builders/builder_base.py:126-133 | the check passes exactly when every required command is found; otherwise `FuelCannotFindCommandError` names the missing ones in order |
| Builders.NewBuilder | fuel_plugin_builder/builders/builder_base.py:51-67 | construction fails exactly when the load report failed (raising its rendering) or, for the rpm builders, the version does not split, and an rpm builder's failure is the split's error |
| Builders.LoadedReportAsWritten | fuel_plugin_builder/builders/builder_base.py:59-62 | as written, `load` returns a pair, so reading `.report` on it raises `AttributeError` |
| Builders.LoadedReportDiscrepancy | fuel_plugin_builder/builders/builder_base.py:59-67 | a successful load report lets the v1 builder be built under the intended reading, while reading it as written, and so the constructor as written, raises |
| Builders.NewBuilderAsWritten | fuel_plugin_builder/builders/builder_base.py:52-62 | as written, every kind of builder raises the `AttributeError` of the pair's missing `report`, whatever the load found |
| Builders.NewBuilderSplitAsWritten | fuel_plugin_builder/utils/version.py:20-29 | with the load result read as intended, only the v1 builder can be constructed, because the rpm builders' version split raises as written |
| Builders.NewBuilderDiscrepancy | fuel_plugin_builder/builders/builder_v2.py:38-65 | with version 1.2.3 the corrected v2 builder is named after 1.2; the one whose split is as written raises `AttributeError` |
| Builders.TemplateDataKeys | fuel_plugin_builder/builders/builder_v2.py:88-101 | the rpm spec data holds its eight keys once each, in order |
| Builders.TemplateDataFields | fuel_plugin_builder/builders/builder_v2.py:88-101 | the package is named with the full name, carries the full version, joins licenses with ` and ` and authors with `, `, and a missing list gives an empty string |
| Builders.HookFieldsKeys | fuel_plugin_builder/builders/builder_v3.py:35-53 | the hook data holds its three keys once each |
| Builders.HookKeysFresh | fuel_plugin_builder/builders/builder_v3.py:35-53 | no v2 key is a hook key |
| Builders.TemplateDataV3Extends | fuel_plugin_builder/builders/builder_v3.py:35-53 | the v3 data is the v2 data unchanged, followed by the three hook keys, each holding its script |
| Builders.TemplateDataV3AsWritten | fuel_plugin_builder/builders/builder_v3.py:38 | as written, the v3 spec data raises the `AttributeError` of `utils.read_if_exist` |
| Builders.TemplateDataV3Discrepancy | fuel_plugin_builder/builders/builder_v3.py:35-53 | the intended data holds the post-install script under `postinstall_hook`, while the code as written raises |
| Builders.UbuntuRepos | fuel_plugin_builder/builders/builder_base.py:106-110 | the ubuntu repositories are indexed, and nothing is validated, checksummed or packaged |
| Builders.UbuntuReposAt | fuel_plugin_builder/builders/builder_v2.py:103-116 | for the rpm builders, repository `i` gets its index and its `Release` file at steps `2i` and `2i + 1` |
| Builders.BuildRepos | fuel_plugin_builder/builders/builder_base.py:90-104 | the source tree is copied first, then the ubuntu repositories are indexed, then the centos ones |
| Builders.RpmSteps | fuel_plugin_builder/builders/builder_v2.py:72-86 | the rpm steps package and do not index, checksum or validate |
| Builders.MakePackage | fuel_plugin_builder/builders/builder_v1.py:37-45 | `make_package` packages and does not index, checksum or validate |
| Builders.RunAsWritten | fuel_plugin_builder/builders/builder_base.py:135-136 | as written, a build whose commands are found stops at `_validate` with the `AttributeError` of `get_validator` |
| Builders.PreStepsProduceNothing | fuel_plugin_builder/builders/builder_base.py:78-85 | clean-up and the hook write nothing but what the hook writes |
| Builders.RunStopsOnMissingCommands | fuel_plugin_builder/builders/builder_base.py:69-76 | a missing command stops the build after clean-up and the hook, before validating or producing anything |
| Builders.RunValidatesFirst | fuel_plugin_builder/builders/builder_base.py:69-76 | validation runs exactly when every command is found, and a failed validation stops the build before it produces anything |
| Builders.BuildOrder | fuel_plugin_builder/builders/builder_base.py:69-76 | a completed build runs check, repositories, checksums and package, in that order |
| Builders.CheckedStepsOrdered | fuel_plugin_builder/builders/builder_base.py:69-73 | the steps before a successful check are clean-up, hook and validation |
| Builders.RunChecksumsOrder | fuel_plugin_builder/builders/builder_base.py:74-76 | the checksums file is written after every repository index and before anything is packaged, and packaging follows validation |
| Builders.RunAsWrittenNeverBuilds | fuel_plugin_builder/builders/builder_base.py:122-136 | as written, no build validates or produces anything |
| Builders.ArchiveMatchesMask | fuel_plugin_builder/builders/builder_v1.py:34-45 | the archive v1 writes matches `result_package_mask`, so `clean` removes an earlier build's package |
| Builders.NewLegacyBuilder | fuel_plugin_builder/fuel_plugin_builder/actions/build.py:46-160 | older construction fails exactly when the rpm builder's version does not split |
| Builders.LegacyUbuntuRepos | fuel_plugin_builder/fuel_plugin_builder/actions/build.py:85-205 | one pipeline per repository, plus a `Release` file for the rpm builder; nothing else |
| Builders.LegacyRpmSteps | fuel_plugin_builder/fuel_plugin_builder/actions/build.py:162-177 | the older rpm steps package and do not index, checksum or validate |
| Builders.LegacyMakePackage | fuel_plugin_builder/fuel_plugin_builder/actions/build.py:122-177 | the older `make_package` packages and does not index, checksum or validate |
| Builders.LegacyBuildRepos | fuel_plugin_builder/fuel_plugin_builder/actions/build.py:68-99 | the older `build_repos` empties and refills the source tree, then indexes the repositories |
| Builders.LegacyChecksumsPath | fuel_plugin_builder/fuel_plugin_builder/actions/build.py:65-66 | a completed older build writes its checksums file at the same place as the newer one |
| Builders.LegacyRunValidatesFirst | fuel_plugin_builder/fuel_plugin_builder/actions/build.py:53-112 | the older build validates exactly when every command is found, and stops before producing anything otherwise or on a failed validation |
| Builders.LegacyCheckedOrdered | fuel_plugin_builder/fuel_plugin_builder/actions/build.py:53-59 | the steps before a successful older check are the hook and validation |
| Builders.LegacyRunOrder | fuel_plugin_builder/fuel_plugin_builder/actions/build.py:53-59 | a completed older build indexes, writes the checksums file, then packages, validating before packaging |
| VersionMapping.GetMapping | fuel_plugin_builder/version_mapping.py:18-75 | the table knows exactly version `5.0.0`; a list or dictionary key raises `TypeError` |
| VersionMapping.GetMappingAsWritten | fuel_plugin_builder/version_mapping.py:32 | as written, building the table raises `AttributeError` |
| VersionMapping.GetMappingDiscrepancy | fuel_plugin_builder/version_mapping.py:18-75 | version 5.0.0 has an entry under the corrected table and raises as written |
| VersionMapping.GetPluginForVersion | fuel_plugin_builder/version_mapping.py:78-95 | the lookup succeeds exactly for `5.0.0`, giving the v5 validator; any other hashable version raises `WrongPackageVersionError` naming it |
| VersionMapping.GetPluginForVersionRoundTrip | fuel_plugin_builder/version_mapping.py:78-95 | looking up an entry's version gives the entry back; an unknown string is refused by name |
| VersionMapping.GetVersionMappingFromPlugin | fuel_plugin_builder/version_mapping.py:98-119 | a metadata file that does not load raises `WrongPluginDirectoryError`; metadata that is not a dictionary raises `AttributeError` |
| VersionMapping.MappingFromPluginVersion | fuel_plugin_builder/version_mapping.py:98-119 | a plugin maps to an entry exactly when its `package_version` is `5.0.0`; without the key it is refused as version `None` |
| VersionMapping.GetVersionMappingFromPluginAsWritten | fuel_plugin_builder/version_mapping.py:108 | as written, every call raises the `AttributeError` of `consts.PATHS_SUFFIX` while importing `loaders`, before any metadata is loaded |
| VersionMapping.LoadedMappingAsWritten | fuel_plugin_builder/version_mapping.py:111-119 | past the import, a load that raises gives the unformatted tuple message, and a load that returns gives the `(data, report)` pair, whose missing `get` raises `AttributeError`; no call reaches the lookup |
| VersionMapping.LoadedMappingDiscrepancy | fuel_plugin_builder/version_mapping.py:111-119 | metadata naming 5.0.0 maps to the 5.0.0 entry under the corrected reading, while as written the call raises, both at the import and past it |
| VersionMapping.MetadataMessageDiscrepancy | fuel_plugin_builder/version_mapping.py:114-115 | the corrected message names `metadata.yaml`; the one as written shows `%s` and the name as a tuple |
| VersionMapping.Matching | fuel_plugin_builder/fuel_plugin_builder/version_mapping.py:37 | the filter keeps exactly the entries of that version |
| VersionMapping.LegacyGetPluginForVersion | fuel_plugin_builder/fuel_plugin_builder/version_mapping.py:28-43 | an unknown version raises `WrongPackageVersionError` naming it |
| VersionMapping.LegacyGetPluginForVersionKnown | fuel_plugin_builder/fuel_plugin_builder/version_mapping.py:20-43 | exactly `1.0.0` is known, with `ValidatorV1` and `templates/v1/`, and the latest version resolves |
| VersionMapping.LegacyVersionMappingFromPlugin | fuel_plugin_builder/fuel_plugin_builder/actions/build.py:208-217 | what the older callers expect: a metadata failure raises `WrongPluginDirectoryError`, non-dictionary metadata `AttributeError`, otherwise the version's entry |
| VersionMapping.LegacyVersionMappingFromPluginAsWritten | fuel_plugin_builder/fuel_plugin_builder/actions/build.py:208-217 | as written, the older lookup always raises `AttributeError` |
| VersionMapping.LegacyMappingDiscrepancy | fuel_plugin_builder/fuel_plugin_builder/version_mapping.py:20-43 | metadata naming 1.0.0 resolves under the corrected lookup and raises as written |
| Builders.NewLegacyBuilderAsWritten | fuel_plugin_builder/fuel_plugin_builder/actions/build.py:49 | as written, every older builder raises the `AttributeError` of `utils.parse_yaml` |
| Builders.NewLegacyBuilderDiscrepancy | fuel_plugin_builder/fuel_plugin_builder/actions/build.py:46-51 | the older `.fp` builder is built under the corrected reading and raises as written |
| Create.NameRun | fuel_plugin_builder/consts.py:19 | the greedy `[a-z0-9_-]+` run stops exactly at the first character outside the class |
| Create.NameMatchesValid | fuel_plugin_builder/consts.py:19 | the corrected match accepts exactly the non-empty names of lower-case letters, digits, `_` and `-` |
| Create.NameMatchesAsWrittenNewline | fuel_plugin_builder/actions/create.py:49 | `re.match` with `$` accepts exactly the valid names and the valid names followed by one newline |
| Create.NameNewlineDiscrepancy | fuel_plugin_builder/actions/create.py:49 | `"abc\n"` passes the match as written and is not a valid name |
| Create.PluginName | fuel_plugin_builder/actions/create.py:34 | the plugin name is the base name of the path without trailing slashes |
| Create.PluginNameIgnoresTrailingSlashes | fuel_plugin_builder/actions/create.py:34 | trailing slashes do not change the plugin name |
| Create.PluginNameOfJoin | fuel_plugin_builder/actions/create.py:34 | a plugin created as `dir/name` is named `name` |
| Create.NewCreatePlugin | fuel_plugin_builder/actions/create.py:33-41 | construction succeeds exactly when the chosen version (the given one, or the latest) is 5.0.0; otherwise `WrongPackageVersionError`; the render context names the plugin |
| Create.NewCreatePluginDefault | fuel_plugin_builder/actions/create.py:36-41 | without a version the plugin uses the base templates, then the 5.0.0 ones |
| Create.NewCreatePluginAsWritten | fuel_plugin_builder/actions/create.py:36-41 | as written, construction raises `AttributeError`: `consts.LATEST_VERSION` without a version, `get_config_for_plugin_package_version` with one |
| Create.Check | fuel_plugin_builder/actions/create.py:43-52 | the check passes exactly when the directory does not exist and the name is valid; an existing directory is reported first |
| Create.CheckAsWritten | fuel_plugin_builder/actions/create.py:43-52 | as written, an existing directory is still reported first |
| Create.CheckNewlineDiscrepancy | fuel_plugin_builder/actions/create.py:49-52 | a name ending in a newline is refused by the corrected check and accepted as written |
| Create.Run | fuel_plugin_builder/actions/create.py:54-63 | a run fails only with the check's errors and otherwise takes two steps per template directory |
| Create.RunSteps | fuel_plugin_builder/actions/create.py:54-63 | a run succeeds exactly when the check passes, and template `i` is copied into the plugin directory and then rendered there |
| Create.NewLegacyCreatePlugin | fuel_plugin_builder/fuel_plugin_builder/actions/create.py:30-37 | the older plugin is named after the path's base name, rendered with version 1.0.0, from `templates/v1/` |
| Create.NewLegacyCreatePluginAsWritten | fuel_plugin_builder/fuel_plugin_builder/actions/create.py:31 | as written, the older constructor raises the `AttributeError` of `utils.basename` |
| Create.LegacyCheck | fuel_plugin_builder/fuel_plugin_builder/actions/create.py:39-43 | the older check refuses only an existing directory |
| Create.LegacyRun | fuel_plugin_builder/fuel_plugin_builder/actions/create.py:45-53 | the older run succeeds exactly when the directory does not exist, and then copies once into the plugin directory and renders it |
| Create.LegacyAcceptsAnyName | fuel_plugin_builder/fuel_plugin_builder/actions/create.py:39-53 | the older tool creates a plugin named `Upper`, which the newer name check refuses |
| Cli.PackageVersionCheck | fuel_plugin_builder/cli.py:144-148 | the usage error is raised only with a package version given, and never for `--create` |
| Cli.PackageVersionOnlyWithCreate | fuel_plugin_builder/cli.py:81-148 | with exactly one action, a package version is refused exactly when the action is `--build` or `--check` |
| Cli.SelectAction | fuel_plugin_builder/cli.py:125-139 | `--create` wins over `--build`, which wins over `--check`; a selected action carries a non-empty path |
| Text.Repeat | fuel_plugin_builder/cli.py:40 | `'=' * 50` is fifty `=` characters; the same repetition gives the trailing slashes of a plugin path |
| Cli.HandleException | fuel_plugin_builder/cli.py:36-62 | a missing command prints the header and the install hint, a validation error (or a subclass) `Validation failed` and its message, anything else `Unexpected error` and its message; the status is always -1 |
| Cli.InstallHintsDiffer | fuel_plugin_builder/fuel_plugin_builder/messages.py:18-30 | the newer and older install hints share the header and differ in the hint text |
| Cli.PrintReport | fuel_plugin_builder/cli.py:140-141 | a returned report prints itself and its rendering; `None` prints `None` and then fails on `render` |
| Cli.PerformAction | fuel_plugin_builder/cli.py:119-141 | without an action it prints `Invalid args: ...` and returns |
| Cli.PerformActionAsWritten | fuel_plugin_builder/cli.py:124 | as written, every action first raises the `AttributeError` of `version_mapping.validators` |
| Cli.CreateCallAsWritten | fuel_plugin_builder/cli.py:126-132 | as written, the create call raises `TypeError` for its `fuel_import` keyword |
| Cli.CreateCallDiscrepancy | fuel_plugin_builder/cli.py:126-132 | the constructor takes `plugin_path` and `package_version`, and refuses the call as written |
| Cli.Finish | fuel_plugin_builder/cli.py:151-159 | an action without exception ends with status 0; an exception goes through `handle_exception` and ends with -1 |
| Cli.Main | fuel_plugin_builder/cli.py:114-159 | a refused package version ends with the usage error and status 2 |
| Cli.MainStatus | fuel_plugin_builder/cli.py:144-159 | the status is 2 exactly for a refused package version, 0 exactly when the action completes, -1 otherwise |
| Cli.BuildReturningNone | fuel_plugin_builder/cli.py:134-141 | a build returning `None` prints `None` and ends as an unexpected error |
| Cli.CheckValidationFailure | fuel_plugin_builder/cli.py:54-136 | a validation error from the check is reported as a failed validation with its message |
| Cli.MainAsWritten | fuel_plugin_builder/cli.py:124-159 | as written, every accepted command line ends with `Unexpected error` and status -1 |
| Cli.MainDiscrepancy | fuel_plugin_builder/cli.py:124 | a build returning a report succeeds on the corrected command line and fails as written |
| Cli.Announce | fuel_plugin_builder/fuel_plugin_builder/cli.py:96-104 | an older action prints its message only once it has completed |
| Cli.LegacyPerformAction | fuel_plugin_builder/fuel_plugin_builder/cli.py:91-104 | without an action the older tool prints nothing; otherwise it prints one line, `Plugin is created` exactly for `--create` |
| Cli.LegacyPerformActionAsWritten | fuel_plugin_builder/fuel_plugin_builder/cli.py:97 | as written, the older create passes two arguments to a one-argument constructor and raises `TypeError`; the other actions are unchanged |
| Cli.LegacyMain | fuel_plugin_builder/fuel_plugin_builder/cli.py:86-122 | a refused package version ends with status 2 |
| Cli.LegacyMainMessages | fuel_plugin_builder/fuel_plugin_builder/cli.py:91-122 | the older tool succeeds exactly when the chosen action does, and a build says `Plugin is built` |
| Cli.LegacyCreateDiscrepancy | fuel_plugin_builder/fuel_plugin_builder/cli.py:97 | `--create` succeeds on the corrected older call and raises `TypeError` as written |
| Fencing.FencingResource | ha_fencing/deployment_scripts/puppet/modules/pcs_fencing/spec/defines/fencing_spec.rb:16-68 | the define declares exactly one STONITH resource, `stonith__<title>__<node>`, present, provided by pacemaker, of class `stonith`, typed by the agent, with parameters, operations and meta passed through |
| Fencing.FencingLocations | ha_fencing/deployment_scripts/puppet/modules/pcs_fencing/spec/defines/fencing_spec.rb:27-85 | exactly one prohibit location pins the resource's fenced node at `-INFINITY`, and exactly one allow location holds the single rule `#uname ne <node>` with score 100 |
| Fencing.FencingPlacement | ha_fencing/deployment_scripts/puppet/modules/pcs_fencing/spec/defines/fencing_spec.rb:27-47 | the resource is banned from a node exactly when it is the fenced one, and a rule admits it exactly on every other node |
| Fencing.FencingIdsIgnoreAgent | ha_fencing/deployment_scripts/puppet/modules/pcs_fencing/spec/defines/fencing_spec.rb:7-85 | resource and location names depend only on title and node; the agent and its settings change only the resource's attributes |
| Fencing.FencingExample | ha_fencing/deployment_scripts/puppet/modules/pcs_fencing/spec/defines/fencing_spec.rb:5-85 | `virsh_off` on `node-1` with every setting false declares `stonith__virsh_off__node-1` and its two locations as expected |
| Fencing.Fqdns | ha_fencing/deployment_scripts/puppet/modules/pcs_fencing/spec/classes/fencing_primitives_spec.rb:20-29 | the topology's node list is the nodes' `fqdn` values in input order |
| Fencing.DefinesKinds | ha_fencing/deployment_scripts/puppet/modules/pcs_fencing/spec/classes/fencing_primitives_spec.rb:42-46 | expanding the primitives declares only defines, STONITH resources and locations |
| Fencing.DefinesEntries | ha_fencing/deployment_scripts/puppet/modules/pcs_fencing/spec/classes/fencing_primitives_spec.rb:42-46 | the defines are exactly the `fence_primitives` entries with their attributes unchanged, each with its STONITH resource for the host |
| Fencing.FencingPrimitivesFixed | ha_fencing/deployment_scripts/puppet/modules/pcs_fencing/spec/classes/fencing_primitives_spec.rb:34-54 | the class declares the `fence-agents` package and the `stonith-enabled` and `cluster-recheck-interval` properties |
| Fencing.FencingPrimitivesTopology | ha_fencing/deployment_scripts/puppet/modules/pcs_fencing/spec/classes/fencing_primitives_spec.rb:56-64 | exactly one topology, `fencing_topology`, present, holding the input topology and the nodes' FQDNs |
| Fencing.FencingPrimitivesDefines | ha_fencing/deployment_scripts/puppet/modules/pcs_fencing/spec/classes/fencing_primitives_spec.rb:38-46 | the class's defines are exactly the primitives, each with its STONITH resource named after the entry and the host |
| Redis.ConcatError | redis/deployment_scripts/puppet/modules/redis/lib/puppet/parser/functions/sentinel_confs.rb:14 | `value + " 6379 "` raises `TypeError` for integers and arrays and `NoMethodError` for the values without `+` |
| Redis.EachItems | redis/deployment_scripts/puppet/modules/redis/lib/puppet/parser/functions/sentinel_confs.rb:13 | `each` yields an array's elements and a hash's pairs; other values raise `NoMethodError` |
| Redis.AddConfs | redis/deployment_scripts/puppet/modules/redis/lib/puppet/parser/functions/sentinel_confs.rb:13-15 | the loop assigns each node its entry in order, and fails at the first node or quorum that is not a string |
| Redis.SentinelConfs | redis/deployment_scripts/puppet/modules/redis/lib/puppet/parser/functions/sentinel_confs.rb:1-19 | a call without exactly five arguments raises `Wrong number of arguments` |
| Redis.SentinelConfsOk | redis/deployment_scripts/puppet/modules/redis/lib/puppet/parser/functions/sentinel_confs.rb:1-19 | the call succeeds exactly on five arguments with a list of string nodes and, when there is a node, a string quorum |
| Redis.SentinelConfsKeys | redis/deployment_scripts/puppet/modules/redis/lib/puppet/parser/functions/sentinel_confs.rb:11-17 | the hash maps exactly the distinct node names, each once |
| Redis.ConfFields | redis/deployment_scripts/puppet/modules/redis/lib/puppet/parser/functions/sentinel_confs.rb:14 | an entry holds exactly the monitor line and the three other settings |
| Redis.SentinelConfsEntry | redis/deployment_scripts/puppet/modules/redis/lib/puppet/parser/functions/sentinel_confs.rb:6-14 | node `k`'s entry monitors `k 6379 <quorum>` and holds arguments 3, 4 and 2 as the down-after, failover-timeout and parallel-syncs settings |
| Redis.SentinelConfsOnlyNodes | redis/deployment_scripts/puppet/modules/redis/lib/puppet/parser/functions/sentinel_confs.rb:11-17 | names that are not nodes have no entry |
| Redis.SentinelConfsEmpty | redis/deployment_scripts/puppet/modules/redis/lib/puppet/parser/functions/sentinel_confs.rb:11-17 | an empty node list gives an empty hash whatever the other arguments |
| Redis.RedisBackendUrl | redis/deployment_scripts/puppet/modules/redis/lib/puppet/parser/functions/redis_backend_url.rb:1-17 | an empty node list or a timeout that is not a string raises `TypeError` |
| Redis.RedisBackendUrlCall | redis/deployment_scripts/puppet/modules/redis/lib/puppet/parser/functions/redis_backend_url.rb:2-17 | on Puppet's raw arguments, a URL is built exactly for a non-empty array of strings and a string timeout; `nil`, a boolean or a non-empty string as nodes raises `NoMethodError`, every other failure `TypeError` |
| Redis.RedisBackendUrlCallNames | redis/deployment_scripts/puppet/modules/redis/lib/puppet/parser/functions/redis_backend_url.rb:2-17 | an array of string nodes gives the same result as the function on those strings |
| Redis.Others | redis/deployment_scripts/puppet/modules/redis/lib/puppet/parser/functions/redis_backend_url.rb:8-12 | the fallbacks are exactly the nodes different from the first, in order |
| Redis.AppendFallbacksIsOthers | redis/deployment_scripts/puppet/modules/redis/lib/puppet/parser/functions/redis_backend_url.rb:8-12 | the loop appends exactly one fallback part per node other than the first |
| Redis.RedisBackendUrlShape | redis/deployment_scripts/puppet/modules/redis/lib/puppet/parser/functions/redis_backend_url.rb:6-15 | the URL is the first node's part, then one fallback part per other node in order, then the timeout |
| Redis.RedisBackendUrlEnds | redis/deployment_scripts/puppet/modules/redis/lib/puppet/parser/functions/redis_backend_url.rb:6-13 | the URL starts with `redis://<n0>:26379?sentinel=<n0>` and ends with `&timeout=<t>` |
| Redis.RedisBackendUrlSingle | redis/deployment_scripts/puppet/modules/redis/lib/puppet/parser/functions/redis_backend_url.rb:6-13 | a single node gives its part followed directly by the timeout |
| Redis.RedisBackendUrlIgnoresRepeats | redis/deployment_scripts/puppet/modules/redis/lib/puppet/parser/functions/redis_backend_url.rb:9 | repeating the first node later in the list changes nothing |
| Namespaces.Attribute | fuel_plugin_builder/validators/base.py:123 | reading a module attribute succeeds exactly for a defined name, and otherwise raises the `AttributeError` naming it |
| Namespaces.ImportFrom | fuel_plugin_builder/validators/checks.py:25 | `from m import ...` succeeds exactly when every name is defined, and otherwise raises `ImportError` naming a missing one |
| Namespaces.Call | fuel_plugin_builder/cli.py:126-132 | a call succeeds exactly when the positional arguments fit and every keyword names a remaining parameter; otherwise `TypeError` |
| Namespaces.Raise | fuel_plugin_builder/errors.py:14-63 | a raise keeps its error exactly when `errors.py` defines the class, and otherwise is the `AttributeError` of the missing class |
| Namespaces.RaiseFilesInPathDoesNotExist | fuel_plugin_builder/errors.py:14-63 | `raise errors.FilesInPathDoesNotExist(...)` is an `AttributeError` |
| Namespaces.RaiseInvalidFileFormat | fuel_plugin_builder/errors.py:14-63 | `raise errors.InvalidFileFormat(...)` is an `AttributeError` |
| Namespaces.RaiseInvalidFileExtension | fuel_plugin_builder/errors.py:14-63 | `raise errors.InvalidFileExtension(...)` is an `AttributeError` |
| Namespaces.RaiseCheckConfigurationError | fuel_plugin_builder/errors.py:14-63 | `raise errors.CheckConfigurationError(...)` is an `AttributeError` |
| Namespaces.RaiseValidationErrors | fuel_plugin_builder/errors.py:14-63 | the validation error classes the code raises are all defined, so raising them raises them |
| Namespaces.OlderUtilsLacksBuildHelpers | fuel_plugin_builder/fuel_plugin_builder/actions/build.py:66-200 | none of the nine helpers the older build calls is defined in the older `utils.py` |
| Namespaces.OlderExecCmdTakesNoCwd | fuel_plugin_builder/fuel_plugin_builder/actions/build.py:87-89 | the older `exec_cmd` takes the command alone, so a `cwd` keyword raises `TypeError` |

## Left out

- Real I/O: reading and writing files, `glob`, `os.path` queries, processes, YAML and JSON parsing, SHA-1, the clock and the templating engine are all function-typed parameters. A build or a create is the list of steps it asks for.
- The JSON-Schema engine (`jsonschema`) is a parameter. Each schema check is modelled against whatever error tree the engine returns.
- The parameters stand for the library calls that exist (`glob.glob`, `os.path.exists`, `yaml.safe_load`, the validator's `validate`). They do not stand for missing names: where the source reads a name that does not exist, an `…AsWritten` member and a "## Findings" row model the failure, or a line below lists the read.
- Loaders.FilesManagerLoad: its `read` parameter is the intended read, `Loaders.ReadFile`. As written, `deserializer_json` hands text to `json.load`, so every JSON file that opens raises `AttributeError` (`Loaders.ReadFileAsWritten`, see "## Findings").
- Logging, `logger.debug` and `logger.exception` calls are left out, except the one in `cli.py` at line 124. That call reads a missing name and is modelled by `Cli.PerformActionAsWritten`.
- `argparse` is left out: usage text, `--help`, and the exit it takes on a missing or repeated action group. `Cli.OneAction` is the group's constraint, stated as a predicate.
- Cli.Main: `sys.exit(-1)` is modelled as status -1. A POSIX shell sees it as 255.
- Rendering to YAML or JSON text (`utils/reports.py` `render` in formats other than text) and `mix_to_data` are not part of this model. Neither are the positional `*args` that `_attach_message` folds into a message.
- `utils/schema.py`, `utils/time.py` and `utils/template.py` are not part of this model. `utils/template.py` at line 37 also calls `path_tools.normalize_extension()` with no argument, so it would raise `TypeError`.
- The older tree's `errors.py` is not part of this model. The older code's exceptions are taken to be the classes it names.
- The older `version_mapping.py` entry has no `builder` key, so older `actions/build.py` at line 215 would raise `KeyError` even with a corrected lookup. `VersionMapping.LegacyVersionMappingFromPluginAsWritten` already fails earlier, on the missing function.
- The newer `validators/base.py` also reads `utils.parse_yaml` at lines 159, 184 and 208, and `utils.exists` at line 195. `utils/__init__.py` exports neither (`Namespaces.UtilsLacksParseYaml`, `Namespaces.UtilsLacksExists`). These reads fail just as the one `LegacyValidator.ValidateFileBySchemaAsWritten` models at line 123, so the legacy checks take already parsed data.
- The older `actions/build.py` calls nine helpers that the older `utils.py` does not define, at lines 66-200 (`Namespaces.OlderUtilsLacksBuildHelpers`). At lines 87-89 and 196-198 it also passes `cwd=` to the older `exec_cmd`, which takes only the command (`Namespaces.OlderExecCmdTakesNoCwd`). Every older builder already fails at line 49 (`Builders.NewLegacyBuilderAsWritten`), so none of these calls is reached. The older build steps are modelled as intended.
- Builders.NewBuilder: the metadata is a typed record, so the `KeyError` the source raises for a missing `name` (`builder_base.py` line 67) or `version` (`builder_v2.py` line 42) is not modelled. Neither are the `KeyError`s for a missing `releases`, `os` or `repository_path` in the build steps (`builder_base.py` lines 98-101).
- Loaders.LoadRootMetadata: an unreadable root file is noted with the corrected `Reports.FormatException`. As written, `_format_message_content` raises `TypeError` for an exception whose message is empty (`utils/reports.py` line 212). `Reports.FormatExceptionAsWritten` models that failure, but its escape from `load` is not modelled.
- Loaders.ProcessEntry: a path whose file fails to load is noted the same way (`loader_base.py` line 103), with the same `TypeError` left out.
- Redis.RedisBackendUrl: takes the nodes as a list of strings. `Redis.RedisBackendUrlCall` takes Puppet's raw arguments and gives the errors for nodes that are not an array of strings.
- The older `validators/base.py` also reads `utils.parse_yaml` at lines 93, 118 and 142, and `utils.exists` at line 129. Those reads fail just as the one `LegacyValidator.ValidateFileBySchemaOlderAsWritten` models at line 68. The older checks therefore take already parsed data.
- Versions.Parse: StrictVersion's pre-release tags (`1.0a1`, `2.3b2`) are rejected as `ValueError` rather than parsed and ordered below the release.
- Versions.Parse: the empty text is refused by `Parse` itself, with the `AttributeError` of the missing `version` attribute. The source builds the object and raises that error later, at the first comparison or split.
- LegacyValidator.ParseValue: a false value (`None`, `0`, `False`, `''`, `[]`, `{}`) is refused when it is parsed, with the `AttributeError` of the missing `version` attribute. The source builds the object and raises that error at the comparison (`validators/base.py` line 210, `validators/checks.py` line 200).
- Reports.KeywordNodes: takes the keyword arguments in the order they are given. Python 2 walks a `**kwargs` dictionary in hash order (`utils/reports.py` lines 228-229), so with two or more keywords the children may come in another order.
- LegacyValidator.CheckAttributes: walks the attributes in field order. The source walks `six.iteritems(attrs)` in Python 2 hash order (`validators/base.py` line 169, older `validators/base.py` line 103), so when several attributes fail, the one whose error is raised may differ. The contract says only that the error is that of some failing attribute, which holds in either order.
- Importing `loaders` fails at `loaders/loader_base.py` line 35 (`Loaders.NewLoaderAsWritten`). `builders/builder_base.py` imports it when the module loads (line 26), so as written the builder module cannot be imported at all. The builder members model the constructor and the run as if that import succeeded; `version_mapping.py` imports it inside the call, and `VersionMapping.GetVersionMappingFromPluginAsWritten` models that.
- Text.Lower: covers ASCII letters only. Python 2's `str.lower()` on a byte string also changes only ASCII letters, but `unicode.lower()` would map other letters too.
- Text.Upper: covers ASCII letters only, for the same reason.
- Loaders.ProcessPaths: a dictionary is walked in field order. Python 2 walks it in hash order, so when two keys clean to the same name (`a_path` and `a`), the one that wins here is the later field. In the source it is whichever the hash order puts last.
- Checks.EnvAttributes: attributes are checked in field order, not in Python 2 hash order. The verdict does not depend on the order; the order of the report's children does.
- Checks.Attributes: the same field-order reading as `Checks.EnvAttributes`.
- ValidatorBase.Select: the schema tables are walked in their declared order, not in Python 2 hash order. Only the order of a report's children depends on this.
- Python 2 keyword-argument dictionaries are taken in call order wherever a call's keywords are checked (`Namespaces.Call`).
- YAML floats and the other YAML scalar types beyond strings, integers, booleans and `null` are not modelled.
- TaskSchema.GenTaskSchema: the generated schema keeps only the three parts that vary between task types, which are the `type` enum, the required fields and the patched parameters. The fixed properties (`id`, `version`, the role, group, relation and stage sub-schemas, and their patterns) are the same for every type and are left out. The parameters schemas and `_task_strategy` are kept.
- Redis: values Ruby can concatenate by other means (for example objects with their own `+`) are not modelled. A node or quorum is either a string or one of the JSON-like values Puppet passes.
- Some repository tests disagree with the code, and the model follows the code:
  - `tests/test_checks.py` lines 156-160;
  - `tests/test_builder_v2.py` line 128, which expects `-m`;
  - `tests/test_builder_v3.py` line 104, which expects `build_version`;
  - `tests/test_version_mapping.py`, which imports a function `version_mapping.py` does not define;
  - the older `tests/test_create.py` lines 50-58, which expects a name check the older `create.py` lacks.

## Findings

| source | as written | input that shows it | evidently intended | confidence | as-written member | corrected member |
|---|---|---|---|---|---|---|
| fuel_plugin_builder/builders/builder_base.py:136 | `_validate` calls `version_mapping.get_validator`, which the module does not define | any build whose required commands are found | validate with the mapping's validator | not executed | Builders.RunAsWritten (Builders.RunAsWrittenNeverBuilds) | Builders.Run (Builders.RunValidatesFirst, Builders.RunChecksumsOrder) |
| fuel_plugin_builder/utils/version.py:25 | `distutils.StrictVersion` after a bare `import distutils`; the class lives in `distutils.version` | `1.2.3` | split to `1.2` and `1.2.3` | not executed | Versions.SplitNameRpmAsWritten (Versions.SplitNameRpmDiscrepancy) | Versions.SplitNameRpm (Versions.SplitNameRpmExample) |
| fuel_plugin_builder/builders/builder_v2.py:41 | the rpm builders construct through that split, so even with the load result read as intended they always raise | v2 builder, version `1.2.3` | a builder named after `1.2` | not executed | Builders.NewBuilderSplitAsWritten (Builders.NewBuilderDiscrepancy) | Builders.NewBuilder |
| fuel_plugin_builder/loaders/files_manager.py:171 | `utils.fs.get_files_by_mask` is not defined in `utils/fs.py` | a mask matching no file | the merged records of the matched files (`None` here) | not executed | Loaders.FilesManagerLoadAsWritten (Loaders.FilesManagerLoadDiscrepancy) | Loaders.FilesManagerLoad (Loaders.LoadRecordsValues) |
| fuel_plugin_builder/validators/base.py:123 | `utils.exists` is not exported by `utils/__init__.py` | a missing file that may be missing | skip it | not executed | LegacyValidator.ValidateFileBySchemaAsWritten (LegacyValidator.ValidateFileBySchemaDiscrepancy) | LegacyValidator.ValidateFileBySchema |
| fuel_plugin_builder/fuel_plugin_builder/validators/base.py:68 | `utils.parse_yaml` is not defined in the older `utils.py` | a file whose data the schema accepts | parse and check it | not executed | LegacyValidator.ValidateFileBySchemaOlderAsWritten (LegacyValidator.ValidateFileBySchemaOlderDiscrepancy) | LegacyValidator.ValidateFileBySchemaOlder |
| fuel_plugin_builder/validators/validator_v3.py:95 | `utils.parse_yaml` is not exported | an empty task list | check every task | not executed | LegacyValidator.CheckDeploymentTasksAsWritten (LegacyValidator.CheckDeploymentTasksDiscrepancy) | LegacyValidator.CheckDeploymentTasks |
| fuel_plugin_builder/validators/validator_v3.py:119 | `utils.exists` is not exported | a plugin without a tasks file | no tasks | not executed | LegacyValidator.ParseTasksAsWritten (LegacyValidator.ParseTasksDiscrepancy) | LegacyValidator.ParseTasks |
| fuel_plugin_builder/validators/checks.py:25 | imports `BaseCheck`; `validators/base.py` defines `Check` | importing the module | import `Check` | not executed | ValidatorChecks.ChecksImportsAsWritten | ValidatorChecks.ChecksImports |
| fuel_plugin_builder/validators/checks.py:47 | `utils.parse_yaml` is not exported | any readable file | its data | not executed | ValidatorChecks.LoadYamlAsWritten (ValidatorChecks.LoadYamlDiscrepancy) | ValidatorChecks.LoadYaml |
| fuel_plugin_builder/validators/checks.py:174-175 | `utils.exists` and `utils.isfile` are not exported | an existing file | no error | not executed | ValidatorChecks.IsFileAsWritten (ValidatorChecks.IsFileDiscrepancy) | ValidatorChecks.IsFile |
| fuel_plugin_builder/validators/checks.py:239 | `utils.exists` is not exported | a release whose path field names an existing directory | no error | not executed | ValidatorChecks.FieldErrorsAsWritten (ValidatorChecks.FieldErrorsDiscrepancy) | ValidatorChecks.FieldErrors |
| fuel_plugin_builder/checks.py:101-117 | `add_nodes` returns the parent, so every sub-error is attached at the top level | one error with one sub-error | the sub-error nested below its error | not executed | Checks.JsonSchemaIsValidAsWritten (Checks.FlatHoistsSubErrors) | Checks.JsonSchemaIsValid |
| fuel_plugin_builder/version_mapping.py:32 | names `build.BuildPluginV5`, which `actions/build.py` does not define | version `5.0.0` | the v5 entry | not executed | VersionMapping.GetMappingAsWritten (VersionMapping.GetMappingDiscrepancy) | VersionMapping.GetMapping |
| fuel_plugin_builder/version_mapping.py:114-115 | the file name is a second exception argument, so the `%s` is never filled | a directory without `metadata.yaml` | `cannot find "metadata.yaml" file` | not executed | VersionMapping.LoadedMappingAsWritten (VersionMapping.MetadataMessageDiscrepancy) | VersionMapping.GetVersionMappingFromPlugin |
| fuel_plugin_builder/version_mapping.py:117 | calls `get` on what `load` returns, a `(data, report)` pair | metadata naming package version 5.0.0 | the 5.0.0 entry | not executed | VersionMapping.LoadedMappingAsWritten (VersionMapping.LoadedMappingDiscrepancy) | VersionMapping.GetVersionMappingFromPlugin (VersionMapping.MappingFromPluginVersion) |
| fuel_plugin_builder/loaders/files_manager.py:34 | `deserializer_json` hands the text read at line 179 to `json.load`, which wants a file object | a `.json` file that opens and holds valid JSON | the file's data | not executed | Loaders.ReadFileAsWritten (Loaders.JsonLoadDiscrepancy) | Loaders.ReadFile |
| fuel_plugin_builder/utils/fs.py:199-206 | returns the first globbed path with an allowed extension, while the docstring at lines 183-185 chooses by the format's place in the allowed list | `m.json` globbed before `m.yaml`, default formats | `m.yaml` | not executed | Paths.GetBestPathByMask (Paths.GetBestPathByMaskPreferenceDiscrepancy) | Paths.GetPreferredPathByMask (Paths.PreferredPathRanksFirst) |
| fuel_plugin_builder/actions/create.py:36-41 | `consts.LATEST_VERSION` and `get_config_for_plugin_package_version` are not defined | `fpb --create name` | the latest version's templates | not executed | Create.NewCreatePluginAsWritten | Create.NewCreatePlugin (Create.NewCreatePluginDefault) |
| fuel_plugin_builder/actions/create.py:49 | `^...$` with `re.match`: `$` also matches before a final newline | the name `abc` followed by a newline | refuse it | not executed | Create.CheckAsWritten (Create.CheckNewlineDiscrepancy) | Create.Check (Create.NameMatchesValid) |
| fuel_plugin_builder/cli.py:124 | `version_mapping.validators` is not defined | any accepted command line | run the action | not executed | Cli.MainAsWritten (Cli.MainDiscrepancy) | Cli.Main (Cli.MainStatus) |
| fuel_plugin_builder/cli.py:126-132 | passes `fuel_import`, `nailgun_path` and `library_path`, which `CreatePlugin` does not take | `fpb --create name` | pass the path and the package version | not executed | Cli.CreateCallAsWritten (Cli.CreateCallDiscrepancy) | Cli.PerformAction |
| fuel_plugin_builder/fuel_plugin_builder/cli.py:97 | passes two arguments to the one-argument older `CreatePlugin` | `fpb --create name` | pass the path only | not executed | Cli.LegacyPerformActionAsWritten (Cli.LegacyCreateDiscrepancy) | Cli.LegacyPerformAction (Cli.LegacyMainMessages) |
| fuel_plugin_builder/fuel_plugin_builder/actions/create.py:31 | `utils.basename` is not defined in the older `utils.py` | any path | the path's base name | not executed | Create.NewLegacyCreatePluginAsWritten | Create.NewLegacyCreatePlugin |
| fuel_plugin_builder/fuel_plugin_builder/actions/build.py:214 | `get_version_mapping_from_plugin` is not defined in the older `version_mapping.py` | metadata naming `1.0.0` | the 1.0.0 entry | not executed | VersionMapping.LegacyVersionMappingFromPluginAsWritten (VersionMapping.LegacyMappingDiscrepancy) | VersionMapping.LegacyVersionMappingFromPlugin |
| fuel_plugin_builder/fuel_plugin_builder/actions/build.py:49 | `utils.parse_yaml` is not defined in the older `utils.py` | any plugin | read the metadata | not executed | Builders.NewLegacyBuilderAsWritten (Builders.NewLegacyBuilderDiscrepancy) | Builders.NewLegacyBuilder |
| fuel_plugin_builder/utils/fs.py:208 | raises `errors.FilesInPathDoesNotExist`, which `errors.py` does not define | a mask matching nothing | `FilesInPathDoesNotExist` | not executed | Paths.GetBestPathByMaskAsWritten (Paths.GetBestPathByMaskRaiseDiscrepancy) | Paths.GetBestPathByMask |
| fuel_plugin_builder/validators/base.py:285 | raises `errors.CheckConfigurationError`, which `errors.py` does not define | an inspection without checks | `CheckConfigurationError` | not executed | Inspection.MakeInspectionAsWritten (Inspection.MakeInspectionRaiseDiscrepancy) | Inspection.MakeInspection |
| fuel_plugin_builder/utils/path_tools.py:193 | reads `path_tools` inside `path_tools.py`, a global it never binds | `a.yaml` | `yaml` | not executed | Paths.GetPathExtensionToolsAsWritten | Paths.GetPathExtensionTools (Paths.GetPathExtensionToolsAgrees) |
| fuel_plugin_builder/utils/path_tools.py:25-58 | reads the unbound `utils`, and returns `None` when nothing matches | `m.yaml`; and no matching file | the file, or `FilesInPathDoesNotExist` | not executed | Paths.GetBestPathByMaskToolsAsWritten (Paths.GetBestPathByMaskToolsDiscrepancy) | Paths.GetBestPathByMask |
| fuel_plugin_builder/checks.py:57 | the `@check` wrapper builds `utils.ReportNode`, which `utils/__init__.py` does not export | data the schema accepts | a successful check report | not executed | Checks.CheckedAsWritten (Checks.CheckDecoratorDiscrepancy) | Checks.JsonSchemaIsValid |
| fuel_plugin_builder/validators/validator_base.py:55 | `validate` builds `utils.ReportNode`, which is not exported; so do lines 75-123 and `validator_v5.py` line 126 | an empty tree and the default validator | a successful `Validating data` report | not executed | ValidatorBase.ValidateAsWritten (ValidatorBase.ValidateDiscrepancy) | ValidatorBase.Validate |
| fuel_plugin_builder/loaders/loader_base.py:35 | reads `consts.PATHS_SUFFIX`, and line 57 `consts.ROOT_FILE_NAME`; `consts.py` defines neither | any plugin directory | the root report titled with the root file's path | not executed | Loaders.NewLoaderAsWritten (Loaders.NewLoaderDiscrepancy) | Loaders.LoadRootMetadata |
| fuel_plugin_builder/utils/reports.py:212 | adds a string to the exception when its message is empty | an `IOError` with an empty message | the exception's description | not executed | Reports.FormatExceptionAsWritten (Reports.FormatExceptionDiscrepancy) | Reports.FormatException (Reports.FormatExceptionAgrees) |
| fuel_plugin_builder/loaders/files_manager.py:183 | raises `errors.InvalidFileFormat`, which `errors.py` does not define | a strict load of a path without a deserializer | `InvalidFileFormat` | not executed | Loaders.PathOutcomeAsWritten (Loaders.PathOutcomeDiscrepancy) | Loaders.LoadGate |
| fuel_plugin_builder/validators/base.py:296-314 | the run raises `errors.CheckConfigurationError`, which `errors.py` does not define | a check whose path result is not a report | `CheckConfigurationError` | not executed | Inspection.RunInspectionAsWritten (Inspection.RunInspectionDiscrepancy) | Inspection.RunInspection |
| fuel_plugin_builder/builders/builder_v3.py:38 | calls `utils.read_if_exist`, which `utils/__init__.py` does not export; so do lines 41 and 44 | any v3 plugin | the hook scripts in the spec data | not executed | Builders.TemplateDataV3AsWritten (Builders.TemplateDataV3Discrepancy) | Builders.TemplateDataV3Extends |
| fuel_plugin_builder/builders/builder_base.py:62 | reads `.report` on the pair that `load` returns | a plugin whose load report is clean | check the pair's report | not executed | Builders.LoadedReportAsWritten (Builders.LoadedReportDiscrepancy) | Builders.NewBuilder |

=== FILE: base.dfy ===
/**
 Shared vocabulary of the model: an optional value, a result that is either a
 value or one of the errors the tools raise, and the classes of those errors.
 */
module Base {

  datatype Option<+T> = None | Some(value: T) {
    function GetOr(default: T): T {
      match this
      case Some(v) => v
      case None => default
    }
  }

  /** The exception classes raised by the modelled code, plus the Python and
      Ruby built-in failures that some paths end in. */
  datatype ErrorKind =
    | ValidationError
    | FileIsEmpty
    | FileDoesNotExist
    | TaskFieldError
    | ReleasesDirectoriesError
    | WrongPackageVersionError
    | WrongPluginDirectoryError
    | PluginDirectoryExistsError
    | FuelCannotFindCommandError
    | InvalidFileFormat
    | InvalidFileExtension
    | FilesInPathDoesNotExist
    | CheckConfigurationError
    | ValueError
    | TypeError
    | RuntimeError
    | KeyError
    | AttributeError
    | ImportError
    | Exception
    | LoadFailure
    | NoMethodError
    | NameError
    | IOError

  /** `FileIsEmpty`, `FileDoesNotExist` and `TaskFieldError` subclass
      `ValidationError` in the error hierarchy. */
  predicate IsValidationError(k: ErrorKind) {
    k.ValidationError? || k.FileIsEmpty? || k.FileDoesNotExist? || k.TaskFieldError?
  }

  datatype Error = Error(kind: ErrorKind, message: string)

  datatype Result<+T> = Ok(value: T) | Err(error: Error) {
    predicate IsFailure() {
      Err?
    }

    function PropagateFailure<U>(): Result<U>
      requires Err?
    {
      Err(error)
    }

    function Extract(): T
      requires Ok?
    {
      value
    }
  }

  /** A loop that raises the first error of its items: the checks run in
      order and the first failing one is the result. */
  function FirstFailure<T>(items: seq<T>, check: T -> Result<()>): (r: Result<()>)
    ensures r.Ok? <==> forall i :: 0 <= i < |items| ==> check(items[i]).Ok?
    ensures r.Err? ==> exists i :: 0 <= i < |items| && r == check(items[i])
                                   && (forall j :: 0 <= j < i ==> check(items[j]).Ok?)
  {
    if |items| == 0 then Ok(())
    else
      var first := check(items[0]);
      if first.Err? then first
      else
        var rest := FirstFailure(items[1..], check);
        assert forall i :: 1 <= i < |items| ==> items[i] == items[1..][i - 1];
        rest
  }

  /** Once the checks before item `i` pass and item `i` fails, the loop
      raises item `i`'s error. */
  lemma {:induction false} FirstFailureAt<T>(items: seq<T>, check: T -> Result<()>, i: nat)
    requires i < |items| && check(items[i]).Err?
    requires forall j :: 0 <= j < i ==> check(items[j]).Ok?
    ensures FirstFailure(items, check) == check(items[i])
  {
    if i > 0 {
      FirstFailureAt(items[1..], check, i - 1);
      assert items[1..][i - 1] == items[i];
      assert forall j :: 0 <= j < i - 1 ==> items[1..][j] == items[j + 1];
    }
  }

  /** A test holds for every item exactly when it holds for the first and
      for every later one. */
  lemma {:induction false} AllSplit<T>(xs: seq<T>, p: T -> bool)
    requires |xs| > 0
    ensures (forall i :: 0 <= i < |xs| ==> p(xs[i])) <==> (p(xs[0]) && forall i :: 0 <= i < |xs[1..]| ==> p(xs[1..][i]))
  {
    assert forall i :: 1 <= i < |xs| ==> xs[i] == xs[1..][i - 1];
  }

  /** The head and tail of a concatenation whose left part is non-empty. */
  lemma {:induction false} ConsAppend<T>(a: seq<T>, b: seq<T>)
    requires |a| > 0
    ensures (a + b)[0] == a[0] && (a + b)[1..] == a[1..] + b
  {
  }

  lemma {:induction false} IndexAppend<T>(a: seq<T>, b: seq<T>, k: nat)
    requires |a| <= k < |a| + |b|
    ensures (a + b)[k] == b[k - |a|]
  {}

  /** Two entries per element, in element order: `f` of it, then `g` of
      it. */
  function Interleave<A, B>(xs: seq<A>, f: A -> B, g: A -> B): (r: seq<B>)
    ensures |r| == 2 * |xs|
  {
    if |xs| == 0 then [] else [f(xs[0]), g(xs[0])] + Interleave(xs[1..], f, g)
  }

  lemma {:induction false} InterleaveAt<A, B>(xs: seq<A>, f: A -> B, g: A -> B, i: nat)
    requires i < |xs|
    ensures Interleave(xs, f, g)[2 * i] == f(xs[i])
    ensures Interleave(xs, f, g)[2 * i + 1] == g(xs[i])
  {
    if i > 0 {
      InterleaveAt(xs[1..], f, g, i - 1);
      assert xs[1..][i - 1] == xs[i];
    }
  }

  /** `n` blocks of `b` entries each, counted block by block so that the
      positions of the blocks stay in linear arithmetic. */
  function Blocks(n: nat, b: nat): nat {
    if n == 0 then 0 else Blocks(n - 1, b) + b
  }

  /** The blocks fill `n · b` entries. */
  lemma {:induction false} BlocksProduct(n: nat, b: nat)
    ensures Blocks(n, b) == n * b
  {
    if n > 0 {
      BlocksProduct(n - 1, b);
    }
  }

  /** `f` applied to each element, in order. */
  function Each<A, B>(xs: seq<A>, f: A -> B): (r: seq<B>)
    ensures |r| == |xs|
    ensures forall i :: 0 <= i < |xs| ==> r[i] == f(xs[i])
  {
    seq(|xs|, i requires 0 <= i < |xs| => f(xs[i]))
  }

  /** The entries `f` gives each element, element by element. */
  function FlatMap<A, B>(xs: seq<A>, f: A -> seq<B>): seq<B> {
    if |xs| == 0 then [] else f(xs[0]) + FlatMap(xs[1..], f)
  }

  /** With `b` entries per element, the elements fill `|xs|` blocks. */
  lemma {:induction false} FlatMapLength<A, B>(xs: seq<A>, f: A -> seq<B>, b: nat)
    requires forall x :: |f(x)| == b
    ensures |FlatMap(xs, f)| == Blocks(|xs|, b)
  {
    if |xs| > 0 {
      FlatMapLength(xs[1..], f, b);
    }
  }

  /** With `b` entries per element, element `k`'s entries sit in block `k`. */
  lemma {:induction false} FlatMapAt<A, B>(xs: seq<A>, f: A -> seq<B>, b: nat, k: nat, m: nat)
    requires forall x :: |f(x)| == b
    requires k < |xs| && m < b
    ensures Blocks(k, b) + m < |FlatMap(xs, f)|
    ensures FlatMap(xs, f)[Blocks(k, b) + m] == f(xs[k])[m]
  {
    FlatMapLength(xs, f, b);
    if k > 0 {
      FlatMapAt(xs[1..], f, b, k - 1, m);
      assert xs[1..][k - 1] == xs[k];
    }
  }

  /** Mapping a concatenation concatenates the mapped parts. */
  lemma {:induction false} FlatMapAppend<A, B>(xs: seq<A>, ys: seq<A>, f: A -> seq<B>)
    ensures FlatMap(xs + ys, f) == FlatMap(xs, f) + FlatMap(ys, f)
  {
    if |xs| == 0 {
      assert xs + ys == ys;
    } else {
      FlatMapAppend(xs[1..], ys, f);
      ConsAppend(xs, ys);
      AppendAssoc(f(xs[0]), FlatMap(xs[1..], f), FlatMap(ys, f));
    }
  }

  lemma {:induction false} AppendAssoc<T>(a: seq<T>, b: seq<T>, c: seq<T>)
    ensures a + (b + c) == (a + b) + c
  {
  }

  /** `enumerate(items)`. */
  function Enumerate<T>(items: seq<T>): (r: seq<(nat, T)>)
    ensures |r| == |items|
    ensures forall i :: 0 <= i < |items| ==> r[i] == (i, items[i])
  {
    seq(|items|, i requires 0 <= i < |items| => (i, items[i]))
  }
}

=== FILE: builders.dfy ===
/**
 The package builders: `builders/builder_base.py` with its versions
 `builder_v1.py`, `builder_v2.py`, `builder_v3.py`, and the older builders of
 `fuel_plugin_builder/actions/build.py`. A build is modelled as the sequence
 of file-system and process steps it performs, in order, together with the
 error that stops it, if any. What a step does to the disk is outside the
 model; `which`, the structure validator, file reads, the clock, `abspath`
 and the install directory are parameters. Shell commands are kept in their
 parts and spelled out by `CommandLine`.
 */
module Builders {
  import opened Base
  import Text
  import opened Paths
  import Versions
  import opened Json
  import opened Reports
  import Loaders
  import Namespaces

  /** A release entry of the plugin metadata, as far as building reads it. */
  datatype Release = Release(os: string, repositoryPath: string)

  /** The metadata fields the builders read; the optional ones are read with
      `meta.get(...)`. */
  datatype Meta = Meta(
    name: string, version: string, title: string, description: string,
    licenses: Option<seq<string>>, homepage: Option<string>, authors: Option<seq<string>>,
    releases: seq<Release>)

  /** The host as the builders see it: whether `which` finds a command.
      `WhichHost` and `LegacyWhichHost` build it from the `PATH` variable
      and the file tests. */
  datatype Host = Host(found: string -> bool)

  /** The host of the newer builders, which look commands up with
      `utils.which`. */
  function WhichHost(pathEnv: string, isFile: string -> bool, canExecute: string -> bool): (h: Host)
    ensures forall c :: h.found(c) <==> Which(c, pathEnv, isFile, canExecute).Some?
  {
    Host((c: string) => Which(c, pathEnv, isFile, canExecute).Some?)
  }

  /** The host of the older builders, whose `which` strips quotes from the
      `PATH` entries. */
  function LegacyWhichHost(pathEnv: string, isFile: string -> bool, canExecute: string -> bool): (h: Host)
    ensures forall c :: h.found(c) <==> WhichQuoted(c, pathEnv, isFile, canExecute).Some?
  {
    Host((c: string) => WhichQuoted(c, pathEnv, isFile, canExecute).Some?)
  }

  /** Everything a build consults outside the plugin metadata. */
  datatype Env = Env(
    host: Host,
    validate: string -> Option<Error>,
    read: string -> string,
    year: string,
    fpbDir: string,
    abspath: string -> string)

  /** A shell command a builder runs through `exec_cmd`. */
  datatype Command =
    | Createrepo(repo: string)
    | Rpmbuild(topdir: string, spec: string)
    | ScanPackages

  /** The program a command runs. */
  function Program(c: Command): string {
    match c
    case Createrepo(_) => "createrepo"
    case Rpmbuild(_, _) => "rpmbuild"
    case ScanPackages => "dpkg-scanpackages"
  }

  /** What follows the program on the command line. */
  function Arguments(c: Command): string {
    match c
    case Createrepo(repo) => " -o " + repo + " " + repo
    case Rpmbuild(topdir, spec) => " -vv --nodeps --define \"_topdir " + topdir + "\" -bb " + spec
    case ScanPackages => " . | gzip -c9 > Packages.gz"
  }

  /** The text handed to the shell. */
  function CommandLine(c: Command): string {
    Program(c) + Arguments(c)
  }

  predicate HasPrefix(s: string, prefix: string) {
    |prefix| <= |s| && s[..|prefix|] == prefix
  }

  lemma PrefixOfConcat(prefix: string, rest: string)
    ensures HasPrefix(prefix + rest, prefix)
  {
    assert (prefix + rest)[..|prefix|] == prefix;
  }

  lemma FirstCharDiffers(s: string, prefix: string)
    requires |s| > 0 && |prefix| > 0 && s[0] != prefix[0]
    ensures !HasPrefix(s, prefix)
  {
  }

  /** Every command line starts with the program it runs, so the text tells
      the three commands apart exactly as their structure does. */
  lemma {:induction false} CommandProgram(c: Command)
    ensures HasPrefix(CommandLine(c), "createrepo") <==> c.Createrepo?
    ensures HasPrefix(CommandLine(c), "rpmbuild") <==> c.Rpmbuild?
    ensures HasPrefix(CommandLine(c), "dpkg-scanpackages") <==> c.ScanPackages?
  {
    var line := CommandLine(c);
    PrefixOfConcat(Program(c), Arguments(c));
    assert line[0] == Program(c)[0];
    match c
    case Createrepo(_) =>
      FirstCharDiffers(line, "rpmbuild");
      FirstCharDiffers(line, "dpkg-scanpackages");
    case Rpmbuild(_, _) =>
      FirstCharDiffers(line, "createrepo");
      FirstCharDiffers(line, "dpkg-scanpackages");
    case ScanPackages =>
      FirstCharDiffers(line, "createrepo");
      FirstCharDiffers(line, "rpmbuild");
  }

  /** One step of a build, in the order the builder performs them. */
  datatype Action =
    | Remove(path: string)
    | CreateDir(path: string)
    | RemoveByMask(mask: string)
    | RunHook(hook: string, cwd: Option<string>)
    | Validate(pluginPath: string)
    | Exec(cmd: Command, cwd: Option<string>)
    | ExecPiped(cmds: seq<string>, dir: string)
    | CopyFilesInDir(src: string, dst: string)
    | MoveFilesInDir(src: string, dst: string)
    | CreateChecksumsFile(dir: string, file: string)
    | MakeTarGz(src: string, dst: string, prefix: string)
    | RenderTemplate(template: string, dst: string, context: Json)

  /** The steps a build performed and the exception that ended it early. */
  datatype Outcome = Outcome(actions: seq<Action>, error: Option<Error>)

  // ---------------------------------------------------------------------
  // Step order
  // ---------------------------------------------------------------------

  /** The kinds of step the order properties speak about. */
  datatype Class = Indexing | Checksumming | Packaging | Validating | Producing

  /** Indexing builds a repository index, packaging makes the archive or the
      rpm, producing writes build output of any kind. */
  predicate Is(c: Class, a: Action) {
    match c
    case Indexing => a.ExecPiped? || (a.Exec? && (a.cmd.Createrepo? || a.cmd.ScanPackages?))
    case Checksumming => a.CreateChecksumsFile?
    case Packaging => a.MakeTarGz? || (a.Exec? && a.cmd.Rpmbuild?)
    case Validating => a.Validate?
    case Producing =>
      a.CopyFilesInDir? || a.MoveFilesInDir? || a.Exec? || a.ExecPiped? || a.MakeTarGz?
      || a.RenderTemplate? || a.CreateChecksumsFile?
  }

  /** No step of class `c` occurs in `acts`. */
  predicate NoneOf(acts: seq<Action>, c: Class) {
    forall i :: 0 <= i < |acts| ==> !Is(c, acts[i])
  }

  /** Every step of class `c` comes before every step of class `d`. */
  predicate Before(acts: seq<Action>, c: Class, d: Class) {
    forall i, j :: 0 <= i < j < |acts| ==> !(Is(d, acts[i]) && Is(c, acts[j]))
  }

  lemma NoneOfConcat(a: seq<Action>, b: seq<Action>, c: Class)
    ensures NoneOf(a + b, c) <==> NoneOf(a, c) && NoneOf(b, c)
  {
    if NoneOf(a + b, c) {
      forall i | 0 <= i < |a| ensures !Is(c, a[i]) {
        assert (a + b)[i] == a[i];
      }
      forall i | 0 <= i < |b| ensures !Is(c, b[i]) {
        assert (a + b)[|a| + i] == b[i];
      }
    }
  }

  lemma NoneOfThree(a: seq<Action>, b: seq<Action>, d: seq<Action>, c: Class)
    requires NoneOf(a, c) && NoneOf(b, c) && NoneOf(d, c)
    ensures NoneOf(a + b + d, c)
  {
    NoneOfConcat(a, b, c);
    NoneOfConcat(a + b, d, c);
  }

  /** Steps of class `c` all in a first stretch without `d`, and steps of
      class `d` all in a second stretch without `c`: every `c` comes first. */
  lemma Separated(a: seq<Action>, b: seq<Action>, c: Class, d: Class)
    requires NoneOf(a, d) && NoneOf(b, c)
    ensures Before(a + b, c, d)
  {
    var ab := a + b;
    forall i, j | 0 <= i < j < |ab| ensures !(Is(d, ab[i]) && Is(c, ab[j])) {
      if i < |a| {
        assert ab[i] == a[i];
      } else {
        assert ab[i] == b[i - |a|] && ab[j] == b[j - |a|];
      }
    }
  }

  // ---------------------------------------------------------------------
  // Layout
  // ---------------------------------------------------------------------

  function BuildDir(plugin: string): string {
    Join(plugin, ".build")
  }

  function BuildSrcDir(plugin: string): string {
    Join(BuildDir(plugin), "src")
  }

  function ChecksumsPath(plugin: string): string {
    Join(BuildSrcDir(plugin), "checksums.sha1")
  }

  /** The source tree is built inside the build directory and the checksums
      file is written into the very tree it lists. */
  lemma BuildLayout(plugin: string)
    ensures BuildDir(plugin) <= BuildSrcDir(plugin) <= ChecksumsPath(plugin)
  {
  }

  /** The checksums file is named `checksums.sha1`. */
  lemma ChecksumsFileName(plugin: string)
    ensures Basename(ChecksumsPath(plugin)) == "checksums.sha1"
  {
    assert '/' !in "checksums.sha1";
    BasenameOfJoin(BuildSrcDir(plugin), "checksums.sha1");
  }

  /** Below a plain directory the source tree is `<plugin>/.build/src`. */
  lemma BuildSrcDirOfPlain(plugin: string)
    requires plugin != "" && plugin[|plugin| - 1] != '/'
    ensures BuildSrcDir(plugin) == plugin + "/.build/src"
  {
  }

  // ---------------------------------------------------------------------
  // Repositories
  // ---------------------------------------------------------------------

  /** `groups.get(os, [])`. */
  function GetOrEmpty(groups: map<string, seq<string>>, os: string): seq<string> {
    if os in groups then groups[os] else []
  }

  /** `releases_paths` after the loop of `build_repos`, from `acc` on: for
      each release, `setdefault(os, [])` and append the repository path. */
  function GroupFrom(acc: map<string, seq<string>>, releases: seq<Release>, src: string): map<string, seq<string>>
    decreases |releases|
  {
    if |releases| == 0 then acc
    else
      var r := releases[0];
      GroupFrom(acc[r.os := GetOrEmpty(acc, r.os) + [Join(src, r.repositoryPath)]], releases[1..], src)
  }

  /** Reference definition: the repository paths of the releases of one `os`,
      in release order. */
  function OsPaths(releases: seq<Release>, src: string, os: string): (r: seq<string>)
    ensures |r| <= |releases|
    ensures r == [] <==> forall k :: 0 <= k < |releases| ==> releases[k].os != os
  {
    if |releases| == 0 then []
    else
      var here := if releases[0].os == os then [Join(src, releases[0].repositoryPath)] else [];
      var rest := OsPaths(releases[1..], src, os);
      assert (forall k :: 0 <= k < |releases| ==> releases[k].os != os) <==>
             releases[0].os != os && forall k :: 0 <= k < |releases[1..]| ==> releases[1..][k].os != os by {
        if releases[0].os != os && forall k :: 0 <= k < |releases[1..]| ==> releases[1..][k].os != os {
          forall k | 0 <= k < |releases| ensures releases[k].os != os {
            if k > 0 {
              assert releases[k] == releases[1..][k - 1];
            }
          }
        }
      }
      here + rest
  }

  /** The grouping from `acc` on adds to each os exactly the paths of its own
      releases, in release order, and creates a group only for an os some
      release names. */
  lemma {:induction false} GroupFromSpec(acc: map<string, seq<string>>, releases: seq<Release>, src: string, os: string)
    ensures GetOrEmpty(GroupFrom(acc, releases, src), os) == GetOrEmpty(acc, os) + OsPaths(releases, src, os)
    ensures os in GroupFrom(acc, releases, src) <==> os in acc || OsPaths(releases, src, os) != []
    decreases |releases|
  {
    if |releases| == 0 {
      assert GetOrEmpty(acc, os) + [] == GetOrEmpty(acc, os);
    } else {
      var r := releases[0];
      var path := Join(src, r.repositoryPath);
      var acc' := acc[r.os := GetOrEmpty(acc, r.os) + [path]];
      var rest := OsPaths(releases[1..], src, os);
      assert GroupFrom(acc, releases, src) == GroupFrom(acc', releases[1..], src);
      GroupFromSpec(acc', releases[1..], src, os);
      if os == r.os {
        assert OsPaths(releases, src, os) == [path] + rest;
        assert GetOrEmpty(acc', os) == GetOrEmpty(acc, os) + [path];
        ConcatAssoc(GetOrEmpty(acc, os), [path], rest);
      } else {
        assert OsPaths(releases, src, os) == rest;
        assert GetOrEmpty(acc', os) == GetOrEmpty(acc, os);
      }
    }
  }

  lemma ConcatAssoc<T>(a: seq<T>, b: seq<T>, c: seq<T>)
    ensures (a + b) + c == a + (b + c)
  {
  }

  /** `releases_paths.get(os, [])`. */
  function RepoGroup(releases: seq<Release>, src: string, os: string): seq<string> {
    GetOrEmpty(GroupFrom(map[], releases, src), os)
  }

  /** Each os gets exactly the repository paths of its own releases, in
      release order, and `[]` when it has none. */
  lemma RepoGroupIsFilter(releases: seq<Release>, src: string, os: string)
    ensures RepoGroup(releases, src, os) == OsPaths(releases, src, os)
  {
    GroupFromSpec(map[], releases, src, os);
    assert GetOrEmpty(map[], os) == [];
  }

  /** What `build_centos_repos` does in one repository: a `Packages`
      directory, the rpms moved into it and `createrepo -o <path> <path>`. */
  function CentosRepo(p: string): seq<Action> {
    [CreateDir(Join(p, "Packages")), MoveFilesInDir(Join(p, "*.rpm"), Join(p, "Packages")),
     Exec(Createrepo(p), None)]
  }

  /** `build_centos_repos`: the steps of each repository in turn; it indexes
      but neither validates, writes checksums nor packages. */
  function CentosRepos(paths: seq<string>): (r: seq<Action>)
    ensures |r| == 3 * |paths|
    ensures NoneOf(r, Checksumming) && NoneOf(r, Packaging) && NoneOf(r, Validating)
  {
    if |paths| == 0 then []
    else
      var rest := CentosRepos(paths[1..]);
      NoneOfConcat(CentosRepo(paths[0]), rest, Checksumming);
      NoneOfConcat(CentosRepo(paths[0]), rest, Packaging);
      NoneOfConcat(CentosRepo(paths[0]), rest, Validating);
      CentosRepo(paths[0]) + rest
  }

  lemma SliceAfter<T>(a: seq<T>, r: seq<T>, j: nat, n: nat)
    requires j + n <= |r|
    ensures (a + r)[|a| + j..|a| + j + n] == r[j..j + n]
  {
  }

  /** Repository `i` gets its three steps at positions `3i` to `3i + 2`. */
  lemma {:induction false} CentosReposAt(paths: seq<string>, i: nat)
    requires i < |paths|
    ensures CentosRepos(paths)[3 * i..3 * i + 3] == CentosRepo(paths[i])
  {
    var first := CentosRepo(paths[0]);
    var rest := CentosRepos(paths[1..]);
    assert CentosRepos(paths) == first + rest;
    if i == 0 {
      assert (first + rest)[..3] == first;
    } else {
      CentosReposAt(paths[1..], i - 1);
      assert paths[1..][i - 1] == paths[i];
      SliceAfter(first, rest, 3 * (i - 1), 3);
    }
  }

  // ---------------------------------------------------------------------
  // Required commands
  // ---------------------------------------------------------------------

  /** `filter(lambda r: not utils.which(r), requires)`. */
  function Missing(commands: seq<string>, found: string -> bool): (r: seq<string>)
    ensures forall c :: c in r <==> c in commands && !found(c)
    ensures |r| <= |commands|
  {
    if |commands| == 0 then []
    else (if found(commands[0]) then [] else [commands[0]]) + Missing(commands[1..], found)
  }

  /** The missing commands keep the order of `requires`. */
  lemma {:induction false} MissingConcat(a: seq<string>, b: seq<string>, found: string -> bool)
    ensures Missing(a + b, found) == Missing(a, found) + Missing(b, found)
  {
    if |a| > 0 {
      var first := if found(a[0]) then [] else [a[0]];
      assert Missing(a + b, found) == first + Missing(a[1..] + b, found) by {
        assert (a + b)[0] == a[0] && (a + b)[1..] == a[1..] + b;
      }
      assert Missing(a[1..] + b, found) == Missing(a[1..], found) + Missing(b, found) by {
        MissingConcat(a[1..], b, found);
      }
      assert Missing(a, found) == first + Missing(a[1..], found);
    } else {
      assert a + b == b;
    }
  }

  function MissingCommandsError(missing: seq<string>): Error {
    Error(FuelCannotFindCommandError,
          "Cannot find commands \"" + Text.Join(missing, ", ") + "\", install required commands and try again")
  }

  /** `_check_requirements`: raises, naming the missing commands in order,
      iff some required command is not found. */
  function CheckRequirements(commands: seq<string>, found: string -> bool): (r: Result<()>)
    ensures r.Ok? <==> forall c :: c in commands ==> found(c)
    ensures r.Err? ==> r.error == MissingCommandsError(Missing(commands, found))
  {
    var missing := Missing(commands, found);
    if missing == [] then Ok(())
    else
      assert missing[0] in missing;
      Err(MissingCommandsError(missing))
  }

  // ---------------------------------------------------------------------
  // Builders
  // ---------------------------------------------------------------------

  datatype Kind = V1 | V2 | V3

  /** A constructed builder; `pluginVersion` is the `major.minor` part of
      the version that the rpm builders split off (v1 leaves it empty). */
  datatype Builder = Builder(kind: Kind, pluginPath: string, meta: Meta, pluginVersion: string)

  /** A builder the constructor let through: the rpm builders have split
      the version. */
  predicate Constructed(b: Builder) {
    b.kind != V1 ==> Versions.SplitNameRpm(b.meta.version) == Ok((b.pluginVersion, b.meta.version))
  }

  /** The error of a failed load report: a plain `Exception` carrying the
      rendered report. */
  function LoadReportError(report: Node): Error {
    Error(Exception, Render(report, true))
  }

  /** `self.meta.report` as written: `self.meta` is what `LoaderBase.load`
      returns, a `(data, report)` pair, and a tuple has no `report`
      attribute, so every constructor raises here. */
  function LoadedReportAsWritten(loaded: (Json, Node)): (r: Result<Node>)
    ensures r == Err(Error(AttributeError, "'tuple' object has no attribute 'report'"))
  {
    Err(Error(AttributeError, "'tuple' object has no attribute 'report'"))
  }

  /** The report the constructor evidently means: the one `load` attaches to
      its data, here the second half of the pair. A clean load report lets
      construction go on under this reading and raises as written. */
  lemma LoadedReportDiscrepancy(data: Json, report: Node)
    requires IsSuccessful(report)
    ensures NewBuilder(V1, "", Meta("n", "1.0.0", "", "", None, None, None, []), (data, report).1).Ok?
    ensures LoadedReportAsWritten((data, report)).Err?
    ensures NewBuilderAsWritten(V1, "", (data, report)).Err?
  {
  }

  /** `BuilderBase.__init__` (and `BuilderV2.__init__` after it), given the
      metadata and the load report: a failed load report raises; the rpm
      builders then split the version. */
  function NewBuilder(kind: Kind, pluginPath: string, meta: Meta, report: Node): (r: Result<Builder>)
    ensures r.Ok? <==> IsSuccessful(report) && (kind != V1 ==> Versions.SplitNameRpm(meta.version).Ok?)
    ensures IsFailed(report) ==> r == Err(LoadReportError(report))
    ensures IsSuccessful(report) && kind != V1 && r.Err? ==> r.error == Versions.SplitNameRpm(meta.version).error
    ensures r.Ok? ==> Constructed(r.value) && r.value.kind == kind && r.value.pluginPath == pluginPath && r.value.meta == meta
  {
    if IsFailed(report) then Err(LoadReportError(report))
    else if kind == V1 then Ok(Builder(kind, pluginPath, meta, ""))
    else
      var split := Versions.SplitNameRpm(meta.version);
      if split.Err? then Err(split.error)
      else Ok(Builder(kind, pluginPath, meta, split.value.0))
  }

  /** `BuilderBase.__init__` as written, given what `load` returns: the
      first thing it does with the pair is read its `report`, so every kind
      of builder raises there, whatever the load found, before a failed
      report is looked at or the version is split. */
  function NewBuilderAsWritten(kind: Kind, pluginPath: string, loaded: (Json, Node)): (r: Result<Builder>)
    ensures r == Err(Error(AttributeError, "'tuple' object has no attribute 'report'"))
  {
    Err(LoadedReportAsWritten(loaded).error)
  }

  /** The constructor with the load result read as intended (its report is
      the pair's second half, as `NewBuilder` takes it) but the version
      split as written: the split goes through `distutils.StrictVersion`,
      which the `distutils` package does not have, so even then the rpm
      builders never construct. */
  function NewBuilderSplitAsWritten(kind: Kind, pluginPath: string, meta: Meta, report: Node): (r: Result<Builder>)
    ensures r.Ok? <==> IsSuccessful(report) && kind == V1
    ensures r.Ok? ==> r == NewBuilder(kind, pluginPath, meta, report)
  {
    if IsFailed(report) then Err(LoadReportError(report))
    else if kind == V1 then Ok(Builder(kind, pluginPath, meta, ""))
    else
      var split := Versions.SplitNameRpmAsWritten(meta.version);
      Err(split.error)
  }

  /** With a clean load report and the version `1.2.3` the corrected
      constructor builds a v2 builder named after `1.2`; the one whose
      split is as written raises. */
  lemma {:induction false} NewBuilderDiscrepancy(pluginPath: string, meta: Meta, report: Node)
    requires IsSuccessful(report) && meta.version == "1.2.3"
    ensures NewBuilder(V2, pluginPath, meta, report) == Ok(Builder(V2, pluginPath, meta, "1.2"))
    ensures NewBuilderSplitAsWritten(V2, pluginPath, meta, report).Err?
    ensures NewBuilderSplitAsWritten(V2, pluginPath, meta, report).error.kind == AttributeError
  {
    Versions.SplitNameRpmExample();
  }

  function Requires(kind: Kind): seq<string> {
    match kind
    case V1 => ["rpm", "createrepo", "dpkg-scanpackages"]
    case _ => ["rpmbuild", "rpm", "createrepo", "dpkg-scanpackages"]
  }

  /** `full_name`: name and version for the `.fp` archive, name and
      `major.minor` for the rpm builders. */
  function FullName(b: Builder): string
  {
    if b.kind == V1 then b.meta.name + "-" + b.meta.version
    else b.meta.name + "-" + b.pluginVersion
  }

  function ResultPackageMask(b: Builder): string {
    if b.kind == V1 then Join(b.pluginPath, b.meta.name + "-*.fp")
    else Join(b.pluginPath, b.meta.name + "-*.noarch.rpm")
  }

  const PreBuildHookCmd := "./pre_build_hook"

  function Clean(b: Builder): (r: seq<Action>)
    ensures NoneOf(r, Indexing) && NoneOf(r, Checksumming) && NoneOf(r, Packaging)
    ensures NoneOf(r, Validating) && NoneOf(r, Producing)
  {
    [Remove(BuildDir(b.pluginPath)), CreateDir(BuildDir(b.pluginPath)), RemoveByMask(ResultPackageMask(b))]
  }

  function PreBuildHook(b: Builder, host: Host): (r: seq<Action>)
    ensures NoneOf(r, Indexing) && NoneOf(r, Checksumming) && NoneOf(r, Packaging)
    ensures NoneOf(r, Validating) && NoneOf(r, Producing)
  {
    if host.found(Join(b.pluginPath, PreBuildHookCmd)) then [RunHook(PreBuildHookCmd, Some(b.pluginPath))] else []
  }

  function TemplatePath(b: Builder, file: string): string {
    if b.kind == V3 then "templates/v3/build/" + file else "templates/v2/build/" + file
  }

  function RpmPath(b: Builder, env: Env): string {
    env.abspath(Join(BuildDir(b.pluginPath), "rpm"))
  }

  function OrNull(j: Option<string>): Json {
    match j
    case None => Null
    case Some(s) => Str(s)
  }

  /** `_make_data_for_template` of the rpm builders. */
  function TemplateData(fullName: string, meta: Meta, year: string): Json {
    Obj([
      ("name", Str(fullName)),
      ("version", Str(meta.version)),
      ("summary", Str(meta.title)),
      ("description", Str(meta.description)),
      ("license", Str(Text.Join(meta.licenses.GetOr([]), " and "))),
      ("homepage", OrNull(meta.homepage)),
      ("vendor", Str(Text.Join(meta.authors.GetOr([]), ", "))),
      ("year", Str(year))])
  }

  /** The keys of the rpm spec data, in the order `TemplateData` writes
      them. */
  const RpmSpecKeys: seq<string> := ["name", "version", "summary", "description", "license", "homepage", "vendor", "year"]

  /** The keys the v3 builder adds for the hook scripts. */
  const HookKeys: seq<string> := ["postinstall_hook", "preinstall_hook", "uninstall_hook"]

  predicate Distinct(ks: seq<string>) {
    forall i, j :: 0 <= i < j < |ks| ==> ks[i] != ks[j]
  }

  lemma KeyListsDistinct()
    ensures Distinct(RpmSpecKeys) && Distinct(HookKeys)
  {
  }

  lemma UniqueKeysOfDistinct(fields: Fields)
    requires Distinct(Keys(fields))
    ensures UniqueKeys(fields)
  {
    forall i, j | 0 <= i < j < |fields| ensures fields[i].0 != fields[j].0 {
      assert Keys(fields)[i] == fields[i].0 && Keys(fields)[j] == fields[j].0;
    }
  }

  /** The rpm spec data holds its eight keys once each, in this order. */
  lemma TemplateDataKeys(fullName: string, meta: Meta, year: string)
    ensures TemplateData(fullName, meta, year).Obj?
    ensures Keys(TemplateData(fullName, meta, year).fields) == RpmSpecKeys
    ensures UniqueKeys(TemplateData(fullName, meta, year).fields)
  {
    TemplateDataKeyList(fullName, meta, year);
    KeyListsDistinct();
    UniqueKeysOfDistinct(TemplateData(fullName, meta, year).fields);
  }

  lemma TemplateDataKeyList(fullName: string, meta: Meta, year: string)
    ensures Keys(TemplateData(fullName, meta, year).fields) == RpmSpecKeys
  {
    var d := TemplateData(fullName, meta, year).fields;
    assert |Keys(d)| == |RpmSpecKeys|;
    forall i | 0 <= i < |RpmSpecKeys| ensures Keys(d)[i] == RpmSpecKeys[i] {
      assert Keys(d)[i] == d[i].0;
    }
  }

  /** The rpm spec data: the package is named after `major.minor`, carries
      the full version, joins the licenses with " and " and the authors with
      ", ", and gives "" for each when the metadata has none. */
  lemma TemplateDataFields(fullName: string, meta: Meta, year: string)
    ensures var d := TemplateData(fullName, meta, year).fields;
      && Lookup(d, "name") == Some(Str(fullName))
      && Lookup(d, "version") == Some(Str(meta.version))
      && Lookup(d, "license") == Some(Str(Text.Join(meta.licenses.GetOr([]), " and ")))
      && Lookup(d, "vendor") == Some(Str(Text.Join(meta.authors.GetOr([]), ", ")))
      && (meta.licenses.None? ==> Lookup(d, "license") == Some(Str("")))
      && (meta.authors.None? ==> Lookup(d, "vendor") == Some(Str("")))
  {
    var d := TemplateData(fullName, meta, year).fields;
    TemplateDataKeys(fullName, meta, year);
    LookupAt(d, 0);
    LookupAt(d, 1);
    LookupAt(d, 4);
    LookupAt(d, 6);
  }

  /** The v3 hook scripts, read in the order `uninstall.sh`,
      `pre_install.sh`, `post_install.sh`. */
  function HookReads(plugin: string): seq<string> {
    [Join(plugin, "uninstall.sh"), Join(plugin, "pre_install.sh"), Join(plugin, "post_install.sh")]
  }

  function HookFields(plugin: string, read: string -> string): Fields {
    var scripts := HookReads(plugin);
    [("postinstall_hook", Str(read(scripts[2]))), ("preinstall_hook", Str(read(scripts[1]))),
     ("uninstall_hook", Str(read(scripts[0])))]
  }

  /** The hook data holds its three keys once each. */
  lemma HookFieldsKeys(plugin: string, read: string -> string)
    ensures Keys(HookFields(plugin, read)) == HookKeys
    ensures UniqueKeys(HookFields(plugin, read))
  {
    var r := HookFields(plugin, read);
    assert Keys(r) == HookKeys;
    KeyListsDistinct();
    UniqueKeysOfDistinct(r);
  }

  /** `BuilderV3._make_data_for_template`: the v2 data updated with the three
      hook scripts. */
  function TemplateDataV3(fullName: string, meta: Meta, year: string, plugin: string, read: string -> string): Json
  {
    Obj(Update(TemplateData(fullName, meta, year).fields, HookFields(plugin, read)))
  }

  /** `BuilderV3._make_data_for_template` as written: it reads the hooks with
      `utils.read_if_exist`, which the `utils` package does not bind, so it
      raises before any hook is read; `TemplateDataV3` takes the intended
      reader as its `read` parameter. */
  function TemplateDataV3AsWritten(fullName: string, meta: Meta, year: string, plugin: string,
                                   read: string -> string): (r: Result<Json>)
    ensures r == Err(Namespaces.NoAttribute("read_if_exist"))
  {
    Namespaces.UtilsLacksReadIfExist();
    Err(Namespaces.Attribute(Namespaces.UtilsNames, "read_if_exist").error)
  }

  /** The intended data carries the post-install hook script; the code as
      written raises instead. */
  lemma TemplateDataV3Discrepancy(fullName: string, meta: Meta, year: string, plugin: string, read: string -> string)
    ensures Lookup(TemplateDataV3(fullName, meta, year, plugin, read).fields, "postinstall_hook")
            == Some(Str(read(Join(plugin, "post_install.sh"))))
    ensures TemplateDataV3AsWritten(fullName, meta, year, plugin, read).Err?
  {
    TemplateDataV3Extends(fullName, meta, year, plugin, read);
  }

  lemma UniqueKeysConcat(a: Fields, b: Fields)
    requires UniqueKeys(a) && UniqueKeys(b)
    requires forall i, j :: 0 <= i < |a| && 0 <= j < |b| ==> a[i].0 != b[j].0
    ensures UniqueKeys(a + b)
  {
    var ab := a + b;
    forall i, j | 0 <= i < j < |ab| ensures ab[i].0 != ab[j].0 {
      if j < |a| {
        assert ab[i] == a[i] && ab[j] == a[j];
      } else if i >= |a| {
        assert ab[i] == b[i - |a|] && ab[j] == b[j - |a|];
      } else {
        assert ab[i] == a[i] && ab[j] == b[j - |a|];
      }
    }
  }

  /** No v2 key is a hook key: the v2 keys are at most 11 characters long,
      the hook keys at least 14. */
  lemma {:induction false} HookKeysFresh(v2: Fields, hooks: Fields)
    requires Keys(v2) == RpmSpecKeys
    requires Keys(hooks) == HookKeys
    ensures forall i, j :: 0 <= i < |v2| && 0 <= j < |hooks| ==> v2[i].0 != hooks[j].0
  {
    forall i, j | 0 <= i < |v2| && 0 <= j < |hooks| ensures v2[i].0 != hooks[j].0 {
      assert v2[i].0 == Keys(v2)[i] && hooks[j].0 == Keys(hooks)[j];
      assert |Keys(v2)[i]| <= 11 && |Keys(hooks)[j]| >= 14;
    }
  }

  /** The v3 data is the v2 data, unchanged and in place, followed by exactly
      the three hook keys, each holding its script. */
  lemma TemplateDataV3Extends(fullName: string, meta: Meta, year: string, plugin: string, read: string -> string)
    ensures TemplateDataV3(fullName, meta, year, plugin, read).fields
            == TemplateData(fullName, meta, year).fields + HookFields(plugin, read)
    ensures Keys(TemplateDataV3(fullName, meta, year, plugin, read).fields)
            == Keys(TemplateData(fullName, meta, year).fields) + HookKeys
    ensures Lookup(TemplateDataV3(fullName, meta, year, plugin, read).fields, "postinstall_hook")
            == Some(Str(read(Join(plugin, "post_install.sh"))))
    ensures Lookup(TemplateDataV3(fullName, meta, year, plugin, read).fields, "preinstall_hook")
            == Some(Str(read(Join(plugin, "pre_install.sh"))))
    ensures Lookup(TemplateDataV3(fullName, meta, year, plugin, read).fields, "uninstall_hook")
            == Some(Str(read(Join(plugin, "uninstall.sh"))))
  {
    var v2 := TemplateData(fullName, meta, year).fields;
    var hooks := HookFields(plugin, read);
    var all := v2 + hooks;
    TemplateDataKeys(fullName, meta, year);
    HookFieldsKeys(plugin, read);
    assert UniqueKeys(all) by {
      HookKeysFresh(v2, hooks);
      UniqueKeysConcat(v2, hooks);
    }
    assert Update(v2, hooks) == all by {
      Loaders.UpdateFreshFrom(all, |v2|);
      assert all[..|v2|] == v2 && all[|v2|..] == hooks;
    }
    assert Keys(all) == Keys(v2) + Keys(hooks) by {
      KeysConcat(v2, hooks);
    }
    assert all[8] == hooks[0] && all[9] == hooks[1] && all[10] == hooks[2];
    LookupAt(all, 8);
    LookupAt(all, 9);
    LookupAt(all, 10);
  }

  lemma KeysConcat(a: Fields, b: Fields)
    ensures Keys(a + b) == Keys(a) + Keys(b)
  {
    assert forall i :: 0 <= i < |a| + |b| ==> (a + b)[i].0 == (Keys(a) + Keys(b))[i];
  }

  /** The `Release` file context of the rpm builders. */
  function ReleaseContext(meta: Meta, pluginVersion: string): Json
  {
    Obj([("plugin_name", Str(meta.name)), ("major_version", Str(pluginVersion))])
  }

  /** What `build_ubuntu_repos` does in one repository: `dpkg-scanpackages`
      piped into `Packages.gz`, and for the rpm builders a rendered `Release`
      file. */
  function UbuntuRepo(b: Builder, env: Env, p: string): seq<Action>
  {
    if b.kind == V1 then [ExecPiped(["dpkg-scanpackages -m .", "gzip -c9 > Packages.gz"], p)]
    else [ExecPiped(["dpkg-scanpackages .", "gzip -c9 > Packages.gz"], p),
          RenderTemplate(env.abspath(Join(env.fpbDir, TemplatePath(b, "Release.mako"))),
                         Join(p, "Release"), ReleaseContext(b.meta, b.pluginVersion))]
  }

  /** `build_ubuntu_repos`: the steps of each repository in turn; it indexes
      but neither validates, writes checksums nor packages. */
  function UbuntuRepos(b: Builder, env: Env, paths: seq<string>): (r: seq<Action>)
    ensures |r| == (if b.kind == V1 then 1 else 2) * |paths|
    ensures NoneOf(r, Checksumming) && NoneOf(r, Packaging) && NoneOf(r, Validating)
  {
    if |paths| == 0 then []
    else
      var rest := UbuntuRepos(b, env, paths[1..]);
      NoneOfConcat(UbuntuRepo(b, env, paths[0]), rest, Checksumming);
      NoneOfConcat(UbuntuRepo(b, env, paths[0]), rest, Packaging);
      NoneOfConcat(UbuntuRepo(b, env, paths[0]), rest, Validating);
      UbuntuRepo(b, env, paths[0]) + rest
  }

  /** For the rpm builders, repository `i` gets its index and its `Release`
      file at positions `2i` and `2i + 1`. */
  lemma {:induction false} UbuntuReposAt(b: Builder, env: Env, paths: seq<string>, i: nat)
    requires b.kind != V1 && i < |paths|
    ensures UbuntuRepos(b, env, paths)[2 * i..2 * i + 2] == UbuntuRepo(b, env, paths[i])
  {
    var first := UbuntuRepo(b, env, paths[0]);
    var rest := UbuntuRepos(b, env, paths[1..]);
    assert UbuntuRepos(b, env, paths) == first + rest && |first| == 2 by {
      assert |UbuntuRepos(b, env, paths)| == 2 * |paths|;
    }
    if i == 0 {
      assert (first + rest)[..2] == first;
    } else {
      assert rest[2 * (i - 1)..2 * (i - 1) + 2] == UbuntuRepo(b, env, paths[i]) by {
        UbuntuReposAt(b, env, paths[1..], i - 1);
        assert paths[1..][i - 1] == paths[i];
      }
      assert (first + rest)[2 * i..2 * i + 2] == rest[2 * (i - 1)..2 * (i - 1) + 2] by {
        PairAfter(first, rest, i);
      }
    }
  }

  /** Pair `i ≥ 1` of a sequence that starts with a pair is pair `i - 1` of
      the rest. */
  lemma PairAfter<T>(first: seq<T>, rest: seq<T>, i: nat)
    requires |first| == 2 && 1 <= i && 2 * i <= |rest|
    ensures (first + rest)[2 * i..2 * i + 2] == rest[2 * (i - 1)..2 * (i - 1) + 2]
  {
    SliceAfter(first, rest, 2 * (i - 1), 2);
  }

  /** The plugin tree copied into the build source directory. */
  function CopySource(plugin: string, src: string): (r: seq<Action>)
    ensures NoneOf(r, Checksumming) && NoneOf(r, Packaging) && NoneOf(r, Validating)
  {
    [CreateDir(src), CopyFilesInDir(Join(plugin, "*"), src)]
  }

  /** `build_repos`: the source tree copied, then the ubuntu repositories,
      then the centos ones. */
  function BuildRepos(b: Builder, env: Env): (r: seq<Action>)
    ensures NoneOf(r, Checksumming) && NoneOf(r, Packaging) && NoneOf(r, Validating)
  {
    var src := BuildSrcDir(b.pluginPath);
    var head := CopySource(b.pluginPath, src);
    var u := UbuntuRepos(b, env, RepoGroup(b.meta.releases, src, "ubuntu"));
    var c := CentosRepos(RepoGroup(b.meta.releases, src, "centos"));
    NoneOfThree(head, u, c, Checksumming);
    NoneOfThree(head, u, c, Packaging);
    NoneOfThree(head, u, c, Validating);
    head + u + c
  }

  /** The rpm steps of `make_package`: the archive goes into `SOURCES`,
      the spec is rendered, `rpmbuild` runs and the rpms are copied into
      the plugin directory. */
  function RpmSteps(src: string, rpmPath: string, fullName: string, template: string, data: Json, plugin: string): (r: seq<Action>)
    ensures NoneOf(r, Indexing) && NoneOf(r, Checksumming) && NoneOf(r, Validating)
    ensures !NoneOf(r, Packaging)
  {
    var rpmSrc := Join(rpmPath, "SOURCES");
    var specDst := Join(rpmPath, "plugin_rpm.spec");
    var r := [CreateDir(rpmSrc),
              MakeTarGz(src, Join(rpmSrc, fullName + ".fp"), fullName),
              RenderTemplate(template, specDst, data),
              Exec(Rpmbuild(rpmPath, specDst), None),
              CopyFilesInDir(Join(Join(Join(rpmPath, "RPMS"), "noarch"), "*.rpm"), plugin)];
    assert Is(Packaging, r[1]);
    r
  }

  /** `make_package`: the `.fp` archive of v1, or the rpm of v2 and v3; it
      packages but neither indexes, validates nor writes checksums. */
  function MakePackage(b: Builder, env: Env): (r: seq<Action>)
    ensures NoneOf(r, Indexing) && NoneOf(r, Checksumming) && NoneOf(r, Validating)
    ensures !NoneOf(r, Packaging)
  {
    var src := BuildSrcDir(b.pluginPath);
    if b.kind == V1 then
      var r := [MakeTarGz(src, Join(b.pluginPath, FullName(b) + ".fp"), FullName(b))];
      assert Is(Packaging, r[0]);
      r
    else
      var data := if b.kind == V3 then TemplateDataV3(FullName(b), b.meta, env.year, b.pluginPath, env.read)
                  else TemplateData(FullName(b), b.meta, env.year);
      RpmSteps(src, RpmPath(b, env), FullName(b), env.abspath(Join(env.fpbDir, TemplatePath(b, "plugin_rpm.spec.mako"))),
               data, b.pluginPath)
  }

  /** What a build does once its checks pass: repositories, checksums file,
      package. */
  function BuildSteps(b: Builder, env: Env): seq<Action> {
    var p := b.pluginPath;
    BuildRepos(b, env) + [CreateChecksumsFile(BuildSrcDir(p), ChecksumsPath(p))] + MakePackage(b, env)
  }

  /** `BuilderBase.run`: clean, pre-build hook, check (required commands,
      then validation), repositories, checksums file, package. */
  function Run(b: Builder, env: Env): Outcome
  {
    var pre := Clean(b) + PreBuildHook(b, env.host);
    match CheckRequirements(Requires(b.kind), env.host.found)
    case Err(e) => Outcome(pre, Some(e))
    case Ok(_) =>
      var checked := pre + [Validate(b.pluginPath)];
      match env.validate(b.pluginPath)
      case Some(e) => Outcome(checked, Some(e))
      case None => Outcome(checked + BuildSteps(b, env), None)
  }

  /** `run` as written: `_validate` looks up `get_validator` in
      `version_mapping`, which has no such function, so the check raises
      once the required commands are found. */
  function RunAsWritten(b: Builder, env: Env): (r: Outcome)
    ensures r.error.Some?
  {
    var pre := Clean(b) + PreBuildHook(b, env.host);
    match CheckRequirements(Requires(b.kind), env.host.found)
    case Err(e) => Outcome(pre, Some(e))
    case Ok(_) => Outcome(pre, Some(Namespaces.NoAttribute("get_validator")))
  }

  // ---------------------------------------------------------------------
  // Properties of a build
  // ---------------------------------------------------------------------

  /** Steps before the check write nothing but what the hook writes. */
  lemma {:induction false} PreStepsProduceNothing(b: Builder, host: Host)
    ensures NoneOf(Clean(b) + PreBuildHook(b, host), Producing)
    ensures NoneOf(Clean(b) + PreBuildHook(b, host), Validating)
  {
    NoneOfConcat(Clean(b), PreBuildHook(b, host), Producing);
    NoneOfConcat(Clean(b), PreBuildHook(b, host), Validating);
  }

  /** A build whose required commands are missing stops after the clean-up
      and the pre-build hook: it validates nothing and produces nothing but
      what the hook itself does. */
  lemma {:induction false} RunStopsOnMissingCommands(b: Builder, env: Env)
    requires exists c :: c in Requires(b.kind) && !env.host.found(c)
    ensures Run(b, env).error == Some(MissingCommandsError(Missing(Requires(b.kind), env.host.found)))
    ensures NoneOf(Run(b, env).actions, Validating)
    ensures NoneOf(Run(b, env).actions, Producing)
  {
    assert CheckRequirements(Requires(b.kind), env.host.found).Err?;
    assert Run(b, env).actions == Clean(b) + PreBuildHook(b, env.host);
    PreStepsProduceNothing(b, env.host);
  }

  /** Validation runs exactly when every required command is found, and a
      failed validation stops the build before it produces anything. */
  lemma {:induction false} RunValidatesFirst(b: Builder, env: Env)
    ensures Validate(b.pluginPath) in Run(b, env).actions <==> forall c :: c in Requires(b.kind) ==> env.host.found(c)
    ensures Run(b, env).error.Some? ==> NoneOf(Run(b, env).actions, Producing)
    ensures Run(b, env).error.None? <==>
      (forall c :: c in Requires(b.kind) ==> env.host.found(c)) && env.validate(b.pluginPath).None?
  {
    var pre := Clean(b) + PreBuildHook(b, env.host);
    var p := b.pluginPath;
    PreStepsProduceNothing(b, env.host);
    if CheckRequirements(Requires(b.kind), env.host.found).Err? {
      assert Run(b, env).actions == pre;
      assert Validate(p) !in pre;
    } else {
      var checked := pre + [Validate(p)];
      assert checked[|pre|] == Validate(p);
      if env.validate(p).Some? {
        assert Run(b, env).actions == checked;
        NoneOfConcat(pre, [Validate(p)], Producing);
      } else {
        assert Run(b, env).actions == checked + BuildSteps(b, env);
        assert (checked + BuildSteps(b, env))[|pre|] == Validate(p);
      }
    }
  }

  /** A completed build is checked steps, repositories, checksums and
      package, in that order; each stretch holds only its own kind of the
      ordered steps, so indexing precedes checksums, checksums precede
      packaging and validation precedes packaging. */
  lemma {:induction false} BuildOrder(pre: seq<Action>, repos: seq<Action>, sums: seq<Action>, pkg: seq<Action>)
    requires NoneOf(pre, Indexing) && NoneOf(pre, Checksumming) && NoneOf(pre, Packaging)
    requires NoneOf(repos, Checksumming) && NoneOf(repos, Packaging)
    requires NoneOf(sums, Indexing) && NoneOf(sums, Packaging)
    requires NoneOf(pkg, Indexing) && NoneOf(pkg, Checksumming) && NoneOf(pkg, Validating)
    ensures Before(pre + (repos + sums + pkg), Indexing, Checksumming)
    ensures Before(pre + (repos + sums + pkg), Checksumming, Packaging)
    ensures Before(pre + (repos + sums + pkg), Validating, Packaging)
  {
    var all := pre + (repos + sums + pkg);
    assert all == (pre + repos) + (sums + pkg);
    assert all == (pre + repos + sums) + pkg;
    NoneOfConcat(pre, repos, Checksumming);
    NoneOfConcat(sums, pkg, Indexing);
    Separated(pre + repos, sums + pkg, Indexing, Checksumming);
    NoneOfThree(pre, repos, sums, Packaging);
    Separated(pre + repos + sums, pkg, Checksumming, Packaging);
    Separated(pre + repos + sums, pkg, Validating, Packaging);
  }

  /** The steps before a successful check: clean-up, hook, validation. */
  lemma {:induction false} CheckedStepsOrdered(b: Builder, host: Host)
    ensures var pre := Clean(b) + PreBuildHook(b, host) + [Validate(b.pluginPath)];
      NoneOf(pre, Indexing) && NoneOf(pre, Checksumming) && NoneOf(pre, Packaging)
  {
    var v := [Validate(b.pluginPath)];
    NoneOfThree(Clean(b), PreBuildHook(b, host), v, Indexing);
    NoneOfThree(Clean(b), PreBuildHook(b, host), v, Checksumming);
    NoneOfThree(Clean(b), PreBuildHook(b, host), v, Packaging);
  }

  /** In a build that completes, the checksums file is written after every
      repository index and before anything is packaged, and packaging
      follows validation. */
  lemma {:induction false} RunChecksumsOrder(b: Builder, env: Env)
    requires CheckRequirements(Requires(b.kind), env.host.found).Ok? && env.validate(b.pluginPath).None?
    ensures Before(Run(b, env).actions, Indexing, Checksumming)
    ensures Before(Run(b, env).actions, Checksumming, Packaging)
    ensures Before(Run(b, env).actions, Validating, Packaging)
  {
    var p := b.pluginPath;
    var pre := Clean(b) + PreBuildHook(b, env.host) + [Validate(p)];
    var sums := [CreateChecksumsFile(BuildSrcDir(p), ChecksumsPath(p))];
    assert Run(b, env).actions == pre + (BuildRepos(b, env) + sums + MakePackage(b, env));
    CheckedStepsOrdered(b, env.host);
    BuildOrder(pre, BuildRepos(b, env), sums, MakePackage(b, env));
  }

  /** The build as written stops at the check on every input: after the
      clean-up and the hook, before validating or producing anything. */
  lemma {:induction false} RunAsWrittenNeverBuilds(b: Builder, env: Env)
    ensures NoneOf(RunAsWritten(b, env).actions, Producing)
    ensures NoneOf(RunAsWritten(b, env).actions, Validating)
    ensures CheckRequirements(Requires(b.kind), env.host.found).Ok? ==>
      RunAsWritten(b, env).error == Some(Namespaces.NoAttribute("get_validator"))
  {
    PreStepsProduceNothing(b, env.host);
  }


  // ---------------------------------------------------------------------
  // Package masks
  // ---------------------------------------------------------------------

  /** `glob` matching of one pattern against one path: `*` matches any run
      of characters other than '/', every other character itself. */
  predicate GlobMatch(m: string, s: string)
    decreases |m| + |s|
  {
    if |m| == 0 then |s| == 0
    else if m[0] == '*' then GlobMatch(m[1..], s) || (|s| > 0 && s[0] != '/' && GlobMatch(m, s[1..]))
    else |s| > 0 && s[0] == m[0] && GlobMatch(m[1..], s[1..])
  }

  lemma {:induction false} GlobLiteral(q: string)
    requires '*' !in q
    ensures GlobMatch(q, q)
  {
    if |q| > 0 {
      assert q[0] != '*';
      assert '*' !in q[1..] by { assert forall i :: 0 <= i < |q[1..]| ==> q[1..][i] == q[i + 1]; }
      GlobLiteral(q[1..]);
    }
  }

  lemma {:induction false} GlobStar(x: string, q: string)
    requires '/' !in x && '*' !in q
    ensures GlobMatch("*" + q, x + q)
  {
    if |x| == 0 {
      assert ("*" + q)[1..] == q && x + q == q;
      GlobLiteral(q);
    } else {
      assert (x + q)[0] == x[0] && (x + q)[1..] == x[1..] + q;
      assert '/' !in x[1..] by { assert forall i :: 0 <= i < |x[1..]| ==> x[1..][i] == x[i + 1]; }
      GlobStar(x[1..], q);
    }
  }

  lemma {:induction false} GlobPrefix(p: string, m: string, s: string)
    requires '*' !in p && GlobMatch(m, s)
    ensures GlobMatch(p + m, p + s)
  {
    if |p| > 0 {
      assert (p + m)[0] == p[0] && (p + m)[1..] == p[1..] + m;
      assert (p + s)[0] == p[0] && (p + s)[1..] == p[1..] + s;
      assert '*' !in p[1..] by { assert forall i :: 0 <= i < |p[1..]| ==> p[1..][i] == p[i + 1]; }
      GlobPrefix(p[1..], m, s);
    } else {
      assert p + m == m && p + s == s;
    }
  }

  /** What `join(a, b)` puts before a relative `b`. */
  function JoinHead(a: string): string {
    if a == "" || a[|a| - 1] == '/' then a else a + "/"
  }

  /** `clean` removes an earlier build's package: the archive `make_package`
      writes for v1 matches `result_package_mask`. */
  lemma ArchiveMatchesMask(b: Builder)
    requires b.kind == V1
    requires '*' !in b.pluginPath && '*' !in b.meta.name && '/' !in b.meta.version
    ensures GlobMatch(ResultPackageMask(b), Join(b.pluginPath, FullName(b) + ".fp"))
  {
    var name := b.meta.name;
    var v := b.meta.version;
    var pre := name + "-";
    var mask := pre + ("*" + ".fp");
    var archive := pre + (v + ".fp");
    assert name + "-*.fp" == mask;
    assert FullName(b) + ".fp" == archive;
    assert '*' !in pre;
    GlobStar(v, ".fp");
    GlobPrefix(pre, "*" + ".fp", v + ".fp");
    var head := if IsAbsolute(mask) then "" else JoinHead(b.pluginPath);
    assert IsAbsolute(mask) == IsAbsolute(archive);
    assert Join(b.pluginPath, mask) == head + mask;
    assert Join(b.pluginPath, archive) == head + archive;
    assert '*' !in head;
    GlobPrefix(head, mask, archive);
  }
  // ---------------------------------------------------------------------
  // The older builders of actions/build.py
  // ---------------------------------------------------------------------

  datatype LegacyKind = LegacyV1 | LegacyV2

  datatype LegacyBuilder = LegacyBuilder(kind: LegacyKind, pluginPath: string, meta: Meta, pluginVersion: string)

  predicate LegacyConstructed(b: LegacyBuilder) {
    b.kind == LegacyV2 ==> Versions.SplitNameRpm(b.meta.version) == Ok((b.pluginVersion, b.meta.version))
  }

  /** `BuildPluginV1`/`BuildPluginV2` construction: the rpm builder splits
      the version. */
  function NewLegacyBuilder(kind: LegacyKind, pluginPath: string, meta: Meta): (r: Result<LegacyBuilder>)
    ensures r.Ok? <==> (kind == LegacyV2 ==> Versions.SplitNameRpm(meta.version).Ok?)
    ensures r.Ok? ==> LegacyConstructed(r.value) && r.value.kind == kind && r.value.pluginPath == pluginPath && r.value.meta == meta
  {
    if kind == LegacyV1 then Ok(LegacyBuilder(kind, pluginPath, meta, ""))
    else
      match Versions.SplitNameRpm(meta.version)
      case Err(e) =>
        assert kind == LegacyV2;
        Err(e)
      case Ok(split) => Ok(LegacyBuilder(kind, pluginPath, meta, split.0))
  }

  /** The older constructor as written: it reads the metadata with
      `utils.parse_yaml`, which the older `utils.py` does not define, so
      every builder raises before the version is looked at. */
  function NewLegacyBuilderAsWritten(kind: LegacyKind, pluginPath: string, meta: Meta): (r: Result<LegacyBuilder>)
    ensures r == Err(Namespaces.NoAttribute("parse_yaml"))
  {
    Namespaces.OlderUtilsLacksParseYaml();
    Err(Namespaces.Attribute(Namespaces.OlderUtilsNames, "parse_yaml").error)
  }

  /** The `.fp` builder is built under the corrected reading and raises as
      written, whatever the metadata holds. */
  lemma {:induction false} NewLegacyBuilderDiscrepancy(pluginPath: string, meta: Meta)
    ensures NewLegacyBuilder(LegacyV1, pluginPath, meta).Ok?
    ensures NewLegacyBuilderAsWritten(LegacyV1, pluginPath, meta).error.kind == AttributeError
  {
  }

  function LegacyRequires(kind: LegacyKind): seq<string> {
    match kind
    case LegacyV1 => ["rpm", "createrepo", "dpkg-scanpackages"]
    case LegacyV2 => ["rpmbuild", "rpm", "createrepo", "dpkg-scanpackages"]
  }

  function LegacyFullName(b: LegacyBuilder): string
  {
    if b.kind == LegacyV1 then b.meta.name + "-" + b.meta.version
    else b.meta.name + "-" + b.pluginVersion
  }

  function LegacyReleaseContext(meta: Meta, pluginVersion: string): Json
  {
    var authors := meta.authors.GetOr([]);
    Obj([("authors", List(seq(|authors|, i requires 0 <= i < |authors| => Str(authors[i])))),
         ("plugin_name", Str(meta.name)),
         ("major_version", Str(pluginVersion))])
  }

  function LegacyUbuntuRepo(b: LegacyBuilder, env: Env, p: string): seq<Action> {
    var scan := Exec(ScanPackages, Some(p));
    if b.kind == LegacyV1 then [scan]
    else [scan, RenderTemplate(env.abspath(Join(env.fpbDir, "templates/build/Release.mako")),
                               Join(p, "Release"), LegacyReleaseContext(b.meta, b.pluginVersion))]
  }

  /** The older `build_ubuntu_repos`: a shell pipeline run in each
      repository, and a rendered `Release` file for the rpm builder. */
  function LegacyUbuntuRepos(b: LegacyBuilder, env: Env, paths: seq<string>): (r: seq<Action>)
    ensures |r| == (if b.kind == LegacyV1 then 1 else 2) * |paths|
    ensures NoneOf(r, Checksumming) && NoneOf(r, Packaging) && NoneOf(r, Validating)
  {
    if |paths| == 0 then []
    else
      var rest := LegacyUbuntuRepos(b, env, paths[1..]);
      NoneOfConcat(LegacyUbuntuRepo(b, env, paths[0]), rest, Checksumming);
      NoneOfConcat(LegacyUbuntuRepo(b, env, paths[0]), rest, Packaging);
      NoneOfConcat(LegacyUbuntuRepo(b, env, paths[0]), rest, Validating);
      LegacyUbuntuRepo(b, env, paths[0]) + rest
  }

  /** The older rpm steps: as the newer ones, but an earlier archive is
      removed before the new one is written. */
  function LegacyRpmSteps(src: string, rpmPath: string, fullName: string, template: string, data: Json, plugin: string): (r: seq<Action>)
    ensures NoneOf(r, Indexing) && NoneOf(r, Checksumming) && NoneOf(r, Validating)
    ensures !NoneOf(r, Packaging)
  {
    var rpmSrc := Join(rpmPath, "SOURCES");
    var tar := Join(rpmSrc, fullName + ".fp");
    var specDst := Join(rpmPath, "plugin_rpm.spec");
    var r := [CreateDir(rpmSrc),
              Remove(tar),
              MakeTarGz(src, tar, fullName),
              RenderTemplate(template, specDst, data),
              Exec(Rpmbuild(rpmPath, specDst), None),
              CopyFilesInDir(Join(Join(Join(rpmPath, "RPMS"), "noarch"), "*.rpm"), plugin)];
    assert Is(Packaging, r[2]);
    r
  }

  /** The older `make_package`: an earlier archive is removed before the new
      one is written. */
  function LegacyMakePackage(b: LegacyBuilder, env: Env): (r: seq<Action>)
    ensures NoneOf(r, Indexing) && NoneOf(r, Checksumming) && NoneOf(r, Validating)
    ensures !NoneOf(r, Packaging)
  {
    var dir := BuildSrcDir(b.pluginPath);
    if b.kind == LegacyV1 then
      var tar := Join(b.pluginPath, LegacyFullName(b) + ".fp");
      var r := [Remove(tar), MakeTarGz(dir, tar, LegacyFullName(b))];
      assert Is(Packaging, r[1]);
      r
    else
      LegacyRpmSteps(dir, env.abspath(Join(BuildDir(b.pluginPath), "rpm")), LegacyFullName(b),
                     env.abspath(Join(env.fpbDir, "templates/build/plugin_rpm.spec.mako")),
                     TemplateData(LegacyFullName(b), b.meta, env.year), b.pluginPath)
  }

  /** The older `build_repos`, which also empties the source tree first. */
  function LegacyBuildRepos(b: LegacyBuilder, env: Env): (r: seq<Action>)
    ensures NoneOf(r, Checksumming) && NoneOf(r, Packaging) && NoneOf(r, Validating)
  {
    var dir := BuildSrcDir(b.pluginPath);
    var head := [Remove(dir)] + CopySource(b.pluginPath, dir);
    NoneOfConcat([Remove(dir)], CopySource(b.pluginPath, dir), Checksumming);
    NoneOfConcat([Remove(dir)], CopySource(b.pluginPath, dir), Packaging);
    NoneOfConcat([Remove(dir)], CopySource(b.pluginPath, dir), Validating);
    var u := LegacyUbuntuRepos(b, env, RepoGroup(b.meta.releases, dir, "ubuntu"));
    var c := CentosRepos(RepoGroup(b.meta.releases, dir, "centos"));
    NoneOfThree(head, u, c, Checksumming);
    NoneOfThree(head, u, c, Packaging);
    NoneOfThree(head, u, c, Validating);
    head + u + c
  }

  function LegacyHook(b: LegacyBuilder, host: Host): (r: seq<Action>)
    ensures NoneOf(r, Indexing) && NoneOf(r, Checksumming) && NoneOf(r, Packaging)
    ensures NoneOf(r, Validating) && NoneOf(r, Producing)
  {
    var hookPath := Join(b.pluginPath, "pre_build_hook");
    if host.found(hookPath) then [RunHook(hookPath, None)] else []
  }

  function LegacyBuildSteps(b: LegacyBuilder, env: Env): seq<Action> {
    var dir := BuildSrcDir(b.pluginPath);
    LegacyBuildRepos(b, env) + [CreateChecksumsFile(dir, Join(dir, "checksums.sha1"))] + LegacyMakePackage(b, env)
  }

  /** `BaseBuildPlugin.run`: hook, check, repositories, checksums, package;
      the build directory is `.build/src` and is cleaned by `build_repos`. */
  function LegacyRun(b: LegacyBuilder, env: Env): Outcome
  {
    var hook := LegacyHook(b, env.host);
    match CheckRequirements(LegacyRequires(b.kind), env.host.found)
    case Err(e) => Outcome(hook, Some(e))
    case Ok(_) =>
      var checked := hook + [Validate(b.pluginPath)];
      match env.validate(b.pluginPath)
      case Some(e) => Outcome(checked, Some(e))
      case None => Outcome(checked + LegacyBuildSteps(b, env), None)
  }

  /** The older build keeps its checksums file where the newer one does. */
  lemma {:induction false} LegacyChecksumsPath(b: LegacyBuilder, env: Env)
    requires CheckRequirements(LegacyRequires(b.kind), env.host.found).Ok? && env.validate(b.pluginPath).None?
    ensures CreateChecksumsFile(BuildSrcDir(b.pluginPath), ChecksumsPath(b.pluginPath)) in LegacyRun(b, env).actions
  {
    var hook := LegacyHook(b, env.host);
    var checked := hook + [Validate(b.pluginPath)];
    var repos := LegacyBuildRepos(b, env);
    var dir := BuildSrcDir(b.pluginPath);
    var sums := CreateChecksumsFile(dir, Join(dir, "checksums.sha1"));
    assert LegacyRun(b, env).actions == checked + LegacyBuildSteps(b, env);
    assert LegacyRun(b, env).actions[|checked| + |repos|] == sums;
  }

  /** The older build stops at a missing command or a failed validation
      before producing anything, and validates exactly when every command
      is found. */
  lemma {:induction false} LegacyRunValidatesFirst(b: LegacyBuilder, env: Env)
    ensures LegacyRun(b, env).error.Some? ==> NoneOf(LegacyRun(b, env).actions, Producing)
    ensures Validate(b.pluginPath) in LegacyRun(b, env).actions <==>
      forall c :: c in LegacyRequires(b.kind) ==> env.host.found(c)
  {
    var p := b.pluginPath;
    var hook := LegacyHook(b, env.host);
    var pre := hook + [Validate(p)];
    assert pre[|hook|] == Validate(p);
    NoneOfConcat(hook, [Validate(p)], Producing);
    if CheckRequirements(LegacyRequires(b.kind), env.host.found).Err? {
      assert LegacyRun(b, env).actions == hook;
      assert Validate(p) !in hook;
    } else if env.validate(p).Some? {
      assert LegacyRun(b, env).actions == pre;
    } else {
      assert LegacyRun(b, env).actions == pre + LegacyBuildSteps(b, env);
      assert LegacyRun(b, env).actions[|hook|] == Validate(p);
    }
  }

  /** The steps before a successful older check: hook, validation. */
  lemma {:induction false} LegacyCheckedOrdered(b: LegacyBuilder, host: Host)
    ensures var pre := LegacyHook(b, host) + [Validate(b.pluginPath)];
      NoneOf(pre, Indexing) && NoneOf(pre, Checksumming) && NoneOf(pre, Packaging)
  {
    var v := [Validate(b.pluginPath)];
    NoneOfConcat(LegacyHook(b, host), v, Indexing);
    NoneOfConcat(LegacyHook(b, host), v, Checksumming);
    NoneOfConcat(LegacyHook(b, host), v, Packaging);
  }

  /** A completed older build indexes, then writes the checksums file, then
      packages, and validates before packaging. */
  lemma {:induction false} LegacyRunOrder(b: LegacyBuilder, env: Env)
    requires CheckRequirements(LegacyRequires(b.kind), env.host.found).Ok? && env.validate(b.pluginPath).None?
    ensures Before(LegacyRun(b, env).actions, Indexing, Checksumming)
    ensures Before(LegacyRun(b, env).actions, Checksumming, Packaging)
    ensures Before(LegacyRun(b, env).actions, Validating, Packaging)
  {
    var p := b.pluginPath;
    var hook := LegacyHook(b, env.host);
    var pre := hook + [Validate(p)];
    var dir := BuildSrcDir(p);
    var sums := [CreateChecksumsFile(dir, Join(dir, "checksums.sha1"))];
    assert LegacyRun(b, env).actions == pre + (LegacyBuildRepos(b, env) + sums + LegacyMakePackage(b, env));
    LegacyCheckedOrdered(b, env.host);
    BuildOrder(pre, LegacyBuildRepos(b, env), sums, LegacyMakePackage(b, env));
  }
}

=== FILE: checks.dfy ===
/**
 The report-producing checks of `fuel_plugin_builder/checks.py`. Each check
 starts from a report node titled by its `@check` decorator, adds info,
 warning and error lines to it, and returns it; a Python exception raised
 on malformed data is an `Err`.

 The file system, the glob and the JSON-Schema engine are parameters.
 */
module Checks {
  import opened Base
  import opened Text
  import opened Json
  import opened Versions
  import opened SchemaErrors
  import opened Reports
  import LegacyValidator
  import Namespaces

  // ---------------------------------------------------------------------
  // The decorator
  // ---------------------------------------------------------------------

  /** `@check` used bare, or `@check('title')`. */
  datatype TitleArg = Bare | Given(title: string)

  /** The title of the report node the decorator creates: the given title,
      or one naming the decorated function when none is given. */
  function CheckTitle(t: TitleArg, functionName: string): (r: string)
    ensures t.Given? ==> r == t.title
    ensures t.Bare? ==> r == "Running check function '" + functionName + "'"
    ensures t.Bare? ==> r[|r| - |functionName| - 1..|r| - 1] == functionName
  {
    match t
    case Given(title) => title
    case Bare => "Running check function '" + functionName + "'"
  }

  /** The wrapper `@check` builds, as written: its first step is
      `utils.ReportNode(title)`, and the `utils` package never binds
      `ReportNode` (the class lives in `utils/reports.py`, which the
      package's `__init__` does not import), so every decorated check raises
      before its body runs. The checks below model the intended wrapper:
      each body starts from `Titled(CheckTitle(...))`. */
  function CheckedAsWritten(t: TitleArg, functionName: string): (r: Result<Node>)
    ensures r == Err(Namespaces.NoAttribute("ReportNode"))
  {
    Namespaces.UtilsLacksReportNode();
    Err(Namespaces.Attribute(Namespaces.UtilsNames, "ReportNode").error)
  }

  // ---------------------------------------------------------------------
  // JSON-Schema errors as report nodes
  // ---------------------------------------------------------------------

  const SchemaTitle: string := "Applying JSON Schema to data"

  /** The error leaf of one schema error: its message at level `error`. */
  function ErrorLeaf(e: SchemaError): (n: Node)
    ensures n.failed && n.children == [] && n.text == e.message
  {
    MakeNode(e.message, ErrorLevel, [], None)
  }

  /** The node of one error without its sub-errors: the error leaf, under a
      node titled with the value path when that path is not empty. */
  function ErrorEntry(e: SchemaError): (n: Node)
    ensures FailedCount(Flatten(n)) == 1
    ensures PathText(e.path) == "" <==> n == ErrorLeaf(e)
    ensures PathText(e.path) != "" ==> n.text == PathText(e.path) && !n.failed && n.children == [ErrorLeaf(e)]
  {
    var path := PathText(e.path);
    if path != "" then
      var n := AddNodes(Titled(path), [ErrorLeaf(e)]);
      assert FlattenAll([ErrorLeaf(e)]) == Flatten(ErrorLeaf(e)) + FlattenAll([]);
      assert Flatten(n) == [n, ErrorLeaf(e)];
      n
    else
      assert Flatten(ErrorLeaf(e)) == [ErrorLeaf(e)];
      ErrorLeaf(e)
  }

  /** The nodes `_convert_errors_tree_report_tree` adds, as the code is
      written: `add_nodes` returns the node it was called on, so the
      sub-errors of an error land beside it, in the same list, rather than
      beneath it. */
  function ConvertFlat(errors: seq<SchemaError>): (r: seq<Node>)
    decreases errors, 1
  {
    SortByPathMembers(errors);
    ConvertFlatSorted(SortByPath(errors), errors)
  }

  function ConvertFlatSorted(sorted: seq<SchemaError>, bound: seq<SchemaError>): (r: seq<Node>)
    requires forall i :: 0 <= i < |sorted| ==> sorted[i] in bound
    decreases bound, 0, |sorted|
  {
    if |sorted| == 0 then []
    else
      assert sorted[0] in bound;
      [ErrorEntry(sorted[0])] + ConvertFlat(sorted[0].context)
        + ConvertFlatSorted(sorted[1..], bound)
  }

  /** The nodes the conversion adds as its comment intends: one node per
      error, in path order, each holding the nodes of its own sub-errors
      (under the path node when there is one, else under the error leaf). */
  function ConvertNested(errors: seq<SchemaError>): (r: seq<Node>)
    ensures |r| == |errors|
    decreases errors, 1
  {
    SortByPathMembers(errors);
    ConvertNestedSorted(SortByPath(errors), errors)
  }

  function ConvertNestedSorted(sorted: seq<SchemaError>, bound: seq<SchemaError>): (r: seq<Node>)
    requires forall i :: 0 <= i < |sorted| ==> sorted[i] in bound
    ensures |r| == |sorted|
    decreases bound, 0, |sorted|
  {
    if |sorted| == 0 then []
    else
      assert sorted[0] in bound;
      [AddNodes(ErrorEntry(sorted[0]), ConvertNested(sorted[0].context))]
        + ConvertNestedSorted(sorted[1..], bound)
  }

  /** As written, every error at every depth becomes one entry of the same
      list, and each entry holds exactly one failure. */
  lemma {:induction false} ConvertFlatCounts(errors: seq<SchemaError>)
    ensures |ConvertFlat(errors)| == CountErrors(errors)
    ensures FailedCount(FlattenAll(ConvertFlat(errors))) == CountErrors(errors)
    decreases errors, 1
  {
    SortByPathMembers(errors);
    ConvertFlatSortedCounts(SortByPath(errors), errors);
    SortByPathCount(errors);
  }

  lemma {:induction false} ConvertFlatSortedCounts(sorted: seq<SchemaError>, bound: seq<SchemaError>)
    requires forall i :: 0 <= i < |sorted| ==> sorted[i] in bound
    ensures |ConvertFlatSorted(sorted, bound)| == CountErrors(sorted)
    ensures FailedCount(FlattenAll(ConvertFlatSorted(sorted, bound))) == CountErrors(sorted)
    decreases bound, 0, |sorted|
  {
    if |sorted| > 0 {
      assert sorted[0] in bound;
      var e := sorted[0];
      var head := [ErrorEntry(e)];
      var sub := ConvertFlat(e.context);
      var rest := ConvertFlatSorted(sorted[1..], bound);
      ConvertFlatCounts(e.context);
      ConvertFlatSortedCounts(sorted[1..], bound);
      assert ConvertFlatSorted(sorted, bound) == head + sub + rest;
      FlattenAllAppend(head + sub, rest);
      FlattenAllAppend(head, sub);
      FailedCountAppend(FlattenAll(head) + FlattenAll(sub), FlattenAll(rest));
      FailedCountAppend(FlattenAll(head), FlattenAll(sub));
      assert head[1..] == [];
      assert FlattenAll(head) == Flatten(ErrorEntry(e));
    }
  }

  /** As intended, the nodes hold exactly one failure per error at every
      depth, the same count the flat list has. */
  lemma {:induction false} ConvertNestedCounts(errors: seq<SchemaError>)
    ensures FailedCount(FlattenAll(ConvertNested(errors))) == CountErrors(errors)
    decreases errors, 1
  {
    SortByPathMembers(errors);
    ConvertNestedSortedCounts(SortByPath(errors), errors);
    SortByPathCount(errors);
  }

  lemma {:induction false} ConvertNestedSortedCounts(sorted: seq<SchemaError>, bound: seq<SchemaError>)
    requires forall i :: 0 <= i < |sorted| ==> sorted[i] in bound
    ensures FailedCount(FlattenAll(ConvertNestedSorted(sorted, bound))) == CountErrors(sorted)
    decreases bound, 0, |sorted|
  {
    if |sorted| > 0 {
      assert sorted[0] in bound;
      var e := sorted[0];
      var sub := ConvertNested(e.context);
      var node := AddNodes(ErrorEntry(e), sub);
      var rest := ConvertNestedSorted(sorted[1..], bound);
      ConvertNestedCounts(e.context);
      ConvertNestedSortedCounts(sorted[1..], bound);
      assert ConvertNestedSorted(sorted, bound) == [node] + rest;
      FlattenAllAppend([node], rest);
      FailedCountAppend(FlattenAll([node]), FlattenAll(rest));
      assert [node][1..] == [];
      assert FlattenAll([node]) == Flatten(node);
      AddNodesCounts(ErrorEntry(e), sub, 0);
      CountFailuresIsFailedNodes(node, 0);
      CountFailuresIsFailedNodes(ErrorEntry(e), 0);
    }
  }

  /** The smallest case that shows the difference: one error with one
      sub-error gives two sibling entries as written, one nested entry as
      intended. */
  lemma {:induction false} FlatHoistsSubErrors()
    ensures var inner := SchemaError("inner", [], 0, []);
      var outer := SchemaError("outer", [], 0, [inner]);
      ConvertFlat([outer]) == [ErrorLeaf(outer), ErrorLeaf(inner)]
      && ConvertNested([outer]) == [AddNodes(ErrorLeaf(outer), [ErrorLeaf(inner)])]
  {
    var inner := SchemaError("inner", [], 0, []);
    var outer := SchemaError("outer", [], 0, [inner]);
    assert PathText([]) == "";
    assert ErrorEntry(inner) == ErrorLeaf(inner);
    assert ErrorEntry(outer) == ErrorLeaf(outer);
    assert SortByPath([inner]) == [inner];
    assert SortByPath([outer]) == [outer];
    assert SortByPath([]) == [];
    assert ConvertFlat([]) == [];
    assert ConvertNested([]) == [];
    assert [inner][1..] == [] && [outer][1..] == [];
    assert ConvertFlat([inner]) == [ErrorLeaf(inner)] + ConvertFlat([]) + ConvertFlatSorted([], [inner]);
    assert ConvertFlat([outer]) == [ErrorLeaf(outer)] + ConvertFlat([inner]) + ConvertFlatSorted([], [outer]);
    assert ConvertNested([inner]) == [AddNodes(ErrorLeaf(inner), [])] + ConvertNestedSorted([], [inner]);
    assert AddNodes(ErrorLeaf(inner), []) == ErrorLeaf(inner);
    assert ConvertNestedSorted([], [inner]) == [] && ConvertNestedSorted([], [outer]) == [];
    assert ConvertNested([inner]) == [ErrorLeaf(inner)];
    assert ConvertNested([outer]) == [AddNodes(ErrorLeaf(outer), ConvertNested([inner]))] + ConvertNestedSorted([], [outer]);
  }

  /** `json_schema_is_valid(schema, data)`, with the sub-errors nested as
      intended: one entry per error the engine reports, and as many
      failures as errors at every depth, so the report is successful
      exactly when the data conforms. */
  function JsonSchemaIsValid(engine: Engine, schema: Json, data: Json): (r: Node)
    ensures r.text == SchemaTitle && !r.failed
    ensures |r.children| == |engine(data, schema)|
    ensures CountFailures(r, 0) == CountErrors(engine(data, schema))
    ensures IsSuccessful(r) <==> engine(data, schema) == []
  {
    var errors := engine(data, schema);
    var r := AddNodes(Titled(SchemaTitle), ConvertNested(errors));
    ConvertNestedCounts(errors);
    AddNodesCounts(Titled(SchemaTitle), ConvertNested(errors), 0);
    r
  }

  /** The body of `json_schema_is_valid` exactly as written, run on the node
      the intended decorator hands it (as written the decorator raises first,
      see `CheckedAsWritten`): the same failures as `JsonSchemaIsValid`, but
      one top-level entry per error at every depth. */
  function JsonSchemaIsValidAsWritten(engine: Engine, schema: Json, data: Json): (r: Node)
    ensures r.text == SchemaTitle && !r.failed
    ensures |r.children| == CountErrors(engine(data, schema))
    ensures CountFailures(r, 0) == CountErrors(engine(data, schema))
  {
    var errors := engine(data, schema);
    var r := AddNodes(Titled(SchemaTitle), ConvertFlat(errors));
    ConvertFlatCounts(errors);
    AddNodesCounts(Titled(SchemaTitle), ConvertFlat(errors), 0);
    r
  }

  /** Data the engine accepts gives a successful schema report under the
      intended decorator, and an `AttributeError` under the one as written. */
  lemma CheckDecoratorDiscrepancy(engine: Engine, schema: Json, data: Json)
    requires engine(data, schema) == []
    ensures IsSuccessful(JsonSchemaIsValid(engine, schema, data))
    ensures CheckedAsWritten(Given(SchemaTitle), "json_schema_is_valid").Err?
  {
  }

  /** The schema report of a value holds no failure exactly when the
      engine finds no error. */
  lemma {:induction false} SchemaReportClean(engine: Engine, schema: Json, data: Json)
    ensures FailedCount(Flatten(JsonSchemaIsValid(engine, schema, data))) == 0 <==> engine(data, schema) == []
  {
    CountFailuresIsFailedNodes(JsonSchemaIsValid(engine, schema, data), 0);
  }

  // ---------------------------------------------------------------------
  // Records checked against the schema of their `type`
  // ---------------------------------------------------------------------

  const MultiTitle: string := "Applying multiple JSON Schemas distinguished by record 'type' field"

  /** `schemas.get(record_type)` taken as present only when it is not
      `None`: a string type names a schema; numbers, booleans and `None`
      match no key; lists and dictionaries are unhashable. */
  function SchemaFor(schemas: Fields, recordType: Json): (r: Result<Option<Json>>)
    ensures r.Err? <==> recordType.List? || recordType.Obj?
    ensures r.Ok? && r.value.Some? <==>
      recordType.Str? && Lookup(schemas, recordType.s).Some? && !Lookup(schemas, recordType.s).value.Null?
    ensures r.Ok? && r.value.Some? ==> r.value == Lookup(schemas, recordType.s)
  {
    match recordType
    case List(_) => Err(Error(TypeError, "unhashable type: 'list'"))
    case Obj(_) => Err(Error(TypeError, "unhashable type: 'dict'"))
    case Str(t) =>
      (match Lookup(schemas, t)
       case Some(s) => if s.Null? then Ok(None) else Ok(Some(s))
       case None => Ok(None))
    case _ => Ok(None)
  }

  /** A record can be checked at all: it is a dictionary whose `type` is
      hashable. */
  predicate RecordCheckable(schemas: Fields, record: Json) {
    record.Obj? && SchemaFor(schemas, GetOr(record, "type", Str("")).value).Ok?
  }

  /** A record passes when its type has a schema and it conforms to it. */
  predicate RecordConforms(engine: Engine, schemas: Fields, record: Json) {
    && GetOr(record, "type", Str("")).Ok?
    && SchemaFor(schemas, GetOr(record, "type", Str("")).value).Ok?
    && SchemaFor(schemas, GetOr(record, "type", Str("")).value).value.Some?
    && engine(record, SchemaFor(schemas, GetOr(record, "type", Str("")).value).value.value) == []
  }

  /** The two nodes one record adds: the `Checking: ...` info line, then
      either its schema report or the `Invalid type` error. */
  function RecordNodes(engine: Engine, schemas: Fields, show: Json -> string, record: Json, index: nat): (r: Result<seq<Node>>)
    ensures r.Ok? <==> RecordCheckable(schemas, record)
    ensures r.Ok? ==> |r.value| == 2 && r.value[0].level == InfoLevel && !r.value[0].failed && r.value[0].children == []
    ensures r.Ok? ==> (FailedCount(FlattenAll(r.value)) == 0 <==> RecordConforms(engine, schemas, record))
  {
    var recordType :- GetOr(record, "type", Str(""));
    var schema :- SchemaFor(schemas, recordType);
    var id := match Lookup(record.fields, "id")
              case Some(v) => Display(v, show)
              case None => NatToString(index);
    var info := MakeNode("Checking: " + id + " of type " + Display(recordType, show), InfoLevel, [], None);
    var second := match schema
                  case Some(s) => JsonSchemaIsValid(engine, s, record)
                  case None =>
                    MakeNode("Invalid type: " + Display(recordType, show) + " for record: " + NatToString(index),
                             ErrorLevel, [], None);
    RecordNodesClean(engine, info, second);
    if schema.Some? then SchemaReportClean(engine, schema.value, record); Ok([info, second])
    else assert Flatten(second) == [second]; Ok([info, second])
  }

  lemma {:induction false} RecordNodesClean(engine: Engine, info: Node, second: Node)
    requires !info.failed && info.children == []
    ensures FailedCount(FlattenAll([info, second])) == 0 <==> FailedCount(Flatten(second)) == 0
  {
    FlattenAllClean([info, second]);
    assert Flatten(info) == [info];
  }

  /** The nodes of all records, in order; the first record that is not a
      dictionary, or whose type is unhashable, raises. */
  function RecordsNodes(engine: Engine, schemas: Fields, show: Json -> string, records: seq<Json>, start: nat): (r: Result<seq<Node>>)
    ensures r.Ok? <==> forall i :: 0 <= i < |records| ==> RecordCheckable(schemas, records[i])
    ensures r.Ok? ==> (FailedCount(FlattenAll(r.value)) == 0 <==>
                       forall i :: 0 <= i < |records| ==> RecordConforms(engine, schemas, records[i]))
    decreases |records|
  {
    if |records| == 0 then Ok([])
    else
      var rest := RecordsNodes(engine, schemas, show, records[1..], start + 1);
      RecordsSplit(engine, schemas, records);
      var head :- RecordNodes(engine, schemas, show, records[0], start);
      var tail :- rest;
      FlattenAllAppend(head, tail);
      FailedCountAppend(FlattenAll(head), FlattenAll(tail));
      Ok(head + tail)
  }

  /** Every record passes a test exactly when the first one does and every
      later one does. */
  lemma {:induction false} RecordsSplit(engine: Engine, schemas: Fields, records: seq<Json>)
    requires |records| > 0
    ensures (forall i :: 0 <= i < |records| ==> RecordCheckable(schemas, records[i])) <==>
            (RecordCheckable(schemas, records[0]) &&
             forall i :: 0 <= i < |records[1..]| ==> RecordCheckable(schemas, records[1..][i]))
    ensures (forall i :: 0 <= i < |records| ==> RecordConforms(engine, schemas, records[i])) <==>
            (RecordConforms(engine, schemas, records[0]) &&
             forall i :: 0 <= i < |records[1..]| ==> RecordConforms(engine, schemas, records[1..][i]))
  {
    AllSplit(records, (j: Json) => RecordCheckable(schemas, j));
    AllSplit(records, (j: Json) => RecordConforms(engine, schemas, j));
  }

  /** `multi_json_schema_is_valid(schemas, data)`: a non-list is one error;
      otherwise each record adds its info line and its verdict, and the
      report is successful exactly when every record has a known type and
      conforms to its schema. */
  function MultiJsonSchemaIsValid(engine: Engine, schemas: Fields, show: Json -> string, data: Json): (r: Result<Node>)
    ensures !data.List? ==> r == Ok(AddError(Titled(MultiTitle), "Data should be a list of entities"))
    ensures r.Ok? ==> r.value.text == MultiTitle
    ensures data.List? ==>
      (r.Ok? <==> forall i :: 0 <= i < |data.items| ==> RecordCheckable(schemas, data.items[i]))
    ensures data.List? && r.Ok? ==>
      (IsSuccessful(r.value) <==> forall i :: 0 <= i < |data.items| ==> RecordConforms(engine, schemas, data.items[i]))
  {
    if !data.List? then Ok(AddError(Titled(MultiTitle), "Data should be a list of entities"))
    else
      var nodes :- RecordsNodes(engine, schemas, show, data.items, 0);
      AddNodesCounts(Titled(MultiTitle), nodes, 0);
      Ok(AddNodes(Titled(MultiTitle), nodes))
  }

  // ---------------------------------------------------------------------
  // File-system checks
  // ---------------------------------------------------------------------

  /** The shape the existence checks share: an info line, then an error
      line exactly when the test does not hold. */
  function Probe(title: string, info: string, holds: bool, error: string): (r: Node)
    ensures r.text == title && |r.children| >= 1
    ensures r.children[0] == MakeNode(info, InfoLevel, [], None)
    ensures |r.children| == if holds then 1 else 2
    ensures !holds ==> r.children[1] == MakeNode(error, ErrorLevel, [], None)
    ensures CountFailures(r, 0) == if holds then 0 else 1
  {
    var n := AddInfo(Titled(title), info);
    MessageCounts(Titled(title), info, 0);
    MessageCounts(n, error, 0);
    assert KeywordNodes([]) == [];
    if holds then n else AddError(n, error)
  }

  /** `path_exists(path)`: fails exactly when the path (or mask) resolves
      to no path at all. */
  function PathExists(getPaths: string -> seq<string>, path: string): (r: Node)
    ensures |r.children| >= 1 && r.children[0] == MakeNode("Path: " + path, InfoLevel, [], None)
    ensures IsFailed(r) <==> getPaths(path) == []
  {
    Probe("Checking path existence", "Path: " + path, getPaths(path) != [], "Path not exists")
  }

  /** `dir_exists(path)`: fails exactly when the path is not a directory. */
  function DirExists(isDir: string -> bool, path: string): (r: Node)
    ensures |r.children| >= 1 && r.children[0] == MakeNode(path, InfoLevel, [], None)
    ensures IsFailed(r) <==> !isDir(path)
  {
    Probe("Checking folder existence", path, isDir(path), "Directory not exists")
  }

  /** `file_exists(path)`: fails exactly when the path does not exist or is
      not a regular file. */
  function FileExists(isExists: string -> bool, isFile: string -> bool, path: string): (r: Node)
    ensures |r.children| >= 1 && r.children[0] == MakeNode(path, InfoLevel, [], None)
    ensures IsFailed(r) <==> !isExists(path) || !isFile(path)
    ensures IsFailed(r) ==> |r.children| == 2 && r.children[1] == MakeNode("File not found", ErrorLevel, [], None)
  {
    Probe("Checking file existence", path, isExists(path) && isFile(path), "File not found")
  }

  // ---------------------------------------------------------------------
  // Metadata checks
  // ---------------------------------------------------------------------

  const FuelVersionTitle: string := "Checking fuel_version compatibility with package_version"

  /** The listed versions below the minimal one, in order; a value that is
      not a version string raises, and so does an unparsable minimum once
      there is something to compare. */
  function BelowMinimal(versions: seq<Json>, minimal: string): (r: Result<seq<string>>)
    ensures r.Ok? <==> forall i :: 0 <= i < |versions| ==> versions[i].Str? && Parse(versions[i].s).Ok? && Parse(minimal).Ok?
    ensures r.Ok? ==> forall s :: s in r.value ==>
      Str(s) in versions && Parse(s).Ok? && Parse(minimal).Ok? && Less(Parse(s).value, Parse(minimal).value)
    ensures r.Ok? ==> forall i :: 0 <= i < |versions| && Less(Parse(versions[i].s).value, Parse(minimal).value) ==>
      versions[i].s in r.value
    ensures r.Ok? ==> |r.value| <= |versions|
  {
    if |versions| == 0 then Ok([])
    else
      var rest := BelowMinimal(versions[1..], minimal);
      var v :- LegacyValidator.ParseValue(versions[0]);
      var m :- Parse(minimal);
      if rest.Err? then
        UnparsedTail(versions, versions[0], versions[1..]);
        Err(rest.error)
      else
        var out := if Less(v, m) then [versions[0].s] + rest.value else rest.value;
        assert versions == [versions[0]] + versions[1..];
        BelowCons(versions, versions[0], versions[1..], minimal, rest.value, out);
        Ok(out)
  }

  /** One step of `BelowMinimal`: the first version joins the collected
      tail exactly when it is below the minimum. */
  lemma BelowCons(versions: seq<Json>, head: Json, rest: seq<Json>, minimal: string, tail: seq<string>, out: seq<string>)
    requires versions == [head] + rest
    requires head.Str? && Parse(head.s).Ok? && Parse(minimal).Ok?
    requires forall i :: 0 <= i < |rest| ==> rest[i].Str? && Parse(rest[i].s).Ok?
    requires forall s :: s in tail ==> Str(s) in rest && Parse(s).Ok? && Less(Parse(s).value, Parse(minimal).value)
    requires forall i :: 0 <= i < |rest| && Less(Parse(rest[i].s).value, Parse(minimal).value) ==> rest[i].s in tail
    requires |tail| <= |rest|
    requires out == if Less(Parse(head.s).value, Parse(minimal).value) then [head.s] + tail else tail
    ensures forall i :: 0 <= i < |versions| ==> versions[i].Str? && Parse(versions[i].s).Ok?
    ensures forall s :: s in out ==> Str(s) in versions && Parse(s).Ok? && Less(Parse(s).value, Parse(minimal).value)
    ensures forall i :: 0 <= i < |versions| && Less(Parse(versions[i].s).value, Parse(minimal).value) ==> versions[i].s in out
    ensures |out| <= |versions|
  {
    BelowConsParses(versions, head, rest);
    BelowConsSound(versions, head, rest, minimal, tail, out);
    BelowConsComplete(versions, head, rest, minimal, tail, out);
  }

  /** A version of `rest` that does not parse is one of `[head] + rest`. */
  lemma UnparsedTail(versions: seq<Json>, head: Json, rest: seq<Json>)
    requires versions == [head] + rest
    requires !forall i :: 0 <= i < |rest| ==> rest[i].Str? && Parse(rest[i].s).Ok?
    ensures !forall i :: 0 <= i < |versions| ==> versions[i].Str? && Parse(versions[i].s).Ok?
  {
    var k :| 0 <= k < |rest| && !(rest[k].Str? && Parse(rest[k].s).Ok?);
    assert versions[k + 1] == rest[k];
  }

  /** Every version of `[head] + rest` parses. */
  lemma BelowConsParses(versions: seq<Json>, head: Json, rest: seq<Json>)
    requires versions == [head] + rest
    requires head.Str? && Parse(head.s).Ok?
    requires forall i :: 0 <= i < |rest| ==> rest[i].Str? && Parse(rest[i].s).Ok?
    ensures forall i :: 0 <= i < |versions| ==> versions[i].Str? && Parse(versions[i].s).Ok?
  {
    forall i | 0 <= i < |versions| ensures versions[i].Str? && Parse(versions[i].s).Ok? {
      if i > 0 {
        assert versions[i] == rest[i - 1];
      }
    }
  }

  /** Everything `BelowCons` collects is a listed version below the minimum. */
  lemma BelowConsSound(versions: seq<Json>, head: Json, rest: seq<Json>, minimal: string, tail: seq<string>, out: seq<string>)
    requires versions == [head] + rest
    requires head.Str? && Parse(head.s).Ok? && Parse(minimal).Ok?
    requires forall s :: s in tail ==> Str(s) in rest && Parse(s).Ok? && Less(Parse(s).value, Parse(minimal).value)
    requires out == if Less(Parse(head.s).value, Parse(minimal).value) then [head.s] + tail else tail
    ensures forall s :: s in out ==> Str(s) in versions && Parse(s).Ok? && Less(Parse(s).value, Parse(minimal).value)
  {
    forall s | s in out ensures Str(s) in versions && Parse(s).Ok? && Less(Parse(s).value, Parse(minimal).value) {
      if s in tail {
        var k :| 0 <= k < |rest| && rest[k] == Str(s);
        assert versions[k + 1] == Str(s);
      } else {
        assert s == head.s && versions[0] == head;
      }
    }
  }

  /** Every listed version below the minimum is collected by `BelowCons`. */
  lemma BelowConsComplete(versions: seq<Json>, head: Json, rest: seq<Json>, minimal: string, tail: seq<string>, out: seq<string>)
    requires versions == [head] + rest
    requires head.Str? && Parse(head.s).Ok? && Parse(minimal).Ok?
    requires forall i :: 0 <= i < |rest| ==> rest[i].Str? && Parse(rest[i].s).Ok?
    requires forall i :: 0 <= i < |rest| && Less(Parse(rest[i].s).value, Parse(minimal).value) ==> rest[i].s in tail
    requires out == if Less(Parse(head.s).value, Parse(minimal).value) then [head.s] + tail else tail
    ensures forall i :: 0 <= i < |versions| ==> versions[i].Str? && Parse(versions[i].s).Ok?
    ensures forall i :: 0 <= i < |versions| && Less(Parse(versions[i].s).value, Parse(minimal).value) ==> versions[i].s in out
  {
    BelowConsParses(versions, head, rest);
    forall i | 0 <= i < |versions| && Less(Parse(versions[i].s).value, Parse(minimal).value) ensures versions[i].s in out {
      if i > 0 {
        assert versions[i] == rest[i - 1];
      }
    }
  }

  /** `plugin_metadata.get('fuel_version', [])`, iterated. */
  function FuelVersions(meta: Json): (r: Result<seq<Json>>)
    ensures r.Ok? <==> meta.Obj? && (Lookup(meta.fields, "fuel_version").None? || Iter(Lookup(meta.fields, "fuel_version").value).Ok?)
    ensures r.Ok? && Lookup(meta.fields, "fuel_version").None? ==> r.value == []
  {
    var listed :- GetOr(meta, "fuel_version", List([]));
    Iter(listed)
  }

  /** `fuel_ver_compatible_with_package_ver(minimal, metadata)`: an info
      line with the expectation, then one error naming every listed
      version below the minimum, joined by ", ", or an info line saying the
      plugin is compatible. */
  function FuelVerCompatible(minimal: string, meta: Json, show: Json -> string): (r: Result<Node>)
    ensures r.Ok? ==> r.value.text == FuelVersionTitle && |r.value.children| == 2
    ensures r.Ok? ==> r.value.children[0] == MakeNode("Expected Fuel version >= " + minimal, InfoLevel, [], None)
    ensures r.Ok? ==> FuelVersions(meta).Ok? && BelowMinimal(FuelVersions(meta).value, minimal).Ok?
    ensures r.Ok? ==> var below := BelowMinimal(FuelVersions(meta).value, minimal).value;
      (IsFailed(r.value) <==> below != [])
      && (below == [] ==> r.value.children[1] == MakeNode("Plugin is compatible with target Fuel version.", InfoLevel, [], None))
      && (below != [] ==>
            (&& Subscript(meta, "package_version").Ok?
             && r.value.children[1] == MakeNode(LegacyValidator.IncompatibleMessage(
                  Display(Subscript(meta, "package_version").value, show), minimal, Join(below, ", ")), ErrorLevel, [], None)))
  {
    var versions :- FuelVersions(meta);
    var below :- BelowMinimal(versions, minimal);
    var n := AddInfo(Titled(FuelVersionTitle), "Expected Fuel version >= " + minimal);
    MessageCounts(Titled(FuelVersionTitle), "Expected Fuel version >= " + minimal, 0);
    assert KeywordNodes([]) == [];
    if below != [] then
      var pv :- Subscript(meta, "package_version");
      var msg := LegacyValidator.IncompatibleMessage(Display(pv, show), minimal, Join(below, ", "));
      MessageCounts(n, msg, 0);
      Ok(AddError(n, msg))
    else
      MessageCounts(n, "Plugin is compatible with target Fuel version.", 0);
      Ok(AddInfo(n, "Plugin is compatible with target Fuel version."))
  }

  /** The verdict of the compatibility check in terms of the metadata: it
      fails exactly when some listed version is below the minimum. */
  lemma {:induction false} FuelVerCompatibleVerdict(minimal: string, meta: Json, show: Json -> string)
    requires FuelVerCompatible(minimal, meta, show).Ok?
    ensures var versions := FuelVersions(meta).value;
      IsFailed(FuelVerCompatible(minimal, meta, show).value) <==>
        exists i :: 0 <= i < |versions| && Less(Parse(versions[i].s).value, Parse(minimal).value)
  {
    BelowSomeVersion(FuelVersions(meta).value, minimal);
  }

  /** Something is collected exactly when some listed version is below the
      minimum. */
  lemma BelowSomeVersion(versions: seq<Json>, minimal: string)
    requires BelowMinimal(versions, minimal).Ok?
    ensures BelowMinimal(versions, minimal).value != [] <==>
      exists i :: 0 <= i < |versions| && Less(Parse(versions[i].s).value, Parse(minimal).value)
  {
    var below := BelowMinimal(versions, minimal).value;
    if below != [] {
      var s := below[0];
      assert s in below;
      var i :| 0 <= i < |versions| && versions[i] == Str(s);
      assert Less(Parse(versions[i].s).value, Parse(minimal).value);
    }
  }

  const LegacyFuelVersionWarning: string :=
    "\"fuel_version\" field in metadata.yaml is deprecated and will be removed in further Fuel releases."

  /** `legacy_fuel_version(metadata)`: a warning, never a failure, exactly
      when `fuel_version` is set to something non-empty. */
  function LegacyFuelVersion(meta: Json): (r: Result<Node>)
    ensures r.Ok? <==> meta.Obj?
    ensures r.Ok? ==> r.value.text == "Checking for legacy field 'fuel_version'" && IsSuccessful(r.value)
    ensures r.Ok? ==> (r.value.children != [] <==> GetTruthy(meta, "fuel_version").Some?)
    ensures r.Ok? && r.value.children != [] ==>
      r.value.children == [MakeNode(LegacyFuelVersionWarning, WarningLevel, [], None)]
  {
    if !meta.Obj? then Err(Error(AttributeError, "object has no attribute 'get'"))
    else
      var n := Titled("Checking for legacy field 'fuel_version'");
      MessageCounts(n, LegacyFuelVersionWarning, 0);
      assert KeywordNodes([]) == [];
      if GetTruthy(meta, "fuel_version").Some? then Ok(AddWarning(n, LegacyFuelVersionWarning)) else Ok(n)
  }

  const ModeWarning: string := "\"mode\" directive id deprecated and ignored by Fuel releases elder then 6.1"

  /** `mode_directive(release)`: a warning, never a failure, exactly when
      the release sets `mode` to something other than `None`. */
  function ModeDirective(release: Json): (r: Result<Node>)
    ensures r.Ok? <==> release.Obj?
    ensures r.Ok? ==> IsSuccessful(r.value)
    ensures r.Ok? ==> (r.value.children != [] <==> Get(release, "mode").Some? && !Get(release, "mode").value.Null?)
    ensures r.Ok? && r.value.children != [] ==> r.value.children == [MakeNode(ModeWarning, WarningLevel, [], None)]
  {
    if !release.Obj? then Err(Error(AttributeError, "object has no attribute 'get'"))
    else
      var n := Titled("Looking for deprecated 'mode' directive inside releases");
      MessageCounts(n, ModeWarning, 0);
      assert KeywordNodes([]) == [];
      match Get(release, "mode")
      case Some(m) => if !m.Null? then Ok(AddWarning(n, ModeWarning)) else Ok(n)
      case None => Ok(n)
  }

  // ---------------------------------------------------------------------
  // Environment attributes
  // ---------------------------------------------------------------------

  const EnvTitle: string := "Checking environment attributes"

  /** The schema an attribute is checked against: `metadata` has its own. */
  function AttributeSchema(id: string, attributeSchema: Json, metaSchema: Json): (s: Json)
    ensures id == "metadata" ==> s == metaSchema
    ensures id != "metadata" ==> s == attributeSchema
  {
    if id == "metadata" then metaSchema else attributeSchema
  }

  /** One schema report per attribute, in the order of the mapping. */
  function AttributeNodes(engine: Engine, attrs: Fields, attributeSchema: Json, metaSchema: Json): (r: seq<Node>)
    ensures |r| == |attrs|
    ensures forall i :: 0 <= i < |attrs| ==>
      r[i] == JsonSchemaIsValid(engine, AttributeSchema(attrs[i].0, attributeSchema, metaSchema), attrs[i].1)
    ensures FailedCount(FlattenAll(r)) == 0 <==>
      forall i :: 0 <= i < |attrs| ==> engine(attrs[i].1, AttributeSchema(attrs[i].0, attributeSchema, metaSchema)) == []
  {
    var r := seq(|attrs|, i requires 0 <= i < |attrs| =>
               JsonSchemaIsValid(engine, AttributeSchema(attrs[i].0, attributeSchema, metaSchema), attrs[i].1));
    FlattenAllClean(r);
    AttributeNodesClean(engine, attrs, attributeSchema, metaSchema, r);
    r
  }

  lemma {:induction false} AttributeNodesClean(engine: Engine, attrs: Fields, attributeSchema: Json, metaSchema: Json, r: seq<Node>)
    requires |r| == |attrs|
    requires forall i :: 0 <= i < |attrs| ==>
      r[i] == JsonSchemaIsValid(engine, AttributeSchema(attrs[i].0, attributeSchema, metaSchema), attrs[i].1)
    ensures (forall i :: 0 <= i < |r| ==> FailedCount(Flatten(r[i])) == 0) <==>
      forall i :: 0 <= i < |attrs| ==> engine(attrs[i].1, AttributeSchema(attrs[i].0, attributeSchema, metaSchema)) == []
  {
    forall i | 0 <= i < |attrs|
      ensures FailedCount(Flatten(r[i])) == 0 <==>
        engine(attrs[i].1, AttributeSchema(attrs[i].0, attributeSchema, metaSchema)) == []
    {
      SchemaReportClean(engine, AttributeSchema(attrs[i].0, attributeSchema, metaSchema), attrs[i].1);
    }
  }

  /** `data.get('attributes', {}) or {}`, iterated as a mapping: an empty or
      missing value gives no attributes, a non-empty non-mapping raises. */
  function Attributes(data: Json): (r: Result<Fields>)
    ensures r.Ok? <==> data.Obj? && (Lookup(data.fields, "attributes").None?
                                     || !Truthy(Lookup(data.fields, "attributes").value)
                                     || Lookup(data.fields, "attributes").value.Obj?)
    ensures r.Ok? && Lookup(data.fields, "attributes").Some? && Lookup(data.fields, "attributes").value.Obj? ==>
      r.value == Lookup(data.fields, "attributes").value.fields
  {
    var attrs :- GetOr(data, "attributes", Obj([]));
    if !Truthy(attrs) then Ok([])
    else if !attrs.Obj? then Err(Error(AttributeError, "object has no attribute 'iteritems'"))
    else Ok(attrs.fields)
  }

  /** `env_attributes(data, root, attribute, meta, validator)`: the root
      schema report first, checked by the default `Draft4Validator`
      (`rootEngine`) whatever `validator` says; a failed root stops the check
      there; otherwise one schema report per attribute follows, checked by
      the engine `validator` selects (`engine`). */
  function EnvAttributes(rootEngine: Engine, engine: Engine, data: Json, rootSchema: Json, attributeSchema: Json, metaSchema: Json): (r: Result<Node>)
    ensures rootEngine(data, rootSchema) != [] ==>
      r == Ok(AddNodes(Titled(EnvTitle), [JsonSchemaIsValid(rootEngine, rootSchema, data)]))
    ensures rootEngine(data, rootSchema) == [] ==> (r.Ok? <==> Attributes(data).Ok?)
    ensures r.Ok? ==> r.value.text == EnvTitle && |r.value.children| >= 1 && r.value.children[0] == JsonSchemaIsValid(rootEngine, rootSchema, data)
    ensures r.Ok? && rootEngine(data, rootSchema) == [] ==>
      r.value.children[1..] == AttributeNodes(engine, Attributes(data).value, attributeSchema, metaSchema)
    ensures r.Ok? ==> (IsSuccessful(r.value) <==>
      rootEngine(data, rootSchema) == []
      && forall i :: 0 <= i < |Attributes(data).value| ==>
           engine(Attributes(data).value[i].1, AttributeSchema(Attributes(data).value[i].0, attributeSchema, metaSchema)) == [])
  {
    var root := JsonSchemaIsValid(rootEngine, rootSchema, data);
    var report := AddNodes(Titled(EnvTitle), [root]);
    AddNodesCounts(Titled(EnvTitle), [root], 0);
    assert [root][1..] == [];
    assert FlattenAll([root]) == Flatten(root);
    CountFailuresIsFailedNodes(root, 0);
    SchemaReportClean(rootEngine, rootSchema, data);
    if IsFailed(report) then Ok(report)
    else
      var attrs :- Attributes(data);
      var nodes := AttributeNodes(engine, attrs, attributeSchema, metaSchema);
      AddNodesCounts(report, nodes, 0);
      Ok(AddNodes(report, nodes))
  }
}

=== FILE: checksums.dfy ===
/**
 The checksums file of a built plugin (`utils/checksum.py`): one line per
 file of the build directory, `<sha1> <relative path>`, sorted by path. The
 directory walk and the SHA-1 digest are parameters; a digest is an opaque
 string.
 */
module Checksums {
  import opened Base
  import Text
  import opened Paths
  import opened Sorting

  /** One entry of `calculate_file_checksums`. */
  datatype Entry = Entry(checksum: string, filePath: string)

  /** One directory `os.walk` visits: its path below the walked directory
      (`""` for the directory itself) and the names of its files. */
  datatype WalkStep = WalkStep(sub: string, files: seq<string>)

  /** The directory a walk step stands for: `root` of `os.walk`. */
  function StepRoot(dir: string, sub: string): string {
    if sub == "" then dir else Join(dir, sub)
  }

  /** `os.path.relpath(join(root, name), dir)` for a walk step below `dir`. */
  function RelPath(sub: string, name: string): string {
    if sub == "" then name else sub + "/" + name
  }

  function StepEntries(dir: string, step: WalkStep, sha: string -> string): (r: seq<Entry>)
    ensures |r| == |step.files|
    ensures forall i :: 0 <= i < |r| ==>
      r[i] == Entry(sha(Join(StepRoot(dir, step.sub), step.files[i])), RelPath(step.sub, step.files[i]))
  {
    seq(|step.files|, i requires 0 <= i < |step.files| =>
      Entry(sha(Join(StepRoot(dir, step.sub), step.files[i])), RelPath(step.sub, step.files[i])))
  }

  /** `calculate_file_checksums(dir_path)`: the entries of every walk step, in
      walk order. */
  function CalculateFileChecksums(dir: string, walk: seq<WalkStep>, sha: string -> string): (r: seq<Entry>)
    ensures |r| == SumOf(walk, (s: WalkStep) => |s.files|)
  {
    if |walk| == 0 then []
    else StepEntries(dir, walk[0], sha) + CalculateFileChecksums(dir, walk[1..], sha)
  }

  /** Every entry belongs to a file of some walk step, recorded by its path
      relative to the walked directory. */
  lemma {:induction false} ChecksumEntryOrigin(dir: string, walk: seq<WalkStep>, sha: string -> string, k: nat)
    requires k < |CalculateFileChecksums(dir, walk, sha)|
    ensures exists s, i :: (0 <= s < |walk| && 0 <= i < |walk[s].files| &&
      CalculateFileChecksums(dir, walk, sha)[k] ==
        Entry(sha(Join(StepRoot(dir, walk[s].sub), walk[s].files[i])), RelPath(walk[s].sub, walk[s].files[i])))
  {
    var first := StepEntries(dir, walk[0], sha);
    var rest := CalculateFileChecksums(dir, walk[1..], sha);
    if k < |first| {
      assert CalculateFileChecksums(dir, walk, sha)[k] == first[k];
    } else {
      ChecksumEntryOrigin(dir, walk[1..], sha, k - |first|);
      var s, i :| 0 <= s < |walk[1..]| && 0 <= i < |walk[1..][s].files| &&
        rest[k - |first|] == Entry(sha(Join(StepRoot(dir, walk[1..][s].sub), walk[1..][s].files[i])),
                                   RelPath(walk[1..][s].sub, walk[1..][s].files[i]));
      assert walk[1..][s] == walk[s + 1];
      assert CalculateFileChecksums(dir, walk, sha)[k] == rest[k - |first|];
    }
  }

  /** A name as `os.walk` lists it: relative and free of '/'. */
  predicate PlainName(name: string) {
    name != "" && '/' !in name
  }

  /** A sub-directory as `os.walk` reaches it: relative, not ending in '/'. */
  predicate PlainSub(sub: string) {
    sub == "" || (sub[0] != '/' && sub[|sub| - 1] != '/')
  }

  /** The recorded path is relative to the walked directory: joining it back
      onto that directory gives the file's full path. */
  lemma {:induction false} RelativePathRejoins(dir: string, sub: string, name: string)
    requires dir != "" && dir[|dir| - 1] != '/'
    requires PlainSub(sub) && PlainName(name)
    ensures !IsAbsolute(RelPath(sub, name))
    ensures Join(dir, RelPath(sub, name)) == Join(StepRoot(dir, sub), name)
  {
    assert name[0] in name;
    if sub != "" {
      var root := dir + "/" + sub;
      var rel := sub + "/" + name;
      assert !IsAbsolute(sub) && !IsAbsolute(rel) && !IsAbsolute(name);
      assert Join(dir, sub) == root;
      assert root[|root| - 1] == sub[|sub| - 1];
      assert Join(root, name) == root + "/" + name;
      assert Join(dir, rel) == dir + "/" + rel;
      assert root + "/" + name == dir + "/" + rel;
    }
  }

  /** Comparing two entries by path, the key of `sorted(..., key=file_path)`. */
  function ByFilePath(): (le: (Entry, Entry) -> bool)
    ensures forall a, b :: le(a, b) == Text.StrLe(a.filePath, b.filePath)
  {
    (a: Entry, b: Entry) => Text.StrLe(a.filePath, b.filePath)
  }

  lemma {:induction false} ByFilePathTotalPreorder()
    ensures TotalPreorder(ByFilePath())
  {
    forall a: Entry, b: Entry
      ensures Text.StrLe(a.filePath, b.filePath) || Text.StrLe(b.filePath, a.filePath)
    {
      Text.StrLeTotal(a.filePath, b.filePath);
    }
    forall a: Entry, b: Entry, c: Entry | Text.StrLe(a.filePath, b.filePath) && Text.StrLe(b.filePath, c.filePath)
      ensures Text.StrLe(a.filePath, c.filePath)
    {
      Text.StrLeTransitive(a.filePath, b.filePath, c.filePath);
    }
  }

  /** `'{checksum} {file_path}\n'.format(**entry)`. */
  function ChecksumLine(e: Entry): (line: string)
    ensures |line| == |e.checksum| + |e.filePath| + 2
    ensures line[|line| - 1] == '\n'
  {
    e.checksum + " " + e.filePath + "\n"
  }

  /** Reads a line back: the checksum up to the first space, the path up to
      the newline. */
  function ParseLine(line: string): Option<Entry> {
    if |line| == 0 || line[|line| - 1] != '\n' then None
    else match Text.IndexOf(line, ' ')
      case None => None
      case Some(i) => Some(Entry(line[..i], line[i + 1..|line| - 1]))
  }

  /** A line reads back as its entry whenever the checksum has no space, as
      a hexadecimal digest never has. */
  lemma {:induction false} ParseChecksumLine(e: Entry)
    requires ' ' !in e.checksum
    ensures ParseLine(ChecksumLine(e)) == Some(e)
  {
    var line := ChecksumLine(e);
    var n := |e.checksum|;
    assert line[n] == ' ';
    assert forall j :: 0 <= j < n ==> line[j] == e.checksum[j] && line[j] != ' ';
    var i := Text.IndexOf(line, ' ').value;
    assert forall j :: 0 <= j < i ==> line[..i][j] == line[j];
    assert i == n;
    assert line[..i] == e.checksum;
    assert line[i + 1..|line| - 1] == e.filePath;
    assert ParseLine(line) == Some(Entry(line[..i], line[i + 1..|line| - 1]));
  }

  /** The entries of `create_checksums_file` in writing order: the computed
      entries, sorted by path; entries with the same path keep their
      order (Python's sort is stable). */
  function SortedEntries(entries: seq<Entry>): (r: seq<Entry>)
    ensures multiset(r) == multiset(entries)
    ensures forall i, j :: 0 <= i < j < |r| ==> Text.StrLe(r[i].filePath, r[j].filePath)
    ensures forall e :: SameKey(r, ByFilePath(), e) == SameKey(entries, ByFilePath(), e)
  {
    ByFilePathTotalPreorder();
    SortSorted(entries, ByFilePath());
    assert forall e :: SameKey(Sort(entries, ByFilePath()), ByFilePath(), e) == SameKey(entries, ByFilePath(), e) by {
      forall e {
        SortStable(entries, ByFilePath(), e);
      }
    }
    Sort(entries, ByFilePath())
  }

  /** `create_checksums_file(dir_path, checksums_file)`: the lines written,
      one per computed entry. */
  function CreateChecksumsFile(dir: string, walk: seq<WalkStep>, sha: string -> string): (lines: seq<string>)
    ensures |lines| == |CalculateFileChecksums(dir, walk, sha)|
    ensures forall i :: 0 <= i < |lines| ==> |lines[i]| > 0 && lines[i][|lines[i]| - 1] == '\n'
  {
    var sorted := SortedEntries(CalculateFileChecksums(dir, walk, sha));
    seq(|sorted|, i requires 0 <= i < |sorted| => ChecksumLine(sorted[i]))
  }

  /** The written lines read back as the computed entries, sorted by path: a
      permutation of them, nothing added or lost, when no digest holds a
      space. */
  lemma {:induction false} ChecksumFileContents(dir: string, walk: seq<WalkStep>, sha: string -> string)
    requires forall p :: ' ' !in sha(p)
    ensures var lines := CreateChecksumsFile(dir, walk, sha);
      var read := seq(|lines|, i requires 0 <= i < |lines| => ParseLine(lines[i]).GetOr(Entry("", "")));
      && (forall i :: 0 <= i < |lines| ==> ParseLine(lines[i]).Some?)
      && multiset(read) == multiset(CalculateFileChecksums(dir, walk, sha))
      && (forall i, j :: 0 <= i < j < |read| ==> Text.StrLe(read[i].filePath, read[j].filePath))
  {
    var entries := CalculateFileChecksums(dir, walk, sha);
    var sorted := SortedEntries(entries);
    var lines := CreateChecksumsFile(dir, walk, sha);
    forall k | 0 <= k < |entries| ensures ' ' !in entries[k].checksum {
      ChecksumEntryOrigin(dir, walk, sha, k);
    }
    forall i | 0 <= i < |sorted| ensures ' ' !in sorted[i].checksum {
      assert sorted[i] in multiset(entries);
    }
    var read := seq(|lines|, i requires 0 <= i < |lines| => ParseLine(lines[i]).GetOr(Entry("", "")));
    forall i | 0 <= i < |lines| ensures ParseLine(lines[i]) == Some(sorted[i]) {
      ParseChecksumLine(sorted[i]);
    }
    assert read == sorted;
  }
}

=== FILE: cli.dfy ===
/**
 The `fpb` command line: the `--package-version` check, the choice between
 `--create`, `--build` and `--check`, what each prints on success, and how
 an exception becomes two lines on standard error and exit status -1. The
 actions themselves are parameters (`Env`, `LegacyEnv`): what they return
 or raise is taken as given.
 */
module Cli {
  import opened Base
  import Namespaces
  import Text

  /** The parsed command line. The older tree has only the first five
      options; the last three are then never given. */
  datatype Args = Args(create: Option<string>, build: Option<string>, check: Option<string>, debug: bool,
                       packageVersion: Option<string>, fuelImport: bool,
                       nailgunPath: Option<string>, libraryPath: Option<string>)

  /** An option whose value Python treats as true: present and non-empty. */
  predicate Given(o: Option<string>) {
    o.Some? && o.value != ""
  }

  /** What the mutually exclusive, required group lets through: exactly one
      of the three actions on the command line. */
  predicate OneAction(args: Args) {
    (if args.create.Some? then 1 else 0) + (if args.build.Some? then 1 else 0)
      + (if args.check.Some? then 1 else 0) == 1
  }

  const VersionOnlyWithCreate := "--package-version works only with --create"

  /** `package_version_check`: the `parser.error` message, if it is called. */
  function PackageVersionCheck(args: Args): (r: Option<string>)
    ensures r.Some? ==> r.value == VersionOnlyWithCreate && Given(args.packageVersion)
    ensures Given(args.create) && OneAction(args) ==> r.None?
  {
    if (Given(args.build) || Given(args.check)) && Given(args.packageVersion) then Some(VersionOnlyWithCreate)
    else None
  }

  /** Within the one-action group, a package version is refused exactly when
      the action is a build or a check of a named directory. */
  lemma {:induction false} PackageVersionOnlyWithCreate(args: Args)
    requires OneAction(args)
    ensures PackageVersionCheck(args).Some? <==>
      Given(args.packageVersion) && args.create.None? && (Given(args.build) || Given(args.check))
  {
  }

  /** The action `perform_action` takes: the first option that is given, in
      the order create, build, check. */
  datatype Action = CreateAction(path: string) | BuildAction(path: string) | CheckAction(path: string) | NoAction

  function SelectAction(args: Args): (a: Action)
    ensures a.CreateAction? <==> Given(args.create)
    ensures a.BuildAction? <==> !Given(args.create) && Given(args.build)
    ensures a.CheckAction? <==> !Given(args.create) && !Given(args.build) && Given(args.check)
    ensures !a.NoAction? ==> a.path != ""
  {
    if Given(args.create) then CreateAction(args.create.value)
    else if Given(args.build) then BuildAction(args.build.value)
    else if Given(args.check) then CheckAction(args.check.value)
    else NoAction
  }

  /** The rule printed above the install hint: fifty '=' characters. */
  const Header := Text.Repeat('=', 50)

  /** The install hint the newer tree prints when a command is missing. */
  const InstallRequiredPackages :=
    "\nWas not able to find required packages.\n\nIf you use Ubuntu, run:\n\n    # sudo apt-get install createrepo rpm dpkg-dev\n\n"
    + "If you use CentOS, run:\n\n    # yum install createrepo dpkg-devel dpkg-dev rpm rpm-build\n\n"

  /** The older tree's hint, from its messages module. */
  const LegacyInstallRequiredPackages :=
    "\nWas not able to find required packages.\n\nIf you use Ubuntu, run:\n\n    # sudo apt-get install createrepo rpm dpkg-dev\n\n"
    + "If you use CentOS, run:\n\n    # yum install createrepo dpkg-devel rpm rpm-build\n\n"

  /** What the process leaves behind: the lines printed on each stream and
      the exit status. */
  datatype Outcome = Outcome(stdout: seq<string>, stderr: seq<string>, status: int)

  /** `handle_exception(exc)`: a missing command prints the header and the
      install hint, a validation error (or one of its subclasses) prints
      "Validation failed" and the message, anything else "Unexpected error"
      and the message; the exit status is -1 every time. */
  function HandleException(install: string, e: Error): (r: (seq<string>, int))
    ensures r.1 == -1 && |r.0| == 2
    ensures r.0[0] == Header <==> e.kind == FuelCannotFindCommandError
    ensures r.0[0] == "Validation failed" <==> IsValidationError(e.kind)
    ensures r.0[0] == "Unexpected error" <==> !IsValidationError(e.kind) && e.kind != FuelCannotFindCommandError
    ensures e.kind != FuelCannotFindCommandError ==> r.0[1] == e.message
  {
    assert Header[0] == '=';
    if e.kind == FuelCannotFindCommandError then ([Header, install], -1)
    else if IsValidationError(e.kind) then (["Validation failed", e.message], -1)
    else (["Unexpected error", e.message], -1)
  }

  /** The newer tree's missing-command hint and the older one's name the
      same Ubuntu packages; only the CentOS line differs, by `dpkg-dev`. */
  lemma {:induction false} InstallHintsDiffer(e: Error)
    requires e.kind == FuelCannotFindCommandError
    ensures HandleException(InstallRequiredPackages, e).0[0] == HandleException(LegacyInstallRequiredPackages, e).0[0]
    ensures HandleException(InstallRequiredPackages, e).0[1] != HandleException(LegacyInstallRequiredPackages, e).0[1]
  {
    assert |InstallRequiredPackages| != |LegacyInstallRequiredPackages|;
  }

  // The newer tree.

  /** What an action hands back to the command line: its printed form and
      what its `render()` gives. */
  datatype Report = Report(text: string, rendered: string)

  /** The actions, as parameters: each returns a report, Python's `None`,
      or raises. */
  datatype Env = Env(create: (string, Option<string>) -> Result<Option<Report>>,
                     build: string -> Result<Option<Report>>,
                     check: string -> Result<Option<Report>>)

  const NoneRender := Error(AttributeError, "'NoneType' object has no attribute 'render'")

  /** `print(report)` then `print(report.render())`: `None` prints as
      "None" and has no `render`. */
  function PrintReport(result: Result<Option<Report>>): (r: (seq<string>, Option<Error>))
    ensures result.Err? ==> r == ([], Some(result.error))
    ensures result.Ok? && result.value.None? ==> r == (["None"], Some(NoneRender))
    ensures result.Ok? && result.value.Some? ==> r.1.None? && |r.0| == 2
  {
    if result.Err? then ([], Some(result.error))
    else if result.value.None? then (["None"], Some(NoneRender))
    else ([result.value.value.text, result.value.value.rendered], None)
  }

  /** `perform_action(args)` without the debug line that reads a missing
      name: the selected action runs with the options it takes, and a
      command line without an action prints the arguments. */
  function PerformAction(args: Args, env: Env, show: Args -> string): (r: (seq<string>, Option<Error>))
    ensures SelectAction(args).NoAction? ==> r == (["Invalid args: " + show(args)], None)
  {
    match SelectAction(args)
    case CreateAction(p) => PrintReport(env.create(p, args.packageVersion))
    case BuildAction(p) => PrintReport(env.build(p))
    case CheckAction(p) => PrintReport(env.check(p))
    case NoAction => (["Invalid args: " + show(args)], None)
  }

  /** `perform_action` as written: its first line reads
      `version_mapping.validators`, which the module does not define. */
  function PerformActionAsWritten(args: Args, env: Env, show: Args -> string): (r: (seq<string>, Option<Error>))
    ensures r.0 == [] && r.1.Some? && r.1.value.kind == AttributeError
  {
    ([], Some(Namespaces.Attribute(Namespaces.VersionMappingNames, "validators").error))
  }

  /** The keywords the create branch passes, against the parameters the
      newer `CreatePlugin` takes. */
  const CreateParams := ["plugin_path", "package_version"]
  const CreateKeywords := ["plugin_path", "package_version", "fuel_import", "nailgun_path", "library_path"]

  /** The create call as written raises `TypeError` for `fuel_import`; the
      call the model makes passes only what the constructor takes. */
  function CreateCallAsWritten(): (r: Result<()>)
    ensures r.Err? && r.error.kind == TypeError
  {
    Err(Namespaces.Call(CreateParams, 0, CreateKeywords).error)
  }

  lemma {:induction false} CreateCallDiscrepancy()
    ensures CreateCallAsWritten().Err?
    ensures Namespaces.Call(CreateParams, 0, CreateKeywords[..2]).Ok?
  {
    assert CreateKeywords[..2] == CreateParams;
    assert "fuel_import" !in CreateParams;
    assert CreateKeywords[2] == "fuel_import";
  }

  /** The usage error `parser.error` prints before exiting with status 2. */
  function UsageError(message: string): string {
    "fpb: error: " + message
  }

  /** How an action's printed lines and exception end the process. */
  function Finish(install: string, result: (seq<string>, Option<Error>)): (o: Outcome)
    ensures o.stdout == result.0
    ensures o.status == 0 <==> result.1.None?
    ensures result.1.Some? ==> o.status == -1 && o.stderr == HandleException(install, result.1.value).0
  {
    if result.1.None? then Outcome(result.0, [], 0)
    else
      var (lines, status) := HandleException(install, result.1.value);
      Outcome(result.0, lines, status)
  }

  /** `main()`: the package version check, then the action; an exception is
      reported by `handle_exception`. */
  function Main(args: Args, env: Env, show: Args -> string): (o: Outcome)
    ensures PackageVersionCheck(args).Some? ==> o == Outcome([], [UsageError(VersionOnlyWithCreate)], 2)
  {
    if PackageVersionCheck(args).Some? then Outcome([], [UsageError(PackageVersionCheck(args).value)], 2)
    else Finish(InstallRequiredPackages, PerformAction(args, env, show))
  }

  /** The exit status: 2 for a refused package version, 0 when the action
      returns a report, -1 when it raises or returns `None`. */
  lemma {:induction false} MainStatus(args: Args, env: Env, show: Args -> string)
    ensures Main(args, env, show).status == 2 <==> PackageVersionCheck(args).Some?
    ensures Main(args, env, show).status == 0 <==> PackageVersionCheck(args).None? && PerformAction(args, env, show).1.None?
    ensures Main(args, env, show).status in {0, 2, -1}
  {
  }

  /** A build whose action returns `None`, as the builders do, prints "None"
      and ends as an unexpected error. */
  lemma {:induction false} BuildReturningNone(args: Args, env: Env, show: Args -> string)
    requires SelectAction(args).BuildAction? && PackageVersionCheck(args).None?
    requires env.build(args.build.value) == Ok(None)
    ensures Main(args, env, show) == Outcome(["None"], ["Unexpected error", NoneRender.message], -1)
  {
  }

  /** A validation error from the check action is reported as a failed
      validation with its message. */
  lemma {:induction false} CheckValidationFailure(args: Args, env: Env, show: Args -> string, e: Error)
    requires SelectAction(args).CheckAction? && PackageVersionCheck(args).None?
    requires env.check(args.check.value) == Err(e) && IsValidationError(e.kind)
    ensures Main(args, env, show) == Outcome([], ["Validation failed", e.message], -1)
  {
    var r := HandleException(InstallRequiredPackages, e);
    assert r.0[0] == "Validation failed";
  }

  /** `main()` as written: whatever the action, once the package version
      check passes the process ends with "Unexpected error". */
  function MainAsWritten(args: Args, env: Env, show: Args -> string): (o: Outcome)
    ensures PackageVersionCheck(args).None? ==> o.status == -1 && |o.stderr| == 2 && o.stderr[0] == "Unexpected error"
  {
    if PackageVersionCheck(args).Some? then Outcome([], [UsageError(PackageVersionCheck(args).value)], 2)
    else Finish(InstallRequiredPackages, PerformActionAsWritten(args, env, show))
  }

  /** A build that returns a report succeeds under the corrected command line
      and fails under the one as written. */
  lemma {:induction false} MainDiscrepancy(args: Args, env: Env, show: Args -> string, rep: Report)
    requires SelectAction(args).BuildAction? && PackageVersionCheck(args).None?
    requires env.build(args.build.value) == Ok(Some(rep))
    ensures Main(args, env, show) == Outcome([rep.text, rep.rendered], [], 0)
    ensures MainAsWritten(args, env, show).status == -1
  {
  }

  // The older tree.

  /** The older actions, as parameters: each succeeds or raises. */
  datatype LegacyEnv = LegacyEnv(create: string -> Result<()>, build: string -> Result<()>, check: string -> Result<()>)

  function Announce(result: Result<()>, message: string): (r: (seq<string>, Option<Error>))
    ensures result.Ok? ==> r == ([message], None)
    ensures result.Err? ==> r == ([], Some(result.error))
  {
    if result.Ok? then ([message], None) else ([], Some(result.error))
  }

  /** The older `perform_action(args)` with the create call corrected to the
      constructor's one argument: each action announces itself once it is
      done, and without an action nothing happens. */
  function LegacyPerformAction(args: Args, env: LegacyEnv): (r: (seq<string>, Option<Error>))
    ensures SelectAction(args).NoAction? ==> r == ([], None)
    ensures r.1.None? && r.0 != [] ==>
              |r.0| == 1 && (r.0[0] == "Plugin is created" <==> SelectAction(args).CreateAction?)
  {
    match SelectAction(args)
    case CreateAction(p) => Announce(env.create(p), "Plugin is created")
    case BuildAction(p) => Announce(env.build(p), "Plugin is built")
    case CheckAction(p) => Announce(env.check(p), "Plugin is valid")
    case NoAction => ([], None)
  }

  /** The older `perform_action` as written: `CreatePlugin(args.create,
      args.package_version)` passes two arguments to a constructor that
      takes one. */
  function LegacyPerformActionAsWritten(args: Args, env: LegacyEnv): (r: (seq<string>, Option<Error>))
    ensures SelectAction(args).CreateAction? ==> r.0 == [] && r.1.Some? && r.1.value.kind == TypeError
    ensures !SelectAction(args).CreateAction? ==> r == LegacyPerformAction(args, env)
  {
    if SelectAction(args).CreateAction? then ([], Some(Namespaces.Call(["plugin_path"], 2, []).error))
    else LegacyPerformAction(args, env)
  }

  /** The older `main()`. */
  function LegacyMain(args: Args, env: LegacyEnv): (o: Outcome)
    ensures PackageVersionCheck(args).Some? ==> o.status == 2
  {
    if PackageVersionCheck(args).Some? then Outcome([], [UsageError(PackageVersionCheck(args).value)], 2)
    else Finish(LegacyInstallRequiredPackages, LegacyPerformAction(args, env))
  }

  /** The older command line succeeds exactly when the chosen action does,
      and then says which action it was. */
  lemma {:induction false} LegacyMainMessages(args: Args, env: LegacyEnv)
    requires PackageVersionCheck(args).None?
    ensures LegacyMain(args, env).status == 0 <==>
      match SelectAction(args)
      case CreateAction(p) => env.create(p).Ok?
      case BuildAction(p) => env.build(p).Ok?
      case CheckAction(p) => env.check(p).Ok?
      case NoAction => true
    ensures SelectAction(args).BuildAction? && LegacyMain(args, env).status == 0 ==>
      LegacyMain(args, env).stdout == ["Plugin is built"]
  {
  }

  /** `fpb --create name` on the older tree: the corrected call creates the
      plugin when the action succeeds; the call as written raises
      `TypeError` before the action runs. */
  lemma {:induction false} LegacyCreateDiscrepancy(args: Args, env: LegacyEnv)
    requires SelectAction(args).CreateAction? && PackageVersionCheck(args).None?
    requires env.create(args.create.value).Ok?
    ensures LegacyMain(args, env) == Outcome(["Plugin is created"], [], 0)
    ensures LegacyPerformActionAsWritten(args, env).1.value.kind == TypeError
  {
  }
}

=== FILE: create.dfy ===
/**
 `fpb --create <path>`: the plugin name is the last component of the path,
 the check refuses an existing directory and (in the newer tree) a name
 outside the pattern `^[a-z0-9_-]+$`, and the run copies every template
 directory of the package version into the plugin directory and renders
 the copied templates with the plugin name. Filesystem effects are the
 `Step`s the run asks for, in order.
 */
module Create {
  import opened Base
  import opened Json
  import Text
  import Paths
  import Namespaces
  import VersionMapping

  /** A character the plugin name pattern accepts. */
  predicate NameChar(c: char) {
    'a' <= c <= 'z' || '0' <= c <= '9' || c == '_' || c == '-'
  }

  /** What the pattern is meant to accept: a non-empty name of lower-case
      letters, digits, '_' and '-'. */
  predicate ValidName(name: string) {
    |name| > 0 && forall i :: 0 <= i < |name| ==> NameChar(name[i])
  }

  /** The greedy `[a-z0-9_-]+` run from position `i`: where it stops. */
  function NameRun(s: string, i: nat): (j: nat)
    requires i <= |s|
    ensures i <= j <= |s|
    ensures forall k :: i <= k < j ==> NameChar(s[k])
    ensures j < |s| ==> !NameChar(s[j])
    decreases |s| - i
  {
    if i < |s| && NameChar(s[i]) then NameRun(s, i + 1) else i
  }

  /** Python's `$` outside multiline mode: at the end of the text, or just
      before a newline that ends it. */
  predicate DollarAt(s: string, j: nat) {
    j == |s| || (j + 1 == |s| && s[j] == '\n')
  }

  /** `re.match('^[a-z0-9_-]+$', name)` as written. A newline is not a name
      character, so the greedy run never needs to back off. */
  predicate NameMatchesAsWritten(name: string) {
    var j := NameRun(name, 0);
    j > 0 && DollarAt(name, j)
  }

  /** The match the check evidently intends: the run covers the whole name. */
  predicate NameMatches(name: string) {
    var j := NameRun(name, 0);
    j > 0 && j == |name|
  }

  /** The corrected match accepts exactly the valid names. */
  lemma {:induction false} NameMatchesValid(name: string)
    ensures NameMatches(name) <==> ValidName(name)
  {
    var j := NameRun(name, 0);
  }

  /** The match as written accepts the valid names and, besides them, a
      valid name followed by one newline. */
  lemma {:induction false} NameMatchesAsWrittenNewline(name: string)
    ensures NameMatchesAsWritten(name) <==>
      ValidName(name) || (|name| > 1 && name[|name| - 1] == '\n' && ValidName(name[..|name| - 1]))
  {
    var j := NameRun(name, 0);
    NameMatchesValid(name);
    if |name| > 1 {
      var pre := name[..|name| - 1];
      assert forall k :: 0 <= k < |pre| ==> pre[k] == name[k];
    }
  }

  /** The name "abc" followed by a newline passes the match as written and
      is not a valid name. */
  lemma {:induction false} NameNewlineDiscrepancy()
    ensures NameMatchesAsWritten("abc\n")
    ensures !NameMatches("abc\n")
  {
    NameMatchesAsWrittenNewline("abc\n");
    assert "abc\n"[..3] == "abc";
    assert NameChar("abc"[0]) && NameChar("abc"[1]) && NameChar("abc"[2]);
    NameMatchesValid("abc\n");
    assert !NameChar("abc\n"[3]);
  }

  /** `basename(plugin_path.rstrip('/'))`. */
  function PluginName(path: string): (r: string)
    ensures '/' !in r
  {
    Paths.Basename(Text.RStrip(path, '/'))
  }

  /** Trailing slashes on the path do not change the plugin name. */
  lemma {:induction false} PluginNameIgnoresTrailingSlashes(path: string, n: nat)
    ensures PluginName(path + Text.Repeat('/', n)) == PluginName(path)
    decreases n
  {
    if n > 0 {
      var s := path + Text.Repeat('/', n - 1);
      assert path + Text.Repeat('/', n) == s + "/";
      RStripSlash(s);
      PluginNameIgnoresTrailingSlashes(path, n - 1);
    } else {
      assert path + Text.Repeat('/', 0) == path;
    }
  }

  lemma {:induction false} RStripSlash(s: string)
    ensures Text.RStrip(s + "/", '/') == Text.RStrip(s, '/')
  {
    assert (s + "/")[..|s|] == s;
  }

  /** A plugin created as `dir/name` is named `name`. */
  lemma {:induction false} PluginNameOfJoin(dir: string, name: string)
    requires name != "" && '/' !in name
    ensures PluginName(Paths.Join(dir, name)) == name
  {
    var p := Paths.Join(dir, name);
    Paths.JoinEndsWith(dir, name);
    assert name[|name| - 1] in name;
    assert p[|p| - 1] == name[|name| - 1];
    assert Text.RStrip(p, '/') == p;
    Paths.BasenameOfJoin(dir, name);
  }

  // The newer tree.

  /** A `CreatePlugin` action: where, under which name, with which render
      context and which template directories. */
  datatype CreatePlugin = CreatePlugin(pluginName: string, pluginPath: string, packageVersion: string,
                                       renderCtx: Fields, templatePaths: seq<string>)

  /** The package version used when none is given: the latest, and the only
      one the version table knows. */
  const LatestVersion := VersionMapping.V5

  function ChosenVersion(packageVersion: Option<string>): (v: string)
    ensures packageVersion.Some? && packageVersion.value != "" ==> v == packageVersion.value
  {
    if packageVersion.Some? && packageVersion.value != "" then packageVersion.value else LatestVersion
  }

  /** `CreatePlugin(plugin_path, package_version)` as the constructor
      evidently intends: the given version (or the latest) picks its
      templates from the version table, which refuses unknown versions. */
  function NewCreatePlugin(path: string, packageVersion: Option<string>): (r: Result<CreatePlugin>)
    ensures r.Ok? <==> ChosenVersion(packageVersion) == "5.0.0"
    ensures r.Err? ==> r.error.kind == WrongPackageVersionError
    ensures r.Ok? ==> r.value.pluginPath == path && r.value.pluginName == PluginName(path)
    ensures r.Ok? ==> Lookup(r.value.renderCtx, "plugin_name") == Some(Str(PluginName(path)))
  {
    var version := ChosenVersion(packageVersion);
    var m :- VersionMapping.GetPluginForVersion(Str(version), (j: Json) => "");
    var name := PluginName(path);
    Ok(CreatePlugin(name, path, version, [("plugin_name", Str(name))], m.templates))
  }

  /** Without a package version the plugin is laid out from the latest
      version's templates: the base templates, then the 5.0.0 ones. */
  lemma {:induction false} NewCreatePluginDefault(path: string)
    ensures NewCreatePlugin(path, None).Ok?
    ensures NewCreatePlugin(path, None).value.templatePaths == ["templates/base", "templates/v5/plugin_data/"]
    ensures NewCreatePlugin(path, Some("")).value == NewCreatePlugin(path, None).value
  {
  }

  /** The constructor as written: `consts.LATEST_VERSION` (read only when no
      version is given) and
      `version_mapping.get_config_for_plugin_package_version` are not
      defined, so it raises either way. */
  function NewCreatePluginAsWritten(path: string, packageVersion: Option<string>): (r: Result<CreatePlugin>)
    ensures r.Err? && r.error.kind == AttributeError
    ensures packageVersion.None? ==> r.error == Namespaces.NoAttribute("LATEST_VERSION")
  {
    if packageVersion.Some? && packageVersion.value != "" then
      Err(Namespaces.Attribute(Namespaces.VersionMappingNames, "get_config_for_plugin_package_version").error)
    else
      Err(Namespaces.Attribute(Namespaces.ConstsNames, "LATEST_VERSION").error)
  }

  const NameMessage := "Plugin name is invalid, use only lower case letters, numbers, '_', '-' symbols"

  function ExistsError(path: string): Error {
    Error(PluginDirectoryExistsError, "Plugins directory " + path + " already exists, choose another name")
  }

  /** `check()`: an existing directory first, then the name. */
  function Check(c: CreatePlugin, isExists: string -> bool): (r: Result<()>)
    ensures r.Ok? <==> !isExists(c.pluginPath) && ValidName(c.pluginName)
    ensures r.Err? ==> (r.error.kind == PluginDirectoryExistsError <==> isExists(c.pluginPath))
    ensures r.Err? && !isExists(c.pluginPath) ==> r.error == Error(ValidationError, NameMessage)
  {
    NameMatchesValid(c.pluginName);
    if isExists(c.pluginPath) then Err(ExistsError(c.pluginPath))
    else if !NameMatches(c.pluginName) then Err(Error(ValidationError, NameMessage))
    else Ok(())
  }

  /** `check()` as written, with Python's `$`. */
  function CheckAsWritten(c: CreatePlugin, isExists: string -> bool): (r: Result<()>)
    ensures r.Err? ==> (r.error.kind == PluginDirectoryExistsError <==> isExists(c.pluginPath))
  {
    if isExists(c.pluginPath) then Err(ExistsError(c.pluginPath))
    else if !NameMatchesAsWritten(c.pluginName) then Err(Error(ValidationError, NameMessage))
    else Ok(())
  }

  /** A path whose last component ends in a newline is refused by the
      corrected check and accepted by the check as written. */
  lemma {:induction false} CheckNewlineDiscrepancy(c: CreatePlugin, isExists: string -> bool)
    requires c.pluginName == "abc\n" && !isExists(c.pluginPath)
    ensures Check(c, isExists) == Err(Error(ValidationError, NameMessage))
    ensures CheckAsWritten(c, isExists) == Ok(())
  {
    NameNewlineDiscrepancy();
    NameMatchesValid(c.pluginName);
  }

  /** What a run asks of the filesystem. */
  datatype Step = CopyTree(src: string, dst: string) | RenderFiles(dir: string, context: Fields)

  /** `join(dirname(__file__), '..', template)` for the action's module
      directory. */
  function TemplateDir(moduleDir: string, template: string): string {
    Paths.Join(Paths.Join(moduleDir, ".."), template)
  }

  /** `run()`: the check, then per template directory a copy into the plugin
      directory followed by rendering it. */
  function Run(c: CreatePlugin, isExists: string -> bool, moduleDir: string): (r: Result<seq<Step>>)
    ensures r.Err? ==> r.error.kind == PluginDirectoryExistsError || r.error.kind == ValidationError
    ensures r.Ok? ==> |r.value| == 2 * |c.templatePaths|
  {
    var _ :- Check(c, isExists);
    Ok(Interleave(c.templatePaths,
                  (t: string) => CopyTree(TemplateDir(moduleDir, t), c.pluginPath),
                  (t: string) => RenderFiles(c.pluginPath, c.renderCtx)))
  }

  /** A run creates the plugin exactly when the check passes, and then
      template `i` is copied by step `2i` and rendered by step `2i + 1`,
      always into the plugin directory and with the plugin name. */
  lemma {:induction false} RunSteps(c: CreatePlugin, isExists: string -> bool, moduleDir: string, i: nat)
    requires i < |c.templatePaths|
    ensures Run(c, isExists, moduleDir).Ok? <==> Check(c, isExists).Ok?
    ensures Run(c, isExists, moduleDir).Ok? ==>
      Run(c, isExists, moduleDir).value[2 * i] == CopyTree(TemplateDir(moduleDir, c.templatePaths[i]), c.pluginPath)
      && Run(c, isExists, moduleDir).value[2 * i + 1] == RenderFiles(c.pluginPath, c.renderCtx)
  {
    InterleaveAt(c.templatePaths,
                 (t: string) => CopyTree(TemplateDir(moduleDir, t), c.pluginPath),
                 (t: string) => RenderFiles(c.pluginPath, c.renderCtx), i);
  }

  // The older tree.

  /** The older action: one template directory and a fixed plugin version
      in the render context. */
  datatype LegacyCreatePlugin = LegacyCreatePlugin(pluginName: string, pluginPath: string,
                                                   renderCtx: Fields, templatePath: string)

  /** The older constructor as it evidently intends: the base name of the
      path, version 1.0.0, and the latest version's template directory. */
  function NewLegacyCreatePlugin(path: string): (r: Result<LegacyCreatePlugin>)
    ensures r.Ok?
    ensures r.value.pluginName == PluginName(path) && r.value.pluginPath == path
    ensures Lookup(r.value.renderCtx, "plugin_version") == Some(Str("1.0.0"))
    ensures r.value.templatePath == "templates/v1/"
  {
    VersionMapping.LegacyGetPluginForVersionKnown(Str(VersionMapping.LatestVesion), (j: Json) => "");
    var m := VersionMapping.LegacyGetPluginForVersion(Str(VersionMapping.LatestVesion), (j: Json) => "").value;
    var name := PluginName(path);
    Ok(LegacyCreatePlugin(name, path, [("plugin_name", Str(name)), ("plugin_version", Str("1.0.0"))], m.templates))
  }

  /** The older constructor as written: the older `utils.py` has no
      `basename`. */
  function NewLegacyCreatePluginAsWritten(path: string): (r: Result<LegacyCreatePlugin>)
    ensures r.Err? && r.error == Namespaces.NoAttribute("basename")
  {
    Err(Namespaces.Attribute(Namespaces.OlderUtilsNames, "basename").error)
  }

  /** The older `check()`: only an existing directory is refused; any name
      passes. */
  function LegacyCheck(c: LegacyCreatePlugin, isExists: string -> bool): (r: Result<()>)
    ensures r.Ok? <==> !isExists(c.pluginPath)
    ensures r.Err? ==> r.error == ExistsError(c.pluginPath)
  {
    if isExists(c.pluginPath) then Err(ExistsError(c.pluginPath)) else Ok(())
  }

  /** The older `run()`: the check, one copy and one render. */
  function LegacyRun(c: LegacyCreatePlugin, isExists: string -> bool, moduleDir: string): (r: Result<seq<Step>>)
    ensures r.Ok? <==> !isExists(c.pluginPath)
    ensures r.Ok? ==> (|r.value| == 2 && r.value[0].CopyTree? && r.value[0].dst == c.pluginPath
                       && r.value[1] == RenderFiles(c.pluginPath, c.renderCtx))
  {
    var _ :- LegacyCheck(c, isExists);
    Ok([CopyTree(TemplateDir(moduleDir, c.templatePath), c.pluginPath), RenderFiles(c.pluginPath, c.renderCtx)])
  }

  /** The older constructor, corrected, accepts any name the newer check
      refuses: an upper-case name is created. */
  lemma {:induction false} LegacyAcceptsAnyName(isExists: string -> bool, moduleDir: string)
    requires !isExists("Upper")
    ensures LegacyRun(NewLegacyCreatePlugin("Upper").value, isExists, moduleDir).Ok?
    ensures !ValidName(PluginName("Upper"))
  {
    assert Text.RStrip("Upper", '/') == "Upper";
    assert '/' !in "Upper";
    assert !NameChar("Upper"[0]);
  }
}

=== FILE: fencing.dfy ===
/**
 The catalogue the `pcs_fencing` Puppet module declares for STONITH, as its
 rspec expectations describe it. The define `pcs_fencing::fencing` turns one
 fencing primitive into a pacemaker resource named after the primitive and
 the node it runs on (the `pacemaker_hostname` fact), a location that bans
 the resource from that node and a location whose rule allows it on every
 other node. The class `pcs_fencing::fencing_primitives` declares the
 fence agents package, one such define per primitive, the two cluster
 properties that switch fencing on, and the fencing topology object.
 */
module Fencing {
  import opened Base
  import opened Json

  /** The attributes of one fencing primitive: the agent, and the
      parameters, operations and meta settings, each a hash or `false`. */
  datatype Primitive = Primitive(agentType: string, parameters: Json, operations: Json, meta: Json)

  /** A pacemaker rule expression and rule. */
  datatype Expression = Expression(attribute: string, operation: string, value: string)
  datatype Rule = Rule(score: string, boolean: string, expressions: seq<Expression>)

  /** The catalogue resources the module declares. */
  datatype Resource =
    | CsResource(name: string, ensure: string, providedBy: string, primitiveClass: string,
                 primitiveType: string, parameters: Json, operations: Json, metadata: Json)
    | CsLocation(name: string, primitive: string, nodeName: Option<string>, nodeScore: Option<string>, rules: seq<Rule>)
    | Package(name: string)
    | CsProperty(name: string)
    | FencingDefine(name: string, attributes: Primitive)
    | CsFencetopo(name: string, ensure: string, topology: Json, nodes: seq<string>)

  type Catalogue = seq<Resource>

  /** The id of the STONITH resource for primitive `title` on `node`. */
  function ResourceId(title: string, node: string): string {
    "stonith__" + title + "__" + node
  }

  function ProhibitName(id: string): string {
    "location__prohibit__" + id
  }

  function AllowName(id: string): string {
    "location__allow__" + id
  }

  const NodeAttribute := "#uname"
  const Banned := "-INFINITY"

  /** The single rule of the allow location: score 100 wherever the node
      name differs from `node`. */
  function AllowRule(node: string): Rule {
    Rule("100", "", [Expression(NodeAttribute, "ne", node)])
  }

  /** `pcs_fencing::fencing { title: agent_type, parameters, operations,
      meta }` on the host whose `pacemaker_hostname` is `node`. */
  function Fencing(title: string, node: string, p: Primitive): Catalogue {
    var id := ResourceId(title, node);
    [CsResource(id, "present", "pacemaker", "stonith", p.agentType, p.parameters, p.operations, p.meta),
     CsLocation(ProhibitName(id), id, Some(node), Some(Banned), []),
     CsLocation(AllowName(id), id, None, None, [AllowRule(node)])]
  }

  // How pacemaker reads the two locations: a rule expression on `#uname`
  // compares the node name, a rule applies when all its expressions hold,
  // and a node score of -INFINITY forbids the node.

  predicate Holds(e: Expression, uname: string) {
    e.attribute == NodeAttribute
    && ((e.operation == "eq" && uname == e.value) || (e.operation == "ne" && uname != e.value))
  }

  predicate RuleApplies(rule: Rule, uname: string) {
    forall i :: 0 <= i < |rule.expressions| ==> Holds(rule.expressions[i], uname)
  }

  /** `r` forbids resource `id` on node `n`. */
  predicate Bans(r: Resource, id: string, n: string) {
    r.CsLocation? && r.primitive == id && r.nodeName == Some(n) && r.nodeScore == Some(Banned)
  }

  /** `r` carries a rule placing resource `id` on node `n`. */
  predicate Admits(r: Resource, id: string, n: string) {
    r.CsLocation? && r.primitive == id && exists i :: 0 <= i < |r.rules| && RuleApplies(r.rules[i], n)
  }

  /** The define declares a resource under exactly the id, with the fixed
      ensure, provider and class, the agent as type, and the three settings
      forwarded unchanged, `false` included; both locations name it. */
  lemma {:induction false} FencingResource(title: string, node: string, p: Primitive)
    ensures var c := Fencing(title, node, p); var id := "stonith__" + title + "__" + node;
      CsResource(id, "present", "pacemaker", "stonith", p.agentType, p.parameters, p.operations, p.meta) in c
      && (forall i :: 0 <= i < |c| && c[i].CsResource? ==>
            c[i].name == id && c[i].metadata == p.meta && c[i].parameters == p.parameters && c[i].operations == p.operations)
      && (forall i :: 0 <= i < |c| && c[i].CsLocation? ==> c[i].primitive == id)
  {
    var c := Fencing(title, node, p);
    assert c[0] in c;
  }

  /** Exactly one prohibit location, pinned to the fenced node at
      -INFINITY, and exactly one allow location holding the single
      `#uname ne node` rule with score 100. */
  lemma {:induction false} FencingLocations(title: string, node: string, p: Primitive)
    ensures var c := Fencing(title, node, p); var id := "stonith__" + title + "__" + node;
      CsLocation("location__prohibit__" + id, id, Some(node), Some("-INFINITY"), []) in c
      && CsLocation("location__allow__" + id, id, None, None,
           [Rule("100", "", [Expression("#uname", "ne", node)])]) in c
      && (forall i :: 0 <= i < |c| && c[i].CsLocation? ==>
            c[i].name == "location__prohibit__" + id || c[i].name == "location__allow__" + id)
      && (forall i, j :: 0 <= i < j < |c| ==> c[i].name != c[j].name)
  {
    var c := Fencing(title, node, p);
    var id := ResourceId(title, node);
    assert c[1] in c && c[2] in c;
    assert id[0] == 's' && ProhibitName(id)[0] == 'l' && AllowName(id)[0] == 'l';
    assert ProhibitName(id)[10] == 'p' && AllowName(id)[10] == 'a';
  }

  /** The placement the locations give: resource `id` is banned from a node
      exactly when that node is the fenced one, and admitted by a rule
      exactly on the other nodes — a fencing device never runs on the node
      it fences. */
  lemma {:induction false} FencingPlacement(title: string, node: string, p: Primitive, n: string)
    ensures var c := Fencing(title, node, p); var id := ResourceId(title, node);
      (exists i :: 0 <= i < |c| && Bans(c[i], id, n)) <==> n == node
    ensures var c := Fencing(title, node, p); var id := ResourceId(title, node);
      (exists i :: 0 <= i < |c| && Admits(c[i], id, n)) <==> n != node
  {
    var c := Fencing(title, node, p);
    var id := ResourceId(title, node);
    if n == node {
      assert Bans(c[1], id, n);
    }
    if n != node {
      assert RuleApplies(c[2].rules[0], n);
      assert Admits(c[2], id, n);
    }
    if exists i :: 0 <= i < |c| && Admits(c[i], id, n) {
      var i :| 0 <= i < |c| && Admits(c[i], id, n);
      assert i == 2;
      var k :| 0 <= k < |c[2].rules| && RuleApplies(c[2].rules[k], n);
      assert k == 0;
      assert Holds(c[2].rules[0].expressions[0], n);
    }
  }

  /** The names and locations depend on title and node only; the agent and
      its settings change the resource's attributes and nothing else. */
  lemma {:induction false} FencingIdsIgnoreAgent(title: string, node: string, p: Primitive, q: Primitive)
    ensures var a := Fencing(title, node, p); var b := Fencing(title, node, q);
      |a| == |b| && (forall i :: 0 <= i < |a| ==> a[i].name == b[i].name)
      && a[1..] == b[1..]
  {
  }

  /** The example of the define's rspec: `virsh_off` on `node-1` with every
      setting `false`. */
  lemma {:induction false} FencingExample()
    ensures var f := Bool(false);
      Fencing("virsh_off", "node-1", Primitive("fence_virsh", f, f, f)) ==
      [CsResource("stonith__virsh_off__node-1", "present", "pacemaker", "stonith", "fence_virsh", f, f, f),
       CsLocation("location__prohibit__stonith__virsh_off__node-1", "stonith__virsh_off__node-1",
                  Some("node-1"), Some("-INFINITY"), []),
       CsLocation("location__allow__stonith__virsh_off__node-1", "stonith__virsh_off__node-1", None, None,
                  [Rule("100", "", [Expression("#uname", "ne", "node-1")])])]
  {
    ExampleResourceId();
    ExampleProhibitName();
    ExampleAllowName();
  }

  /** The three names of the example, spelt out. */
  lemma ExampleResourceId()
    ensures ResourceId("virsh_off", "node-1") == "stonith__virsh_off__node-1"
  {
  }

  lemma ExampleProhibitName()
    ensures ProhibitName("stonith__virsh_off__node-1") == "location__prohibit__stonith__virsh_off__node-1"
  {
  }

  lemma ExampleAllowName()
    ensures AllowName("stonith__virsh_off__node-1") == "location__allow__stonith__virsh_off__node-1"
  {
  }

  // pcs_fencing::fencing_primitives

  /** One entry of the `nodes` list. */
  datatype Node = Node(fqdn: string, name: string, role: string)

  function Fqdns(nodes: seq<Node>): (r: seq<string>)
    ensures |r| == |nodes|
    ensures forall i :: 0 <= i < |nodes| ==> r[i] == nodes[i].fqdn
  {
    if |nodes| == 0 then [] else [nodes[0].fqdn] + Fqdns(nodes[1..])
  }

  /** One define per `fence_primitives` entry, followed by what it expands
      to on the host. */
  function Defines(primitives: seq<(string, Primitive)>, hostname: string): (r: Catalogue)
    decreases |primitives|
  {
    if |primitives| == 0 then []
    else
      var (title, p) := primitives[0];
      [FencingDefine(title, p)] + Fencing(title, hostname, p) + Defines(primitives[1..], hostname)
  }

  const TopologyName := "fencing_topology"

  /** `pcs_fencing::fencing_primitives(fence_primitives, fence_topology,
      nodes)` on the host whose `pacemaker_hostname` is `hostname`. */
  function FencingPrimitives(primitives: seq<(string, Primitive)>, topology: Json, nodes: seq<Node>,
                             hostname: string): Catalogue
  {
    [Package("fence-agents")]
    + Defines(primitives, hostname)
    + [CsProperty("stonith-enabled"), CsProperty("cluster-recheck-interval"),
       CsFencetopo(TopologyName, "present", topology, Fqdns(nodes))]
  }

  /** Every resource `Defines` produces is a define, a STONITH resource or a
      location. */
  lemma {:induction false} DefinesKinds(primitives: seq<(string, Primitive)>, hostname: string)
    ensures forall r :: r in Defines(primitives, hostname) ==> r.FencingDefine? || r.CsResource? || r.CsLocation?
    decreases |primitives|
  {
    if |primitives| > 0 {
      DefinesKinds(primitives[1..], hostname);
    }
  }

  /** The defines are exactly the entries of `fence_primitives`, each with
      its attributes unchanged, and each entry's STONITH resource is
      declared under its id. */
  lemma {:induction false} DefinesEntries(primitives: seq<(string, Primitive)>, hostname: string, title: string, p: Primitive)
    ensures FencingDefine(title, p) in Defines(primitives, hostname) <==> (title, p) in primitives
    ensures (title, p) in primitives ==>
      CsResource(ResourceId(title, hostname), "present", "pacemaker", "stonith",
                 p.agentType, p.parameters, p.operations, p.meta) in Defines(primitives, hostname)
    decreases |primitives|
  {
    if |primitives| > 0 {
      DefinesEntries(primitives[1..], hostname, title, p);
      var (t0, p0) := primitives[0];
      var head := [FencingDefine(t0, p0)] + Fencing(t0, hostname, p0);
      var rest := Defines(primitives[1..], hostname);
      assert Defines(primitives, hostname) == head + rest;
      assert primitives == [primitives[0]] + primitives[1..];
      assert FencingDefine(title, p) in head <==> (title, p) == primitives[0];
      assert head[1] == Fencing(t0, hostname, p0)[0];
    }
  }

  /** The class declares the `fence-agents` package and the two cluster
      properties. */
  lemma {:induction false} FencingPrimitivesFixed(primitives: seq<(string, Primitive)>, topology: Json, nodes: seq<Node>, hostname: string)
    ensures var c := FencingPrimitives(primitives, topology, nodes, hostname);
      Package("fence-agents") in c && CsProperty("stonith-enabled") in c && CsProperty("cluster-recheck-interval") in c
  {
    var c := FencingPrimitives(primitives, topology, nodes, hostname);
    assert c[0] == Package("fence-agents");
    assert c[|c| - 3] == CsProperty("stonith-enabled");
    assert c[|c| - 2] == CsProperty("cluster-recheck-interval");
  }

  /** There is exactly one topology object: `fencing_topology`, present,
      holding the input topology verbatim and the nodes' FQDNs in input
      order. */
  lemma {:induction false} FencingPrimitivesTopology(primitives: seq<(string, Primitive)>, topology: Json, nodes: seq<Node>, hostname: string)
    ensures var c := FencingPrimitives(primitives, topology, nodes, hostname);
      CsFencetopo("fencing_topology", "present", topology, Fqdns(nodes)) in c
      && forall r :: r in c && r.CsFencetopo? ==> r == CsFencetopo("fencing_topology", "present", topology, Fqdns(nodes))
  {
    var c := FencingPrimitives(primitives, topology, nodes, hostname);
    var d := Defines(primitives, hostname);
    DefinesKinds(primitives, hostname);
    assert c[|c| - 1] == CsFencetopo(TopologyName, "present", topology, Fqdns(nodes));
    forall r | r in c && r.CsFencetopo?
      ensures r == CsFencetopo("fencing_topology", "present", topology, Fqdns(nodes))
    {
      assert c == [Package("fence-agents")] + d + [CsProperty("stonith-enabled"), CsProperty("cluster-recheck-interval"),
        CsFencetopo(TopologyName, "present", topology, Fqdns(nodes))];
      assert r !in d;
    }
  }

  /** The class's defines are exactly the `fence_primitives` entries, and
      each one's STONITH resource, named after the entry and the host, is
      in the catalogue. */
  lemma {:induction false} FencingPrimitivesDefines(primitives: seq<(string, Primitive)>, topology: Json, nodes: seq<Node>,
                                                    hostname: string, title: string, p: Primitive)
    ensures var c := FencingPrimitives(primitives, topology, nodes, hostname);
      FencingDefine(title, p) in c <==> (title, p) in primitives
    ensures (title, p) in primitives ==>
      CsResource("stonith__" + title + "__" + hostname, "present", "pacemaker", "stonith",
                 p.agentType, p.parameters, p.operations, p.meta) in FencingPrimitives(primitives, topology, nodes, hostname)
  {
    var d := Defines(primitives, hostname);
    DefinesEntries(primitives, hostname, title, p);
    var c := FencingPrimitives(primitives, topology, nodes, hostname);
    assert c == [Package("fence-agents")] + d + [CsProperty("stonith-enabled"), CsProperty("cluster-recheck-interval"),
      CsFencetopo(TopologyName, "present", topology, Fqdns(nodes))];
  }
}

=== FILE: inspection.dfy ===
/**
 The check/inspection framework of `validators/base.py`: its own, simpler
 report node (a text, children and a failure flag, no level), the rendering
 that marks a node failed when anything below it failed, inspections that
 run checks over a path and its files, and the validator that renders all
 inspection reports with a verdict.

 A missing text is the empty string, as in the newer report tree.
 */
module Inspection {
  import opened Base
  import opened Text
  import Namespaces

  datatype ReportNode = ReportNode(text: string, children: seq<ReportNode>, failed: bool)

  /** `add_nodes`: the nodes go after the existing children, in order. */
  function AddNodes(n: ReportNode, nodes: seq<ReportNode>): (r: ReportNode)
    ensures r.text == n.text && r.failed == n.failed
    ensures r.children == n.children + nodes
  {
    n.(children := n.children + nodes)
  }

  /** `error(msg)`: one failed `ERROR:` child; warnings and infos are not
      failed. */
  function AddError(n: ReportNode, msg: string): (r: ReportNode)
    ensures r.children == n.children + [ReportNode("ERROR: " + msg, [], true)]
  {
    AddNodes(n, [ReportNode("ERROR: " + msg, [], true)])
  }

  function AddWarning(n: ReportNode, msg: string): (r: ReportNode)
    ensures r.children == n.children + [ReportNode("WARNING: " + msg, [], false)]
  {
    AddNodes(n, [ReportNode("WARNING: " + msg, [], false)])
  }

  function AddInfo(n: ReportNode, msg: string): (r: ReportNode)
    ensures r.children == n.children + [ReportNode("INFO: " + msg, [], false)]
  {
    AddNodes(n, [ReportNode("INFO: " + msg, [], false)])
  }

  // ---------------------------------------------------------------------
  // Failure counting
  // ---------------------------------------------------------------------

  /** `count_failures(start_from)`. */
  function CountFailures(n: ReportNode, start: int): int
    decreases n
  {
    CountChildren(n.children, if n.failed then start + 1 else start)
  }

  function CountChildren(cs: seq<ReportNode>, count: int): int
    decreases cs
  {
    if |cs| == 0 then count else CountChildren(cs[1..], CountFailures(cs[0], count))
  }

  /** Every node of a subtree, in pre-order. */
  function Flatten(n: ReportNode): (r: seq<ReportNode>)
    ensures |r| >= 1 && r[0] == n
    decreases n
  {
    [n] + FlattenAll(n.children)
  }

  function FlattenAll(cs: seq<ReportNode>): seq<ReportNode>
    decreases cs
  {
    if |cs| == 0 then [] else Flatten(cs[0]) + FlattenAll(cs[1..])
  }

  function FailedCount(ns: seq<ReportNode>): (r: nat)
    ensures r <= |ns|
    ensures r > 0 <==> exists i :: 0 <= i < |ns| && ns[i].failed
  {
    if |ns| == 0 then 0
    else
      var rest := FailedCount(ns[1..]);
      assert forall i :: 0 < i < |ns| ==> ns[i] == ns[1..][i - 1];
      (if ns[0].failed then 1 else 0) + rest
  }

  lemma {:induction false} FailedCountAppend(a: seq<ReportNode>, b: seq<ReportNode>)
    ensures FailedCount(a + b) == FailedCount(a) + FailedCount(b)
  {
    if |a| > 0 {
      assert (a + b)[1..] == a[1..] + b;
      FailedCountAppend(a[1..], b);
    } else {
      assert a + b == b;
    }
  }

  lemma {:induction false} FlattenAllAppend(a: seq<ReportNode>, b: seq<ReportNode>)
    ensures FlattenAll(a + b) == FlattenAll(a) + FlattenAll(b)
  {
    if |a| > 0 {
      assert (a + b)[0] == a[0];
      assert (a + b)[1..] == a[1..] + b;
      FlattenAllAppend(a[1..], b);
    } else {
      assert a + b == b;
    }
  }

  /** A list of trees holds no failed node exactly when none of its trees
      does. */
  lemma {:induction false} FlattenAllClean(ns: seq<ReportNode>)
    ensures FailedCount(FlattenAll(ns)) == 0 <==> forall i :: 0 <= i < |ns| ==> FailedCount(Flatten(ns[i])) == 0
  {
    if |ns| > 0 {
      FlattenAllClean(ns[1..]);
      FailedCountAppend(Flatten(ns[0]), FlattenAll(ns[1..]));
      forall i | 1 <= i < |ns|
        ensures ns[i] == ns[1..][i - 1]
      {
      }
    }
  }

  /** `count_failures(s)` is `s` plus the number of failed nodes of the
      subtree. */
  lemma {:induction false} CountFailuresIsFailedNodes(n: ReportNode, start: int)
    ensures CountFailures(n, start) == start + FailedCount(Flatten(n))
    decreases n, 1
  {
    CountChildrenIsFailedNodes(n.children, if n.failed then start + 1 else start);
    FailedCountAppend([n], FlattenAll(n.children));
    assert [n][1..] == [];
  }

  lemma {:induction false} CountChildrenIsFailedNodes(cs: seq<ReportNode>, count: int)
    ensures CountChildren(cs, count) == count + FailedCount(FlattenAll(cs))
    decreases cs, 0
  {
    if |cs| > 0 {
      CountFailuresIsFailedNodes(cs[0], count);
      CountChildrenIsFailedNodes(cs[1..], CountFailures(cs[0], count));
      FailedCountAppend(Flatten(cs[0]), FlattenAll(cs[1..]));
    }
  }

  /** Adding nodes adds exactly their failures to the count. */
  lemma {:induction false} AddNodesCounts(n: ReportNode, nodes: seq<ReportNode>, start: int)
    ensures CountFailures(AddNodes(n, nodes), start) == CountFailures(n, start) + FailedCount(FlattenAll(nodes))
  {
    var m := AddNodes(n, nodes);
    CountFailuresIsFailedNodes(m, start);
    CountFailuresIsFailedNodes(n, start);
    FlattenAllAppend(n.children, nodes);
    FailedCountAppend([n], FlattenAll(n.children));
    FailedCountAppend([m], FlattenAll(n.children) + FlattenAll(nodes));
    FailedCountAppend(FlattenAll(n.children), FlattenAll(nodes));
    assert [n][1..] == [] && [m][1..] == [];
  }

  // ---------------------------------------------------------------------
  // Rendering
  // ---------------------------------------------------------------------

  const IndentSize: nat := 4
  const FailurePointer: string := "> "

  /** A node's own line at a level: a failed node (failed itself or through
      a descendant) gives up two indent columns to the failure pointer. */
  function OwnLine(text: string, level: nat, failed: bool): string {
    var indent := IndentSize * level;
    var errorIndent := if indent >= |FailurePointer| then indent - |FailurePointer| else 0;
    if failed then Spaces(errorIndent) + FailurePointer + text else Spaces(indent) + text
  }

  /** `_render(level)`: the lines of the subtree and whether it failed.
      Children are rendered first (a textless node does not indent them),
      and the node's own line, if it has a text, goes in front. */
  function RenderAt(n: ReportNode, level: nat): (r: (seq<string>, bool))
    decreases n
  {
    var next := if n.text != "" then level + 1 else level;
    var (lines, childFailed) := RenderChildren(n.children, next, n.failed);
    var failed := childFailed;
    if n.text != "" then ([OwnLine(n.text, level, failed)] + lines, failed) else (lines, failed)
  }

  /** The loop over the children: lines are collected in order and the flag
      is or-ed with each child's. */
  function RenderChildren(cs: seq<ReportNode>, level: nat, failed: bool): (r: (seq<string>, bool))
    decreases cs
  {
    if |cs| == 0 then ([], failed)
    else
      var (first, firstFailed) := RenderAt(cs[0], level);
      var (rest, restFailed) := RenderChildren(cs[1..], level, firstFailed || failed);
      (first + rest, restFailed)
  }

  /** The flag `_render` returns is set exactly when the subtree holds a
      failed node, i.e. when it counts a failure. */
  lemma {:induction false} RenderFailedIffCounted(n: ReportNode, level: nat)
    ensures RenderAt(n, level).1 <==> FailedCount(Flatten(n)) > 0
    decreases n, 1
  {
    var next := if n.text != "" then level + 1 else level;
    RenderChildrenFailed(n.children, next, n.failed);
    FailedCountAppend([n], FlattenAll(n.children));
    assert [n][1..] == [];
  }

  lemma {:induction false} RenderChildrenFailed(cs: seq<ReportNode>, level: nat, failed: bool)
    ensures RenderChildren(cs, level, failed).1 <==> failed || FailedCount(FlattenAll(cs)) > 0
    decreases cs, 0
  {
    if |cs| > 0 {
      RenderFailedIffCounted(cs[0], level);
      var firstFailed := RenderAt(cs[0], level).1;
      RenderChildrenFailed(cs[1..], level, firstFailed || failed);
      FailedCountAppend(Flatten(cs[0]), FlattenAll(cs[1..]));
    }
  }

  /** The rendered flag agrees with counting failures from zero. */
  lemma {:induction false} RenderFailedIffCountPositive(n: ReportNode, level: nat)
    ensures RenderAt(n, level).1 <==> CountFailures(n, 0) > 0
  {
    RenderFailedIffCounted(n, level);
    CountFailuresIsFailedNodes(n, 0);
  }

  /** A node with a text renders its own line first; from level 1 on the
      text starts at column 4·level whether the node failed or not. */
  lemma {:induction false} OwnLineFirst(n: ReportNode, level: nat)
    requires n.text != ""
    ensures var r := RenderAt(n, level);
      |r.0| >= 1 && r.0[0] == OwnLine(n.text, level, r.1)
  {
  }

  lemma {:induction false} OwnLineColumn(text: string, level: nat, failed: bool)
    requires level >= 1
    ensures var line := OwnLine(text, level, failed);
      && |line| == 4 * level + |text|
      && line[4 * level..] == text
      && (failed ==> line[..4 * level] == Spaces(4 * level - 2) + "> ")
      && (!failed ==> line[..4 * level] == Spaces(4 * level))
  {
  }

  /** `render()`: the lines of `_render()` joined by newlines. */
  function Render(n: ReportNode): string {
    Join(RenderAt(n, 0).0, "\n")
  }

  // ---------------------------------------------------------------------
  // Checks and inspections
  // ---------------------------------------------------------------------

  /** What a check hands back: a report node, or some other value (shown by
      its printed form). */
  datatype Outcome = Report(node: ReportNode) | NotReport(shown: string)

  /** A check: its printed form, and what it says about a path and about a
      file. */
  datatype Check = Check(shown: string, checkPath: string -> Outcome, checkFile: string -> Outcome)

  datatype Inspection = Inspection(checks: seq<Check>, name: string, path: string)

  /** `Inspection(checks, name, path)`: an empty check list is refused. */
  function MakeInspection(checks: seq<Check>, name: string, path: string): (r: Result<Inspection>)
    ensures r.Ok? <==> |checks| > 0
    ensures r.Ok? ==> r.value == Inspection(checks, name, path)
    ensures r.Err? ==> r.error == Error(CheckConfigurationError, "No checks provided")
  {
    if |checks| > 0 then Ok(Inspection(checks, name, path))
    else Err(Error(CheckConfigurationError, "No checks provided"))
  }

  /** `Inspection(checks, name, path)` as written: the refusal raises
      `errors.CheckConfigurationError`, which `errors.py` does not define. */
  function MakeInspectionAsWritten(checks: seq<Check>, name: string, path: string): (r: Result<Inspection>)
    ensures r.Ok? <==> |checks| > 0
    ensures r.Ok? ==> r == MakeInspection(checks, name, path)
    ensures r.Err? ==> r.error == Namespaces.NoAttribute("CheckConfigurationError")
  {
    match MakeInspection(checks, name, path)
    case Ok(insp) => Ok(insp)
    case Err(e) =>
      Namespaces.RaiseCheckConfigurationError(e.message);
      Err(Namespaces.Raise(e))
  }

  /** An inspection without checks: refused with the intended error, and
      with an `AttributeError` as written. */
  lemma {:induction false} MakeInspectionRaiseDiscrepancy(name: string, path: string)
    ensures MakeInspection([], name, path).error.kind == CheckConfigurationError
    ensures MakeInspectionAsWritten([], name, path).error.kind == AttributeError
  {
  }

  /** What one check produces for a path: the path result, then one result
      per file, each paired with the check's printed form. */
  function CheckOutcomes(c: Check, path: string, files: seq<string>): (r: seq<(string, Outcome)>)
    ensures |r| == 1 + |files|
    ensures r[0] == (c.shown, c.checkPath(path))
    ensures forall j :: 0 <= j < |files| ==> r[1 + j] == (c.shown, c.checkFile(files[j]))
  {
    [(c.shown, c.checkPath(path))] + seq(|files|, j requires 0 <= j < |files| => (c.shown, c.checkFile(files[j])))
  }

  /** All checks' outcomes, check by check. */
  function AllOutcomes(checks: seq<Check>, path: string, files: seq<string>): (r: seq<(string, Outcome)>)
    ensures |r| == Blocks(|checks|, 1 + |files|)
  {
    FlatMapLength(checks, OutcomesOf(path, files), 1 + |files|);
    FlatMap(checks, OutcomesOf(path, files))
  }

  /** Concatenating check lists concatenates their outcomes. */
  lemma {:induction false} AllOutcomesAppend(a: seq<Check>, b: seq<Check>, path: string, files: seq<string>)
    ensures AllOutcomes(a + b, path, files) == AllOutcomes(a, path, files) + AllOutcomes(b, path, files)
  {
    FlatMapAppend(a, b, OutcomesOf(path, files));
  }

  /** Splitting the check list splits its outcomes. */
  lemma {:induction false} AllOutcomesSplit(checks: seq<Check>, path: string, files: seq<string>, k: nat)
    requires k <= |checks|
    ensures AllOutcomes(checks, path, files) ==
            AllOutcomes(checks[..k], path, files) + AllOutcomes(checks[k..], path, files)
  {
    assert checks == checks[..k] + checks[k..];
    AllOutcomesAppend(checks[..k], checks[k..], path, files);
  }

  /** The raising loop of `check()`: the reports in order, or the first
      outcome that is not a report. */
  function CollectReports(outcomes: seq<(string, Outcome)>): (r: Result<seq<ReportNode>>)
    ensures r.Ok? <==> AllReports(outcomes)
    ensures r.Ok? ==> |r.value| == |outcomes|
                      && forall i :: 0 <= i < |outcomes| ==> r.value[i] == outcomes[i].1.node
    ensures r.Err? ==> exists i :: 0 <= i < |outcomes| && outcomes[i].1.NotReport?
                          && (forall j :: 0 <= j < i ==> outcomes[j].1.Report?)
                          && r.error == NonReportError(outcomes[i].0, outcomes[i].1.shown)
  {
    if |outcomes| == 0 then Ok([])
    else
      match outcomes[0].1
      case NotReport(shown) => Err(NonReportError(outcomes[0].0, shown))
      case Report(node) =>
        var rest := CollectReports(outcomes[1..]);
        assert forall i :: 1 <= i < |outcomes| ==> outcomes[i] == outcomes[1..][i - 1];
        if rest.Err? then
          Err(rest.error)
        else
          Ok([node] + rest.value)
  }

  predicate AllReports(outcomes: seq<(string, Outcome)>) {
    forall i :: 0 <= i < |outcomes| ==> outcomes[i].1.Report?
  }

  function NonReportError(check: string, shown: string): Error {
    Error(CheckConfigurationError, "Check " + check + " returned non-report value " + shown)
  }

  /** `Inspection.check()`: every check looks at the path and then at each
      file in it; all reports go, in that order, under one node for the
      path, itself under `"Inspection: <name>"`. */
  function RunInspection(insp: Inspection, filesInPath: string -> seq<string>): (r: Result<ReportNode>)
    ensures r.Ok? ==> r.value.text == "Inspection: " + insp.name && !r.value.failed
    ensures r.Ok? ==> |r.value.children| == 1 && r.value.children[0].text == insp.path
                      && !r.value.children[0].failed
    ensures r.Ok? ==> |r.value.children[0].children| == Blocks(|insp.checks|, 1 + |filesInPath(insp.path)|)
    ensures r.Ok? <==> |insp.checks| > 0 && AllReports(AllOutcomes(insp.checks, insp.path, filesInPath(insp.path)))
    ensures |insp.checks| == 0 ==> r == Err(Error(CheckConfigurationError, "No checks defined"))
    ensures r.Err? ==> r.error.kind == CheckConfigurationError
  {
    if |insp.checks| == 0 then Err(Error(CheckConfigurationError, "No checks defined"))
    else
      match CollectReports(AllOutcomes(insp.checks, insp.path, filesInPath(insp.path)))
      case Err(e) => Err(e)
      case Ok(reports) =>
        var pathNode := AddNodes(ReportNode(insp.path, [], false), reports);
        Ok(AddNodes(ReportNode("Inspection: " + insp.name, [], false), [pathNode]))
  }

  /** `Inspection.check()` as written: both of its raises name
      `errors.CheckConfigurationError`, a class `errors.py` does not define,
      so each raises the `AttributeError` of that name; a successful
      inspection is unaffected. */
  function RunInspectionAsWritten(insp: Inspection, filesInPath: string -> seq<string>): (r: Result<ReportNode>)
    ensures r.Ok? <==> RunInspection(insp, filesInPath).Ok?
    ensures r.Ok? ==> r == RunInspection(insp, filesInPath)
    ensures r.Err? ==> r.error == Namespaces.NoAttribute("CheckConfigurationError")
  {
    match RunInspection(insp, filesInPath)
    case Ok(report) => Ok(report)
    case Err(e) =>
      Namespaces.RaiseCheckConfigurationError(e.message);
      Err(Namespaces.Raise(e))
  }

  /** A first check that answers the path with something other than a
      report makes the inspection raise `CheckConfigurationError` under the
      corrected reading, and an `AttributeError` as written. */
  lemma {:induction false} RunInspectionDiscrepancy(insp: Inspection, filesInPath: string -> seq<string>)
    requires |insp.checks| > 0 && insp.checks[0].checkPath(insp.path).NotReport?
    ensures RunInspection(insp, filesInPath).Err?
    ensures RunInspection(insp, filesInPath).error.kind == CheckConfigurationError
    ensures RunInspectionAsWritten(insp, filesInPath).error.kind == AttributeError
  {
    var files := filesInPath(insp.path);
    AllOutcomesAt(insp.checks, insp.path, files, 0, 0);
    assert Blocks(0, 1 + |files|) == 0;
    assert !AllReports(AllOutcomes(insp.checks, insp.path, files));
  }

  /** The outcomes of one check, as `AllOutcomes` maps them. */
  function OutcomesOf(path: string, files: seq<string>): (f: Check -> seq<(string, Outcome)>)
    ensures forall c :: |f(c)| == 1 + |files|
  {
    c => CheckOutcomes(c, path, files)
  }

  /** Check `k`'s outcomes fill the `k`-th block of `1 + |files|` entries:
      first the path outcome, then one per file. */
  lemma {:induction false} AllOutcomesAt(checks: seq<Check>, path: string, files: seq<string>, k: nat, m: nat)
    requires k < |checks| && m < 1 + |files|
    ensures Blocks(k, 1 + |files|) + m < |AllOutcomes(checks, path, files)|
    ensures m == 0 ==> AllOutcomes(checks, path, files)[Blocks(k, 1 + |files|)] == (checks[k].shown, checks[k].checkPath(path))
    ensures m > 0 ==> AllOutcomes(checks, path, files)[Blocks(k, 1 + |files|) + m] == (checks[k].shown, checks[k].checkFile(files[m - 1]))
  {
    FlatMapAt(checks, OutcomesOf(path, files), 1 + |files|, k, m);
  }

  /** Within an inspection report, check `k`'s reports fill `k`'s block
      of the path node: first its report on the path, then one per file,
      the files in order. */
  lemma {:induction false} InspectionReportOrder(insp: Inspection, filesInPath: string -> seq<string>, k: nat, m: nat)
    requires RunInspection(insp, filesInPath).Ok?
    requires k < |insp.checks| && m < 1 + |filesInPath(insp.path)|
    ensures var reports := RunInspection(insp, filesInPath).value.children[0].children;
      var files := filesInPath(insp.path);
      var j := Blocks(k, 1 + |files|) + m;
      && j < |reports|
      && Report(reports[j]) == if m == 0 then insp.checks[k].checkPath(insp.path) else insp.checks[k].checkFile(files[m - 1])
  {
    var files := filesInPath(insp.path);
    var outcomes := AllOutcomes(insp.checks, insp.path, files);
    var j := Blocks(k, 1 + |files|) + m;
    if m == 0 {
      assert j < |outcomes| && outcomes[j].1 == insp.checks[k].checkPath(insp.path) by {
        AllOutcomesAt(insp.checks, insp.path, files, k, 0);
        assert j == Blocks(k, 1 + |files|);
      }
      ReportIsOutcome(insp, filesInPath, j, insp.checks[k].checkPath(insp.path));
    } else {
      assert j < |outcomes| && outcomes[j].1 == insp.checks[k].checkFile(files[m - 1]) by {
        AllOutcomesAt(insp.checks, insp.path, files, k, m);
      }
      ReportIsOutcome(insp, filesInPath, j, insp.checks[k].checkFile(files[m - 1]));
    }
  }

  /** The report at a position under the path node is the outcome known to
      stand at that position. */
  lemma ReportIsOutcome(insp: Inspection, filesInPath: string -> seq<string>, j: nat, expected: Outcome)
    requires RunInspection(insp, filesInPath).Ok?
    requires j < |AllOutcomes(insp.checks, insp.path, filesInPath(insp.path))|
    requires AllOutcomes(insp.checks, insp.path, filesInPath(insp.path))[j].1 == expected
    ensures j < |RunInspection(insp, filesInPath).value.children[0].children|
    ensures Report(RunInspection(insp, filesInPath).value.children[0].children[j]) == expected
  {
    RunInspectionReportAt(insp, filesInPath, j);
  }

  /** The report at a position under the path node wraps back into the
      outcome at that position. */
  lemma {:induction false} RunInspectionReportAt(insp: Inspection, filesInPath: string -> seq<string>, i: nat)
    requires RunInspection(insp, filesInPath).Ok?
    requires i < |AllOutcomes(insp.checks, insp.path, filesInPath(insp.path))|
    ensures i < |RunInspection(insp, filesInPath).value.children[0].children|
    ensures Report(RunInspection(insp, filesInPath).value.children[0].children[i])
            == AllOutcomes(insp.checks, insp.path, filesInPath(insp.path))[i].1
  {
    var outcomes := AllOutcomes(insp.checks, insp.path, filesInPath(insp.path));
    var reports := RunInspection(insp, filesInPath).value.children[0].children;
    var collected := CollectReports(outcomes);
    assert reports == collected.value;
    assert outcomes[i].1.Report?;
  }

  // ---------------------------------------------------------------------
  // The validator
  // ---------------------------------------------------------------------

  /** Runs the inspections in order; the first one that raises stops the
      validation. */
  function RunInspections(inspections: seq<Inspection>, filesInPath: string -> seq<string>): (r: Result<seq<ReportNode>>)
    ensures r.Ok? ==> |r.value| == |inspections|
    ensures r.Ok? ==> forall i :: 0 <= i < |inspections| ==> RunInspection(inspections[i], filesInPath) == Ok(r.value[i])
  {
    if |inspections| == 0 then Ok([])
    else
      var first :- RunInspection(inspections[0], filesInPath);
      var rest :- RunInspections(inspections[1..], filesInPath);
      Ok([first] + rest)
  }

  /** The text `validate()` writes after the report. */
  function Verdict(failures: int): string {
    if failures != 0 then
      Join(["", "VALIDATION FAILED!", "Please fix " + IntToString(failures) + " errors listed above."], "\n")
    else "\n\nValidation successful!"
  }

  function IntToString(i: int): string {
    if i < 0 then "-" + NatToString(-i) else NatToString(i)
  }

  /** The root report of `validate()`: the inspection reports under
      `"Validating: <path>"`. */
  function ValidationReport(pluginPath: string, reports: seq<ReportNode>): (r: ReportNode)
    ensures FailedCount(Flatten(r)) == FailedCount(FlattenAll(reports))
  {
    var r := AddNodes(ReportNode("Validating: " + pluginPath, [], false), reports);
    assert r.children == reports;
    FailedCountAppend([r], FlattenAll(reports));
    assert [r][1..] == [];
    r
  }

  /** `BaseValidator.validate()`: the rendered report, the verdict text, and
      whether no node of any inspection report failed. */
  function Validate(pluginPath: string, inspections: seq<Inspection>, filesInPath: string -> seq<string>): (r: Result<(string, bool)>)
    ensures r.Ok? <==> RunInspections(inspections, filesInPath).Ok?
    ensures r.Ok? ==>
      var reports := RunInspections(inspections, filesInPath).value;
      && r.value.0 == Render(ValidationReport(pluginPath, reports)) + Verdict(FailedCount(FlattenAll(reports)))
      && (r.value.1 <==> FailedCount(FlattenAll(reports)) == 0)
  {
    var reports :- RunInspections(inspections, filesInPath);
    var report := ValidationReport(pluginPath, reports);
    CountFailuresIsFailedNodes(report, 0);
    var failures := CountFailures(report, 0);
    Ok((Render(report) + Verdict(failures), failures == 0))
  }

  /** The verdict names the number of failures, or says the validation
      succeeded when there is none. */
  lemma {:induction false} VerdictText(n: nat)
    ensures n == 0 ==> Verdict(n) == "\n\nValidation successful!"
    ensures n > 0 ==> Verdict(n) == "\n" + "VALIDATION FAILED!" + "\n" + "Please fix " + NatToString(n) + " errors listed above."
  {
    if n > 0 {
      var last := "Please fix " + NatToString(n) + " errors listed above.";
      JoinThree("", "VALIDATION FAILED!", last, "\n");
      assert "" + "\n" == "\n";
    }
  }
}

=== FILE: json.dfy ===
/**
 The data trees the loaders and validators pass around: JSON/YAML values
 with Python's dictionary semantics (keys keep their insertion order,
 assigning an existing key replaces its value in place, a new key goes at the
 end) and Python's truthiness.
 */
module Json {
  import opened Base

  datatype Json =
    | Null
    | Bool(b: bool)
    | Int(i: int)
    | Str(s: string)
    | List(items: seq<Json>)
    | Obj(fields: seq<(string, Json)>)

  type Fields = seq<(string, Json)>

  function Keys(fields: Fields): (r: seq<string>)
    ensures |r| == |fields|
    ensures forall i :: 0 <= i < |fields| ==> r[i] == fields[i].0
  {
    if |fields| == 0 then [] else [fields[0].0] + Keys(fields[1..])
  }

  /** A Python dictionary never holds a key twice. */
  predicate UniqueKeys(fields: Fields) {
    forall i, j :: 0 <= i < j < |fields| ==> fields[i].0 != fields[j].0
  }

  /** `d.get(k)`. */
  function Lookup(fields: Fields, k: string): (r: Option<Json>)
    ensures r.None? <==> k !in Keys(fields)
    ensures r.Some? ==> exists i :: 0 <= i < |fields| && fields[i] == (k, r.value)
  {
    if |fields| == 0 then None
    else if fields[0].0 == k then Some(fields[0].1)
    else
      var r := Lookup(fields[1..], k);
      assert Keys(fields) == [fields[0].0] + Keys(fields[1..]);
      if r.Some? then
        var i :| 0 <= i < |fields[1..]| && fields[1..][i] == (k, r.value);
        assert fields[i + 1] == (k, r.value);
        r
      else r
  }

  /** With unique keys the entry holding `k` is the one `Lookup` sees. */
  lemma {:induction false} LookupAt(fields: Fields, i: nat)
    requires UniqueKeys(fields) && i < |fields|
    ensures Lookup(fields, fields[i].0) == Some(fields[i].1)
  {
    if i > 0 {
      assert fields[0].0 != fields[i].0;
      LookupAt(fields[1..], i - 1);
    }
  }

  /** `d[k] = v`: an existing key keeps its place, a new key goes last. */
  function Put(fields: Fields, k: string, v: Json): (r: Fields)
    ensures Keys(r) == if k in Keys(fields) then Keys(fields) else Keys(fields) + [k]
    ensures UniqueKeys(fields) ==> forall i :: 0 <= i < |r| && r[i].0 == k ==> r[i].1 == v
    ensures forall i :: 0 <= i < |r| && r[i].0 != k ==> i < |fields| && r[i] == fields[i]
  {
    if k in Keys(fields) then
      var i := IndexOfKey(fields, k);
      var r := fields[i := (k, v)];
      assert Keys(r) == Keys(fields);
      r
    else
      var r := fields + [(k, v)];
      assert Keys(r) == Keys(fields) + [k];
      r
  }

  /** Assigning into a dictionary keeps its keys unique. */
  lemma {:induction false} PutUnique(fields: Fields, k: string, v: Json)
    requires UniqueKeys(fields)
    ensures UniqueKeys(Put(fields, k, v))
  {
    var r := Put(fields, k, v);
    var ks := Keys(r);
    forall i, j | 0 <= i < j < |r|
      ensures r[i].0 != r[j].0
    {
      assert r[i].0 == ks[i] && r[j].0 == ks[j];
      if k !in Keys(fields) && j == |fields| {
        assert ks[i] == Keys(fields)[i];
      } else {
        assert ks[i] == Keys(fields)[i] && ks[j] == Keys(fields)[j];
      }
    }
  }

  /** After `d[k] = v`, `d[k]` is `v`. */
  lemma {:induction false} PutLookupSame(fields: Fields, k: string, v: Json)
    requires UniqueKeys(fields)
    ensures Lookup(Put(fields, k, v), k) == Some(v)
  {
    var r := Put(fields, k, v);
    PutUnique(fields, k, v);
    var i: nat := if k in Keys(fields) then IndexOfKey(fields, k) else |fields|;
    assert Keys(r)[i] == k;
    LookupAt(r, i);
  }

  /** Position of a present key. */
  function IndexOfKey(fields: Fields, k: string): (i: nat)
    requires k in Keys(fields)
    ensures i < |fields| && fields[i].0 == k
    ensures forall j :: 0 <= j < i ==> fields[j].0 != k
  {
    if fields[0].0 == k then 0
    else
      assert Keys(fields) == [fields[0].0] + Keys(fields[1..]);
      1 + IndexOfKey(fields[1..], k)
  }

  /** After `d[k] = v` every other key reads as before. */
  lemma {:induction false} PutLookupOther(fields: Fields, k: string, v: Json, other: string)
    requires UniqueKeys(fields) && other != k
    ensures Lookup(Put(fields, k, v), other) == Lookup(fields, other)
  {
    var r := Put(fields, k, v);
    PutUnique(fields, k, v);
    if other in Keys(fields) {
      var j := IndexOfKey(fields, other);
      assert r[j] == fields[j];
      LookupAt(r, j);
      LookupAt(fields, j);
    }
  }

  /** Assigning into a dictionary: the key reads as the new value, the
      others as before, and keys stay unique. */
  lemma {:induction false} PutLookup(fields: Fields, k: string, v: Json, other: string)
    requires UniqueKeys(fields)
    ensures UniqueKeys(Put(fields, k, v))
    ensures Lookup(Put(fields, k, v), k) == Some(v)
    ensures other != k ==> Lookup(Put(fields, k, v), other) == Lookup(fields, other)
  {
    PutUnique(fields, k, v);
    PutLookupSame(fields, k, v);
    if other != k {
      PutLookupOther(fields, k, v, other);
    }
  }

  /** `d.update(other)`: every entry of `other`, in order, assigned into `d`. */
  function Update(fields: Fields, other: Fields): (r: Fields)
    decreases |other|
  {
    if |other| == 0 then fields
    else Update(Put(fields, other[0].0, other[0].1), other[1..])
  }

  /** After `d.update(other)` a key reads from `other` when `other` has it and
      from `d` otherwise; keys stay unique. */
  lemma {:induction false} UpdateLookup(fields: Fields, other: Fields, k: string)
    requires UniqueKeys(fields) && UniqueKeys(other)
    ensures UniqueKeys(Update(fields, other))
    ensures Lookup(Update(fields, other), k) ==
              if k in Keys(other) then Lookup(other, k) else Lookup(fields, k)
    decreases |other|
  {
    if |other| > 0 {
      var p := Put(fields, other[0].0, other[0].1);
      PutLookup(fields, other[0].0, other[0].1, k);
      FirstKey(other, k);
      UpdateLookup(p, other[1..], k);
    }
  }

  /** How a key of a dictionary with unique keys relates to its first entry
      and the rest. */
  lemma FirstKey(fields: Fields, k: string)
    requires |fields| > 0 && UniqueKeys(fields)
    ensures UniqueKeys(fields[1..])
    ensures k in Keys(fields) <==> k == fields[0].0 || k in Keys(fields[1..])
    ensures k == fields[0].0 ==> k !in Keys(fields[1..]) && Lookup(fields, k) == Some(fields[0].1)
    ensures k != fields[0].0 ==> Lookup(fields, k) == Lookup(fields[1..], k)
  {
    assert Keys(fields) == [fields[0].0] + Keys(fields[1..]);
    forall j | 0 <= j < |fields[1..]| ensures Keys(fields[1..])[j] != fields[0].0 {
      assert fields[1..][j] == fields[j + 1];
    }
  }

  /** The keys of `d.update(other)`: those of `d` in place, then the new ones
      of `other` in `other`'s order; none lost, none invented. */
  lemma {:induction false} UpdateKeys(fields: Fields, other: Fields)
    ensures forall k :: k in Keys(Update(fields, other)) <==> k in Keys(fields) || k in Keys(other)
    ensures Keys(fields) <= Keys(Update(fields, other))
    decreases |other|
  {
    if |other| > 0 {
      var p := Put(fields, other[0].0, other[0].1);
      UpdateKeys(p, other[1..]);
      assert Keys(other) == [other[0].0] + Keys(other[1..]);
    }
  }

  /** Python's truth value: None, False, 0 and empty containers are false. */
  predicate Truthy(j: Json) {
    match j
    case Null => false
    case Bool(b) => b
    case Int(i) => i != 0
    case Str(s) => s != ""
    case List(items) => items != []
    case Obj(fields) => fields != []
  }

  /** `data.get(key)` on a dictionary value; anything else has no keys. */
  function Get(j: Json, k: string): (r: Option<Json>)
    ensures j.Obj? ==> r == Lookup(j.fields, k)
    ensures !j.Obj? ==> r.None?
  {
    if j.Obj? then Lookup(j.fields, k) else None
  }

  /** `value.get(key, default)`: only dictionaries have `get`; on anything
      else Python raises `AttributeError`. */
  function GetOr(j: Json, k: string, default: Json): (r: Result<Json>)
    ensures r.Err? <==> !j.Obj?
    ensures r.Err? ==> r.error.kind == AttributeError
    ensures j.Obj? && Lookup(j.fields, k).Some? ==> r == Ok(Lookup(j.fields, k).value)
    ensures j.Obj? && Lookup(j.fields, k).None? ==> r == Ok(default)
  {
    if !j.Obj? then Err(Error(AttributeError, "object has no attribute 'get'"))
    else match Lookup(j.fields, k)
      case Some(v) => Ok(v)
      case None => Ok(default)
  }

  /** `data.get(key)` counted as present only when it is truthy, the test
      the validators apply before checking an optional branch. */
  function GetTruthy(j: Json, k: string): (r: Option<Json>)
    ensures r.Some? <==> Get(j, k).Some? && Truthy(Get(j, k).value)
    ensures r.Some? ==> r == Get(j, k)
  {
    match Get(j, k)
    case Some(v) => if Truthy(v) then Some(v) else None
    case None => None
  }

  /** A value's items when it is a list (YAML sequences), else empty. */
  function ItemsOf(j: Json): seq<Json> {
    if j.List? then j.items else []
  }

  /** A string value's text, or "" for anything else. */
  function TextOf(j: Json): string {
    if j.Str? then j.s else ""
  }

  /** `for x in value`: a list gives its items, a dictionary its keys and a
      string its characters; anything else is not iterable. */
  function Iter(j: Json): (r: Result<seq<Json>>)
    ensures j.List? ==> r == Ok(j.items)
    ensures j.Obj? ==> r.Ok? && |r.value| == |j.fields|
                       && forall i :: 0 <= i < |j.fields| ==> r.value[i] == Str(j.fields[i].0)
    ensures j.Str? ==> r.Ok? && |r.value| == |j.s|
    ensures (j.Null? || j.Bool? || j.Int?) <==> r.Err?
    ensures r.Err? ==> r.error.kind == TypeError
  {
    match j
    case List(items) => Ok(items)
    case Obj(fields) => Ok(seq(|fields|, i requires 0 <= i < |fields| => Str(fields[i].0)))
    case Str(s) => Ok(seq(|s|, i requires 0 <= i < |s| => Str([s[i]])))
    case _ => Err(Error(TypeError, "object is not iterable"))
  }

  /** `value[key]` with a string key: a dictionary lookup, a `KeyError` for a
      missing key, a `TypeError` for anything that is not a dictionary. */
  function Subscript(j: Json, k: string): (r: Result<Json>)
    ensures r.Ok? <==> j.Obj? && k in Keys(j.fields)
    ensures r.Ok? ==> Lookup(j.fields, k) == Some(r.value)
    ensures r.Err? && j.Obj? ==> r.error == Error(KeyError, k)
    ensures !j.Obj? ==> r.Err? && r.error.kind == TypeError
  {
    if !j.Obj? then Err(Error(TypeError, "object is not subscriptable"))
    else match Lookup(j.fields, k)
      case Some(v) => Ok(v)
      case None => Err(Error(KeyError, k))
  }

  /** `'{0}'.format(value)`: a string shows as itself; other values as
      `show`, their printed form. */
  function Display(j: Json, show: Json -> string): (r: string)
    ensures j.Str? ==> r == j.s
  {
    if j.Str? then j.s else show(j)
  }
}

=== FILE: legacy_validator.dfy ===
/**
 The schema-driven validator of plugin formats v1 to v3: both versions of
 its base class (the older `fuel_plugin_builder/fuel_plugin_builder/
 validators/base.py` and the `LegacyBaseValidator` of the newer
 `validators/base.py`) and the v3 validator built on it.

 Every check either succeeds (`Ok(())`) or raises the first error it meets.
 Reading and parsing a YAML file is the parameter `parse` (an empty file
 parses to `Null`), file existence is `fileExists`, and `jsonschema.validate`
 is `validate`, which gives the error it raises, if any.
 */
module LegacyValidator {
  import opened Base
  import opened Text
  import opened Json
  import Paths
  import Namespaces
  import opened Versions
  import opened SchemaErrors

  /** `jsonschema.validate(data, schema)`: the error it raises, if any. */
  type Validate = (Json, string) -> Option<SchemaError>

  // ---------------------------------------------------------------------
  // Error messages
  // ---------------------------------------------------------------------

  /** The value path the newer message reports: the caller's path, then the
      error's own path, then (for an error with sub-errors) the absolute
      path of the deepest sub-error without its first two steps. */
  function CombinedPath(exc: SchemaError, valuePath: seq<PathElem>): (r: seq<PathElem>)
    ensures |r| >= |valuePath| + |exc.path|
    ensures r[..|valuePath|] == valuePath
    ensures r[|valuePath|..|valuePath| + |exc.path|] == exc.path
    ensures |exc.context| == 0 ==> r == valuePath + exc.path
    ensures |exc.context| > 0 && |exc.path| >= 2 ==>
      r == valuePath + exc.path + exc.path[2..] + exc.context[Deepest(exc.context)].path
  {
    var tail := if |exc.context| > 0 then DropTwo(AbsolutePath(exc.path, exc.context[Deepest(exc.context)])) else [];
    assert |exc.context| > 0 && |exc.path| >= 2 ==> tail == exc.path[2..] + exc.context[Deepest(exc.context)].path;
    var r := valuePath + exc.path + tail;
    assert r[..|valuePath|] == valuePath && r[|valuePath|..|valuePath| + |exc.path|] == exc.path;
    r
  }

  /** An error at `a` whose deepest sub-error sits at `b -> c` below it is
      reported at `a -> c`: the two dropped steps are counted from the top
      of the absolute path, not from the sub-error's own. */
  lemma {:induction false} CombinedPathCountsFromTop()
    ensures CombinedPath(SchemaError("outer", [Key("a")], 1, [SchemaError("inner", [Key("b"), Key("c")], 2, [])]), [])
      == [Key("a"), Key("c")]
  {
    var sub := SchemaError("inner", [Key("b"), Key("c")], 2, []);
    assert Deepest([sub]) == 0;
    assert AbsolutePath([Key("a")], sub) == [Key("a"), Key("b"), Key("c")];
  }

  /** The message the newer version reports: the deepest sub-error's, when
      there are sub-errors. */
  function ReportedMessage(exc: SchemaError): (r: string)
    ensures |exc.context| == 0 ==> r == exc.message
    ensures |exc.context| > 0 ==> exists i :: 0 <= i < |exc.context| && r == exc.context[i].message
  {
    if |exc.context| > 0 then exc.context[Deepest(exc.context)].message else exc.message
  }

  /** The `", value path '...'"` tail, present only for a non-empty path. */
  function PathSuffix(path: seq<PathElem>): (r: string)
    ensures r == "" <==> |path| == 0
  {
    if |path| > 0 then ", value path '" + PathText(path) + "'" else ""
  }

  /** `_make_error_message` of `LegacyBaseValidator`. */
  function MakeErrorMessage(exc: SchemaError, filePath: string, valuePath: seq<PathElem>): (r: string)
    ensures r == "File '" + filePath + "', " + ReportedMessage(exc) + PathSuffix(CombinedPath(exc, valuePath))
  {
    var path := CombinedPath(exc, valuePath);
    var msg := "File '" + filePath + "', " + ReportedMessage(exc);
    if |path| > 0 then msg + ", value path '" + PathText(path) + "'" else msg
  }

  /** `_make_error_message` of the older base validator: no sub-errors are
      looked at. */
  function MakeErrorMessageOlder(exc: SchemaError, filePath: string, valuePath: seq<PathElem>): (r: string)
    ensures r == "File '" + filePath + "', " + exc.message + PathSuffix(valuePath + exc.path)
  {
    var msg := "File '" + filePath + "', " + exc.message;
    var path := valuePath + exc.path;
    if |path| > 0 then msg + ", value path '" + PathText(path) + "'" else msg
  }

  /** The two versions word an error without sub-errors identically. */
  lemma {:induction false} MessagesAgreeWithoutContext(exc: SchemaError, filePath: string, valuePath: seq<PathElem>)
    requires |exc.context| == 0
    ensures MakeErrorMessage(exc, filePath, valuePath) == MakeErrorMessageOlder(exc, filePath, valuePath)
  {
  }

  /** The caller's path comes first: when it is given, the reported value
      path starts with it, steps separated by `" -> "`. */
  lemma {:induction false} CallerPathFirst(exc: SchemaError, filePath: string, valuePath: seq<PathElem>)
    requires |valuePath| > 0
    ensures var rest := CombinedPath(exc, valuePath)[|valuePath|..];
      MakeErrorMessage(exc, filePath, valuePath) ==
        "File '" + filePath + "', " + ReportedMessage(exc) + ", value path '" + PathText(valuePath)
          + (if |rest| == 0 then "" else " -> " + PathText(rest)) + "'"
  {
    var path := CombinedPath(exc, valuePath);
    var rest := path[|valuePath|..];
    assert path == valuePath + rest;
    PathTextConcat(valuePath, rest);
    var tail := if |rest| == 0 then "" else " -> " + PathText(rest);
    var head := "File '" + filePath + "', " + ReportedMessage(exc);
    assert PathSuffix(path) == ", value path '" + (PathText(valuePath) + tail) + "'";
    Regroup(head, ", value path '", PathText(valuePath), tail, "'");
  }

  /** `x + (a + (b + c) + d)` read left to right. */
  lemma Regroup(x: string, a: string, b: string, c: string, d: string)
    ensures x + (a + (b + c) + d) == x + a + b + c + d
  {
  }

  /** The same for the older version, whose path is the caller's followed by
      the error's own. */
  lemma {:induction false} CallerPathFirstOlder(exc: SchemaError, filePath: string, valuePath: seq<PathElem>)
    requires |valuePath| > 0
    ensures MakeErrorMessageOlder(exc, filePath, valuePath) ==
      "File '" + filePath + "', " + exc.message + ", value path '" + PathText(valuePath)
        + (if |exc.path| == 0 then "" else " -> " + PathText(exc.path)) + "'"
  {
    PathTextConcat(valuePath, exc.path);
  }

  lemma {:induction false} PathTextConcat(a: seq<PathElem>, b: seq<PathElem>)
    requires |a| > 0
    ensures PathText(a + b) == PathText(a) + (if |b| == 0 then "" else " -> " + PathText(b))
  {
    assert PathTexts(a + b) == PathTexts(a) + PathTexts(b);
    if |b| == 0 {
      assert a + b == a;
    } else {
      JoinConcat(PathTexts(a), PathTexts(b), " -> ");
    }
  }

  // ---------------------------------------------------------------------
  // Schema validation of data and files
  // ---------------------------------------------------------------------

  /** `validate_schema`: a schema error becomes a `ValidationError` worded
      by `_make_error_message`. */
  function ValidateSchema(validate: Validate, data: Json, schema: string, filePath: string,
                          valuePath: seq<PathElem>, older: bool): (r: Result<()>)
    ensures r.Ok? <==> validate(data, schema).None?
    ensures r.Err? && !older ==>
      r.error == Error(ValidationError, MakeErrorMessage(validate(data, schema).value, filePath, valuePath))
    ensures r.Err? && older ==>
      r.error == Error(ValidationError, MakeErrorMessageOlder(validate(data, schema).value, filePath, valuePath))
  {
    match validate(data, schema)
    case None => Ok(())
    case Some(exc) =>
      var msg := if older then MakeErrorMessageOlder(exc, filePath, valuePath)
                 else MakeErrorMessage(exc, filePath, valuePath);
      Err(Error(ValidationError, msg))
  }

  function FileDoesNotExistError(path: string): Error {
    Error(FileDoesNotExist, "File '" + path + "' does not exist")
  }

  function FileIsEmptyError(path: string): Error {
    Error(FileIsEmpty, "File '" + path + "' is empty")
  }

  /** `validate_file_by_schema` of `LegacyBaseValidator`: a missing file is
      skipped or refused, an empty one accepted or refused, and anything
      else validated against the schema. */
  function ValidateFileBySchema(validate: Validate, fileExists: string -> bool, parse: string -> Json,
                                schema: string, filePath: string,
                                allowNotExists: bool, allowEmpty: bool): (r: Result<()>)
    ensures !fileExists(filePath) ==>
      r == if allowNotExists then Ok(()) else Err(FileDoesNotExistError(filePath))
    ensures fileExists(filePath) && parse(filePath) == Null ==>
      r == if allowEmpty then Ok(()) else Err(FileIsEmptyError(filePath))
    ensures fileExists(filePath) && parse(filePath) != Null ==>
      r == ValidateSchema(validate, parse(filePath), schema, filePath, [], false)
  {
    if !fileExists(filePath) then
      if allowNotExists then Ok(()) else Err(FileDoesNotExistError(filePath))
    else
      var data := parse(filePath);
      if data != Null then ValidateSchema(validate, data, schema, filePath, [], false)
      else if allowEmpty then Ok(())
      else Err(FileIsEmptyError(filePath))
  }

  /** `validate_file_by_schema` of the older base validator: the file is
      always parsed and validated, empty or not. */
  function ValidateFileBySchemaOlder(validate: Validate, parse: string -> Json,
                                     schema: string, filePath: string): (r: Result<()>)
    ensures r.Ok? <==> validate(parse(filePath), schema).None?
  {
    ValidateSchema(validate, parse(filePath), schema, filePath, [], true)
  }

  /** Where the file exists and is not empty, both versions reach the same
      verdict. */
  lemma {:induction false} FileVerdictsAgree(validate: Validate, fileExists: string -> bool, parse: string -> Json,
                          schema: string, filePath: string, allowNotExists: bool, allowEmpty: bool)
    requires fileExists(filePath) && parse(filePath) != Null
    ensures ValidateFileBySchema(validate, fileExists, parse, schema, filePath, allowNotExists, allowEmpty).Ok?
            <==> ValidateFileBySchemaOlder(validate, parse, schema, filePath).Ok?
  {
  }

  // ---------------------------------------------------------------------
  // Environment config attributes
  // ---------------------------------------------------------------------

  /** The attribute schemas: the root, an ordinary element, and the
      `metadata` entry. */
  datatype AttrSchemas = AttrSchemas(root: string, element: string, meta: string)

  /** The schema an attribute is checked against: `metadata` is shaped
      differently from every other attribute. */
  function AttrSchema(schemas: AttrSchemas, id: string): (s: string)
    ensures id == "metadata" ==> s == schemas.meta
    ensures id != "metadata" ==> s == schemas.element
  {
    if id == "metadata" then schemas.meta else schemas.element
  }

  /** The check of one attribute, at value path `['attributes', id]`. */
  function CheckAttribute(validate: Validate, schemas: AttrSchemas, path: string, older: bool,
                          attr: (string, Json)): (r: Result<()>)
    ensures r.Ok? <==> validate(attr.1, AttrSchema(schemas, attr.0)).None?
    ensures r == ValidateSchema(validate, attr.1, AttrSchema(schemas, attr.0), path,
                                [Key("attributes"), Key(attr.0)], older)
  {
    ValidateSchema(validate, attr.1, AttrSchema(schemas, attr.0), path, [Key("attributes"), Key(attr.0)], older)
  }

  /** The loop over `attributes`, in their order; the first failure stops
      it. */
  function CheckAttributes(validate: Validate, attrs: Fields, schemas: AttrSchemas,
                           path: string, older: bool): (r: Result<()>)
    ensures r.Ok? <==> forall i :: 0 <= i < |attrs| ==> validate(attrs[i].1, AttrSchema(schemas, attrs[i].0)).None?
    ensures r.Err? ==> exists i :: 0 <= i < |attrs| && r == CheckAttribute(validate, schemas, path, older, attrs[i])
  {
    FirstFailure(attrs, a => CheckAttribute(validate, schemas, path, older, a))
  }

  /** `check_env_config_attrs` (both versions): a false config is accepted
      as is; otherwise the whole config is checked against the root schema
      and then each attribute, `attributes` defaulting to empty. */
  function CheckEnvConfigAttrs(validate: Validate, parse: string -> Json, envConfPath: string,
                               schemas: AttrSchemas, older: bool): (r: Result<()>)
    ensures !Truthy(parse(envConfPath)) ==> r == Ok(())
    ensures r.Ok? && Truthy(parse(envConfPath)) ==> validate(parse(envConfPath), schemas.root).None?
    ensures Truthy(parse(envConfPath)) && validate(parse(envConfPath), schemas.root).Some? ==>
      r == ValidateSchema(validate, parse(envConfPath), schemas.root, envConfPath, [], older)
  {
    var config := parse(envConfPath);
    if !Truthy(config) then Ok(())
    else
      var _ :- ValidateSchema(validate, config, schemas.root, envConfPath, [], older);
      if !config.Obj? then Err(Error(AttributeError, "object has no attribute 'get'"))
      else
        match Lookup(config.fields, "attributes")
        case None => Ok(())
        case Some(Obj(attrs)) => CheckAttributes(validate, attrs, schemas, envConfPath, older)
        case Some(_) => Err(Error(AttributeError, "object has no attribute 'iteritems'"))
  }

  /** With a dictionary config that passes the root schema, the verdict is
      that of its attributes, each checked against the schema its id
      selects. */
  lemma {:induction false} EnvConfigAttributesChecked(validate: Validate, parse: string -> Json, envConfPath: string,
                                   schemas: AttrSchemas, older: bool, attrs: Fields)
    requires parse(envConfPath).Obj? && Truthy(parse(envConfPath))
    requires validate(parse(envConfPath), schemas.root).None?
    requires Lookup(parse(envConfPath).fields, "attributes") == Some(Obj(attrs))
    ensures CheckEnvConfigAttrs(validate, parse, envConfPath, schemas, older).Ok?
            <==> forall i :: 0 <= i < |attrs| ==> validate(attrs[i].1, AttrSchema(schemas, attrs[i].0)).None?
  {
  }

  // ---------------------------------------------------------------------
  // Release directories
  // ---------------------------------------------------------------------

  /** `os.path.join(plugin_path, value)`: a value that is not a string has
      no `startswith` and raises. */
  function JoinValue(pluginPath: string, value: Json): (r: Result<string>)
    ensures r.Ok? <==> value.Str?
    ensures r.Ok? ==> r.value == Paths.Join(pluginPath, value.s)
    ensures r.Err? ==> r.error.kind == AttributeError
  {
    if value.Str? then Ok(Paths.Join(pluginPath, value.s))
    else Err(Error(AttributeError, "object has no attribute 'startswith'"))
  }

  /** The scripts and repository directories of one release: the scripts
      path is read and joined before the repository path is read. */
  function ReleaseDirs(pluginPath: string, release: Json): (r: Result<(string, string)>)
    ensures r.Ok? ==> exists s, p :: Subscript(release, "deployment_scripts_path") == Ok(Str(s))
                                  && Subscript(release, "repository_path") == Ok(Str(p))
                                  && r.value == (Paths.Join(pluginPath, s), Paths.Join(pluginPath, p))
  {
    var scripts :- Subscript(release, "deployment_scripts_path");
    var scriptsDir :- JoinValue(pluginPath, scripts);
    var repo :- Subscript(release, "repository_path");
    var repoDir :- JoinValue(pluginPath, repo);
    Ok((scriptsDir, repoDir))
  }

  /** A scripts path that is not a string fails the release even when its
      repository path is missing. */
  lemma {:induction false} ReleaseDirsScriptsFirst(pluginPath: string, release: Json)
    requires Subscript(release, "deployment_scripts_path").Ok?
    requires !Subscript(release, "deployment_scripts_path").value.Str?
    ensures ReleaseDirs(pluginPath, release).Err? && ReleaseDirs(pluginPath, release).error.kind == AttributeError
  {
  }

  function MissingDirs(dirs: (string, string), fileExists: string -> bool): (r: seq<string>)
    ensures r == [] <==> fileExists(dirs.0) && fileExists(dirs.1)
    ensures forall d :: d in r ==> !fileExists(d)
    ensures !fileExists(dirs.0) ==> r[0] == dirs.0
    ensures !fileExists(dirs.1) ==> r[|r| - 1] == dirs.1
  {
    (if fileExists(dirs.0) then [] else [dirs.0]) + (if fileExists(dirs.1) then [] else [dirs.1])
  }

  function ReleasesDirectoriesMessage(missing: seq<string>, shownRelease: string): string {
    "Cannot find directories " + Join(missing, ", ") + " for release \"" + shownRelease + "\""
  }

  /** The check of one release: it fails iff a directory is missing (or the
      release is malformed), naming exactly the missing directories. */
  function CheckRelease(pluginPath: string, fileExists: string -> bool, show: Json -> string,
                        release: Json): (r: Result<()>)
    ensures r.Ok? <==> ReleaseDirs(pluginPath, release).Ok?
                       && MissingDirs(ReleaseDirs(pluginPath, release).value, fileExists) == []
    ensures ReleaseDirs(pluginPath, release).Ok? && r.Err? ==>
      r.error == Error(ReleasesDirectoriesError,
                       ReleasesDirectoriesMessage(MissingDirs(ReleaseDirs(pluginPath, release).value, fileExists),
                                                  show(release)))
  {
    var dirs :- ReleaseDirs(pluginPath, release);
    var missing := MissingDirs(dirs, fileExists);
    if missing != [] then
      Err(Error(ReleasesDirectoriesError, ReleasesDirectoriesMessage(missing, show(release))))
    else Ok(())
  }

  /** The loop over the releases: the first one with a missing directory
      stops it. */
  function CheckReleases(releases: seq<Json>, pluginPath: string, fileExists: string -> bool,
                         show: Json -> string): (r: Result<()>)
    ensures r.Ok? <==> forall i :: 0 <= i < |releases| ==> CheckRelease(pluginPath, fileExists, show, releases[i]).Ok?
    ensures r.Err? ==> exists i :: 0 <= i < |releases| && r == CheckRelease(pluginPath, fileExists, show, releases[i])
  {
    FirstFailure(releases, rel => CheckRelease(pluginPath, fileExists, show, rel))
  }

  /** `check_releases_paths` (both versions). */
  function CheckReleasesPaths(parse: string -> Json, metaPath: string, pluginPath: string,
                              fileExists: string -> bool, show: Json -> string): (r: Result<()>)
    ensures var releases := Subscript(parse(metaPath), "releases");
      releases.Ok? && Iter(releases.value).Ok? ==> r == CheckReleases(Iter(releases.value).value, pluginPath, fileExists, show)
  {
    var releases :- Subscript(parse(metaPath), "releases");
    var items :- Iter(releases);
    CheckReleases(items, pluginPath, fileExists, show)
  }

  // ---------------------------------------------------------------------
  // Compatibility with Fuel releases
  // ---------------------------------------------------------------------

  function IncompatibleMessage(packageVersion: string, basicVersion: string, fuelRelease: string): string {
    "Current plugin format " + packageVersion + " is not compatible with " + fuelRelease
      + " Fuel release. Fuel version must be " + basicVersion + " or higher."
      + " Please remove " + fuelRelease + " version from metadata.yaml file or"
      + " downgrade package_version."
  }

  /** `StrictVersion(x)` of a metadata value. A false value (`None`, `0`,
      `False`, `''`, `[]`, `{}`) is never parsed, so the first comparison
      fails on the missing `version` attribute; a true value is parsed,
      and the regular expression refuses anything but a string. */
  function ParseValue(j: Json): (r: Result<Version>)
    ensures j.Str? ==> r == Parse(j.s)
    ensures !Truthy(j) ==> r == Err(EmptyVersionError)
    ensures Truthy(j) && !j.Str? ==> r.Err? && r.error.kind == TypeError
  {
    if !Truthy(j) then
      ParseEmpty();
      Err(EmptyVersionError)
    else if j.Str? then Parse(j.s)
    else Err(Error(TypeError, "expected string or buffer"))
  }

  /** Only a string can give a version: every other value fails, and
      which error it gives depends on its truth value alone. */
  lemma ParseValueOkIffParsedString(j: Json)
    ensures ParseValue(j).Ok? <==> j.Str? && Parse(j.s).Ok?
    ensures !j.Str? ==> ParseValue(j).error.kind == (if Truthy(j) then TypeError else AttributeError)
  {
  }

  /** The check of one `fuel_version` entry: it fails iff the entry is
      below the basic version (or does not parse). */
  function CheckFuelVersion(basic: Version, basicText: string, meta: Json, show: Json -> string,
                            release: Json): (r: Result<()>)
    ensures r.Ok? <==> ParseValue(release).Ok? && !Less(ParseValue(release).value, basic)
    ensures ParseValue(release).Ok? && Less(ParseValue(release).value, basic)
            && Subscript(meta, "package_version").Ok? ==>
      r == Err(Error(ValidationError, IncompatibleMessage(Display(Subscript(meta, "package_version").value, show),
                                                          basicText, Display(release, show))))
  {
    var v :- ParseValue(release);
    if Less(v, basic) then
      var pv :- Subscript(meta, "package_version");
      Err(Error(ValidationError, IncompatibleMessage(Display(pv, show), basicText, Display(release, show))))
    else Ok(())
  }

  /** The loop over `fuel_version`: the first release below the basic
      version raises, naming it. */
  function CheckFuelVersions(releases: seq<Json>, basic: Version, basicText: string, meta: Json,
                             show: Json -> string): (r: Result<()>)
    ensures r.Ok? <==> forall i :: 0 <= i < |releases| ==>
      ParseValue(releases[i]).Ok? && !Less(ParseValue(releases[i]).value, basic)
    ensures r.Err? ==> exists i :: 0 <= i < |releases| && r == CheckFuelVersion(basic, basicText, meta, show, releases[i])
                                   && forall j :: 0 <= j < i ==> CheckFuelVersion(basic, basicText, meta, show, releases[j]).Ok?
  {
    FirstFailure(releases, rel => CheckFuelVersion(basic, basicText, meta, show, rel))
  }

  /** `check_compatibility` (both versions), for a validator whose
      `basic_version` is `basicText`. */
  function CheckCompatibility(parse: string -> Json, metaPath: string, basicText: string,
                              show: Json -> string): (r: Result<()>)
    ensures var meta := parse(metaPath);
      var releases := Subscript(meta, "fuel_version");
      releases.Ok? && Iter(releases.value).Ok? && Parse(basicText).Ok? ==>
        r == CheckFuelVersions(Iter(releases.value).value, Parse(basicText).value, basicText, meta, show)
  {
    var meta := parse(metaPath);
    var releases :- Subscript(meta, "fuel_version");
    var items :- Iter(releases);
    var basic :- Parse(basicText);
    CheckFuelVersions(items, basic, basicText, meta, show)
  }

  // ---------------------------------------------------------------------
  // The v3 validator
  // ---------------------------------------------------------------------

  const BasicVersionV3: string := "7.0"

  /** The nine task types of v3 deployment tasks, each checked against the
      schema of the same name. */
  const TaskTypesV3: seq<string> :=
    ["puppet", "shell", "group", "skipped", "copy_files", "sync", "upload_file", "stage", "reboot"]

  /** The check of the task at position `idx`: a list or mapping as type
      cannot be looked up in the schema table, an unknown type raises, a
      known one selects the schema, checked at value path `[idx]`. */
  function CheckTask(validate: Validate, taskSchema: string -> string, path: string, show: Json -> string,
                     entry: (nat, Json)): (r: Result<()>)
    ensures var t := Subscript(entry.1, "type");
      r.Ok? <==> t.Ok? && t.value.Str? && t.value.s in TaskTypesV3
                 && validate(entry.1, taskSchema(t.value.s)).None?
    ensures var t := Subscript(entry.1, "type");
      t.Ok? && (t.value.List? || t.value.Obj?) ==> r.Err? && r.error.kind == TypeError
    ensures var t := Subscript(entry.1, "type");
      t.Ok? && !(t.value.List? || t.value.Obj?) && !(t.value.Str? && t.value.s in TaskTypesV3) ==>
        r == Err(Error(ValidationError, "There is no such task type:" + Display(t.value, show)))
    ensures var t := Subscript(entry.1, "type");
      t.Ok? && t.value.Str? && t.value.s in TaskTypesV3 ==>
        r == ValidateSchema(validate, entry.1, taskSchema(t.value.s), path, [Index(entry.0)], false)
  {
    var t :- Subscript(entry.1, "type");
    if t.List? || t.Obj? then Err(Error(TypeError, "unhashable type"))
    else if !t.Str? || t.s !in TaskTypesV3 then
      Err(Error(ValidationError, "There is no such task type:" + Display(t, show)))
    else
      ValidateSchema(validate, entry.1, taskSchema(t.s), path, [Index(entry.0)], false)
  }

  /** The loop over the deployment tasks in file order; the first failure
      stops it. */
  function CheckTasks(tasks: seq<Json>, validate: Validate, taskSchema: string -> string,
                      path: string, show: Json -> string): (r: Result<()>)
    ensures r.Ok? <==> forall i :: 0 <= i < |tasks| ==> CheckTask(validate, taskSchema, path, show, (i, tasks[i])).Ok?
    ensures r.Err? ==> exists i :: 0 <= i < |tasks| && r == CheckTask(validate, taskSchema, path, show, (i, tasks[i]))
                                   && forall j :: 0 <= j < i ==> CheckTask(validate, taskSchema, path, show, (j, tasks[j])).Ok?
  {
    var entries := Enumerate(tasks);
    FirstFailure(entries, e => CheckTask(validate, taskSchema, path, show, e))
  }

  /** `check_deployment_tasks` of the v3 validator. */
  function CheckDeploymentTasks(parse: string -> Json, pluginPath: string, validate: Validate,
                                taskSchema: string -> string, show: Json -> string): (r: Result<()>)
    ensures var tasks := Iter(parse(Paths.Join(pluginPath, "deployment_tasks.yaml")));
      tasks.Ok? ==> r == CheckTasks(tasks.value, validate, taskSchema,
                                    Paths.Join(pluginPath, "deployment_tasks.yaml"), show)
  {
    var path := Paths.Join(pluginPath, "deployment_tasks.yaml");
    var tasks :- Iter(parse(path));
    CheckTasks(tasks, validate, taskSchema, path, show)
  }

  /** One step of `check_schemas`. */
  datatype SchemaStep =
    | FileStep(schema: string, file: string, allowNotExists: bool)
    | EnvConfigStep

  /** The files of the v3 `check_schemas`, in order: metadata, tasks
      (may be missing), the environment config, deployment tasks, and the
      network roles, node roles and volumes (each may be missing). */
  function SchemaStepsV3(pluginPath: string, metaPath: string, tasksPath: string): (r: seq<SchemaStep>)
    ensures |r| == 7 && r[2] == EnvConfigStep
    ensures r[0] == FileStep("metadata", metaPath, false) && r[1] == FileStep("tasks", tasksPath, true)
    ensures r[3].FileStep? && !r[3].allowNotExists
    ensures forall i :: 4 <= i < 7 ==> r[i].FileStep? && r[i].allowNotExists
  {
    [FileStep("metadata", metaPath, false),
     FileStep("tasks", tasksPath, true),
     EnvConfigStep,
     FileStep("deployment_tasks", Paths.Join(pluginPath, "deployment_tasks.yaml"), false),
     FileStep("network_roles", Paths.Join(pluginPath, "network_roles.yaml"), true),
     FileStep("node_roles", Paths.Join(pluginPath, "node_roles.yaml"), true),
     FileStep("volumes", Paths.Join(pluginPath, "volumes.yaml"), true)]
  }

  /** Everything a schema step needs from the validator. */
  datatype Env = Env(validate: Validate, fileExists: string -> bool, parse: string -> Json,
                     envConfPath: string, attrSchemas: AttrSchemas)

  function RunStep(env: Env, step: SchemaStep): Result<()> {
    match step
    case FileStep(schema, file, allowNotExists) =>
      ValidateFileBySchema(env.validate, env.fileExists, env.parse, schema, file, allowNotExists, false)
    case EnvConfigStep =>
      CheckEnvConfigAttrs(env.validate, env.parse, env.envConfPath, env.attrSchemas, false)
  }

  /** Runs the steps in order; the first failure is the result. */
  function RunSteps(env: Env, steps: seq<SchemaStep>): (r: Result<()>)
    ensures r.Ok? <==> forall i :: 0 <= i < |steps| ==> RunStep(env, steps[i]).Ok?
    ensures r.Err? ==> exists i :: 0 <= i < |steps| && r == RunStep(env, steps[i])
                                   && forall j :: 0 <= j < i ==> RunStep(env, steps[j]).Ok?
  {
    FirstFailure(steps, step => RunStep(env, step))
  }

  /** `check_schemas` of the v3 validator. */
  function CheckSchemasV3(env: Env, pluginPath: string, metaPath: string, tasksPath: string): (r: Result<()>)
    ensures r.Ok? ==> env.fileExists(metaPath)
    ensures !env.fileExists(metaPath) ==> r == Err(FileDoesNotExistError(metaPath))
  {
    var steps := SchemaStepsV3(pluginPath, metaPath, tasksPath);
    RunSteps(env, steps)
  }

  /** `_parse_tasks` of the v3 validator: it never yields tasks, and raises
      only for a tasks file that exists but is empty. */
  function ParseTasks(fileExists: string -> bool, parse: string -> Json, tasksPath: string): (r: Result<Option<Json>>)
    ensures r.Ok? ==> r.value == None
    ensures r.Err? <==> fileExists(tasksPath) && parse(tasksPath) == Null
    ensures r.Err? ==> r.error == FileIsEmptyError(tasksPath)
  {
    if fileExists(tasksPath) && parse(tasksPath) == Null then Err(FileIsEmptyError(tasksPath)) else Ok(None)
  }

  // ---------------------------------------------------------------------
  // The `utils` names as written
  // ---------------------------------------------------------------------

  // The members above take what `utils.exists` and `utils.parse_yaml`
  // evidently mean as the `fileExists` and `parse` parameters;
  // `utils/__init__.py` binds `is_exists` and no `parse_yaml`, so the
  // source as written raises at the first of these reads.

  /** `validate_file_by_schema` as written: the existence test reads
      `utils.exists`. */
  function ValidateFileBySchemaAsWritten(validate: Validate, fileExists: string -> bool, parse: string -> Json,
                                         schema: string, filePath: string,
                                         allowNotExists: bool, allowEmpty: bool): (r: Result<()>)
    ensures r == Err(Namespaces.NoAttribute("exists"))
  {
    Namespaces.UtilsLacksExists();
    Err(Namespaces.Attribute(Namespaces.UtilsNames, "exists").error)
  }

  /** A missing file that may be missing passes the corrected check and
      raises as written. */
  lemma {:induction false} ValidateFileBySchemaDiscrepancy(validate: Validate, fileExists: string -> bool,
                                                           parse: string -> Json, schema: string, filePath: string)
    requires !fileExists(filePath)
    ensures ValidateFileBySchema(validate, fileExists, parse, schema, filePath, true, false) == Ok(())
    ensures ValidateFileBySchemaAsWritten(validate, fileExists, parse, schema, filePath, true, false).Err?
  {
  }

  /** `check_deployment_tasks` as written: the tasks are read with
      `utils.parse_yaml`. */
  function CheckDeploymentTasksAsWritten(parse: string -> Json, pluginPath: string, validate: Validate,
                                         taskSchema: string -> string, show: Json -> string): (r: Result<()>)
    ensures r == Err(Namespaces.NoAttribute("parse_yaml"))
  {
    Namespaces.UtilsLacksParseYaml();
    Err(Namespaces.Attribute(Namespaces.UtilsNames, "parse_yaml").error)
  }

  /** An empty task list passes the corrected check and raises as written. */
  lemma {:induction false} CheckDeploymentTasksDiscrepancy(parse: string -> Json, pluginPath: string, validate: Validate,
                                                           taskSchema: string -> string, show: Json -> string)
    requires parse(Paths.Join(pluginPath, "deployment_tasks.yaml")) == List([])
    ensures CheckDeploymentTasks(parse, pluginPath, validate, taskSchema, show).Ok?
    ensures CheckDeploymentTasksAsWritten(parse, pluginPath, validate, taskSchema, show).Err?
  {
    assert Iter(List([])) == Ok([]);
  }

  /** `_parse_tasks` as written: the existence test reads `utils.exists`. */
  function ParseTasksAsWritten(fileExists: string -> bool, parse: string -> Json, tasksPath: string): (r: Result<Option<Json>>)
    ensures r == Err(Namespaces.NoAttribute("exists"))
  {
    Namespaces.UtilsLacksExists();
    Err(Namespaces.Attribute(Namespaces.UtilsNames, "exists").error)
  }

  /** A plugin without a tasks file parses under the corrected reading and
      raises as written. */
  lemma {:induction false} ParseTasksDiscrepancy(fileExists: string -> bool, parse: string -> Json, tasksPath: string)
    requires !fileExists(tasksPath)
    ensures ParseTasks(fileExists, parse, tasksPath) == Ok(None)
    ensures ParseTasksAsWritten(fileExists, parse, tasksPath).Err?
  {
  }

  /** The older base validator's `validate_file_by_schema` as written: it
      reads `utils.parse_yaml`, and the older `utils.py` defines only
      `is_executable`, `which` and `exec_cmd`. */
  function ValidateFileBySchemaOlderAsWritten(validate: Validate, parse: string -> Json,
                                              schema: string, filePath: string): (r: Result<()>)
    ensures r == Err(Namespaces.NoAttribute("parse_yaml"))
  {
    Namespaces.OlderUtilsLacksParseYaml();
    Err(Namespaces.Attribute(Namespaces.OlderUtilsNames, "parse_yaml").error)
  }

  /** A file whose data the schema accepts passes the corrected older check
      and raises as written. */
  lemma {:induction false} ValidateFileBySchemaOlderDiscrepancy(validate: Validate, parse: string -> Json,
                                                                schema: string, filePath: string)
    requires validate(parse(filePath), schema).None?
    ensures ValidateFileBySchemaOlder(validate, parse, schema, filePath).Ok?
    ensures ValidateFileBySchemaOlderAsWritten(validate, parse, schema, filePath).Err?
  {
  }
}

=== FILE: loaders.dfy ===
/**
 The loaders: `FilesManager` reads every file a path mask matches and merges
 the records, and `LoaderBase` turns the plugin's root metadata file into a
 data tree, replacing each `*<suffix>` key that names a file by the file's
 contents. Globbing, reading and deserialising a file, and the directory test
 are parameters.
 */
module Loaders {
  import opened Base
  import opened Json
  import opened Paths
  import opened Reports
  import Namespaces

  // ---------------------------------------------------------------------
  // FilesManager._merge_data_records
  // ---------------------------------------------------------------------

  /** The items of the list records, in record order. */
  function ListItems(records: seq<Json>): (r: seq<Json>)
    ensures forall x :: x in r ==> exists i :: 0 <= i < |records| && records[i].List? && x in records[i].items
  {
    if |records| == 0 then []
    else
      var rest := ListItems(records[1..]);
      assert forall x :: x in rest ==> exists i :: 1 <= i < |records| && records[i].List? && x in records[i].items by {
        forall x | x in rest
          ensures exists i :: 1 <= i < |records| && records[i].List? && x in records[i].items
        {
          var i :| 0 <= i < |records[1..]| && records[1..][i].List? && x in records[1..][i].items;
          assert records[i + 1] == records[1..][i];
        }
      }
      (if records[0].List? then records[0].items else []) + rest
  }

  /** The dictionary records, in record order. */
  function DictRecords(records: seq<Json>): (r: seq<Fields>)
    ensures |r| <= |records|
    ensures forall d :: d in r ==> Obj(d) in records
  {
    if |records| == 0 then []
    else (if records[0].Obj? then [records[0].fields] else []) + DictRecords(records[1..])
  }

  /** Dictionaries as values. */
  function Objs(ds: seq<Fields>): (r: seq<Json>)
    ensures |r| == |ds|
    ensures forall i :: 0 <= i < |ds| ==> r[i] == Obj(ds[i])
  {
    seq(|ds|, i requires 0 <= i < |ds| => Obj(ds[i]))
  }

  /** `merged = {}` followed by `merged.update(d)` for each dictionary. */
  function MergeDicts(acc: Fields, ds: seq<Fields>): Fields
    decreases |ds|
  {
    if |ds| == 0 then acc else MergeDicts(Update(acc, ds[0]), ds[1..])
  }

  /** The value the last dictionary defining `k` gives it. */
  function LastValue(ds: seq<Fields>, k: string): Option<Json>
    decreases |ds|
  {
    if |ds| == 0 then None
    else
      var later := LastValue(ds[1..], k);
      if later.Some? then later else Lookup(ds[0], k)
  }

  /** `_merge_data_records(records)`: any list item puts the result in list
      mode (every list item, then every dictionary, in order); otherwise the
      dictionaries are merged left to right; with neither the result is
      `None`. Records of any other kind are ignored. */
  function MergeDataRecords(records: seq<Json>): (r: Json)
    ensures r.List? <==> ListItems(records) != []
    ensures r.Obj? <==> ListItems(records) == [] && DictRecords(records) != []
    ensures r.Null? <==> ListItems(records) == [] && DictRecords(records) == []
    ensures r.List? ==> |r.items| == |ListItems(records)| + |DictRecords(records)|
    ensures r.List? ==> r.items[..|ListItems(records)|] == ListItems(records)
    ensures r.List? ==> forall i :: 0 <= i < |DictRecords(records)| ==>
              r.items[|ListItems(records)| + i] == Obj(DictRecords(records)[i])
  {
    var items := ListItems(records);
    var dicts := DictRecords(records);
    if |items| > 0 then List(items + Objs(dicts))
    else if |dicts| > 0 then Obj(MergeDicts([], dicts))
    else Null
  }

  /** Merging dictionaries: a key reads as in the last dictionary that
      defines it, and as before when none does; keys stay unique. */
  lemma {:induction false} MergeDictsLookup(acc: Fields, ds: seq<Fields>, k: string)
    requires UniqueKeys(acc)
    requires forall i :: 0 <= i < |ds| ==> UniqueKeys(ds[i])
    ensures UniqueKeys(MergeDicts(acc, ds))
    ensures Lookup(MergeDicts(acc, ds), k) == if LastValue(ds, k).Some? then LastValue(ds, k) else Lookup(acc, k)
    decreases |ds|
  {
    if |ds| > 0 {
      UpdateLookup(acc, ds[0], k);
      var next := Update(acc, ds[0]);
      assert forall i :: 0 <= i < |ds[1..]| ==> UniqueKeys(ds[1..][i]) by {
        forall i | 0 <= i < |ds[1..]| ensures UniqueKeys(ds[1..][i]) {
          assert ds[1..][i] == ds[i + 1];
        }
      }
      MergeDictsLookup(next, ds[1..], k);
      if Lookup(ds[0], k).Some? {
        LookupSome(ds[0], k);
      } else {
        LookupNone(ds[0], k);
      }
    }
  }

  lemma {:induction false} LookupSome(fields: Fields, k: string)
    requires Lookup(fields, k).Some?
    ensures k in Keys(fields)
  {
  }

  lemma {:induction false} LookupNone(fields: Fields, k: string)
    requires Lookup(fields, k).None?
    ensures k !in Keys(fields)
  {
  }

  /** In dictionary mode, `merged[k]` is the value the last record defining
      `k` gives it. */
  lemma {:induction false} MergedDictLookup(records: seq<Json>, k: string)
    requires forall i :: 0 <= i < |records| && records[i].Obj? ==> UniqueKeys(records[i].fields)
    ensures ListItems(records) == [] && DictRecords(records) != [] ==>
      && MergeDataRecords(records).Obj?
      && UniqueKeys(MergeDataRecords(records).fields)
      && Lookup(MergeDataRecords(records).fields, k) == LastValue(DictRecords(records), k)
  {
    if ListItems(records) != [] || DictRecords(records) == [] { return; }
    var ds := DictRecords(records);
    forall i | 0 <= i < |ds| ensures UniqueKeys(ds[i]) {
      assert Obj(ds[i]) in records;
    }
    MergeDictsLookup([], ds, k);
  }

  /** Records that are neither lists nor dictionaries do not change the
      merge, wherever they stand. */
  lemma {:induction false} ScalarRecordIgnored(a: seq<Json>, x: Json, b: seq<Json>)
    requires !x.List? && !x.Obj?
    ensures MergeDataRecords(a + [x] + b) == MergeDataRecords(a + b)
  {
    SkipScalar(a, x, b);
  }

  lemma {:induction false} SkipScalar(a: seq<Json>, x: Json, b: seq<Json>)
    requires !x.List? && !x.Obj?
    ensures ListItems(a + [x] + b) == ListItems(a + b)
    ensures DictRecords(a + [x] + b) == DictRecords(a + b)
    decreases |a|
  {
    if |a| == 0 {
      assert a + [x] + b == [x] + b;
      assert ([x] + b)[1..] == b;
      assert a + b == b;
    } else {
      SkipScalar(a[1..], x, b);
      assert (a + [x] + b)[1..] == a[1..] + [x] + b;
      assert (a + b)[1..] == a[1..] + b;
      assert (a + [x] + b)[0] == a[0] == (a + b)[0];
    }
  }

  /** An empty list record does not force list mode. */
  lemma {:induction false} EmptyListDoesNotForceList()
    ensures MergeDataRecords([List([]), Obj([("a", Int(1))])]) == Obj([("a", Int(1))])
  {
    var records := [List([]), Obj([("a", Int(1))])];
    assert records[1..] == [Obj([("a", Int(1))])];
    assert records[1..][1..] == [];
    assert ListItems(records) == [];
    assert DictRecords(records) == [[("a", Int(1))]];
    assert Update([], [("a", Int(1))]) == [("a", Int(1))];
  }

  // ---------------------------------------------------------------------
  // FilesManager.load
  // ---------------------------------------------------------------------

  /** The keys of `DESERIALIZERS`: the formats the manager can read. */
  const Formats: seq<string> := ["json", "yaml", "txt"]

  predicate Supported(path: string) {
    GetPathExtension(path) in Formats
  }

  /** The paths with a deserializer, in order. */
  function SupportedPaths(paths: seq<string>, supported: string -> bool): (r: seq<string>)
    ensures forall p :: p in r <==> p in paths && supported(p)
  {
    if |paths| == 0 then []
    else (if supported(paths[0]) then [paths[0]] else []) + SupportedPaths(paths[1..], supported)
  }

  /** What one matched path contributes: a read of a supported file, an
      `InvalidFileFormat` for any other path unless errors are allowed, or
      nothing. */
  function PathOutcome(path: string, supported: string -> bool, read: string -> Result<Json>, allowErrors: bool): Result<seq<Json>> {
    if supported(path) then
      match read(path)
      case Ok(v) => Ok([v])
      case Err(e) => Err(e)
    else if allowErrors then Ok([])
    else Err(Error(InvalidFileFormat, path))
  }

  /** One path of the loop as written: `errors.InvalidFileFormat` is not a
      class `errors.py` defines, so a path without a deserializer in a strict
      load raises the `AttributeError` of that name; every other path fares
      as in `PathOutcome`. */
  function PathOutcomeAsWritten(path: string, supported: string -> bool, read: string -> Result<Json>,
                                allowErrors: bool): (r: Result<seq<Json>>)
    ensures supported(path) || allowErrors ==> r == PathOutcome(path, supported, read, allowErrors)
    ensures !supported(path) && !allowErrors ==> r == Err(Namespaces.NoAttribute("InvalidFileFormat"))
  {
    if !supported(path) && !allowErrors then
      Namespaces.RaiseInvalidFileFormat(path);
      Err(Namespaces.Raise(Error(InvalidFileFormat, path)))
    else PathOutcome(path, supported, read, allowErrors)
  }

  /** A path without a deserializer raises `InvalidFileFormat` naming it
      under the corrected reading, and an `AttributeError` as written. */
  lemma PathOutcomeDiscrepancy(path: string, supported: string -> bool, read: string -> Result<Json>)
    requires !supported(path)
    ensures PathOutcome(path, supported, read, false) == Err(Error(InvalidFileFormat, path))
    ensures PathOutcomeAsWritten(path, supported, read, false).error.kind == AttributeError
  {
  }

  /** The loop of `FilesManager.load`: the records of the matched paths,
      stopping at the first path that raises. */
  function LoadRecords(paths: seq<string>, supported: string -> bool, read: string -> Result<Json>, allowErrors: bool): (r: Result<seq<Json>>)
    ensures r.Ok? <==> forall i :: 0 <= i < |paths| ==> PathOutcome(paths[i], supported, read, allowErrors).Ok?
  {
    if |paths| == 0 then Ok([])
    else
      var first := PathOutcome(paths[0], supported, read, allowErrors);
      if first.Err? then first
      else
        var rest := LoadRecords(paths[1..], supported, read, allowErrors);
        assert forall i :: 1 <= i < |paths| ==> paths[i] == paths[1..][i - 1];
        if rest.Err? then rest else Ok(first.value + rest.value)
  }

  /** A successful load holds one record per supported path: what reading
      that path gave, in path order. */
  lemma {:induction false} LoadRecordsValues(paths: seq<string>, supported: string -> bool, read: string -> Result<Json>, allowErrors: bool)
    requires LoadRecords(paths, supported, read, allowErrors).Ok?
    ensures var r := LoadRecords(paths, supported, read, allowErrors).value;
      |r| == |SupportedPaths(paths, supported)| &&
      forall i :: 0 <= i < |r| ==> read(SupportedPaths(paths, supported)[i]) == Ok(r[i])
  {
    if |paths| > 0 {
      assert forall i :: 1 <= i < |paths| ==> paths[i] == paths[1..][i - 1];
      LoadRecordsValues(paths[1..], supported, read, allowErrors);
      var rest := LoadRecords(paths[1..], supported, read, allowErrors).value;
      var r := LoadRecords(paths, supported, read, allowErrors).value;
      var sp := SupportedPaths(paths, supported);
      if supported(paths[0]) {
        assert r == [read(paths[0]).value] + rest;
        assert sp == [paths[0]] + SupportedPaths(paths[1..], supported);
      } else {
        assert r == rest;
        assert sp == SupportedPaths(paths[1..], supported);
      }
    }
  }

  /** A failed load raises the error of the first path that raises. */
  lemma {:induction false} LoadRecordsError(paths: seq<string>, supported: string -> bool, read: string -> Result<Json>, allowErrors: bool, i: nat)
    requires i < |paths| && PathOutcome(paths[i], supported, read, allowErrors).Err?
    requires forall j :: 0 <= j < i ==> PathOutcome(paths[j], supported, read, allowErrors).Ok?
    ensures LoadRecords(paths, supported, read, allowErrors) == PathOutcome(paths[i], supported, read, allowErrors)
  {
    if i > 0 {
      assert forall j :: 1 <= j < |paths| ==> paths[j] == paths[1..][j - 1];
      LoadRecordsError(paths[1..], supported, read, allowErrors, i - 1);
    }
  }

  /** With `allow_errors` the unsupported paths are skipped: the load is the
      strict load of the supported paths alone. */
  lemma {:induction false} AllowErrorsSkips(paths: seq<string>, supported: string -> bool, read: string -> Result<Json>)
    ensures LoadRecords(paths, supported, read, true) == LoadRecords(SupportedPaths(paths, supported), supported, read, false)
  {
    if |paths| > 0 {
      AllowErrorsSkips(paths[1..], supported, read);
      var sp := SupportedPaths(paths, supported);
      if supported(paths[0]) {
        assert sp[0] == paths[0] && sp[1..] == SupportedPaths(paths[1..], supported);
      } else {
        assert sp == SupportedPaths(paths[1..], supported);
        var rest := LoadRecords(paths[1..], supported, read, true);
        assert PathOutcome(paths[0], supported, read, true) == Ok([]);
        if rest.Ok? {
          assert [] + rest.value == rest.value;
        }
      }
    }
  }

  /** `FilesManager.load(path_mask, allow_errors)`: the merged records of
      every matched path, each read by `read` (the intended `ReadFile`;
      `ReadFileAsWritten` shows how JSON files fare as written). */
  function FilesManagerLoad(glob: string -> seq<string>, read: string -> Result<Json>, mask: string, allowErrors: bool): Result<Json> {
    var records :- LoadRecords(glob(mask), Supported, read, allowErrors);
    Ok(MergeDataRecords(records))
  }

  /** The extension gate: a matched path without a deserializer makes the
      strict load raise. */
  lemma {:induction false} LoadGate(glob: string -> seq<string>, read: string -> Result<Json>, mask: string, p: string)
    requires p in glob(mask) && !Supported(p)
    ensures FilesManagerLoad(glob, read, mask, false).Err?
  {
    var paths := glob(mask);
    var i :| 0 <= i < |paths| && paths[i] == p;
    assert PathOutcome(paths[i], Supported, read, false).Err?;
  }

  /** `FilesManager.load` as written: it lists the paths with
      `utils.fs.get_files_by_mask`, which `utils/fs.py` does not define;
      `FilesManagerLoad` takes that listing as the `glob` parameter. */
  function FilesManagerLoadAsWritten(glob: string -> seq<string>, read: string -> Result<Json>, mask: string,
                                     allowErrors: bool): (r: Result<Json>)
    ensures r == Err(Namespaces.NoAttribute("get_files_by_mask"))
  {
    Namespaces.FsLacks();
    Err(Namespaces.Attribute(Namespaces.FsNames, "get_files_by_mask").error)
  }

  /** A mask that matches nothing loads as `None` under the corrected
      reading and raises as written. */
  lemma {:induction false} FilesManagerLoadDiscrepancy(glob: string -> seq<string>, read: string -> Result<Json>,
                                                       mask: string)
    requires glob(mask) == []
    ensures FilesManagerLoad(glob, read, mask, false) == Ok(Null)
    ensures FilesManagerLoadAsWritten(glob, read, mask, false).Err?
  {
    assert LoadRecords([], Supported, read, false) == Ok([]);
  }

  /** The error `json.load` raises when handed text instead of a file
      object: it calls the argument's `read`. */
  const JsonLoadOnText := Error(AttributeError, "'str' object has no attribute 'read'")

  /** Reading one supported file as the loop means it: open the file, read
      its text, and hand the text to the deserializer of its extension
      (`parse`, which stands for `json.loads`, `yaml.load` or the plain
      text). An open failure raises before any deserializer runs. This is
      the `read` that `FilesManagerLoad` takes. */
  function ReadFile(open: string -> Result<string>, parse: (string, string) -> Result<Json>, path: string): (r: Result<Json>)
    ensures open(path).Err? ==> r == Err(open(path).error)
    ensures open(path).Ok? ==> r == parse(GetPathExtension(path), open(path).value)
  {
    match open(path)
    case Err(e) => Err(e)
    case Ok(text) => parse(GetPathExtension(path), text)
  }

  /** The same read as written: `deserializer_json` passes the text to
      `json.load`, which wants a file object, so every JSON file that opens
      raises `AttributeError`; YAML and plain-text files read as intended. */
  function ReadFileAsWritten(open: string -> Result<string>, parse: (string, string) -> Result<Json>,
                             path: string): (r: Result<Json>)
    ensures GetPathExtension(path) != "json" ==> r == ReadFile(open, parse, path)
    ensures GetPathExtension(path) == "json" && open(path).Err? ==> r == ReadFile(open, parse, path)
    ensures GetPathExtension(path) == "json" && open(path).Ok? ==> r == Err(JsonLoadOnText)
  {
    match open(path)
    case Err(e) => Err(e)
    case Ok(text) =>
      if GetPathExtension(path) == "json" then Err(JsonLoadOnText)
      else parse(GetPathExtension(path), text)
  }

  /** A JSON file that opens and parses: the intended load holds its
      record, and the load as written raises on it. */
  lemma {:induction false} JsonLoadDiscrepancy(open: string -> Result<string>, parse: (string, string) -> Result<Json>,
                                               path: string, v: Json)
    requires GetPathExtension(path) == "json" && open(path).Ok? && parse("json", open(path).value) == Ok(v)
    ensures LoadRecords([path], Supported, p => ReadFile(open, parse, p), false) == Ok([v])
    ensures LoadRecords([path], Supported, p => ReadFileAsWritten(open, parse, p), false) == Err(JsonLoadOnText)
  {
    assert Supported(path);
    assert [path][1..] == [];
    assert [v] + [] == [v];
  }

  // ---------------------------------------------------------------------
  // LoaderBase
  // ---------------------------------------------------------------------

  /** A loader: the plugin directory, the path suffix and root file name
      the code means by `consts.PATHS_SUFFIX` and `consts.ROOT_FILE_NAME`
      (see `NewLoaderAsWritten`), the directory test, the glob and
      read-and-deserialize operations of the files manager, and `repr(exc)`
      followed by the traceback, which `report.error(exc)` falls back to. */
  datatype Loader = Loader(
    pluginPath: string,
    suffix: string,
    rootFileName: string,
    isDir: string -> bool,
    glob: string -> seq<string>,
    read: string -> Result<Json>,
    describe: Error -> string)

  /** Defining `LoaderBase` as written: its class body reads
      `consts.PATHS_SUFFIX`, which `consts.py` does not define, so importing
      the module raises and no loader exists (its `_root_metadata_path`
      would read the equally missing `consts.ROOT_FILE_NAME`). */
  function NewLoaderAsWritten(pluginPath: string, isDir: string -> bool, glob: string -> seq<string>,
                              read: string -> Result<Json>, describe: Error -> string): (r: Result<Loader>)
    ensures r == Err(Namespaces.NoAttribute("PATHS_SUFFIX"))
  {
    Namespaces.ConstsLacksPathsSuffix();
    Err(Namespaces.Attribute(Namespaces.ConstsNames, "PATHS_SUFFIX").error)
  }

  /** The text `report.error(exc)` records for a failed load: the intended
      formatting of the exception. */
  function ErrorText(l: Loader, e: Error): string {
    FormatException(e, l.describe(e))
  }

  /** `files_manager.load(_get_absolute_path(path))`. */
  function LoadFile(l: Loader, path: string): Result<Json> {
    FilesManagerLoad(l.glob, l.read, Join(l.pluginPath, path), false)
  }

  predicate EndsWith(s: string, suffix: string) {
    |suffix| <= |s| && s[|s| - |suffix|..] == suffix
  }

  /** A key the loader rewrites: it ends with the suffix and holds a string. */
  predicate IsPathKey(suffix: string, key: string, value: Json) {
    EndsWith(key, suffix) && value.Str?
  }

  /** `key[:-len(suffix)]`; with an empty suffix that slice is `key[:0]`. */
  function Cleaned(key: string, suffix: string): (r: string)
    requires EndsWith(key, suffix)
    ensures |suffix| > 0 ==> r + suffix == key
    ensures |suffix| == 0 ==> r == ""
  {
    if |suffix| == 0 then "" else key[..|key| - |suffix|]
  }

  /** A processed value and the report nodes processing added, in order. */
  datatype Processed = Processed(data: Json, notes: seq<Node>)

  function ConcatNotes(ps: seq<Processed>): (r: seq<Node>)
    ensures ps == [] ==> r == []
  {
    if |ps| == 0 then [] else ps[0].notes + ConcatNotes(ps[1..])
  }

  /** The note a path key naming a directory adds. */
  function DirectoryNote(value: string): Node {
    MakeNode(value + " is valid directory", InfoLevel, [], None)
  }

  /** The note a path key whose file fails to load adds: a node titled with
      the path holding the error text. */
  function LoadErrorNote(value: string, msg: string): Node {
    AddError(Titled(value), msg)
  }

  /** One dictionary entry of `_recursive_process_paths`: the key it is
      stored under and its processed value. */
  function ProcessEntry(l: Loader, key: string, value: Json): (r: (string, Processed))
    decreases value, 2
    ensures IsPathKey(l.suffix, key, value) && l.isDir(Join(l.pluginPath, value.s)) ==>
      r == (key, Processed(value, [DirectoryNote(value.s)]))
    ensures IsPathKey(l.suffix, key, value) && !l.isDir(Join(l.pluginPath, value.s)) && LoadFile(l, value.s).Ok? ==>
      r == (Cleaned(key, l.suffix), Processed(LoadFile(l, value.s).value, []))
    ensures IsPathKey(l.suffix, key, value) && !l.isDir(Join(l.pluginPath, value.s)) && LoadFile(l, value.s).Err? ==>
      r == (key, Processed(value, [LoadErrorNote(value.s, ErrorText(l, LoadFile(l, value.s).error))]))
    ensures !IsPathKey(l.suffix, key, value) ==> r == (key, ProcessPaths(l, value))
  {
    if IsPathKey(l.suffix, key, value) then
      if l.isDir(Join(l.pluginPath, value.s)) then (key, Processed(value, [DirectoryNote(value.s)]))
      else match LoadFile(l, value.s)
        case Ok(loaded) => (Cleaned(key, l.suffix), Processed(loaded, []))
        case Err(e) => (key, Processed(value, [LoadErrorNote(value.s, ErrorText(l, e))]))
    else (key, ProcessPaths(l, value))
  }

  /** `_recursive_process_paths(data, report)`: dictionaries are rebuilt entry
      by entry into a fresh dictionary, lists are mapped element-wise, and
      anything else is returned unchanged. */
  function ProcessPaths(l: Loader, data: Json): (r: Processed)
    decreases data, 1
    ensures !data.Obj? && !data.List? ==> r == Processed(data, [])
    ensures data.Obj? <==> r.data.Obj?
    ensures data.List? <==> r.data.List?
    ensures data.List? ==> |r.data.items| == |data.items|
  {
    match data
    case Obj(fields) =>
      var entries := seq(|fields|, i requires 0 <= i < |fields| => ProcessEntry(l, fields[i].0, fields[i].1));
      Processed(Obj(Update([], EntryFields(entries))), ConcatNotes(EntryValues(entries)))
    case List(items) =>
      var ps := seq(|items|, i requires 0 <= i < |items| => ProcessPaths(l, items[i]));
      Processed(List(DataOf(ps)), ConcatNotes(ps))
    case _ => Processed(data, [])
  }

  function EntryFields(entries: seq<(string, Processed)>): (r: Fields)
    ensures |r| == |entries|
    ensures forall i :: 0 <= i < |r| ==> r[i] == (entries[i].0, entries[i].1.data)
  {
    seq(|entries|, i requires 0 <= i < |entries| => (entries[i].0, entries[i].1.data))
  }

  function EntryValues(entries: seq<(string, Processed)>): (r: seq<Processed>)
    ensures |r| == |entries|
    ensures forall i :: 0 <= i < |r| ==> r[i] == entries[i].1
  {
    seq(|entries|, i requires 0 <= i < |entries| => entries[i].1)
  }

  function DataOf(ps: seq<Processed>): (r: seq<Json>)
    ensures |r| == |ps|
    ensures forall i :: 0 <= i < |r| ==> r[i] == ps[i].data
  {
    seq(|ps|, i requires 0 <= i < |ps| => ps[i].data)
  }

  // ---------------------------------------------------------------------
  // What path processing leaves alone
  // ---------------------------------------------------------------------

  /** No key anywhere in the tree is a path key. */
  predicate NoPathKeys(suffix: string, data: Json)
    decreases data
  {
    match data
    case Obj(fields) => forall i :: 0 <= i < |fields| ==>
      !IsPathKey(suffix, fields[i].0, fields[i].1) && NoPathKeys(suffix, fields[i].1)
    case List(items) => forall i :: 0 <= i < |items| ==> NoPathKeys(suffix, items[i])
    case _ => true
  }

  /** Every dictionary in the tree has unique keys, as a parsed file's do. */
  predicate DeepUnique(data: Json)
    decreases data
  {
    match data
    case Obj(fields) => UniqueKeys(fields) && forall i :: 0 <= i < |fields| ==> DeepUnique(fields[i].1)
    case List(items) => forall i :: 0 <= i < |items| ==> DeepUnique(items[i])
    case _ => true
  }

  /** Assigning a new key appends it. */
  lemma PutFresh(fields: Fields, k: string, v: Json)
    requires k !in Keys(fields)
    ensures Put(fields, k, v) == fields + [(k, v)]
  {
  }

  /** Rebuilding a dictionary entry by entry into a fresh one gives it back:
      `Update([], fields)` is `fields` when its keys are unique. */
  lemma {:induction false} UpdateFresh(fields: Fields)
    requires UniqueKeys(fields)
    ensures Update([], fields) == fields
  {
    UpdateFreshFrom(fields, 0);
    assert fields[..0] == [] && fields[0..] == fields;
  }

  lemma {:induction false} UpdateFreshFrom(fields: Fields, n: nat)
    requires UniqueKeys(fields) && n <= |fields|
    ensures Update(fields[..n], fields[n..]) == fields
    decreases |fields| - n
  {
    if n == |fields| {
      assert fields[n..] == [] && fields[..n] == fields;
    } else {
      var k := fields[n].0;
      forall i | 0 <= i < n ensures Keys(fields[..n])[i] != k {
        assert fields[..n][i] == fields[i];
      }
      PutFresh(fields[..n], k, fields[n].1);
      assert fields[..n] + [fields[n]] == fields[..n + 1];
      assert fields[n..][0] == fields[n] && fields[n..][1..] == fields[n + 1..];
      UpdateFreshFrom(fields, n + 1);
    }
  }

  predicate ConcatNotesEmpty(ps: seq<Processed>) {
    forall i :: 0 <= i < |ps| ==> ps[i].notes == []
  }

  lemma {:induction false} NoNotes(ps: seq<Processed>)
    requires ConcatNotesEmpty(ps)
    ensures ConcatNotes(ps) == []
  {
    if |ps| > 0 {
      assert ConcatNotesEmpty(ps[1..]) by {
        forall i | 0 <= i < |ps[1..]| ensures ps[1..][i].notes == [] {
          assert ps[1..][i] == ps[i + 1];
        }
      }
      NoNotes(ps[1..]);
    }
  }

  /** A tree without path keys comes back unchanged and adds no report
      node. */
  lemma {:induction false} ProcessIdentity(l: Loader, data: Json)
    requires NoPathKeys(l.suffix, data) && DeepUnique(data)
    ensures ProcessPaths(l, data) == Processed(data, [])
    decreases data
  {
    match data
    case Obj(fields) =>
      var entries := seq(|fields|, i requires 0 <= i < |fields| => ProcessEntry(l, fields[i].0, fields[i].1));
      forall i | 0 <= i < |fields|
        ensures entries[i] == (fields[i].0, Processed(fields[i].1, []))
      {
        ProcessIdentity(l, fields[i].1);
      }
      assert EntryFields(entries) == fields;
      UpdateFresh(fields);
      NoNotes(EntryValues(entries));
    case List(items) =>
      var ps := seq(|items|, i requires 0 <= i < |items| => ProcessPaths(l, items[i]));
      forall i | 0 <= i < |items|
        ensures ps[i] == Processed(items[i], [])
      {
        ProcessIdentity(l, items[i]);
      }
      assert DataOf(ps) == items;
      NoNotes(ps);
    case _ =>
  }

  // ---------------------------------------------------------------------
  // Failures path processing reports
  // ---------------------------------------------------------------------

  function SumNats(xs: seq<nat>): nat {
    if |xs| == 0 then 0 else xs[0] + SumNats(xs[1..])
  }

  /** How many path keys of the tree name a file (not a directory) that fails
      to load: an independent count, in the shape of the tree. */
  function FailedLoads(l: Loader, data: Json): nat
    decreases data, 1
  {
    match data
    case Obj(fields) => SumNats(seq(|fields|, i requires 0 <= i < |fields| => EntryFailedLoads(l, fields[i].0, fields[i].1)))
    case List(items) => SumNats(seq(|items|, i requires 0 <= i < |items| => FailedLoads(l, items[i])))
    case _ => 0
  }

  function EntryFailedLoads(l: Loader, key: string, value: Json): nat
    decreases value, 2
  {
    if IsPathKey(l.suffix, key, value) then
      if !l.isDir(Join(l.pluginPath, value.s)) && LoadFile(l, value.s).Err? then 1 else 0
    else FailedLoads(l, value)
  }

  /** The failures a list of report nodes carries. */
  function NotesFailures(notes: seq<Node>): nat {
    FailedCount(FlattenAll(notes))
  }

  lemma {:induction false} ConcatNotesFailures(ps: seq<Processed>, counts: seq<nat>)
    requires |counts| == |ps|
    requires forall i :: 0 <= i < |ps| ==> counts[i] == NotesFailures(ps[i].notes)
    ensures NotesFailures(ConcatNotes(ps)) == SumNats(counts)
  {
    if |ps| > 0 {
      assert forall i :: 0 <= i < |ps[1..]| ==> ps[1..][i] == ps[i + 1] && counts[1..][i] == counts[i + 1];
      ConcatNotesFailures(ps[1..], counts[1..]);
      FlattenAllAppend(ps[0].notes, ConcatNotes(ps[1..]));
      FailedCountAppend(FlattenAll(ps[0].notes), FlattenAll(ConcatNotes(ps[1..])));
    }
  }

  /** The note for a failed load carries exactly one failure; a directory
      note carries none. */
  lemma {:induction false} NoteFailures(value: string, msg: string)
    ensures NotesFailures([LoadErrorNote(value, msg)]) == 1
    ensures NotesFailures([DirectoryNote(value)]) == 0
  {
    var n := LoadErrorNote(value, msg);
    MessageCounts(Titled(value), msg, 0);
    CountFailuresIsFailedNodes(n, 0);
    CountFailuresIsFailedNodes(Titled(value), 0);
    assert FlattenAll([n]) == Flatten(n) + FlattenAll([]);
    assert Flatten(n) + [] == Flatten(n);
    assert Flatten(Titled(value)) == [Titled(value)];
    var d := DirectoryNote(value);
    assert FlattenAll([d]) == Flatten(d) + FlattenAll([]);
    assert Flatten(d) == [d];
  }

  /** Path processing reports exactly one failure per path key whose file
      fails to load; directories and loaded files add none. */
  lemma {:induction false} ProcessFailures(l: Loader, data: Json)
    ensures NotesFailures(ProcessPaths(l, data).notes) == FailedLoads(l, data)
    decreases data, 1
  {
    match data
    case Obj(fields) =>
      var entries := seq(|fields|, i requires 0 <= i < |fields| => ProcessEntry(l, fields[i].0, fields[i].1));
      var counts := seq(|fields|, i requires 0 <= i < |fields| => EntryFailedLoads(l, fields[i].0, fields[i].1));
      forall i | 0 <= i < |fields|
        ensures counts[i] == NotesFailures(EntryValues(entries)[i].notes)
      {
        EntryFailures(l, fields[i].0, fields[i].1);
      }
      ConcatNotesFailures(EntryValues(entries), counts);
    case List(items) =>
      var ps := seq(|items|, i requires 0 <= i < |items| => ProcessPaths(l, items[i]));
      var counts := seq(|items|, i requires 0 <= i < |items| => FailedLoads(l, items[i]));
      forall i | 0 <= i < |items|
        ensures counts[i] == NotesFailures(ps[i].notes)
      {
        ProcessFailures(l, items[i]);
      }
      ConcatNotesFailures(ps, counts);
    case _ =>
  }

  lemma {:induction false} EntryFailures(l: Loader, key: string, value: Json)
    ensures NotesFailures(ProcessEntry(l, key, value).1.notes) == EntryFailedLoads(l, key, value)
    decreases value, 2
  {
    if IsPathKey(l.suffix, key, value) {
      match LoadFile(l, value.s)
      case Ok(_) =>
        NoteFailures(value.s, "");
      case Err(e) =>
        NoteFailures(value.s, ErrorText(l, e));
    } else {
      ProcessFailures(l, value);
    }
  }

  // ---------------------------------------------------------------------
  // Loading a plugin
  // ---------------------------------------------------------------------

  /** Under the intended module a loader exists and loading its root file
      gives a report titled with the root path; as written no loader can be
      made. */
  lemma NewLoaderDiscrepancy(pluginPath: string, suffix: string, rootFileName: string, isDir: string -> bool,
                             glob: string -> seq<string>, read: string -> Result<Json>, describe: Error -> string)
    ensures var l := Loader(pluginPath, suffix, rootFileName, isDir, glob, read, describe);
      LoadRootMetadata(l).1.text == RootTitlePrefix + Join(pluginPath, rootFileName)
    ensures NewLoaderAsWritten(pluginPath, isDir, glob, read, describe).Err?
  {
  }

  /** `_root_metadata_path`. */
  function RootMetadataPath(l: Loader): string {
    Join(l.pluginPath, l.rootFileName)
  }

  const RootTitlePrefix := "Loading root metadata file:"

  /** `_load_root_metadata_file()`: a root file that fails to load gives an
      empty dictionary and a report holding the one error; otherwise the
      processed tree and a report holding the processing notes. */
  function LoadRootMetadata(l: Loader): (r: (Json, Node))
    ensures r.1.text == RootTitlePrefix + RootMetadataPath(l) && !r.1.failed
    ensures LoadFile(l, l.rootFileName).Err? ==>
      r.0 == Obj([]) && CountFailures(r.1, 0) == 1
      && r.1.children == [MakeNode(ErrorText(l, LoadFile(l, l.rootFileName).error), ErrorLevel, [], None)]
    ensures LoadFile(l, l.rootFileName).Ok? ==>
      r.0 == ProcessPaths(l, LoadFile(l, l.rootFileName).value).data &&
      CountFailures(r.1, 0) == FailedLoads(l, LoadFile(l, l.rootFileName).value)
  {
    var title := RootTitlePrefix + RootMetadataPath(l);
    match LoadFile(l, l.rootFileName)
    case Err(e) => (Obj([]), RootLoadError(title, ErrorText(l, e)))
    case Ok(data) => (ProcessPaths(l, data).data, RootLoadNotes(l, data, title))
  }

  /** The root report when the root file does not load: one error. */
  function RootLoadError(title: string, msg: string): (r: Node)
    ensures r.text == title && !r.failed && CountFailures(r, 0) == 1
    ensures r.children == [MakeNode(msg, ErrorLevel, [], None)]
  {
    var report := Titled(title);
    assert CountFailures(report, 0) == 0;
    MessageCounts(report, msg, 0);
    AddError(report, msg)
  }

  /** The root report of a loaded root file: the processing notes, one
      failure per path that did not load. */
  function RootLoadNotes(l: Loader, data: Json, title: string): (r: Node)
    ensures r.text == title && !r.failed && CountFailures(r, 0) == FailedLoads(l, data)
  {
    var report := Titled(title);
    assert CountFailures(report, 0) == 0;
    var p := ProcessPaths(l, data);
    AddNodesCounts(report, p.notes, 0);
    ProcessFailures(l, data);
    AddNodes(report, p.notes)
  }

  /** Python's name for a value's type, as its error messages show it. */
  function TypeName(j: Json): string {
    match j
    case Null => "NoneType"
    case Bool(_) => "bool"
    case Int(_) => "int"
    case Str(_) => "str"
    case List(_) => "list"
    case Obj(_) => "dict"
  }

  /** The `TypeError` message of `data[key] = value` with a string key on a
      tree that is not a dictionary: a list wants an integer index, and the
      scalars accept no item assignment at all. */
  function AssignmentMessage(data: Json): string
    requires !data.Obj?
  {
    if data.List? then "list indices must be integers, not str"
    else "'" + TypeName(data) + "' object does not support item assignment"
  }

  /** `data[key] = files_manager.load(...)` for one fixed-location file: the
      load runs first; either failure (the load's, or a `TypeError` when the
      tree is not a dictionary) becomes an info note titled with the file. */
  function LoadFixedFile(l: Loader, data: Json, key: string, filePath: string): (r: Processed)
    ensures r.data.Obj? <==> data.Obj?
    ensures LoadFile(l, filePath).Ok? && data.Obj? ==>
      r == Processed(Obj(Put(data.fields, key, LoadFile(l, filePath).value)), [])
    ensures !(LoadFile(l, filePath).Ok? && data.Obj?) ==>
      r.data == data && |r.notes| == 1 && r.notes[0].text == filePath && NotesFailures(r.notes) == 0
    ensures LoadFile(l, filePath).Err? ==>
      r.notes[0].children == [MakeNode(LoadFile(l, filePath).error.message, InfoLevel, [], None)]
    ensures LoadFile(l, filePath).Ok? && data.List? ==>
      r.notes[0].children == [MakeNode("list indices must be integers, not str", InfoLevel, [], None)]
    ensures LoadFile(l, filePath).Ok? && !data.Obj? && !data.List? ==>
      r.notes[0].children == [MakeNode("'" + TypeName(data) + "' object does not support item assignment", InfoLevel, [], None)]
  {
    match LoadFile(l, filePath)
    case Ok(v) =>
      if data.Obj? then Processed(Obj(Put(data.fields, key, v)), [])
      else
        var note := AddInfo(Titled(filePath), AssignmentMessage(data));
        InfoNoteClean(filePath, AssignmentMessage(data));
        Processed(data, [note])
    case Err(e) =>
      InfoNoteClean(filePath, e.message);
      Processed(data, [AddInfo(Titled(filePath), e.message)])
  }

  /** A file note carries no failure. */
  lemma {:induction false} InfoNoteClean(title: string, msg: string)
    ensures NotesFailures([AddInfo(Titled(title), msg)]) == 0
  {
    var n := AddInfo(Titled(title), msg);
    MessageCounts(Titled(title), msg, 0);
    CountFailuresIsFailedNodes(n, 0);
    CountFailuresIsFailedNodes(Titled(title), 0);
    assert FlattenAll([n]) == Flatten(n) + FlattenAll([]);
    assert Flatten(n) + [] == Flatten(n);
    assert Flatten(Titled(title)) == [Titled(title)];
  }

  /** The loop over `_map_paths_to_data_keys`, in the table's order. */
  function LoadFixedFiles(l: Loader, data: Json, table: seq<(string, string)>): (r: Processed)
    ensures r.data.Obj? <==> data.Obj?
    ensures NotesFailures(r.notes) == 0
    ensures |r.notes| <= |table|
    decreases |table|
  {
    if |table| == 0 then Processed(data, [])
    else
      var first := LoadFixedFile(l, data, table[0].0, table[0].1);
      var rest := LoadFixedFiles(l, first.data, table[1..]);
      FlattenAllAppend(first.notes, rest.notes);
      FailedCountAppend(FlattenAll(first.notes), FlattenAll(rest.notes));
      Processed(rest.data, first.notes + rest.notes)
  }

  /** A fixed-location key whose file loads into a dictionary tree is set,
      unless a later entry of the table assigns it again. */
  lemma {:induction false} FixedFileStored(l: Loader, data: Json, table: seq<(string, string)>, i: nat)
    requires data.Obj? && UniqueKeys(data.fields)
    requires i < |table| && LoadFile(l, table[i].1).Ok?
    requires forall j :: i < j < |table| ==> table[j].0 != table[i].0
    ensures LoadFixedFiles(l, data, table).data.Obj?
    ensures UniqueKeys(LoadFixedFiles(l, data, table).data.fields)
    ensures Lookup(LoadFixedFiles(l, data, table).data.fields, table[i].0) == Some(LoadFile(l, table[i].1).value)
  {
    StoredAt(l, data, table, i, table[i].0, table[i].1);
  }

  /** `FixedFileStored` for the entry `(key, filePath)` at position `i`. */
  lemma {:induction false} StoredAt(l: Loader, data: Json, table: seq<(string, string)>, i: nat, key: string, filePath: string)
    requires data.Obj? && UniqueKeys(data.fields)
    requires i < |table| && table[i] == (key, filePath) && LoadFile(l, filePath).Ok?
    requires forall j :: i < j < |table| ==> table[j].0 != key
    ensures LoadFixedFiles(l, data, table).data.Obj?
    ensures UniqueKeys(LoadFixedFiles(l, data, table).data.fields)
    ensures Lookup(LoadFixedFiles(l, data, table).data.fields, key) == Some(LoadFile(l, filePath).value)
    decreases |table|, 1
  {
    if i == 0 {
      StoredFirst(l, data, table, key, filePath);
    } else {
      StoredLater(l, data, table, i, key, filePath);
    }
  }

  /** `StoredAt` for an entry after the first: the rest of the table runs
      on the dictionary the first entry leaves. */
  lemma {:induction false} StoredLater(l: Loader, data: Json, table: seq<(string, string)>, i: nat, key: string, filePath: string)
    requires data.Obj? && UniqueKeys(data.fields)
    requires 0 < i < |table| && table[i] == (key, filePath) && LoadFile(l, filePath).Ok?
    requires forall j :: i < j < |table| ==> table[j].0 != key
    ensures LoadFixedFiles(l, data, table).data.Obj?
    ensures UniqueKeys(LoadFixedFiles(l, data, table).data.fields)
    ensures Lookup(LoadFixedFiles(l, data, table).data.fields, key) == Some(LoadFile(l, filePath).value)
    decreases |table|, 0
  {
    var first := LoadFixedFile(l, data, table[0].0, table[0].1).data;
    var last := LoadFixedFiles(l, first, table[1..]).data;
    assert LoadFixedFiles(l, data, table).data == last by {
      FixedFilesStep(l, data, table);
    }
    assert first.Obj? && UniqueKeys(first.fields) by {
      FixedFileData(l, data, table[0].0, table[0].1, key);
    }
    assert last.Obj? && UniqueKeys(last.fields) && Lookup(last.fields, key) == Some(LoadFile(l, filePath).value) by {
      TailKeysDiffer(table, i, key, filePath);
      StoredAt(l, first, table[1..], i - 1, key, filePath);
    }
  }

  /** `StoredAt` for the first entry of the table. */
  lemma StoredFirst(l: Loader, data: Json, table: seq<(string, string)>, key: string, filePath: string)
    requires data.Obj? && UniqueKeys(data.fields)
    requires 0 < |table| && table[0] == (key, filePath) && LoadFile(l, filePath).Ok?
    requires forall j :: 0 < j < |table| ==> table[j].0 != key
    ensures LoadFixedFiles(l, data, table).data.Obj?
    ensures UniqueKeys(LoadFixedFiles(l, data, table).data.fields)
    ensures Lookup(LoadFixedFiles(l, data, table).data.fields, key) == Some(LoadFile(l, filePath).value)
  {
    var first := LoadFixedFile(l, data, key, filePath).data;
    var last := LoadFixedFiles(l, first, table[1..]).data;
    assert LoadFixedFiles(l, data, table).data == last by {
      FixedFilesStep(l, data, table);
    }
    assert first.Obj? && UniqueKeys(first.fields) && Lookup(first.fields, key) == Some(LoadFile(l, filePath).value) by {
      FixedFileData(l, data, key, filePath, key);
    }
    assert last.Obj? && UniqueKeys(last.fields) && Lookup(last.fields, key) == Lookup(first.fields, key) by {
      LaterKeysDiffer(table, key);
      KeepsKey(l, first, table[1..], key);
    }
  }

  /** No entry after the first assigns `key`. */
  lemma {:induction false} LaterKeysDiffer(table: seq<(string, string)>, key: string)
    requires |table| > 0
    requires forall j :: 0 < j < |table| ==> table[j].0 != key
    ensures forall j :: 0 <= j < |table[1..]| ==> table[1..][j].0 != key
  {
    forall j | 0 <= j < |table[1..]| ensures table[1..][j].0 != key {
      assert table[1..][j] == table[j + 1];
    }
  }

  /** Entry `i` and the entries after it, seen from the table's tail. */
  lemma {:induction false} TailKeysDiffer(table: seq<(string, string)>, i: nat, key: string, filePath: string)
    requires 0 < i < |table| && table[i] == (key, filePath)
    requires forall j :: i < j < |table| ==> table[j].0 != key
    ensures table[1..][i - 1] == (key, filePath)
    ensures forall j :: i - 1 < j < |table[1..]| ==> table[1..][j].0 != key
  {
    forall j | i - 1 < j < |table[1..]| ensures table[1..][j].0 != key {
      assert table[1..][j] == table[j + 1];
    }
  }

  /** The tree after the whole table is the tree after the rest of it,
      started from the tree the first entry leaves. */
  lemma {:induction false} FixedFilesStep(l: Loader, data: Json, table: seq<(string, string)>)
    requires |table| > 0
    ensures LoadFixedFiles(l, data, table).data ==
      LoadFixedFiles(l, LoadFixedFile(l, data, table[0].0, table[0].1).data, table[1..]).data
  {}

  /** One fixed-location entry sets its own key when the file loads and
      the tree is a dictionary, and leaves every other key alone. */
  lemma {:induction false} FixedFileData(l: Loader, data: Json, key: string, filePath: string, k: string)
    requires data.Obj? && UniqueKeys(data.fields)
    ensures LoadFixedFile(l, data, key, filePath).data.Obj?
    ensures UniqueKeys(LoadFixedFile(l, data, key, filePath).data.fields)
    ensures Lookup(LoadFixedFile(l, data, key, filePath).data.fields, k) ==
      (if LoadFile(l, filePath).Ok? && k == key then Some(LoadFile(l, filePath).value) else Lookup(data.fields, k))
  {
    if LoadFile(l, filePath).Ok? {
      PutLookup(data.fields, key, LoadFile(l, filePath).value, k);
    }
  }

  /** Entries for other keys leave a key's value alone. */
  lemma {:induction false} KeepsKey(l: Loader, data: Json, table: seq<(string, string)>, k: string)
    requires data.Obj? && UniqueKeys(data.fields)
    requires forall j :: 0 <= j < |table| ==> table[j].0 != k
    ensures LoadFixedFiles(l, data, table).data.Obj?
    ensures UniqueKeys(LoadFixedFiles(l, data, table).data.fields)
    ensures Lookup(LoadFixedFiles(l, data, table).data.fields, k) == Lookup(data.fields, k)
    decreases |table|
  {
    if |table| > 0 {
      var first := LoadFixedFile(l, data, table[0].0, table[0].1);
      FixedFileData(l, data, table[0].0, table[0].1, k);
      assert forall j :: 0 <= j < |table[1..]| ==> table[1..][j] == table[j + 1];
      KeepsKey(l, first.data, table[1..], k);
    }
  }

  const LoadTitlePrefix := "File structure validation: "

  /** `LoaderBase.load(plugin_path)`: the report is titled with the argument
      when it is given and non-empty (the files themselves are always read
      from the loader's own directory), holds the root report first and then
      one info note per fixed-location file that could not be stored. The
      fixed-location files never fail the report. */
  function Load(l: Loader, pluginPath: Option<string>, table: seq<(string, string)>): (r: (Json, Node))
    ensures r.1.text == LoadTitlePrefix + (if pluginPath.Some? && pluginPath.value != "" then pluginPath.value else l.pluginPath)
    ensures |r.1.children| >= 1 && r.1.children[0] == LoadRootMetadata(l).1
    ensures CountFailures(r.1, 0) == CountFailures(LoadRootMetadata(l).1, 0)
    ensures IsFailed(r.1) <==> IsFailed(LoadRootMetadata(l).1)
    ensures r.0.Obj? <==> LoadRootMetadata(l).0.Obj?
  {
    var path := if pluginPath.Some? && pluginPath.value != "" then pluginPath.value else l.pluginPath;
    var (data, rootReport) := LoadRootMetadata(l);
    var fixed := LoadFixedFiles(l, data, table);
    var report := AddNodes(Titled(LoadTitlePrefix + path), [rootReport] + fixed.notes);
    AddNodesCounts(Titled(LoadTitlePrefix + path), [rootReport] + fixed.notes, 0);
    FlattenAllAppend([rootReport], fixed.notes);
    FailedCountAppend(FlattenAll([rootReport]), FlattenAll(fixed.notes));
    assert FlattenAll([rootReport]) == Flatten(rootReport) + FlattenAll([]);
    assert Flatten(rootReport) + [] == Flatten(rootReport);
    CountFailuresIsFailedNodes(rootReport, 0);
    CountFailuresIsFailedNodes(Titled(LoadTitlePrefix + path), 0);
    assert Flatten(Titled(LoadTitlePrefix + path)) == [Titled(LoadTitlePrefix + path)];
    (fixed.data, report)
  }
}

=== FILE: namespaces.dfy ===
/**
 The names Python resolves at run time: an attribute read on a module
 (`utils.exists`), a `from m import n` statement and a call's keyword
 arguments. A module is represented by the names it defines at top level,
 read off its source file; a name missing from that list fails the way
 Python fails it.
 */
module Namespaces {
  import opened Base

  /** The `AttributeError` Python raises for a module without `name`. */
  function NoAttribute(name: string): Error {
    Error(AttributeError, "'module' object has no attribute '" + name + "'")
  }

  /** `module.name`: the name, or `AttributeError`. */
  function Attribute(defined: seq<string>, name: string): (r: Result<()>)
    ensures r.Ok? <==> name in defined
    ensures r.Err? ==> r.error == NoAttribute(name)
  {
    if name in defined then Ok(())
    else Err(NoAttribute(name))
  }

  /** `from module import n1, n2, ...`: the first missing name raises
      `ImportError`. */
  function ImportFrom(defined: seq<string>, names: seq<string>): (r: Result<()>)
    ensures r.Ok? <==> forall i :: 0 <= i < |names| ==> names[i] in defined
    ensures r.Err? ==> r.error.kind == ImportError
    ensures r.Err? ==>
      exists i :: 0 <= i < |names| && names[i] !in defined && r.error.message == "cannot import name " + names[i]
  {
    if |names| == 0 then Ok(())
    else if names[0] !in defined then Err(Error(ImportError, "cannot import name " + names[0]))
    else
      var r := ImportFrom(defined, names[1..]);
      if r.Err? then
        var i :| 0 <= i < |names[1..]| && names[1..][i] !in defined && r.error.message == "cannot import name " + names[1..][i];
        assert names[i + 1] == names[1..][i];
        r
      else
        assert forall i :: 1 <= i < |names| ==> names[i] == names[1..][i - 1];
        r
  }

  /** A call `f(positional..., k=v, ...)` against `f`'s parameter names:
      too many positional arguments, or a keyword `f` does not take, raise
      `TypeError`. */
  function Call(params: seq<string>, positional: nat, keywords: seq<string>): (r: Result<()>)
    ensures r.Ok? <==> positional <= |params| && forall i :: 0 <= i < |keywords| ==> keywords[i] in params[positional..]
    ensures r.Err? ==> r.error.kind == TypeError
  {
    if positional > |params| then Err(Error(TypeError, "__init__() takes too many arguments"))
    else UnexpectedKeyword(params[positional..], keywords)
  }

  function UnexpectedKeyword(params: seq<string>, keywords: seq<string>): (r: Result<()>)
    ensures r.Ok? <==> forall i :: 0 <= i < |keywords| ==> keywords[i] in params
    ensures r.Err? ==> r.error.kind == TypeError
  {
    if |keywords| == 0 then Ok(())
    else if keywords[0] !in params then Err(Error(TypeError, "__init__() got an unexpected keyword argument '" + keywords[0] + "'"))
    else
      var r := UnexpectedKeyword(params, keywords[1..]);
      assert forall i :: 1 <= i < |keywords| ==> keywords[i] == keywords[1..][i - 1];
      r
  }

  /** The names `utils/__init__.py` binds: the functions it imports from
      its submodules, and the submodules themselves. */
  const UtilsNames: seq<string> := [
    "checksum", "fs", "sys_calls", "schema", "template", "time", "version",
    "calculate_file_checksums", "calculate_file_sha", "create_checksums_file",
    "basename", "copy", "copy_file_permissions", "copy_files_in_dir", "create_dir",
    "exec_piped_cmds", "files_in_path", "get_path_extension", "get_path_without_extension",
    "get_paths", "is_dir", "is_executable", "is_exists", "is_file", "make_tar_gz",
    "move_files_in_dir", "remove", "remove_by_mask", "which", "exec_cmd", "make_schema",
    "load_template_and_render_to_file", "render_files_in_dir", "render_template_file",
    "get_current_year", "strict_version", "version_split_name_rpm"]

  /** The names `utils/fs.py` defines. */
  const FsNames: seq<string> := [
    "distutils", "glob", "logging", "os", "shutil", "subprocess", "tarfile", "consts", "errors", "logger",
    "copy", "copy_file_permissions", "copy_files_in_dir", "create_dir", "exec_piped_cmds",
    "make_tar_gz", "move_files_in_dir", "remove", "remove_by_mask", "get_best_path_by_mask",
    "get_paths", "is_exists", "is_file", "is_dir", "is_executable", "which", "basename",
    "files_in_path", "normalize_extension", "get_path_without_extension", "get_path_extension"]

  /** The names the older tree's `utils.py` defines. */
  const OlderUtilsNames: seq<string> := [
    "os", "logging", "subprocess", "errors", "logger", "is_executable", "which", "exec_cmd"]

  /** The names `validators/base.py` defines. */
  const ValidatorsBaseNames: seq<string> := [
    "abc", "StrictVersion", "logging", "os", "sys", "collections", "jsonschema", "six",
    "errors", "utils", "REPORT_INDENT_SIZE", "REPORT_FAILURE_POINTER", "logger",
    "LegacyBaseValidator", "BaseValidator", "Inspection", "ReportNode", "Check"]

  /** The names the newer `version_mapping.py` defines: its imports all sit
      inside the functions. */
  const VersionMappingNames: seq<string> := [
    "get_mapping", "get_plugin_for_version", "get_version_mapping_from_plugin"]

  /** The names the older tree's `version_mapping.py` defines. */
  const OlderVersionMappingNames: seq<string> := [
    "errors", "ValidatorV1", "latest_vesion", "mapping", "get_plugin_for_version"]

  /** The names the newer `actions/build.py` defines. */
  const BuildActionNames: seq<string> := [
    "unicode_literals", "logging", "version_mapping", "logger", "make_builder"]

  /** The names `consts.py` defines. */
  const ConstsNames: seq<string> := [
    "PLUGIN_NAME_PATTERN", "ROOT_FILE_PATH_AND_NAME", "SUPPORTED_FORMATS", "TAR_PARAMETERS",
    "REPORT_INDENT_SIZE", "REPORT_FAILURE_POINTER", "TEMPLATE_EXTENSIONS"]

  /** The names the source reads and these modules do not define. */
  lemma UtilsLacksExists()
    ensures Attribute(UtilsNames, "exists") == Err(NoAttribute("exists"))
  {
  }

  lemma UtilsLacksIsfile()
    ensures Attribute(UtilsNames, "isfile") == Err(NoAttribute("isfile"))
  {
  }

  lemma UtilsLacksParseYaml()
    ensures Attribute(UtilsNames, "parse_yaml") == Err(NoAttribute("parse_yaml"))
  {
  }

  lemma OlderUtilsLacksParseYaml()
    ensures Attribute(OlderUtilsNames, "parse_yaml") == Err(NoAttribute("parse_yaml"))
  {
  }

  lemma UtilsLacksReportNode()
    ensures Attribute(UtilsNames, "ReportNode") == Err(NoAttribute("ReportNode"))
  {
  }

  lemma UtilsLacksReadIfExist()
    ensures Attribute(UtilsNames, "read_if_exist") == Err(NoAttribute("read_if_exist"))
  {
  }

  lemma ConstsLacksPathsSuffix()
    ensures Attribute(ConstsNames, "PATHS_SUFFIX") == Err(NoAttribute("PATHS_SUFFIX"))
  {
  }

  lemma ConstsLacksRootFileName()
    ensures Attribute(ConstsNames, "ROOT_FILE_NAME") == Err(NoAttribute("ROOT_FILE_NAME"))
  {
  }

  /** The helpers the older `actions/build.py` reads from `utils` that the
      older `utils.py` does not define. */
  const OlderBuildHelpers: seq<string> := [
    "create_checksums_file", "remove", "create_dir", "copy_files_in_dir", "move_files_in_dir",
    "make_tar_gz", "version_split_name_rpm", "render_to_file", "get_current_year"]

  lemma {:induction false} OlderUtilsLacksBuildHelpers()
    ensures forall i :: 0 <= i < |OlderBuildHelpers| ==>
      Attribute(OlderUtilsNames, OlderBuildHelpers[i]) == Err(NoAttribute(OlderBuildHelpers[i]))
  {
    forall i | 0 <= i < |OlderBuildHelpers|
      ensures OlderBuildHelpers[i] !in OlderUtilsNames
    {
    }
  }

  /** The older `exec_cmd(cmd)` takes no `cwd`, so `exec_cmd(c, cwd=p)`
      raises `TypeError`. */
  lemma OlderExecCmdTakesNoCwd()
    ensures Call(["cmd"], 1, ["cwd"]).Err? && Call(["cmd"], 1, ["cwd"]).error.kind == TypeError
    ensures Call(["cmd"], 1, []).Ok?
  {
  }

  lemma FsLacks()
    ensures Attribute(FsNames, "get_files_by_mask") == Err(NoAttribute("get_files_by_mask"))
  {
  }

  /** The exception classes `errors.py` defines. */
  const ErrorsNames: seq<string> := [
    "FuelPluginException", "FuelCannotFindCommandError", "ExecutedErrorNonZeroExitCode",
    "PluginDirectoryExistsError", "ValidationError", "TaskFieldError", "FileIsEmpty",
    "FileDoesNotExist", "WrongPackageVersionError", "ReleasesDirectoriesError",
    "WrongPluginDirectoryError"]

  /** The class `raise errors.<Name>(...)` names for an error kind of the
      model; kinds raised by Python itself have no such class. */
  function ClassName(kind: ErrorKind): Option<string> {
    match kind
    case ValidationError => Some("ValidationError")
    case FileIsEmpty => Some("FileIsEmpty")
    case FileDoesNotExist => Some("FileDoesNotExist")
    case TaskFieldError => Some("TaskFieldError")
    case ReleasesDirectoriesError => Some("ReleasesDirectoriesError")
    case WrongPackageVersionError => Some("WrongPackageVersionError")
    case WrongPluginDirectoryError => Some("WrongPluginDirectoryError")
    case PluginDirectoryExistsError => Some("PluginDirectoryExistsError")
    case FuelCannotFindCommandError => Some("FuelCannotFindCommandError")
    case InvalidFileFormat => Some("InvalidFileFormat")
    case InvalidFileExtension => Some("InvalidFileExtension")
    case FilesInPathDoesNotExist => Some("FilesInPathDoesNotExist")
    case CheckConfigurationError => Some("CheckConfigurationError")
    case _ => None
  }

  /** What `raise errors.<Name>(message)` raises as written: the error the
      code means when `errors.py` defines the class, and otherwise the
      `AttributeError` of reading the missing class. */
  function Raise(e: Error): (r: Error)
    ensures ClassName(e.kind).None? ==> r == e
    ensures ClassName(e.kind).Some? ==>
      (r == e <==> ClassName(e.kind).value in ErrorsNames)
    ensures ClassName(e.kind).Some? && ClassName(e.kind).value !in ErrorsNames ==>
      r == NoAttribute(ClassName(e.kind).value)
  {
    match ClassName(e.kind)
    case None => e
    case Some(name) => if name in ErrorsNames then e else NoAttribute(name)
  }

  /** Four classes the code raises are missing from `errors.py`, so each of
      those raises is an `AttributeError` naming the class. */
  lemma RaiseFilesInPathDoesNotExist(message: string)
    ensures Raise(Error(FilesInPathDoesNotExist, message)) == NoAttribute("FilesInPathDoesNotExist")
  {
    assert "FilesInPathDoesNotExist" !in ErrorsNames;
  }

  lemma RaiseInvalidFileFormat(message: string)
    ensures Raise(Error(InvalidFileFormat, message)) == NoAttribute("InvalidFileFormat")
  {
    assert "InvalidFileFormat" !in ErrorsNames;
  }

  lemma RaiseInvalidFileExtension(message: string)
    ensures Raise(Error(InvalidFileExtension, message)) == NoAttribute("InvalidFileExtension")
  {
    assert "InvalidFileExtension" !in ErrorsNames;
  }

  lemma RaiseCheckConfigurationError(message: string)
    ensures Raise(Error(CheckConfigurationError, message)) == NoAttribute("CheckConfigurationError")
  {
    assert "CheckConfigurationError" !in ErrorsNames;
  }

  /** The validation errors are raised as meant. */
  lemma RaiseValidationErrors(k: ErrorKind, message: string)
    requires IsValidationError(k)
    ensures Raise(Error(k, message)) == Error(k, message)
  {
  }
}

=== FILE: paths.dfy ===
/**
 The path handling of `utils/fs.py`, `utils/path_tools.py` and the older
 `fuel_plugin_builder/utils.py`, over the POSIX rules of Python's `os.path`
 (`join`, `split`, `basename`, `splitext`). The file system, `glob` and the
 `PATH` environment variable are parameters.
 */
module Paths {
  import opened Base
  import opened Text
  import Namespaces

  predicate IsAbsolute(p: string) {
    |p| > 0 && p[0] == '/'
  }

  /** `os.path.join(a, b)` on POSIX: an absolute `b` replaces `a`, otherwise
      a single '/' is inserted unless `a` is empty or already ends in '/'. */
  function Join(a: string, b: string): (r: string)
    ensures IsAbsolute(b) ==> r == b
    ensures !IsAbsolute(b) ==> a <= r
  {
    if IsAbsolute(b) then b
    else if a == "" || a[|a| - 1] == '/' then a + b
    else a + "/" + b
  }

  /** Whatever `a` is, the joined path ends with `b`. */
  lemma JoinEndsWith(a: string, b: string)
    ensures |Join(a, b)| >= |b| && Join(a, b)[|Join(a, b)| - |b|..] == b
  {
    if !IsAbsolute(b) {
      var r := Join(a, b);
      assert r == (if a == "" || a[|a| - 1] == '/' then a else a + "/") + b;
    }
  }

  /** `os.path.basename(p)`: the text after the last '/'. */
  function Basename(p: string): (r: string)
    ensures '/' !in r
    ensures '/' !in p ==> r == p
  {
    match LastIndexOf(p, '/')
    case None => p
    case Some(i) => p[i + 1..]
  }

  /** Appending text without `c` after a `c` leaves that `c` the last one. */
  lemma {:induction false} LastIndexOfAfter(prefix: string, tail: string, c: char)
    requires |prefix| > 0 && prefix[|prefix| - 1] == c
    requires c !in tail
    ensures LastIndexOf(prefix + tail, c) == Some(|prefix| - 1)
    decreases |tail|
  {
    var s := prefix + tail;
    if |tail| > 0 {
      var init := tail[..|tail| - 1];
      assert s[..|s| - 1] == prefix + init;
      assert s[|s| - 1] == tail[|tail| - 1];
      assert tail[|tail| - 1] in tail;
      assert forall x :: x in init ==> x in tail;
      LastIndexOfAfter(prefix, init, c);
    } else {
      assert s == prefix;
    }
  }

  /** Joining a directory with a plain file name and taking the base name
      gives the file name back: this is why copy and move land each file at
      `dst/basename(f)`. */
  lemma {:induction false} BasenameOfJoin(dir: string, name: string)
    requires '/' !in name
    ensures Basename(Join(dir, name)) == name
  {
    if name != "" {
      assert name[0] in name;
    }
    if dir != "" {
      var prefix := if dir[|dir| - 1] == '/' then dir else dir + "/";
      BasenameAfterSlash(prefix, name);
    }
  }

  /** The base name of a path whose last '/' ends `prefix` is what follows. */
  lemma {:induction false} BasenameAfterSlash(prefix: string, name: string)
    requires |prefix| > 0 && prefix[|prefix| - 1] == '/' && '/' !in name
    ensures Basename(prefix + name) == name
  {
    LastIndexOfAfter(prefix, name, '/');
    assert (prefix + name)[|prefix|..] == name;
  }

  /** Nothing after the last occurrence of `c` is a `c`. */
  lemma {:induction false} NoneAfterLast(p: string, c: char, d: nat)
    requires d <= |p|
    requires LastIndexOf(p, c).Some? ==> LastIndexOf(p, c).value < d
    ensures c !in p[d..]
  {
    if LastIndexOf(p, c).Some? {
      var k := LastIndexOf(p, c).value;
      assert p[d..] == p[k + 1..][d - k - 1..];
    } else {
      assert forall j :: 0 <= j < |p| - d ==> p[d..][j] == p[d + j] && p[d + j] in p;
    }
  }

  /** The head of `os.path.split(p)`: everything before the last '/', with
      trailing slashes removed unless the head is nothing but slashes. */
  function SplitHead(p: string): (r: string)
    ensures r != "" <==> '/' in p
  {
    match LastIndexOf(p, '/')
    case None => ""
    case Some(i) =>
      var head := p[..i + 1];
      var stripped := RStrip(head, '/');
      if stripped == "" then head else stripped
  }

  predicate OnlyDots(s: string) {
    forall i :: 0 <= i < |s| ==> s[i] == '.'
  }

  /** `os.path.splitext(p)`: the extension starts at the last '.' of the
      final component, unless everything before that '.' in the component is
      a dot (so `.bashrc` has no extension). */
  function SplitExt(p: string): (r: (string, string))
    ensures r.0 + r.1 == p
    ensures r.1 == "" || (r.1[0] == '.' && '.' !in r.1[1..] && '/' !in r.1)
    ensures r.1 != "" ==> '/' !in r.1
  {
    var sep: int := match LastIndexOf(p, '/') case None => -1 case Some(i) => i;
    match LastIndexOf(p, '.')
    case None => (p, "")
    case Some(d) =>
      if d > sep && !OnlyDots(p[sep + 1..d]) then
        NoneAfterLast(p, '/', d);
        (p[..d], p[d..])
      else (p, "")
  }

  /** `normalize_extension` of `utils/fs.py`: drops one leading '.', then
      lower-cases; the empty string and "." both give "" here. */
  function NormalizeExtension(ext: string): (r: string)
    ensures |ext| > 0 && ext[0] == '.' ==> |r| == |ext| - 1 && forall i :: 0 <= i < |r| ==> r[i] == LowerChar(ext[i + 1])
    ensures !(|ext| > 0 && ext[0] == '.') ==> |r| == |ext| && forall i :: 0 <= i < |r| ==> r[i] == LowerChar(ext[i])
  {
    if |ext| > 0 && ext[0] == '.' then Lower(ext[1..]) else Lower(ext)
  }

  /** The examples of the doc comment, and the two inputs for which this
      version returns "" where the doc comment promises an error. */
  lemma {:induction false} NormalizeExtensionExamples()
    ensures NormalizeExtension(".JSON") == "json"
    ensures NormalizeExtension(".yaml") == "yaml"
    ensures NormalizeExtension("CSV") == "csv"
    ensures NormalizeExtension("intact") == "intact"
    ensures NormalizeExtension("") == ""
    ensures NormalizeExtension(".") == ""
  {
  }

  /** `normalize_extension` of `utils/path_tools.py`: as above, but nothing
      left after the dot is an `InvalidFileExtension` error. */
  function NormalizeExtensionStrict(ext: string): (r: Result<string>)
    ensures r.Err? <==> ext == "" || ext == "."
    ensures r.Err? ==> r.error.kind == InvalidFileExtension
    ensures r.Ok? ==> r.value != "" && r.value == NormalizeExtension(ext)
  {
    var stripped := if |ext| > 0 && ext[0] == '.' then ext[1..] else ext;
    if stripped == "" then Err(Error(InvalidFileExtension, "Invalid file extension: "))
    else Ok(Lower(stripped))
  }

  /** The doc-comment examples hold for the raising variant, errors
      included. */
  lemma {:induction false} NormalizeExtensionStrictExamples()
    ensures NormalizeExtensionStrict(".JSON") == Ok("json")
    ensures NormalizeExtensionStrict(".yaml") == Ok("yaml")
    ensures NormalizeExtensionStrict("CSV") == Ok("csv")
    ensures NormalizeExtensionStrict("").Err?
    ensures NormalizeExtensionStrict(".").Err?
  {
    NormalizeExtensionExamples();
  }

  /** `get_path_extension`: the normalised extension of the final
      component; it never contains a '.' or a '/'. */
  function GetPathExtension(p: string): (r: string)
    ensures '.' !in r && '/' !in r
    ensures r != "" ==> exists k :: 0 <= k < |p| && p[k] == '.' && Lower(p[k + 1..]) == r
  {
    var (root, ext) := SplitExt(p);
    if ext == "" then ""
    else
      ExtensionAfterDot(p, root, ext);
      Lower(ext[1..])
  }

  /** The extension `SplitExt` finds starts at a '.' of the path, and its
      lower-cased tail holds no '.' or '/'. */
  lemma {:induction false} ExtensionAfterDot(p: string, root: string, ext: string)
    requires root + ext == p && ext != ""
    requires ext[0] == '.' && '.' !in ext[1..] && '/' !in ext
    ensures p[|root|] == '.' && p[|root| + 1..] == ext[1..]
    ensures '.' !in Lower(ext[1..]) && '/' !in Lower(ext[1..])
  {
    assert p[|root|..] == ext;
    var r := Lower(ext[1..]);
    forall i | 0 <= i < |r| ensures r[i] != '.' && r[i] != '/' {
      assert ext[1..][i] in ext[1..];
      assert ext[1..][i] == ext[i + 1];
    }
  }

  /** `get_path_without_extension`: None for the empty path, otherwise the
      path minus exactly its final extension. */
  function GetPathWithoutExtension(p: string): (r: Option<string>)
    ensures r.None? <==> p == ""
    ensures r.Some? ==> r.value <= p && '/' !in p[|r.value|..]
    ensures r.Some? && r.value != p ==> p[|r.value|] == '.' && '.' !in p[|r.value| + 1..]
  {
    if p == "" then None
    else
      var (root, ext) := SplitExt(p);
      assert p[|root|..] == ext;
      Some(root)
  }

  /** Only the last extension goes, and a path without one is kept
      whole (the doc-comment examples, with shorter names). */
  lemma {:induction false} GetPathWithoutExtensionExamples()
    ensures GetPathWithoutExtension("c/t.y.m") == Some("c/t.y")
    ensures GetPathWithoutExtension("c/t") == Some("c/t")
    ensures GetPathWithoutExtension("") == None
  {
    var p := "c/t.y.m";
    assert LastIndexOf(p, '/') == Some(1);
    assert LastIndexOf(p, '.') == Some(5);
    assert !OnlyDots(p[2..5]) by { assert p[2..5][0] == 't'; }
    assert p[..5] == "c/t.y";
    assert SplitExt(p) == ("c/t.y", ".m");
    var q := "c/t";
    assert LastIndexOf(q, '.') == None;
  }

  /** The order of preference of root-file formats (`consts.SUPPORTED_FORMATS`). */
  const SupportedFormats: seq<string> := ["yaml", "json"]

  /** `get_best_path_by_mask` over the globbed `paths`, as its loop is
      written: the first one whose extension is allowed, whatever its
      format (an empty list of formats means the supported ones), else
      `FilesInPathDoesNotExist` naming the mask and the formats. The choice
      by format that its documentation describes is
      `GetPreferredPathByMask`. */
  function GetBestPathByMask(mask: string, paths: seq<string>, allowedFormats: seq<string>): (r: Result<string>)
    ensures var allowed := if allowedFormats == [] then SupportedFormats else allowedFormats;
      && (r.Ok? <==> exists i :: 0 <= i < |paths| && GetPathExtension(paths[i]) in allowed)
      && (r.Ok? ==> var i := FirstAllowed(paths, allowed).value; r.value == paths[i])
      && (r.Err? ==> r.error == Error(FilesInPathDoesNotExist, NoFileMessage(mask, allowed)))
  {
    var allowed := if allowedFormats == [] then SupportedFormats else allowedFormats;
    match FirstAllowed(paths, allowed)
    case Some(i) => Ok(paths[i])
    case None => Err(Error(FilesInPathDoesNotExist, NoFileMessage(mask, allowed)))
  }

  /** The message when no globbed path has an allowed extension. */
  function NoFileMessage(mask: string, allowed: seq<string>): string {
    "Can't find appropriate file with mask " + mask
    + " Ensure that file is on its place or use one of the following file formats: "
    + Text.Join(allowed, ", ") + "."
  }

  /** The position of the first path whose extension is allowed. */
  function FirstAllowed(paths: seq<string>, allowed: seq<string>): (r: Option<nat>)
    ensures r.None? <==> forall i :: 0 <= i < |paths| ==> GetPathExtension(paths[i]) !in allowed
    ensures r.Some? ==> r.value < |paths| && GetPathExtension(paths[r.value]) in allowed
                        && forall j :: 0 <= j < r.value ==> GetPathExtension(paths[j]) !in allowed
  {
    FirstIndex(paths, (p: string) => GetPathExtension(p) in allowed)
  }

  /** The position of the first element satisfying `p`. */
  function FirstIndex<T>(xs: seq<T>, p: T -> bool): (r: Option<nat>)
    ensures r.None? <==> forall i :: 0 <= i < |xs| ==> !p(xs[i])
    ensures r.Some? ==> r.value < |xs| && p(xs[r.value])
    ensures r.Some? ==> forall j :: 0 <= j < r.value ==> !p(xs[j])
  {
    if |xs| == 0 then None
    else if p(xs[0]) then Some(0)
    else
      var rest := FirstIndex(xs[1..], p);
      assert forall i :: 1 <= i < |xs| ==> xs[i] == xs[1..][i - 1];
      if rest.None? then None else Some(rest.value + 1)
  }

  /** `get_best_path_by_mask` of `utils/fs.py` as written: the error it
      means to raise is `FilesInPathDoesNotExist`, a class `errors.py` does
      not define, so reading it raises `AttributeError` instead. */
  function GetBestPathByMaskAsWritten(mask: string, paths: seq<string>, allowedFormats: seq<string>): (r: Result<string>)
    ensures r.Ok? <==> GetBestPathByMask(mask, paths, allowedFormats).Ok?
    ensures r.Ok? ==> r == GetBestPathByMask(mask, paths, allowedFormats)
    ensures r.Err? ==> r.error == Namespaces.NoAttribute("FilesInPathDoesNotExist")
  {
    match GetBestPathByMask(mask, paths, allowedFormats)
    case Ok(p) => Ok(p)
    case Err(e) =>
      Namespaces.RaiseFilesInPathDoesNotExist(e.message);
      Err(Namespaces.Raise(e))
  }

  /** A mask that matches nothing: the intended error names the mask, the
      one as written is about the missing class. */
  lemma {:induction false} GetBestPathByMaskRaiseDiscrepancy(mask: string)
    ensures GetBestPathByMask(mask, [], []).error.kind == FilesInPathDoesNotExist
    ensures GetBestPathByMaskAsWritten(mask, [], []).error.kind == AttributeError
  {
  }

  /** The position of a format in a list of formats: where it first
      occurs. */
  function Rank(formats: seq<string>, f: string): (r: nat)
    requires f in formats
    ensures r < |formats| && formats[r] == f
    ensures forall m :: 0 <= m < r ==> formats[m] != f
  {
    if formats[0] == f then 0 else 1 + Rank(formats[1..], f)
  }

  /** No path has format `f`. */
  predicate NoPathOf(paths: seq<string>, f: string) {
    forall j :: 0 <= j < |paths| ==> GetPathExtension(paths[j]) != f
  }

  /** The position of the first path of format `f`. */
  function FirstOfFormat(paths: seq<string>, f: string): (r: Option<nat>)
    ensures r.None? <==> NoPathOf(paths, f)
    ensures r.Some? ==> r.value < |paths| && GetPathExtension(paths[r.value]) == f
                        && forall j :: 0 <= j < r.value ==> GetPathExtension(paths[j]) != f
  {
    FirstIndex(paths, (p: string) => GetPathExtension(p) == f)
  }

  /** No path has any of the formats at positions `k` up to `end`. */
  predicate NoPathFrom(paths: seq<string>, formats: seq<string>, k: nat, end: nat)
    requires k <= end <= |formats|
  {
    forall m :: k <= m < end ==> NoPathOf(paths, formats[m])
  }

  /** `NoPathFrom` one format at a time. */
  lemma {:induction false} NoPathFromStep(paths: seq<string>, formats: seq<string>, k: nat, end: nat)
    requires k < end <= |formats|
    ensures NoPathFrom(paths, formats, k, end) <==> NoPathOf(paths, formats[k]) && NoPathFrom(paths, formats, k + 1, end)
  {
  }

  /** Formats from position `k` on, in order: the first that some path
      has, with the first path that has it. */
  function FirstByFormat(paths: seq<string>, formats: seq<string>, k: nat): (r: Option<(nat, nat)>)
    requires k <= |formats|
    ensures r.None? <==> NoPathFrom(paths, formats, k, |formats|)
    ensures r.Some? ==> r.value.0 < |paths| && k <= r.value.1 < |formats|
                        && GetPathExtension(paths[r.value.0]) == formats[r.value.1]
                        && (forall j :: 0 <= j < r.value.0 ==> GetPathExtension(paths[j]) != formats[r.value.1])
                        && NoPathFrom(paths, formats, k, r.value.1)
    decreases |formats| - k
  {
    if k == |formats| then None
    else
      var here := FirstOfFormat(paths, formats[k]);
      if here.Some? then
        Some((here.value, k))
      else
        var rest := FirstByFormat(paths, formats, k + 1);
        NoPathFromStep(paths, formats, k, |formats|);
        if rest.Some? then
          NoPathFromStep(paths, formats, k, rest.value.1);
          rest
        else rest
  }

  /** `get_best_path_by_mask` as its documentation describes it: the path
      is chosen by format, the format as close to the head of the allowed
      list as the globbed paths allow, and among paths of that format the
      first one globbed. */
  function GetPreferredPathByMask(mask: string, paths: seq<string>, allowedFormats: seq<string>): (r: Result<string>)
    ensures var allowed := if allowedFormats == [] then SupportedFormats else allowedFormats;
      && (r.Ok? <==> exists i :: 0 <= i < |paths| && GetPathExtension(paths[i]) in allowed)
      && (r.Ok? ==> r.value in paths && GetPathExtension(r.value) in allowed)
      && (r.Err? ==> r.error == Error(FilesInPathDoesNotExist, NoFileMessage(mask, allowed)))
  {
    var allowed := if allowedFormats == [] then SupportedFormats else allowedFormats;
    match FirstByFormat(paths, allowed, 0)
    case Some(found) => Ok(paths[found.0])
    case None =>
      NoPathOfAny(paths, allowed);
      Err(Error(FilesInPathDoesNotExist, NoFileMessage(mask, allowed)))
  }

  /** When no path has any of the formats, no path's extension is one of
      them. */
  lemma {:induction false} NoPathOfAny(paths: seq<string>, formats: seq<string>)
    requires NoPathFrom(paths, formats, 0, |formats|)
    ensures forall i :: 0 <= i < |paths| ==> GetPathExtension(paths[i]) !in formats
  {
    forall i, m | 0 <= i < |paths| && 0 <= m < |formats|
      ensures GetPathExtension(paths[i]) != formats[m]
    {
      assert NoPathOf(paths, formats[m]);
    }
  }

  /** The preference the documentation promises: no globbed path with an
      allowed extension has a format ranked before the chosen one. */
  lemma {:induction false} PreferredPathRanksFirst(mask: string, paths: seq<string>, allowedFormats: seq<string>, i: nat)
    requires var allowed := if allowedFormats == [] then SupportedFormats else allowedFormats;
      i < |paths| && GetPathExtension(paths[i]) in allowed
    ensures var allowed := if allowedFormats == [] then SupportedFormats else allowedFormats;
      var r := GetPreferredPathByMask(mask, paths, allowedFormats);
      r.Ok? && Rank(allowed, GetPathExtension(r.value)) <= Rank(allowed, GetPathExtension(paths[i]))
  {
    var allowed := if allowedFormats == [] then SupportedFormats else allowedFormats;
    var m := Rank(allowed, GetPathExtension(paths[i]));
    var found := FirstByFormat(paths, allowed, 0);
    assert !NoPathOf(paths, allowed[m]);
    var k := found.value.1;
    assert m >= k;
    assert Rank(allowed, allowed[k]) == k;
  }

  /** The code returns the first globbed path with an allowed extension,
      whatever its format: for `m.json` globbed before `m.yaml` it returns
      the JSON file, where the documented preference of YAML over JSON
      picks the YAML one. */
  lemma {:induction false} GetBestPathByMaskPreferenceDiscrepancy(mask: string)
    ensures GetBestPathByMask(mask, ["m.json", "m.yaml"], []) == Ok("m.json")
    ensures GetPreferredPathByMask(mask, ["m.json", "m.yaml"], []) == Ok("m.yaml")
  {
    FirstGlobbedJson(["m.json", "m.yaml"]);
    PreferredYaml(["m.json", "m.yaml"]);
  }

  lemma {:induction false} FirstGlobbedJson(paths: seq<string>)
    requires paths == ["m.json", "m.yaml"]
    ensures FirstAllowed(paths, SupportedFormats) == Some(0)
  {
    ExtensionOfJsonExample();
    assert GetPathExtension(paths[0]) in SupportedFormats;
  }

  lemma {:induction false} PreferredYaml(paths: seq<string>)
    requires paths == ["m.json", "m.yaml"]
    ensures FirstByFormat(paths, SupportedFormats, 0) == Some((1, 0))
  {
    ExtensionOfExample();
    ExtensionOfJsonExample();
    assert GetPathExtension(paths[0]) != SupportedFormats[0];
    assert GetPathExtension(paths[1]) == SupportedFormats[0];
    assert FirstOfFormat(paths, SupportedFormats[0]) == Some(1);
  }

  /** `get_path_extension` of `utils/path_tools.py`, as evidently meant:
      the strict normalisation of the `splitext` extension. */
  function GetPathExtensionTools(p: string): (r: Result<string>)
    ensures r.Err? ==> r.error.kind == InvalidFileExtension
  {
    NormalizeExtensionStrict(SplitExt(p).1)
  }

  /** It agrees with the `utils/fs.py` version where that one finds an
      extension, and raises exactly where that one gives "". */
  lemma {:induction false} GetPathExtensionToolsAgrees(p: string)
    ensures GetPathExtensionTools(p).Err? <==> GetPathExtension(p) == ""
    ensures GetPathExtensionTools(p).Ok? ==> GetPathExtensionTools(p).value == GetPathExtension(p)
  {
    var ext := SplitExt(p).1;
    if ext != "" {
      assert ext[0] == '.';
      assert |Lower(ext[1..])| == |ext| - 1;
    }
  }

  /** `get_path_extension` of `utils/path_tools.py` as written: the body
      calls `path_tools.normalize_extension` from inside `path_tools`
      itself, where no name `path_tools` is bound. */
  function GetPathExtensionToolsAsWritten(p: string): (r: Result<string>)
    ensures r.Err? && r.error.kind == NameError
  {
    Err(Error(NameError, "global name 'path_tools' is not defined"))
  }

  /** `get_best_path_by_mask` of `utils/path_tools.py` as written: with no
      matching path the loop never runs and the function returns None; the
      first matching path reads `utils`, a name the module never binds. */
  function GetBestPathByMaskToolsAsWritten(mask: string, paths: seq<string>, availableFormats: seq<string>): (r: Result<Option<string>>)
    ensures r.Ok? <==> paths == []
    ensures r.Ok? ==> r.value.None?
    ensures r.Err? ==> r.error.kind == NameError
  {
    if paths == [] then Ok(None)
    else Err(Error(NameError, "global name 'utils' is not defined"))
  }

  /** Against the `utils/fs.py` version it evidently duplicates: a mask that
      matches a YAML file finds it there and raises here, and a mask that
      matches nothing raises there and returns None here. */
  lemma {:induction false} GetBestPathByMaskToolsDiscrepancy(mask: string)
    ensures GetBestPathByMask(mask, ["m.yaml"], []) == Ok("m.yaml")
    ensures GetBestPathByMaskToolsAsWritten(mask, ["m.yaml"], []).Err?
    ensures GetBestPathByMask(mask, [], []).Err?
    ensures GetBestPathByMaskToolsAsWritten(mask, [], []) == Ok(None)
  {
    ExtensionOfExample();
    assert FirstAllowed(["m.yaml"], SupportedFormats) == Some(0);
  }

  /** The separators of a short file name `m.<e>`, `e` free of both:
      no slash, and one dot, after the `m`. */
  lemma {:induction false} ShortNameSeparators(e: string)
    requires '.' !in e && '/' !in e
    ensures LastIndexOf("m." + e, '/') == None
    ensures LastIndexOf("m." + e, '.') == Some(1)
  {
    var p := "m." + e;
    assert forall k :: 2 <= k < |p| ==> p[k] == e[k - 2];
    assert '/' !in p by {
      assert p[0] == 'm' && p[1] == '.';
    }
    var d := LastIndexOf(p, '.');
    assert d.Some? by { assert p[1] == '.'; }
    assert d.value == 1 by {
      assert p[0] == 'm';
      assert forall k :: 2 <= k < |p| ==> p[k] != '.';
    }
  }

  /** `os.path.splitext` of a short file name `m.<e>`. */
  lemma {:induction false} SplitExtOfShortName(e: string)
    requires '.' !in e && '/' !in e
    ensures SplitExt("m." + e) == ("m", "." + e)
  {
    var p := "m." + e;
    ShortNameSeparators(e);
    assert !OnlyDots(p[0..1]) by { assert p[0..1][0] == 'm'; }
    assert p[..1] == "m" && p[1..] == "." + e;
  }

  /** The extension of a short file name `m.<e>` whose extension is
      already lower case. */
  lemma {:induction false} ExtensionOfShortName(e: string)
    requires '.' !in e && '/' !in e && Lower(e) == e
    ensures GetPathExtension("m." + e) == e
  {
    SplitExtOfShortName(e);
    assert ("." + e)[1..] == e;
  }

  /** The extension of the example file `m.yaml`. */
  lemma {:induction false} ExtensionOfExample()
    ensures GetPathExtension("m.yaml") == "yaml"
  {
    var e := "yaml";
    assert "m." + e == "m.yaml";
    LowerCaseExtensions();
    ExtensionOfShortName(e);
  }

  /** The extension of the example file `m.json`. */
  lemma {:induction false} ExtensionOfJsonExample()
    ensures GetPathExtension("m.json") == "json"
  {
    var e := "json";
    assert "m." + e == "m.json";
    LowerCaseExtensions();
    ExtensionOfShortName(e);
  }

  /** The two supported formats are already lower case. */
  lemma {:induction false} LowerCaseExtensions()
    ensures Lower("yaml") == "yaml"
    ensures Lower("json") == "json"
  {
    var y := Lower("yaml");
    assert y == ['y', 'a', 'm', 'l'];
    var j := Lower("json");
    assert j == ['j', 's', 'o', 'n'];
  }

  /** The candidate paths `dir/cmd`, one per directory, in order. */
  function Candidates(dirs: seq<string>, cmd: string): (r: seq<string>)
    ensures |r| == |dirs|
    ensures forall i :: 0 <= i < |dirs| ==> r[i] == Join(dirs[i], cmd)
  {
    seq(|dirs|, i requires 0 <= i < |dirs| => Join(dirs[i], cmd))
  }

  /** The search order shared by both versions of `which`: the index of
      the first directory whose `dir/cmd` is executable. */
  function SearchIndex(dirs: seq<string>, cmd: string, executable: string -> bool): (r: Option<nat>)
    ensures r.None? <==> forall i :: 0 <= i < |dirs| ==> !executable(Join(dirs[i], cmd))
    ensures r.Some? ==> r.value < |dirs| && executable(Join(dirs[r.value], cmd))
    ensures r.Some? ==> forall j :: 0 <= j < r.value ==> !executable(Join(dirs[j], cmd))
  {
    FirstIndex(Candidates(dirs, cmd), executable)
  }

  /** The path found by the search: `dir/cmd` for the first such directory. */
  function SearchPath(dirs: seq<string>, cmd: string, executable: string -> bool): (r: Option<string>)
    ensures r.None? <==> forall i :: 0 <= i < |dirs| ==> !executable(Join(dirs[i], cmd))
    ensures r.Some? ==> executable(r.value)
    ensures r.Some? ==> var i := SearchIndex(dirs, cmd, executable).value; r.value == Join(dirs[i], cmd)
  {
    match SearchIndex(dirs, cmd, executable)
    case None => None
    case Some(i) => Some(Join(dirs[i], cmd))
  }

  /** `is_executable`: a regular file with execute access. */
  predicate IsExecutable(isFile: string -> bool, canExecute: string -> bool, p: string) {
    isFile(p) && canExecute(p)
  }

  /** `which` of `utils/fs.py`: a command with a directory part that is
      executable is returned as is; otherwise (also when it has a directory
      part but is not executable) the `PATH` entries are searched in order. */
  function Which(cmd: string, pathEnv: string, isFile: string -> bool, canExecute: string -> bool): (r: Option<string>)
    ensures '/' in cmd && IsExecutable(isFile, canExecute, cmd) ==> r == Some(cmd)
    ensures !('/' in cmd && IsExecutable(isFile, canExecute, cmd)) ==>
              r == SearchPath(Split(pathEnv, ':'), cmd, (p: string) => IsExecutable(isFile, canExecute, p))
    ensures r.Some? ==> IsExecutable(isFile, canExecute, r.value)
  {
    var exe := (p: string) => IsExecutable(isFile, canExecute, p);
    if SplitHead(cmd) != "" && exe(cmd) then Some(cmd)
    else SearchPath(Split(pathEnv, ':'), cmd, exe)
  }

  /** A command without a directory part is found exactly when some `PATH`
      entry holds an executable of that name. */
  lemma {:induction false} WhichFindsIffSomeEntry(cmd: string, pathEnv: string, isFile: string -> bool, canExecute: string -> bool)
    requires '/' !in cmd
    ensures Which(cmd, pathEnv, isFile, canExecute).None? <==>
              forall i :: 0 <= i < |Split(pathEnv, ':')| ==>
                !IsExecutable(isFile, canExecute, Join(Split(pathEnv, ':')[i], cmd))
  {
  }

  /** Strips surrounding '"' from every `PATH` entry, as the older `which`
      does. */
  function Unquote(dirs: seq<string>): (r: seq<string>)
    ensures |r| == |dirs|
    ensures forall i :: 0 <= i < |dirs| ==> r[i] == Strip(dirs[i], '"')
  {
    if |dirs| == 0 then [] else [Strip(dirs[0], '"')] + Unquote(dirs[1..])
  }

  /** `which` of the older `fuel_plugin_builder/utils.py`: as the newer one,
      but each `PATH` entry loses its surrounding quotes first. */
  function WhichQuoted(cmd: string, pathEnv: string, isFile: string -> bool, canExecute: string -> bool): (r: Option<string>)
    ensures '/' in cmd && IsExecutable(isFile, canExecute, cmd) ==> r == Some(cmd)
    ensures !('/' in cmd && IsExecutable(isFile, canExecute, cmd)) ==>
              r == SearchPath(Unquote(Split(pathEnv, ':')), cmd, (p: string) => IsExecutable(isFile, canExecute, p))
    ensures r.Some? ==> IsExecutable(isFile, canExecute, r.value)
  {
    var exe := (p: string) => IsExecutable(isFile, canExecute, p);
    if SplitHead(cmd) != "" && exe(cmd) then Some(cmd)
    else SearchPath(Unquote(Split(pathEnv, ':')), cmd, exe)
  }

  /** The two versions of `which` agree whenever no `PATH` entry is quoted. */
  lemma {:induction false} WhichQuotedAgrees(cmd: string, pathEnv: string, isFile: string -> bool, canExecute: string -> bool)
    requires '"' !in pathEnv
    ensures WhichQuoted(cmd, pathEnv, isFile, canExecute) == Which(cmd, pathEnv, isFile, canExecute)
  {
    var dirs := Split(pathEnv, ':');
    forall i | 0 <= i < |dirs|
      ensures Strip(dirs[i], '"') == dirs[i]
    {
      assert '"' !in dirs[i] by {
        JoinSplit(pathEnv, ':');
        JoinMember(dirs, [':'], i);
      }
      StripEnds(dirs[i], '"');
    }
    assert Unquote(dirs) == dirs;
  }

  /** `files_in_path`: nothing for a missing path, the path itself for a
      non-directory, and every walked `root/name` for a directory. */
  function FilesInPath(path: string, exists_: string -> bool, isDir: string -> bool,
                       walk: string -> seq<(string, string)>): (r: seq<string>)
    ensures !exists_(path) ==> r == []
    ensures exists_(path) && !isDir(path) ==> r == [path]
    ensures exists_(path) && isDir(path) ==>
              |r| == |walk(path)| && forall i :: 0 <= i < |r| ==> r[i] == Join(walk(path)[i].0, walk(path)[i].1)
  {
    if !exists_(path) then []
    else if !isDir(path) then [path]
    else JoinAll(walk(path))
  }

  function JoinAll(entries: seq<(string, string)>): (r: seq<string>)
    ensures |r| == |entries|
    ensures forall i :: 0 <= i < |r| ==> r[i] == Join(entries[i].0, entries[i].1)
  {
    if |entries| == 0 then [] else [Join(entries[0].0, entries[0].1)] + JoinAll(entries[1..])
  }

  /** `copy_files_in_dir` and `move_files_in_dir`: each globbed source, in
      glob order, goes to `dst/basename(source)`. */
  function TransferTargets(sources: seq<string>, dst: string): (r: seq<(string, string)>)
    ensures |r| == |sources|
    ensures forall i :: 0 <= i < |r| ==> r[i].0 == sources[i] && r[i].1 == Join(dst, Basename(sources[i]))
  {
    if |sources| == 0 then [] else [(sources[0], Join(dst, Basename(sources[0])))] + TransferTargets(sources[1..], dst)
  }

  /** Every transfer target keeps the source's base name. */
  lemma {:induction false} TransferKeepsBasename(sources: seq<string>, dst: string)
    ensures forall i :: 0 <= i < |sources| ==>
              Basename(TransferTargets(sources, dst)[i].1) == Basename(sources[i])
  {
    forall i | 0 <= i < |sources|
      ensures Basename(TransferTargets(sources, dst)[i].1) == Basename(sources[i])
    {
      BasenameOfJoin(dst, Basename(sources[i]));
    }
  }
}

=== FILE: redis.dfy ===
/**
 The two Puppet parser functions of the redis plugin: `sentinel_confs`,
 which builds one sentinel configuration per node, and `redis_backend_url`,
 which builds the sentinel URL the services connect through. Ruby values are
 `Json` values here; a Ruby hash keeps insertion order and assigning an
 existing key replaces its value in place, as `Json.Put` does.
 */
module Redis {
  import opened Base
  import opened Json

  /** The four settings every sentinel entry shares: arguments 1 to 4. */
  datatype Settings = Settings(quorum: Json, parallelSyncs: Json, downAfter: Json, failover: Json)

  /** The failure of Ruby's `value + " 6379 "` when `value` is not a string:
      integers and arrays define `+` and reject a string operand, the other
      values do not define `+` at all. */
  function ConcatError(value: Json): (e: Error)
    requires !value.Str?
    ensures e.kind == TypeError <==> value.Int? || value.List?
    ensures e.kind == NoMethodError <==> !(value.Int? || value.List?)
  {
    match value
    case Int(_) => Error(TypeError, "String can't be coerced into Integer")
    case List(_) => Error(TypeError, "no implicit conversion of String into Array")
    case _ => Error(NoMethodError, "undefined method `+'")
  }

  /** The items `nodes.each` yields: an array's elements, a hash's
      `[key, value]` pairs; other values have no `each`. */
  function EachItems(nodes: Json): (r: Option<seq<Json>>)
    ensures r.Some? <==> nodes.List? || nodes.Obj?
    ensures nodes.List? ==> r == Some(nodes.items)
    ensures nodes.Obj? ==> |r.value| == |nodes.fields| && forall i :: 0 <= i < |r.value| ==> r.value[i].List?
  {
    match nodes
    case List(items) => Some(nodes.items)
    case Obj(fields) => Some(Each(fields, (e: (string, Json)) => List([Str(e.0), e.1])))
    case _ => None
  }

  const MonitorPort := " 6379 "

  /** The entry written for one node. */
  function Conf(node: string, s: Settings): Json
    requires s.quorum.Str?
  {
    Obj([("monitor", Str(node + MonitorPort + s.quorum.s)),
         ("down-after-milliseconds", s.downAfter),
         ("failover-timeout", s.failover),
         ("parallel-syncs", s.parallelSyncs)])
  }

  const ConfKeys: seq<string> := ["monitor", "down-after-milliseconds", "failover-timeout", "parallel-syncs"]

  /** The loop of `sentinel_confs`: each node, in order, assigned its entry;
      the first node that is not a string, or a quorum that is not one,
      stops it. */
  function AddConfs(hash: Fields, nodes: seq<Json>, s: Settings): (r: Result<Fields>)
    ensures r.Err? ==> r.error.kind == TypeError || r.error.kind == NoMethodError
    decreases |nodes|
  {
    if |nodes| == 0 then Ok(hash)
    else if !nodes[0].Str? then Err(ConcatError(nodes[0]))
    else if !s.quorum.Str? then Err(Error(TypeError, "no implicit conversion into String"))
    else AddConfs(Put(hash, nodes[0].s, Conf(nodes[0].s, s)), nodes[1..], s)
  }

  /** `sentinel_confs(nodes, quorum, parallel_syncs, down_after_milliseconds,
      failover_timeout)`. */
  function SentinelConfs(args: seq<Json>): (r: Result<Json>)
    ensures |args| != 5 ==> r == Err(Error(RuntimeError, "Wrong number of arguments"))
    ensures |args| == 5 && EachItems(args[0]).None? ==> r.Err? && r.error.kind == NoMethodError
    ensures r.Ok? ==> r.value.Obj?
  {
    if |args| != 5 then Err(Error(RuntimeError, "Wrong number of arguments"))
    else
      match EachItems(args[0])
      case None => Err(Error(NoMethodError, "undefined method `each'"))
      case Some(nodes) =>
        var hash :- AddConfs([], nodes, Settings(args[1], args[2], args[3], args[4]));
        Ok(Obj(hash))
  }

  /** What the call accepts: five arguments, a node list of strings, and a
      string quorum whenever there is a node to use it for. */
  predicate Accepted(args: seq<Json>) {
    |args| == 5 && EachItems(args[0]).Some?
    && (forall i :: 0 <= i < |EachItems(args[0]).value| ==> EachItems(args[0]).value[i].Str?)
    && (|EachItems(args[0]).value| > 0 ==> args[1].Str?)
  }

  lemma {:induction false} AddConfsOk(hash: Fields, nodes: seq<Json>, s: Settings)
    ensures AddConfs(hash, nodes, s).Ok?
      <==> (forall i :: 0 <= i < |nodes| ==> nodes[i].Str?) && (|nodes| > 0 ==> s.quorum.Str?)
    decreases |nodes|
  {
    if |nodes| > 0 && nodes[0].Str? && s.quorum.Str? {
      AddConfsOk(Put(hash, nodes[0].s, Conf(nodes[0].s, s)), nodes[1..], s);
      assert forall i :: 1 <= i < |nodes| ==> nodes[i] == nodes[1..][i - 1];
    }
  }

  lemma {:induction false} AddConfsKeys(hash: Fields, nodes: seq<Json>, s: Settings, k: string)
    requires UniqueKeys(hash) && AddConfs(hash, nodes, s).Ok?
    ensures UniqueKeys(AddConfs(hash, nodes, s).value)
    ensures k in Keys(AddConfs(hash, nodes, s).value) <==> k in Keys(hash) || Str(k) in nodes
    decreases |nodes|
  {
    if |nodes| > 0 {
      AddConfsStep(hash, nodes, s);
      var v := nodes[0].s;
      var h := Put(hash, v, Conf(v, s));
      PutUnique(hash, v, Conf(v, s));
      AddConfsKeys(h, nodes[1..], s, k);
      assert k in Keys(h) <==> k in Keys(hash) || k == v;
      ConsMember(nodes, k);
    }
  }

  lemma {:induction false} AddConfsLookup(hash: Fields, nodes: seq<Json>, s: Settings, k: string)
    requires UniqueKeys(hash) && AddConfs(hash, nodes, s).Ok?
    ensures Lookup(AddConfs(hash, nodes, s).value, k)
      == if Str(k) in nodes then Some(Conf(k, s)) else Lookup(hash, k)
    decreases |nodes|
  {
    if |nodes| > 0 {
      AddConfsStep(hash, nodes, s);
      var v := nodes[0].s;
      var h := Put(hash, v, Conf(v, s));
      PutUnique(hash, v, Conf(v, s));
      AddConfsLookup(h, nodes[1..], s, k);
      PutConfLookup(hash, v, s, k, AddConfs(h, nodes[1..], s).value, Str(k) in nodes[1..]);
      ConsMember(nodes, k);
    }
  }

  /** A successful `AddConfs` sets the first node and goes on with the rest. */
  lemma AddConfsStep(hash: Fields, nodes: seq<Json>, s: Settings)
    requires |nodes| > 0 && AddConfs(hash, nodes, s).Ok?
    ensures nodes[0].Str? && s.quorum.Str?
    ensures AddConfs(hash, nodes, s) == AddConfs(Put(hash, nodes[0].s, Conf(nodes[0].s, s)), nodes[1..], s)
  {
  }

  /** A lookup after the first node's conf is set and the rest applied. */
  lemma PutConfLookup(hash: Fields, v: string, s: Settings, k: string, last: Fields, inRest: bool)
    requires UniqueKeys(hash) && s.quorum.Str?
    requires Lookup(last, k) == if inRest then Some(Conf(k, s)) else Lookup(Put(hash, v, Conf(v, s)), k)
    ensures Lookup(last, k) == if inRest || k == v then Some(Conf(k, s)) else Lookup(hash, k)
  {
    PutLookup(hash, v, Conf(v, s), k);
  }

  /** A name is among the nodes iff it is the first or among the rest. */
  lemma ConsMember(nodes: seq<Json>, k: string)
    requires |nodes| > 0 && nodes[0].Str?
    ensures Str(k) in nodes <==> nodes[0].s == k || Str(k) in nodes[1..]
  {
    assert nodes == [nodes[0]] + nodes[1..];
  }

  /** The call succeeds exactly on accepted arguments; with five arguments
      and a node list, a failure is Ruby's `TypeError` or `NoMethodError`
      from concatenating a non-string. */
  lemma {:induction false} SentinelConfsOk(args: seq<Json>)
    ensures SentinelConfs(args).Ok? <==> Accepted(args)
    ensures |args| == 5 && SentinelConfs(args).Err?
      ==> SentinelConfs(args).error.kind == TypeError || SentinelConfs(args).error.kind == NoMethodError
  {
    if |args| == 5 && EachItems(args[0]).Some? {
      AddConfsOk([], EachItems(args[0]).value, Settings(args[1], args[2], args[3], args[4]));
    }
  }

  /** The result maps exactly the distinct node names, each once. */
  lemma {:induction false} SentinelConfsKeys(args: seq<Json>, k: string)
    requires SentinelConfs(args).Ok?
    ensures UniqueKeys(SentinelConfs(args).value.fields)
    ensures k in Keys(SentinelConfs(args).value.fields) <==> Str(k) in EachItems(args[0]).value
  {
    AddConfsKeys([], EachItems(args[0]).value, Settings(args[1], args[2], args[3], args[4]), k);
  }

  /** An entry holds exactly the four settings: the monitor line
      `node 6379 quorum` and the other three as given. */
  lemma {:induction false} ConfFields(node: string, s: Settings)
    requires s.quorum.Str?
    ensures var c := Conf(node, s).fields;
      Keys(c) == ConfKeys
      && Lookup(c, "monitor") == Some(Str(node + " 6379 " + s.quorum.s))
      && Lookup(c, "down-after-milliseconds") == Some(s.downAfter)
      && Lookup(c, "failover-timeout") == Some(s.failover)
      && Lookup(c, "parallel-syncs") == Some(s.parallelSyncs)
  {
    var c := Conf(node, s).fields;
    assert Keys(c) == ConfKeys;
    assert UniqueKeys(c);
    assert Lookup(c, "monitor") == Some(Str(node + " 6379 " + s.quorum.s)) by { LookupAt(c, 0); }
    assert Lookup(c, "down-after-milliseconds") == Some(s.downAfter) by { LookupAt(c, 1); }
    assert Lookup(c, "failover-timeout") == Some(s.failover) by { LookupAt(c, 2); }
    assert Lookup(c, "parallel-syncs") == Some(s.parallelSyncs) by { LookupAt(c, 3); }
  }

  /** The entry of node `k` is its configuration: the monitor line is
      `k 6379 quorum`, the other three settings are arguments 3, 4 and 2 as
      given, and it has exactly those four keys. */
  lemma {:induction false} SentinelConfsEntry(args: seq<Json>, k: string)
    requires SentinelConfs(args).Ok? && Str(k) in EachItems(args[0]).value
    ensures args[1].Str?
    ensures var e := Lookup(SentinelConfs(args).value.fields, k);
      e.Some? && e.value.Obj? && Keys(e.value.fields) == ConfKeys
      && Lookup(e.value.fields, "monitor") == Some(Str(k + " 6379 " + args[1].s))
      && Lookup(e.value.fields, "down-after-milliseconds") == Some(args[3])
      && Lookup(e.value.fields, "failover-timeout") == Some(args[4])
      && Lookup(e.value.fields, "parallel-syncs") == Some(args[2])
  {
    var s := Settings(args[1], args[2], args[3], args[4]);
    var nodes := EachItems(args[0]).value;
    SentinelConfsOk(args);
    assert |nodes| > 0;
    AddConfsLookup([], nodes, s, k);
    assert Lookup(SentinelConfs(args).value.fields, k) == Some(Conf(k, s));
    ConfFields(k, s);
  }

  /** Names that are not nodes have no entry. */
  lemma {:induction false} SentinelConfsOnlyNodes(args: seq<Json>, k: string)
    requires SentinelConfs(args).Ok? && Str(k) !in EachItems(args[0]).value
    ensures Lookup(SentinelConfs(args).value.fields, k).None?
  {
    AddConfsLookup([], EachItems(args[0]).value, Settings(args[1], args[2], args[3], args[4]), k);
  }

  /** An empty node list gives an empty hash whatever the other four
      arguments are. */
  lemma {:induction false} SentinelConfsEmpty(quorum: Json, parallelSyncs: Json, downAfter: Json, failover: Json)
    ensures SentinelConfs([List([]), quorum, parallelSyncs, downAfter, failover]) == Ok(Obj([]))
  {
  }

  // redis_backend_url

  const SentinelPort := ":26379?sentinel="

  /** The part of the URL naming the first node. */
  function Primary(node: string): string {
    "redis://" + node + SentinelPort + node
  }

  /** The part of the URL naming one fallback node. */
  function Fallback(node: string): string {
    "&sentinel_fallback=" + node + SentinelPort + node
  }

  function TimeoutSuffix(t: string): string {
    "&timeout=" + t
  }

  /** The loop of `redis_backend_url`: walking the nodes in order, each one
      that differs from the first appends its fallback part. */
  function AppendFallbacks(url: string, nodes: seq<string>, first: string): string
    decreases |nodes|
  {
    if |nodes| == 0 then url
    else AppendFallbacks(if nodes[0] != first then url + Fallback(nodes[0]) else url, nodes[1..], first)
  }

  /** `redis_backend_url(nodes, timeout)`: an empty node list dereferences
      `nil` and a non-string timeout cannot be appended, both Ruby
      `TypeError`s. */
  function RedisBackendUrl(nodes: seq<string>, timeout: Json): (r: Result<string>)
    ensures r.Ok? <==> |nodes| > 0 && timeout.Str?
    ensures r.Err? ==> r.error.kind == TypeError
  {
    if |nodes| == 0 then Err(Error(TypeError, "no implicit conversion of nil into String"))
    else if !timeout.Str? then Err(Error(TypeError, "no implicit conversion into String"))
    else Ok(AppendFallbacks(Primary(nodes[0]), nodes, nodes[0]) + TimeoutSuffix(timeout.s))
  }

  /** `args[i]` of the Puppet argument array: `nil` past its end. */
  function ArgAt(args: seq<Json>, i: nat): Json {
    if i < |args| then args[i] else Null
  }

  /** `redis_backend_url` on the Puppet argument array as it arrives. The
      node list must be an array of strings: `nil` (a missing argument
      included) and booleans have no `[]`, and a non-empty string has no
      `each` (`NoMethodError`); an empty string, a hash (it has no key `0`),
      an integer (`Integer#[]` gives a bit) or an array holding anything but
      strings puts a non-string next to `+` (`TypeError`). */
  function RedisBackendUrlCall(args: seq<Json>): (r: Result<string>)
    ensures r.Ok? <==> var nodes := ArgAt(args, 0);
      && nodes.List? && |nodes.items| > 0
      && (forall i :: 0 <= i < |nodes.items| ==> nodes.items[i].Str?)
      && ArgAt(args, 1).Str?
    ensures r.Err? ==> (r.error.kind == NoMethodError <==>
      var nodes := ArgAt(args, 0); nodes.Null? || nodes.Bool? || (nodes.Str? && nodes.s != ""))
    ensures r.Err? && r.error.kind != NoMethodError ==> r.error.kind == TypeError
  {
    match ArgAt(args, 0)
    case List(items) =>
      if forall i :: 0 <= i < |items| ==> items[i].Str? then
        RedisBackendUrl(seq(|items|, i requires 0 <= i < |items| => items[i].s), ArgAt(args, 1))
      else Err(Error(TypeError, "no implicit conversion into String"))
    case Null => Err(Error(NoMethodError, "undefined method `[]' for nil:NilClass"))
    case Bool(_) => Err(Error(NoMethodError, "undefined method `[]'"))
    case Str(s) =>
      if s == "" then Err(Error(TypeError, "no implicit conversion of nil into String"))
      else Err(Error(NoMethodError, "undefined method `each' for String"))
    case Obj(_) => Err(Error(TypeError, "no implicit conversion of nil into String"))
    case Int(_) => Err(Error(TypeError, "no implicit conversion of Integer into String"))
  }

  /** On an array of string nodes the call is `RedisBackendUrl` of those
      names, so the shape lemmas below describe it. */
  lemma {:induction false} RedisBackendUrlCallNames(names: seq<string>, timeout: Json)
    ensures RedisBackendUrlCall([List(seq(|names|, i requires 0 <= i < |names| => Str(names[i]))), timeout])
      == RedisBackendUrl(names, timeout)
  {
    var items := seq(|names|, i requires 0 <= i < |names| => Str(names[i]));
    assert forall i :: 0 <= i < |items| ==> items[i].Str?;
    assert seq(|items|, i requires 0 <= i < |items| => items[i].s) == names;
  }

  /** The nodes other than `first`, in order: a reference definition of
      which nodes become fallbacks. */
  function Others(nodes: seq<string>, first: string): (r: seq<string>)
    ensures |r| <= |nodes|
    ensures forall x :: x in r <==> x in nodes && x != first
  {
    if |nodes| == 0 then []
    else (if nodes[0] != first then [nodes[0]] else []) + Others(nodes[1..], first)
  }

  /** The fallback parts of a node list, concatenated in order. */
  function Fallbacks(nodes: seq<string>): string {
    if |nodes| == 0 then "" else Fallback(nodes[0]) + Fallbacks(nodes[1..])
  }

  lemma {:induction false} OthersAppend(a: seq<string>, b: seq<string>, first: string)
    ensures Others(a + b, first) == Others(a, first) + Others(b, first)
    decreases |a|
  {
    if |a| > 0 {
      assert (a + b)[1..] == a[1..] + b;
      OthersAppend(a[1..], b, first);
    } else {
      assert a + b == b;
    }
  }

  /** The loop appends exactly the fallback parts of the other nodes. */
  lemma {:induction false} AppendFallbacksIsOthers(url: string, nodes: seq<string>, first: string)
    ensures AppendFallbacks(url, nodes, first) == url + Fallbacks(Others(nodes, first))
    decreases |nodes|
  {
    if |nodes| > 0 {
      var next := if nodes[0] != first then url + Fallback(nodes[0]) else url;
      AppendFallbacksIsOthers(next, nodes[1..], first);
      if nodes[0] != first {
        var rest := Others(nodes[1..], first);
        assert Others(nodes, first) == [nodes[0]] + rest;
        assert ([nodes[0]] + rest)[1..] == rest;
      } else {
        assert Others(nodes, first) == Others(nodes[1..], first);
      }
    } else {
      assert url + "" == url;
    }
  }

  /** The URL is the first node's part, one fallback part for every other
      node in list order, and the timeout. */
  lemma {:induction false} RedisBackendUrlShape(nodes: seq<string>, t: string)
    requires |nodes| > 0
    ensures RedisBackendUrl(nodes, Str(t)) == Ok(Primary(nodes[0]) + Fallbacks(Others(nodes, nodes[0])) + TimeoutSuffix(t))
  {
    AppendFallbacksIsOthers(Primary(nodes[0]), nodes, nodes[0]);
  }

  /** The URL starts with `redis://n0:26379?sentinel=n0` and ends with
      `&timeout=t`. */
  lemma {:induction false} RedisBackendUrlEnds(nodes: seq<string>, t: string)
    requires |nodes| > 0
    ensures var u := RedisBackendUrl(nodes, Str(t)).value;
      var p := "redis://" + nodes[0] + ":26379?sentinel=" + nodes[0];
      var x := "&timeout=" + t;
      |u| >= |p| + |x| && u[..|p|] == p && u[|u| - |x|..] == x
  {
    RedisBackendUrlShape(nodes, t);
    var p := Primary(nodes[0]);
    var m := Fallbacks(Others(nodes, nodes[0]));
    var x := TimeoutSuffix(t);
    assert (p + m + x)[..|p|] == p;
    assert (p + m + x)[|p + m + x| - |x|..] == x;
  }

  /** A single node gives its part immediately followed by the timeout. */
  lemma {:induction false} RedisBackendUrlSingle(n: string, t: string)
    ensures RedisBackendUrl([n], Str(t)) == Ok("redis://" + n + ":26379?sentinel=" + n + "&timeout=" + t)
  {
    RedisBackendUrlShape([n], t);
    assert Others([n], n) == [];
    assert Fallbacks([]) == "";
    assert Primary(n) + "" + TimeoutSuffix(t) == "redis://" + n + ":26379?sentinel=" + n + "&timeout=" + t;
  }

  /** Repeating the first node anywhere after it changes nothing. */
  lemma {:induction false} RedisBackendUrlIgnoresRepeats(nodes: seq<string>, k: nat, timeout: Json)
    requires 1 <= k <= |nodes|
    ensures RedisBackendUrl(nodes[..k] + [nodes[0]] + nodes[k..], timeout) == RedisBackendUrl(nodes, timeout)
  {
    var n0 := nodes[0];
    var longer := nodes[..k] + [n0] + nodes[k..];
    assert longer[0] == n0;
    if timeout.Str? {
      var a := nodes[..k];
      var b := nodes[k..];
      RedisBackendUrlShape(nodes, timeout.s);
      RedisBackendUrlShape(longer, timeout.s);
      OthersAppend(a + [n0], b, n0);
      OthersAppend(a, [n0], n0);
      OthersAppend(a, b, n0);
      assert Others([n0], n0) == [];
      assert a + b == nodes;
      assert Others(longer, n0) == Others(a, n0) + Others(b, n0);
    }
  }
}

=== FILE: reports.dfy ===
/**
 The validation report tree of `utils/reports.py`: nodes with an optional
 text and level, ordered children and a failure flag; failure counting, the
 success/failure summary and the indented text rendering.

 A missing text is the empty string: the code only ever tests it for
 truthiness, and `None` and `""` are both false.
 */
module Reports {
  import opened Base
  import opened Text

  datatype Level = NoLevel | ErrorLevel | WarningLevel | InfoLevel | DebugLevel

  /** The level names of `REPORT_LEVELS`. */
  function LevelName(l: Level): string {
    match l
    case NoLevel => ""
    case ErrorLevel => "error"
    case WarningLevel => "warning"
    case InfoLevel => "info"
    case DebugLevel => "debug"
  }

  datatype Node = Node(text: string, level: Level, children: seq<Node>, failed: bool)

  /** `ReportNode(text, level, children, failed=...)`: a node is failed when
      its level is `error`, unless an explicit `failed` says otherwise. */
  function MakeNode(text: string, level: Level, children: seq<Node>, failed: Option<bool>): (n: Node)
    ensures n.text == text && n.level == level && n.children == children
    ensures failed.Some? ==> n.failed == failed.value
    ensures failed.None? ==> (n.failed <==> level == ErrorLevel)
  {
    Node(text, level, children, if failed.Some? then failed.value else level == ErrorLevel)
  }

  /** A node with a text only, as most callers build them. */
  function Titled(text: string): (n: Node)
    ensures n.text == text && n.level == NoLevel && n.children == [] && !n.failed
  {
    MakeNode(text, NoLevel, [], None)
  }

  /** `add_nodes(*nodes)`: the nodes are appended in order after the
      existing children; the node itself is returned. */
  function AddNodes(n: Node, nodes: seq<Node>): (r: Node)
    ensures r.text == n.text && r.level == n.level && r.failed == n.failed
    ensures |r.children| == |n.children| + |nodes|
    ensures r.children[..|n.children|] == n.children
    ensures r.children[|n.children|..] == nodes
  {
    n.(children := n.children + nodes)
  }

  /** The `"key: value"` nodes that `_attach_message` adds for keyword
      arguments, with no level. */
  function KeywordNodes(kwargs: seq<(string, string)>): (r: seq<Node>)
    ensures |r| == |kwargs|
    ensures forall i :: 0 <= i < |r| ==>
              r[i] == Titled(kwargs[i].0 + ": " + kwargs[i].1)
  {
    if |kwargs| == 0 then []
    else [Titled(kwargs[0].0 + ": " + kwargs[0].1)] + KeywordNodes(kwargs[1..])
  }

  /** `_attach_message(msg, level, **kwargs)`: one child at that level, then
      one unlevelled child per keyword argument. */
  function AttachMessage(n: Node, msg: string, level: Level, kwargs: seq<(string, string)>): (r: Node)
    ensures r.children == n.children + [MakeNode(msg, level, [], None)] + KeywordNodes(kwargs)
  {
    AddNodes(n, [MakeNode(msg, level, [], None)] + KeywordNodes(kwargs))
  }

  function AddError(n: Node, msg: string): Node {
    AttachMessage(n, msg, ErrorLevel, [])
  }

  function AddWarning(n: Node, msg: string): Node {
    AttachMessage(n, msg, WarningLevel, [])
  }

  function AddInfo(n: Node, msg: string): Node {
    AttachMessage(n, msg, InfoLevel, [])
  }

  // ---------------------------------------------------------------------
  // Exceptions as message text
  // ---------------------------------------------------------------------

  /** `_format_message_content(exc)` for an exception, as written: the
      exception's `message`, or, when that is empty (as it is for an
      `IOError` built from an error number and a text), `repr(exc + tb)`;
      adding a string to an exception raises `TypeError`. */
  function FormatExceptionAsWritten(e: Error): (r: Result<string>)
    ensures r.Ok? <==> e.message != ""
    ensures r.Ok? ==> r.value == e.message
    ensures r.Err? ==> r.error.kind == TypeError
  {
    if e.message != "" then Ok(e.message)
    else Err(Error(TypeError, "unsupported operand type(s) for +"))
  }

  /** The evidently intended `exc.message or repr(exc) + tb`, where
      `describe` stands for `repr(exc)` followed by the traceback, which the
      model does not compute. */
  function FormatException(e: Error, describe: string): (r: string)
    ensures r == "" <==> e.message == "" && describe == ""
  {
    if e.message != "" then e.message else describe
  }

  /** Where the code as written produces a text, the intended formatting
      gives the same text; where it raises, the intended one falls back to
      the description. */
  lemma {:induction false} FormatExceptionAgrees(e: Error, describe: string)
    ensures FormatExceptionAsWritten(e).Ok? ==> FormatException(e, describe) == FormatExceptionAsWritten(e).value
    ensures FormatExceptionAsWritten(e).Err? ==> FormatException(e, describe) == describe
  {
  }

  /** An `IOError` for a missing file has an empty `message`: the intended
      formatting gives its description, while the code as written raises. */
  lemma FormatExceptionDiscrepancy()
    ensures FormatExceptionAsWritten(Error(IOError, "")).Err?
    ensures FormatException(Error(IOError, ""), "IOError(2, 'No such file or directory')")
      == "IOError(2, 'No such file or directory')"
  {
  }

  // ---------------------------------------------------------------------
  // Failure counting
  // ---------------------------------------------------------------------

  /** `count_failures(start_from)`: the running count threaded through the
      node and then its children, in order. */
  function CountFailures(n: Node, start: int): int
    decreases n
  {
    CountChildren(n.children, if n.failed then start + 1 else start)
  }

  function CountChildren(cs: seq<Node>, count: int): int
    decreases cs
  {
    if |cs| == 0 then count else CountChildren(cs[1..], CountFailures(cs[0], count))
  }

  /** The nodes of a tree in pre-order: an independent description of "every
      node of the subtree". */
  function Flatten(n: Node): (r: seq<Node>)
    ensures |r| >= 1 && r[0] == n
    decreases n
  {
    [n] + FlattenAll(n.children)
  }

  function FlattenAll(cs: seq<Node>): seq<Node>
    decreases cs
  {
    if |cs| == 0 then [] else Flatten(cs[0]) + FlattenAll(cs[1..])
  }

  /** How many nodes of a list are failed. */
  function FailedCount(ns: seq<Node>): (r: nat)
    ensures r <= |ns|
  {
    if |ns| == 0 then 0 else (if ns[0].failed then 1 else 0) + FailedCount(ns[1..])
  }

  lemma {:induction false} FailedCountAppend(a: seq<Node>, b: seq<Node>)
    ensures FailedCount(a + b) == FailedCount(a) + FailedCount(b)
  {
    if |a| > 0 {
      assert (a + b)[1..] == a[1..] + b;
      FailedCountAppend(a[1..], b);
    } else {
      assert a + b == b;
    }
  }

  lemma {:induction false} FlattenAllAppend(a: seq<Node>, b: seq<Node>)
    ensures FlattenAll(a + b) == FlattenAll(a) + FlattenAll(b)
  {
    if |a| > 0 {
      assert (a + b)[0] == a[0];
      assert (a + b)[1..] == a[1..] + b;
      FlattenAllAppend(a[1..], b);
    } else {
      assert a + b == b;
    }
  }

  /** A list of trees holds no failed node exactly when none of its trees
      does. */
  lemma {:induction false} FlattenAllClean(ns: seq<Node>)
    ensures FailedCount(FlattenAll(ns)) == 0 <==> forall i :: 0 <= i < |ns| ==> FailedCount(Flatten(ns[i])) == 0
  {
    if |ns| > 0 {
      FlattenAllClean(ns[1..]);
      FailedCountAppend(Flatten(ns[0]), FlattenAll(ns[1..]));
      forall i | 1 <= i < |ns|
        ensures ns[i] == ns[1..][i - 1]
      {
      }
    }
  }

  /** `count_failures(s)` is `s` plus the number of failed nodes of the
      subtree. */
  lemma {:induction false} CountFailuresIsFailedNodes(n: Node, start: int)
    ensures CountFailures(n, start) == start + FailedCount(Flatten(n))
    decreases n, 1
  {
    var s := if n.failed then start + 1 else start;
    CountChildrenIsFailedNodes(n.children, s);
    FailedCountAppend([n], FlattenAll(n.children));
  }

  lemma {:induction false} CountChildrenIsFailedNodes(cs: seq<Node>, count: int)
    ensures CountChildren(cs, count) == count + FailedCount(FlattenAll(cs))
    decreases cs, 0
  {
    if |cs| > 0 {
      CountFailuresIsFailedNodes(cs[0], count);
      CountChildrenIsFailedNodes(cs[1..], CountFailures(cs[0], count));
      FailedCountAppend(Flatten(cs[0]), FlattenAll(cs[1..]));
    }
  }

  /** `is_failed()`. */
  predicate IsFailed(n: Node) {
    CountFailures(n, 0) != 0
  }

  /** `is_successful()`. */
  predicate IsSuccessful(n: Node) {
    CountFailures(n, 0) == 0
  }

  lemma {:induction false} FailedCountPositive(ns: seq<Node>)
    ensures FailedCount(ns) > 0 <==> exists i :: 0 <= i < |ns| && ns[i].failed
  {
    if |ns| > 0 {
      FailedCountPositive(ns[1..]);
      if !ns[0].failed && FailedCount(ns[1..]) > 0 {
        var i :| 0 <= i < |ns[1..]| && ns[1..][i].failed;
        assert ns[i + 1].failed;
      }
      if exists i :: 0 <= i < |ns| && ns[i].failed {
        var i :| 0 <= i < |ns| && ns[i].failed;
        if i > 0 {
          assert ns[1..][i - 1].failed;
        }
      }
    }
  }

  /** A report is failed exactly when some node of it is failed, and it is
      successful exactly when it is not failed. */
  lemma {:induction false} IsFailedIffSomeNodeFailed(n: Node)
    ensures IsFailed(n) <==> exists i :: 0 <= i < |Flatten(n)| && Flatten(n)[i].failed
    ensures IsSuccessful(n) <==> !IsFailed(n)
  {
    CountFailuresIsFailedNodes(n, 0);
    FailedCountPositive(Flatten(n));
  }

  /** Adding nodes adds their failures to the count. */
  lemma {:induction false} CountChildrenAppend(a: seq<Node>, b: seq<Node>, count: int)
    ensures CountChildren(a + b, count) == CountChildren(b, CountChildren(a, count))
    decreases |a|
  {
    if |a| > 0 {
      assert (a + b)[0] == a[0];
      assert (a + b)[1..] == a[1..] + b;
      CountChildrenAppend(a[1..], b, CountFailures(a[0], count));
    } else {
      assert a + b == b;
    }
  }

  /** A childless node counts one if it is failed. */
  lemma {:induction false} CountLeaf(m: Node, count: int)
    requires m.children == []
    ensures CountChildren([m], count) == if m.failed then count + 1 else count
  {
    assert [m][1..] == [];
    assert CountChildren(m.children, if m.failed then count + 1 else count) == if m.failed then count + 1 else count;
    assert CountChildren([m], count) == CountChildren([m][1..], CountFailures([m][0], count));
  }

  /** `error(msg)` raises the failure count by exactly one; `warning(msg)`
      and `info(msg)` leave it as it was; each adds exactly one child. */
  lemma {:induction false} MessageCounts(n: Node, msg: string, start: int)
    ensures |AddError(n, msg).children| == |n.children| + 1
    ensures |AddWarning(n, msg).children| == |n.children| + 1
    ensures |AddInfo(n, msg).children| == |n.children| + 1
    ensures CountFailures(AddError(n, msg), start) == CountFailures(n, start) + 1
    ensures CountFailures(AddWarning(n, msg), start) == CountFailures(n, start)
    ensures CountFailures(AddInfo(n, msg), start) == CountFailures(n, start)
  {
    var s := if n.failed then start + 1 else start;
    assert KeywordNodes([]) == [];
    var e := MakeNode(msg, ErrorLevel, [], None);
    var w := MakeNode(msg, WarningLevel, [], None);
    var i := MakeNode(msg, InfoLevel, [], None);
    CountChildrenAppend(n.children, [e], s);
    CountChildrenAppend(n.children, [w], s);
    CountChildrenAppend(n.children, [i], s);
    CountLeaf(e, CountChildren(n.children, s));
    CountLeaf(w, CountChildren(n.children, s));
    CountLeaf(i, CountChildren(n.children, s));
    assert n.children + [e] + [] == n.children + [e];
    assert n.children + [w] + [] == n.children + [w];
    assert n.children + [i] + [] == n.children + [i];
  }

  /** Adding nodes adds exactly their own failures to the count. */
  lemma {:induction false} AddNodesCounts(n: Node, nodes: seq<Node>, start: int)
    ensures CountFailures(AddNodes(n, nodes), start) == CountFailures(n, start) + FailedCount(FlattenAll(nodes))
  {
    var s := if n.failed then start + 1 else start;
    CountChildrenAppend(n.children, nodes, s);
    CountChildrenIsFailedNodes(nodes, CountChildren(n.children, s));
  }

  // ---------------------------------------------------------------------
  // Text rendering
  // ---------------------------------------------------------------------

  const IndentSize: nat := 4
  const FailurePointer: string := "> "

  /** `'{}: '.format(level.upper())`, or nothing for no level. */
  function LevelPrefix(l: Level): (r: string)
    ensures l == NoLevel <==> r == ""
  {
    if l == NoLevel then "" else Upper(LevelName(l)) + ": "
  }

  /** A node's own line at a depth: a failed node replaces the last two
      indent spaces by the failure pointer. */
  function OwnLine(n: Node, depth: nat): string {
    var indent := IndentSize * depth;
    var errorIndent := if indent >= |FailurePointer| then indent - |FailurePointer| else 0;
    if n.failed then Spaces(errorIndent) + FailurePointer + LevelPrefix(n.level) + n.text
    else Spaces(indent) + LevelPrefix(n.level) + n.text
  }

  /** Whether a node emits a line of its own. */
  predicate HasLine(n: Node) {
    n.text != "" || n.level != NoLevel
  }

  /** `_render_text(depth)` for a numeric depth: the node's line (if any),
      then its children's lines one level deeper. */
  function RenderLines(n: Node, depth: nat): (r: seq<string>)
    decreases n
  {
    (if HasLine(n) then [OwnLine(n, depth)] else []) + RenderAll(n.children, depth + 1)
  }

  function RenderAll(cs: seq<Node>, depth: nat): seq<string>
    decreases cs
  {
    if |cs| == 0 then [] else RenderLines(cs[0], depth) + RenderAll(cs[1..], depth)
  }

  /** `_render_text()` with no depth: the node at column 0 and its children
      also at depth 0, joined by newlines. */
  function RenderText(n: Node): string {
    Join((if HasLine(n) then [OwnLine(n, 0)] else []) + RenderAll(n.children, 0), "\n")
  }

  /** At every depth from 1 on, a node's level and text start at column
      4·depth, failed or not; the columns before are spaces, ending in the
      failure pointer for a failed node. */
  lemma {:induction false} OwnLineColumn(n: Node, depth: nat)
    requires depth >= 1
    ensures var line := OwnLine(n, depth);
      && |line| >= 4 * depth
      && line[4 * depth..] == LevelPrefix(n.level) + n.text
      && (n.failed ==> line[..4 * depth] == Spaces(4 * depth - 2) + "> ")
      && (!n.failed ==> line[..4 * depth] == Spaces(4 * depth))
  {
    var pre := if n.failed then Spaces(4 * depth - 2) + "> " else Spaces(4 * depth);
    OwnLineParts(n, depth);
    SplitAt(pre, LevelPrefix(n.level), n.text);
  }

  /** A line is its indent, with the failure pointer for a failed node, then
      the level prefix and the text. */
  lemma OwnLineParts(n: Node, depth: nat)
    requires depth >= 1
    ensures OwnLine(n, depth) ==
      (if n.failed then Spaces(4 * depth - 2) + "> " else Spaces(4 * depth)) + LevelPrefix(n.level) + n.text
  {
  }

  /** `a + b + c` splits back at `|a|`. */
  lemma SplitAt(a: string, b: string, c: string)
    ensures |a + b + c| >= |a|
    ensures (a + b + c)[..|a|] == a && (a + b + c)[|a|..] == b + c
  {
  }

  /** A node with neither text nor level adds no line: its children render
      one level deeper straight away. */
  lemma {:induction false} NoLineWithoutTextOrLevel(n: Node, depth: nat)
    requires n.text == "" && n.level == NoLevel
    ensures RenderLines(n, depth) == RenderAll(n.children, depth + 1)
  {
  }

  /** How many nodes of a list emit a line. */
  function LineCount(ns: seq<Node>): (r: nat)
    ensures r <= |ns|
  {
    if |ns| == 0 then 0 else (if HasLine(ns[0]) then 1 else 0) + LineCount(ns[1..])
  }

  lemma {:induction false} LineCountAppend(a: seq<Node>, b: seq<Node>)
    ensures LineCount(a + b) == LineCount(a) + LineCount(b)
  {
    if |a| > 0 {
      assert (a + b)[1..] == a[1..] + b;
      LineCountAppend(a[1..], b);
    } else {
      assert a + b == b;
    }
  }

  /** The rendering has exactly one line per node of the subtree that has a
      text or a level. */
  lemma {:induction false} RenderLinesCount(n: Node, depth: nat)
    ensures |RenderLines(n, depth)| == LineCount(Flatten(n))
    decreases n, 1
  {
    RenderAllCount(n.children, depth + 1);
    LineCountAppend([n], FlattenAll(n.children));
    assert LineCount([n]) == if HasLine(n) then 1 else 0 by {
      assert [n][1..] == [];
    }
  }

  lemma {:induction false} RenderAllCount(cs: seq<Node>, depth: nat)
    ensures |RenderAll(cs, depth)| == LineCount(FlattenAll(cs))
    decreases cs, 0
  {
    if |cs| > 0 {
      RenderLinesCount(cs[0], depth);
      RenderAllCount(cs[1..], depth);
      LineCountAppend(Flatten(cs[0]), FlattenAll(cs[1..]));
    }
  }

  /** The summary's count line. */
  function FixMessage(failures: int): string {
    "Please fix " + IntToString(failures) + " errors listed above."
  }

  /** The summary node of `render`. */
  function Summary(failures: int): (s: Node)
    ensures s.text == "Summary:" && !s.failed
  {
    if failures != 0 then
      AddInfo(AddInfo(Titled("Summary:"), "Failure!"), FixMessage(failures))
    else AddInfo(Titled("Summary:"), "Success!")
  }

  /** Python's `str()` of an integer. */
  function IntToString(i: int): string {
    if i < 0 then "-" + NatToString(-i) else NatToString(i)
  }

  /** `render()` in text format: a textless root holding the report and, when
      asked for, the summary. */
  function Render(n: Node, addSummary: bool): string {
    var root := Titled("");
    var root1 := AddNodes(root, [n]);
    var root2 := if addSummary then AddNodes(root1, [Summary(CountFailures(n, 0))]) else root1;
    RenderText(root2)
  }

  /** An info leaf one level down renders as one indented `INFO:` line. */
  lemma {:induction false} InfoLeafLine(m: Node)
    requires m.children == [] && m.level == InfoLevel && !m.failed
    ensures RenderLines(m, 1) == ["    INFO: " + m.text]
  {
    assert Spaces(4) == "    " by {
      assert Spaces(1) == " ";
      assert Spaces(2) == "  ";
      assert Spaces(3) == "   ";
    }
    assert Upper("info") == "INFO";
    assert LevelPrefix(m.level) == "INFO: ";
    assert "    " + "INFO: " == "    INFO: ";
    assert OwnLine(m, 1) == "    INFO: " + m.text;
    assert RenderAll(m.children, 2) == [];
    assert RenderLines(m, 1) == [OwnLine(m, 1)] + [];
  }

  /** `info(msg)` on a childless node leaves exactly that one info child. */
  lemma {:induction false} InfoChild(n: Node, msg: string)
    ensures AddInfo(n, msg).children == n.children + [MakeNode(msg, InfoLevel, [], None)]
    ensures AddInfo(n, msg).text == n.text && AddInfo(n, msg).level == n.level
  {
    assert KeywordNodes([]) == [];
    assert n.children + [MakeNode(msg, InfoLevel, [], None)] + [] == n.children + [MakeNode(msg, InfoLevel, [], None)];
  }

  /** The summary's own line, then its info lines. */
  lemma {:induction false} SummaryShape(k: int)
    ensures RenderLines(Summary(k), 0) == ["Summary:"] + RenderAll(Summary(k).children, 1)
    ensures k == 0 ==> Summary(k).children == [MakeNode("Success!", InfoLevel, [], None)]
    ensures k != 0 ==>
              Summary(k).children ==
                [MakeNode("Failure!", InfoLevel, [], None),
                 MakeNode(FixMessage(k), InfoLevel, [], None)]
  {
    var t := Titled("Summary:");
    InfoChild(t, "Success!");
    InfoChild(t, "Failure!");
    InfoChild(AddInfo(t, "Failure!"), FixMessage(k));
    assert OwnLine(Summary(k), 0) == "Summary:";
  }

  lemma {:induction false} SummaryLinesSuccess()
    ensures RenderLines(Summary(0), 0) == ["Summary:", "    INFO: Success!"]
  {
    SummaryShape(0);
    var m0 := MakeNode("Success!", InfoLevel, [], None);
    InfoLeafLine(m0);
    assert "    INFO: " + "Success!" == "    INFO: Success!";
    assert RenderAll([m0], 1) == RenderLines(m0, 1) + RenderAll([], 1);
  }

  lemma {:induction false} SummaryLinesFailure(k: int)
    requires k != 0
    ensures RenderLines(Summary(k), 0) == ["Summary:", "    INFO: Failure!", "    INFO: " + FixMessage(k)]
  {
    SummaryShape(k);
    var m1 := MakeNode("Failure!", InfoLevel, [], None);
    var m2 := MakeNode(FixMessage(k), InfoLevel, [], None);
    InfoLeafLine(m1);
    InfoLeafLine(m2);
    assert "    INFO: " + "Failure!" == "    INFO: Failure!";
    assert [m1, m2][1..] == [m2];
    assert RenderAll([m2], 1) == RenderLines(m2, 1) + RenderAll([], 1);
    assert RenderAll([m1, m2], 1) == RenderLines(m1, 1) + RenderAll([m2], 1);
  }

  /** `render()` draws the report at depth 0, followed by the summary when
      one is asked for. */
  lemma {:induction false} RenderStructure(n: Node, addSummary: bool)
    ensures Render(n, addSummary) ==
              Join(RenderLines(n, 0) + (if addSummary then RenderLines(Summary(CountFailures(n, 0)), 0) else []), "\n")
  {
    var s := Summary(CountFailures(n, 0));
    var root := Titled("");
    assert !HasLine(root);
    assert RenderAll([], 0) == [];
    if addSummary {
      var root2 := AddNodes(AddNodes(root, [n]), [s]);
      assert root2.children == [n, s];
      assert !HasLine(root2);
      assert [n, s][1..] == [s];
      assert RenderAll([s], 0) == RenderLines(s, 0) + RenderAll([], 0);
      assert RenderAll([n, s], 0) == RenderLines(n, 0) + RenderAll([s], 0);
      assert RenderText(root2) == Join([] + RenderAll([n, s], 0), "\n");
      assert [] + RenderAll([n, s], 0) == RenderLines(n, 0) + RenderLines(s, 0);
    } else {
      var root1 := AddNodes(root, [n]);
      assert root1.children == [n];
      assert !HasLine(root1);
      assert RenderAll([n], 0) == RenderLines(n, 0) + RenderAll([], 0);
      assert RenderText(root1) == Join([] + RenderAll([n], 0), "\n");
      assert [] + RenderAll([n], 0) == RenderLines(n, 0) + [];
    }
  }

  /** A successful report renders its lines, then "Summary:" and
      "Success!". */
  lemma {:induction false} RenderSuccessful(n: Node)
    requires IsSuccessful(n)
    ensures Render(n, true) == Join(RenderLines(n, 0) + ["Summary:", "    INFO: Success!"], "\n")
  {
    RenderStructure(n, true);
    SummaryLinesSuccess();
  }

  /** A failed report renders its lines, then "Summary:", "Failure!" and the
      number of failures to fix. */
  lemma {:induction false} RenderFailed(n: Node)
    requires IsFailed(n)
    ensures Render(n, true) == Join(RenderLines(n, 0) + ["Summary:", "    INFO: Failure!",
              "    INFO: " + FixMessage(CountFailures(n, 0))], "\n")
  {
    RenderStructure(n, true);
    SummaryLinesFailure(CountFailures(n, 0));
  }

  /** Without a summary, `render()` is just the report's lines. */
  lemma {:induction false} RenderWithoutSummary(n: Node)
    ensures Render(n, false) == Join(RenderLines(n, 0), "\n")
  {
    RenderStructure(n, false);
    assert RenderLines(n, 0) + [] == RenderLines(n, 0);
  }

  /** The summary's verdict agrees with `is_successful()`. */
  lemma {:induction false} SummarySaysSuccessIffSuccessful(n: Node)
    ensures Summary(CountFailures(n, 0)).children[0].text == "Success!" <==> IsSuccessful(n)
    ensures !IsSuccessful(n) ==> |Summary(CountFailures(n, 0)).children| == 2
  {
  }
}

=== FILE: schema_errors.dfy ===
/**
 What the JSON-Schema engine hands back, as the validators see it: errors
 with a message, the path of the offending value, the length of the schema
 path that failed, and the sub-errors of a failed `anyOf`/`oneOf`. The
 engine itself is a parameter (`Engine`): it returns the errors of a value
 against a schema, in the engine's own order, none when it is valid.
 */
module SchemaErrors {
  import opened Base
  import opened Text
  import opened Json
  import opened Sorting

  /** One step of a value path: a dictionary key or a list index. */
  datatype PathElem = Key(key: string) | Index(index: nat)

  /** One engine error; `path` is relative to the error it is a sub-error
      of, and absolute for a top-level error. */
  datatype SchemaError = SchemaError(
    message: string,
    path: seq<PathElem>,
    schemaPathLength: nat,
    context: seq<SchemaError>)

  /** The schema engine, `Draft4Validator(schema).iter_errors(data)`: the
      errors of a value (first argument) against a schema (second). */
  type Engine = (Json, Json) -> seq<SchemaError>

  /** `six.text_type` of a path step. */
  function PathElemText(e: PathElem): string {
    match e
    case Key(k) => k
    case Index(i) => NatToString(i)
  }

  function PathTexts(path: seq<PathElem>): (r: seq<string>)
    ensures |r| == |path|
    ensures forall i :: 0 <= i < |path| ==> r[i] == PathElemText(path[i])
  {
    if |path| == 0 then [] else [PathElemText(path[0])] + PathTexts(path[1..])
  }

  /** `' -> '.join(map(six.text_type, path))`. */
  function PathText(path: seq<PathElem>): string {
    Join(PathTexts(path), " -> ")
  }

  /** Python 2 ordering of path steps: numbers sort before strings, numbers
      by value, strings by code point. */
  predicate ElemLe(a: PathElem, b: PathElem) {
    match (a, b)
    case (Index(i), Index(j)) => i <= j
    case (Index(_), Key(_)) => true
    case (Key(_), Index(_)) => false
    case (Key(x), Key(y)) => StrLe(x, y)
  }

  /** Lexicographic ordering of paths, as Python compares two lists. */
  predicate PathLe(a: seq<PathElem>, b: seq<PathElem>)
    decreases |a|
  {
    |a| == 0
    || (|b| > 0 && ((ElemLe(a[0], b[0]) && !ElemLe(b[0], a[0]))
                    || (a[0] == b[0] && PathLe(a[1..], b[1..]))))
  }

  lemma {:induction false} ElemLeTotalPreorder(a: PathElem, b: PathElem, c: PathElem)
    ensures ElemLe(a, b) || ElemLe(b, a)
    ensures ElemLe(a, b) && ElemLe(b, c) ==> ElemLe(a, c)
    ensures ElemLe(a, b) && ElemLe(b, a) ==> a == b
  {
    if a.Key? && b.Key? {
      StrLeTotal(a.key, b.key);
      if StrLe(a.key, b.key) && StrLe(b.key, a.key) {
        StrLeAntisymmetric(a.key, b.key);
      }
      if c.Key? && StrLe(a.key, b.key) && StrLe(b.key, c.key) {
        StrLeTransitive(a.key, b.key, c.key);
      }
    }
  }

  lemma {:induction false} PathLeTotal(a: seq<PathElem>, b: seq<PathElem>)
    ensures PathLe(a, b) || PathLe(b, a)
    decreases |a|
  {
    if |a| > 0 && |b| > 0 {
      ElemLeTotalPreorder(a[0], b[0], b[0]);
      if a[0] == b[0] {
        PathLeTotal(a[1..], b[1..]);
      }
    }
  }

  lemma {:induction false} PathLeTransitive(a: seq<PathElem>, b: seq<PathElem>, c: seq<PathElem>)
    requires PathLe(a, b) && PathLe(b, c)
    ensures PathLe(a, c)
    decreases |a|
  {
    if |a| > 0 {
      ElemLeTotalPreorder(a[0], b[0], c[0]);
      ElemLeTotalPreorder(b[0], c[0], a[0]);
      ElemLeTotalPreorder(c[0], a[0], b[0]);
      if a[0] == b[0] && b[0] == c[0] {
        PathLeTransitive(a[1..], b[1..], c[1..]);
      }
    }
  }

  /** Comparing two errors by their paths, the key of `sorted(..., key=path)`. */
  function ByPath(): (le: (SchemaError, SchemaError) -> bool)
    ensures forall a, b :: le(a, b) == PathLe(a.path, b.path)
  {
    (a: SchemaError, b: SchemaError) => PathLe(a.path, b.path)
  }

  lemma {:induction false} ByPathTotalPreorder()
    ensures TotalPreorder(ByPath())
  {
    forall a: SchemaError, b: SchemaError
      ensures PathLe(a.path, b.path) || PathLe(b.path, a.path)
    {
      PathLeTotal(a.path, b.path);
    }
    forall a: SchemaError, b: SchemaError, c: SchemaError | PathLe(a.path, b.path) && PathLe(b.path, c.path)
      ensures PathLe(a.path, c.path)
    {
      PathLeTransitive(a.path, b.path, c.path);
    }
  }

  /** `sorted(errors, key=lambda e: e.path)`: a permutation of the errors,
      ordered by path. */
  function SortByPath(errors: seq<SchemaError>): (r: seq<SchemaError>)
    ensures multiset(r) == multiset(errors)
    ensures forall i, j :: 0 <= i < j < |r| ==> PathLe(r[i].path, r[j].path)
  {
    ByPathTotalPreorder();
    SortSorted(errors, ByPath());
    Sort(errors, ByPath())
  }

  /** The sub-error `sorted(context, key=len(schema_path), reverse=True)[0]`
      picks: the first one with the longest schema path (the sort is
      stable). */
  function Deepest(context: seq<SchemaError>): (i: nat)
    requires |context| > 0
    ensures i < |context|
    ensures forall j :: 0 <= j < |context| ==> context[j].schemaPathLength <= context[i].schemaPathLength
    ensures forall j :: 0 <= j < i ==> context[j].schemaPathLength < context[i].schemaPathLength
  {
    if |context| == 1 then 0
    else
      var k := Deepest(context[1..]) + 1;
      if context[0].schemaPathLength >= context[k].schemaPathLength then 0 else k
  }

  /** `absolute_path` of a sub-error: the absolute path of the error it
      belongs to, followed by its own path, which is relative to that
      error. A top-level error's path is already absolute. */
  function AbsolutePath(parentPath: seq<PathElem>, sub: SchemaError): (r: seq<PathElem>)
    ensures |r| == |parentPath| + |sub.path|
    ensures r[..|parentPath|] == parentPath && r[|parentPath|..] == sub.path
  {
    parentPath + sub.path
  }

  /** `list(path)[2:]`: the path without its first two steps. */
  function DropTwo(path: seq<PathElem>): (r: seq<PathElem>)
    ensures |path| >= 2 ==> r == path[2..]
    ensures |path| < 2 ==> r == []
  {
    if |path| >= 2 then path[2..] else []
  }

  /** How many errors a list holds, counting the sub-errors of each at every
      depth. */
  function CountErrors(errors: seq<SchemaError>): nat
    decreases errors
  {
    if |errors| == 0 then 0 else 1 + CountErrors(errors[0].context) + CountErrors(errors[1..])
  }

  /** One error together with all of its sub-errors. */
  function Weight(e: SchemaError): nat {
    1 + CountErrors(e.context)
  }

  lemma {:induction false} CountErrorsIsSum(errors: seq<SchemaError>)
    ensures CountErrors(errors) == SumOf(errors, Weight)
  {
    if |errors| > 0 {
      CountErrorsIsSum(errors[1..]);
    }
  }

  /** Sorting the errors neither loses nor adds any, at any depth. */
  lemma {:induction false} SortByPathCount(errors: seq<SchemaError>)
    ensures CountErrors(SortByPath(errors)) == CountErrors(errors)
  {
    CountErrorsIsSum(errors);
    CountErrorsIsSum(SortByPath(errors));
    SortSum(errors, ByPath(), Weight);
  }

  /** Every sorted error is one of the errors given. */
  lemma {:induction false} SortByPathMembers(errors: seq<SchemaError>)
    ensures forall i :: 0 <= i < |SortByPath(errors)| ==> SortByPath(errors)[i] in errors
  {
    var r := SortByPath(errors);
    forall i | 0 <= i < |r|
      ensures r[i] in errors
    {
      assert r[i] in multiset(r);
    }
  }

  /** How many errors with a non-empty message a list holds, at every
      depth: the ones the older checks report. */
  function CountMessages(errors: seq<SchemaError>): nat
    ensures CountMessages(errors) <= CountErrors(errors)
    decreases errors
  {
    if |errors| == 0 then 0
    else (if errors[0].message != "" then 1 else 0) + CountMessages(errors[0].context) + CountMessages(errors[1..])
  }

  function MessageWeight(e: SchemaError): nat {
    (if e.message != "" then 1 else 0) + CountMessages(e.context)
  }

  lemma {:induction false} CountMessagesIsSum(errors: seq<SchemaError>)
    ensures CountMessages(errors) == SumOf(errors, MessageWeight)
  {
    if |errors| > 0 {
      CountMessagesIsSum(errors[1..]);
    }
  }

  /** Sorting keeps every message, at any depth. */
  lemma {:induction false} SortByPathMessages(errors: seq<SchemaError>)
    ensures CountMessages(SortByPath(errors)) == CountMessages(errors)
  {
    CountMessagesIsSum(errors);
    CountMessagesIsSum(SortByPath(errors));
    SortSum(errors, ByPath(), MessageWeight);
  }
}

=== FILE: sorting.dfy ===
/**
 Python's `sorted(xs, key=...)` as a stable insertion sort over a "not
 greater than" relation, with the facts the callers rely on: the result is a
 permutation of the input and, for a total preorder, it is ordered.
 */
module Sorting {

  /** `le` is total and transitive: what comparing sort keys gives. */
  ghost predicate TotalPreorder<T(!new)>(le: (T, T) -> bool) {
    && (forall a, b :: le(a, b) || le(b, a))
    && (forall a, b, c :: le(a, b) && le(b, c) ==> le(a, c))
  }

  predicate Sorted<T>(s: seq<T>, le: (T, T) -> bool) {
    forall i, j :: 0 <= i < j < |s| ==> le(s[i], s[j])
  }

  /** Puts `x` before the first element it does not exceed, so that among
      equal keys the earlier input stays first. */
  function Insert<T>(x: T, s: seq<T>, le: (T, T) -> bool): (r: seq<T>)
    ensures |r| == |s| + 1
    ensures multiset(r) == multiset(s) + multiset{x}
  {
    if |s| == 0 || le(x, s[0]) then [x] + s
    else
      assert s == [s[0]] + s[1..];
      [s[0]] + Insert(x, s[1..], le)
  }

  /** `sorted(s, key=k)` with `le(a, b)` meaning `k(a) <= k(b)`. */
  function Sort<T>(s: seq<T>, le: (T, T) -> bool): (r: seq<T>)
    ensures |r| == |s|
    ensures multiset(r) == multiset(s)
  {
    if |s| == 0 then []
    else
      assert s == [s[0]] + s[1..];
      Insert(s[0], Sort(s[1..], le), le)
  }

  lemma {:induction false} InsertSorted<T(!new)>(x: T, s: seq<T>, le: (T, T) -> bool)
    requires TotalPreorder(le)
    requires Sorted(s, le)
    ensures Sorted(Insert(x, s, le), le)
  {
    if |s| > 0 && !le(x, s[0]) {
      var rest := Insert(x, s[1..], le);
      InsertSorted(x, s[1..], le);
      assert le(s[0], x);
      forall y | y in multiset(rest)
        ensures le(s[0], y)
      {
        assert y in multiset(s[1..]) + multiset{x};
        if y in multiset(s[1..]) {
          var k :| 0 <= k < |s[1..]| && s[1..][k] == y;
          assert s[k + 1] == y;
        }
      }
      var r := [s[0]] + rest;
      forall i, j | 0 <= i < j < |r|
        ensures le(r[i], r[j])
      {
        if i == 0 {
          assert r[j] == rest[j - 1];
          assert rest[j - 1] in multiset(rest);
        } else {
          assert r[i] == rest[i - 1] && r[j] == rest[j - 1];
        }
      }
    } else if |s| > 0 {
      var r := [x] + s;
      forall i, j | 0 <= i < j < |r|
        ensures le(r[i], r[j])
      {
        if i == 0 && j > 1 {
          assert le(s[0], s[j - 1]);
        }
      }
    }
  }

  /** For a total preorder the result of `Sort` is ordered. */
  lemma {:induction false} SortSorted<T(!new)>(s: seq<T>, le: (T, T) -> bool)
    requires TotalPreorder(le)
    ensures Sorted(Sort(s, le), le)
  {
    if |s| > 0 {
      SortSorted(s[1..], le);
      InsertSorted(s[0], Sort(s[1..], le), le);
    }
  }

  /** Sorting what is already ordered changes nothing. */
  lemma {:induction false} SortOfSorted<T>(s: seq<T>, le: (T, T) -> bool)
    requires Sorted(s, le)
    ensures Sort(s, le) == s
  {
    if |s| > 0 {
      assert Sorted(s[1..], le) by {
        forall i, j | 0 <= i < j < |s[1..]| ensures le(s[1..][i], s[1..][j]) {
          assert s[1..][i] == s[i + 1] && s[1..][j] == s[j + 1];
        }
      }
      SortOfSorted(s[1..], le);
      if |s| > 1 {
        assert le(s[0], s[1..][0]);
      }
      assert s == [s[0]] + s[1..];
    }
  }

  /** The elements whose key equals the key of `k`, in order. */
  function SameKey<T>(s: seq<T>, le: (T, T) -> bool, k: T): (r: seq<T>)
    ensures |r| <= |s|
  {
    if |s| == 0 then []
    else (if le(s[0], k) && le(k, s[0]) then [s[0]] else []) + SameKey(s[1..], le, k)
  }

  /** `SameKey` of a sequence with a known head. */
  lemma {:induction false} SameKeyCons<T>(y: T, t: seq<T>, le: (T, T) -> bool, k: T)
    ensures SameKey([y] + t, le, k) == (if le(y, k) && le(k, y) then [y] else []) + SameKey(t, le, k)
  {
    assert ([y] + t)[0] == y && ([y] + t)[1..] == t;
  }

  /** Inserting `x` puts it ahead of every element with the same key. */
  lemma {:induction false} InsertSameKey<T(!new)>(x: T, s: seq<T>, le: (T, T) -> bool, k: T)
    requires TotalPreorder(le)
    ensures SameKey(Insert(x, s, le), le, k)
      == (if le(x, k) && le(k, x) then [x] else []) + SameKey(s, le, k)
  {
    if |s| == 0 || le(x, s[0]) {
      SameKeyCons(x, s, le, k);
    } else {
      var rest := Insert(x, s[1..], le);
      assert Insert(x, s, le) == [s[0]] + rest;
      SameKeyCons(s[0], rest, le, k);
      InsertSameKey(x, s[1..], le, k);
      NotBothSameKey(x, s[0], le, k);
      SwapAroundEmpty(if le(s[0], k) && le(k, s[0]) then [s[0]] else [],
                      if le(x, k) && le(k, x) then [x] else [], SameKey(s[1..], le, k));
    }
  }

  /** Two pieces of which one is empty can trade places. */
  lemma SwapAroundEmpty<T>(a: seq<T>, b: seq<T>, t: seq<T>)
    requires a == [] || b == []
    ensures a + (b + t) == b + (a + t)
  {
    if a == [] {
      assert a + (b + t) == b + t == b + (a + t);
    } else {
      assert a + (b + t) == a + t == b + (a + t);
    }
  }

  /** Two elements of which the first exceeds the second cannot both have
      the key of `k`. */
  lemma {:induction false} NotBothSameKey<T(!new)>(x: T, y: T, le: (T, T) -> bool, k: T)
    requires TotalPreorder(le) && !le(x, y)
    ensures !(le(x, k) && le(k, x) && le(y, k) && le(k, y))
  {
    assert le(x, k) && le(k, y) ==> le(x, y);
  }

  /** `Sort` is stable: the elements of any one key come out in their input
      order. */
  lemma {:induction false} SortStable<T(!new)>(s: seq<T>, le: (T, T) -> bool, k: T)
    requires TotalPreorder(le)
    ensures SameKey(Sort(s, le), le, k) == SameKey(s, le, k)
  {
    if |s| > 0 {
      SortStable(s[1..], le, k);
      InsertSameKey(s[0], Sort(s[1..], le), le, k);
    }
  }

  /** The total of `f` over a sequence. */
  function SumOf<T>(s: seq<T>, f: T -> nat): nat {
    if |s| == 0 then 0 else f(s[0]) + SumOf(s[1..], f)
  }

  lemma {:induction false} InsertSum<T>(x: T, s: seq<T>, le: (T, T) -> bool, f: T -> nat)
    ensures SumOf(Insert(x, s, le), f) == f(x) + SumOf(s, f)
  {
    if |s| > 0 && !le(x, s[0]) {
      InsertSum(x, s[1..], le, f);
      assert Insert(x, s, le)[1..] == Insert(x, s[1..], le);
    } else {
      assert ([x] + s)[1..] == s;
    }
  }

  /** Sorting keeps every total: nothing is lost or duplicated. */
  lemma {:induction false} SortSum<T>(s: seq<T>, le: (T, T) -> bool, f: T -> nat)
    ensures SumOf(Sort(s, le), f) == SumOf(s, f)
  {
    if |s| > 0 {
      SortSum(s[1..], le, f);
      InsertSum(s[0], Sort(s[1..], le), le, f);
    }
  }
}

=== FILE: task_schema.dfy ===
/**
 The deployment-task schema generator of `schemas/task.py`
 (`SchemaTaskV2_1_0._gen_task_schema`) and the per-type schemas built with
 it. The generated schema's constant properties (the id, version, role,
 dependency and stage sub-schemas) are static data and not part of this
 model; the parts the generator computes are: the `type` enum, the set of
 required fields and the patched `parameters` schema.
 */
module TaskSchema {
  import opened Base
  import opened Json

  /** The computed parts of a generated task schema. */
  datatype TaskSchema = TaskSchema(typeEnum: Json, required: set<string>, parameters: Json)

  /** `task_obligatory_fields`. */
  const ObligatoryFields: set<string> := {"id", "type"}

  function TypeOnly(t: string): Json {
    Obj([("type", Str(t))])
  }

  /** `_yaql_expression`. */
  const YaqlExpression: Json := Obj([
    ("$schema", Str("http://json-schema.org/draft-04/schema#")),
    ("type", Str("object")),
    ("required", List([Str("yaql_exp")])),
    ("properties", Obj([("yaql_exp", TypeOnly("string"))]))])

  /** `_task_strategy`: the schema every task's parameters get for
      `strategy` unless they bring their own. */
  const Strategy: Json := Obj([
    ("$schema", Str("http://json-schema.org/draft-04/schema#")),
    ("type", Str("object")),
    ("required", List([Str("type")])),
    ("properties", Obj([
      ("type", Obj([("type", Str("string")), ("enum", List([Str("parallel"), Str("one_by_one")]))])),
      ("amount", Obj([("oneOf", List([TypeOnly("integer"), YaqlExpression]))]))]))])

  /** The parameters schema used when none is given. */
  const DefaultParameters: Json := Obj([("type", Str("object"))])

  /** `d.setdefault(k, v)` as the dictionary it leaves behind. */
  function SetDefault(fields: Fields, k: string, v: Json): (r: Fields)
    ensures k in Keys(fields) ==> r == fields
    ensures k !in Keys(fields) ==> r == fields + [(k, v)]
  {
    if k in Keys(fields) then fields else fields + [(k, v)]
  }

  /** A key not yet present, once set by default, reads as the default, and
      an appended key hides no other. */
  lemma {:induction false} SetDefaultLookup(fields: Fields, k: string, v: Json, other: string)
    ensures Lookup(SetDefault(fields, k, v), k) == if k in Keys(fields) then Lookup(fields, k) else Some(v)
    ensures other != k ==> Lookup(SetDefault(fields, k, v), other) == Lookup(fields, other)
  {
    if k !in Keys(fields) {
      LookupAppend(fields, (k, v), k);
      LookupAppend(fields, (k, v), other);
    }
  }

  lemma {:induction false} LookupAppend(fields: Fields, entry: (string, Json), key: string)
    ensures Lookup(fields + [entry], key) == if key in Keys(fields) then Lookup(fields, key)
                                              else if key == entry.0 then Some(entry.1) else None
  {
    if |fields| > 0 {
      assert (fields + [entry])[1..] == fields[1..] + [entry];
      assert Keys(fields) == [fields[0].0] + Keys(fields[1..]);
      LookupAppend(fields[1..], entry, key);
    } else {
      assert [] + [entry] == [entry];
      assert [entry][1..] == [];
    }
  }

  const SetDefaultError := Error(AttributeError, "object has no attribute 'setdefault'")

  /** The parameters patch: `parameters or {'type': 'object'}`, then
      `setdefault('properties', {})` and, inside it,
      `setdefault('strategy', _task_strategy)`. */
  function PatchParameters(parameters: Json): (r: Result<Json>)
    ensures var p := if Truthy(parameters) then parameters else DefaultParameters;
      && (r.Ok? <==> p.Obj? && (Lookup(p.fields, "properties").None? || Lookup(p.fields, "properties").value.Obj?))
      && (r.Err? ==> r.error == SetDefaultError)
  {
    var p := if Truthy(parameters) then parameters else DefaultParameters;
    if !p.Obj? then Err(SetDefaultError)
    else
      var withProps := SetDefault(p.fields, "properties", Obj([]));
      SetDefaultLookup(p.fields, "properties", Obj([]), "properties");
      var props := Lookup(withProps, "properties").value;
      if !props.Obj? then Err(SetDefaultError)
      else Ok(Obj(Put(withProps, "properties", Obj(SetDefault(props.fields, "strategy", Strategy)))))
  }

  /** After patching, the parameters always have `properties.strategy`: the
      one they brought, or `_task_strategy`; every other key is kept. */
  lemma {:induction false} PatchedStrategy(parameters: Json, other: string)
    requires PatchParameters(parameters).Ok?
    requires parameters.Obj? ==> UniqueKeys(parameters.fields)
    ensures var r := PatchParameters(parameters).value;
      var p := if Truthy(parameters) then parameters else DefaultParameters;
      var before := Lookup(p.fields, "properties");
      && r.Obj?
      && Lookup(r.fields, "properties").Some?
      && Lookup(r.fields, "properties").value.Obj?
      && Lookup(Lookup(r.fields, "properties").value.fields, "strategy") ==
           (if before.Some? && Lookup(before.value.fields, "strategy").Some?
            then Lookup(before.value.fields, "strategy") else Some(Strategy))
      && (other != "properties" ==> Lookup(r.fields, other) == Lookup(p.fields, other))
  {
    var p := if Truthy(parameters) then parameters else DefaultParameters;
    assert UniqueKeys(p.fields);
    var withProps := SetDefault(p.fields, "properties", Obj([]));
    SetDefaultLookup(p.fields, "properties", Obj([]), other);
    SetDefaultLookup(p.fields, "properties", Obj([]), "properties");
    var props := Lookup(withProps, "properties").value;
    var newProps := SetDefault(props.fields, "strategy", Strategy);
    SetDefaultLookup(props.fields, "strategy", Strategy, "strategy");
    SetDefaultUnique(p.fields, "properties", Obj([]));
    PutLookup(withProps, "properties", Obj(newProps), other);
    if "strategy" in Keys(props.fields) {
      LookupSomeKey(props.fields, "strategy");
    } else {
      LookupNoneKey(props.fields, "strategy");
    }
  }

  lemma {:induction false} LookupSomeKey(fields: Fields, k: string)
    requires k in Keys(fields)
    ensures Lookup(fields, k).Some?
  {
  }

  lemma {:induction false} LookupNoneKey(fields: Fields, k: string)
    requires k !in Keys(fields)
    ensures Lookup(fields, k).None?
  {
  }

  lemma {:induction false} SetDefaultUnique(fields: Fields, k: string, v: Json)
    requires UniqueKeys(fields)
    ensures UniqueKeys(SetDefault(fields, k, v))
  {
    if k !in Keys(fields) {
      var r := fields + [(k, v)];
      forall i, j | 0 <= i < j < |r| ensures r[i].0 != r[j].0 {
        if j == |fields| {
          assert Keys(fields)[i] == fields[i].0;
        }
      }
    }
  }

  /** `set(task_obligatory_fields + tuple(required))`. */
  function RequiredFields(required: seq<string>): (r: set<string>)
    ensures forall f :: f in r <==> f in ObligatoryFields || f in required
  {
    ObligatoryFields + set f | f in required
  }

  const EmptyTaskTypes := Error(ValueError, "Task type should not be empty")

  /** `_gen_task_schema(task_types, required, parameters)`: empty task types
      raise `ValueError`; a single type name becomes a one-element enum; the
      required fields are the obligatory ones plus `required`; the parameters
      are patched with a default strategy. */
  function GenTaskSchema(taskTypes: Json, required: seq<string>, parameters: Json): (r: Result<TaskSchema>)
    ensures !Truthy(taskTypes) ==> r == Err(EmptyTaskTypes)
    ensures Truthy(taskTypes) ==> (r.Ok? <==> PatchParameters(parameters).Ok?)
    ensures r.Ok? ==> taskTypes.Str? ==> r.value.typeEnum == List([taskTypes])
    ensures r.Ok? ==> !taskTypes.Str? ==> r.value.typeEnum == taskTypes
    ensures r.Ok? ==> r.value.required == RequiredFields(required)
    ensures r.Ok? ==> r.value.parameters == PatchParameters(parameters).value
  {
    if !Truthy(taskTypes) then Err(EmptyTaskTypes)
    else
      var enum := if taskTypes.Str? then List([taskTypes]) else taskTypes;
      var params :- PatchParameters(parameters);
      Ok(TaskSchema(enum, RequiredFields(required), params))
  }

  /** Without a parameters schema a task gets `{'type': 'object',
      'properties': {'strategy': _task_strategy}}`. */
  lemma {:induction false} DefaultParametersSchema(taskTypes: Json, required: seq<string>, parameters: Json)
    requires Truthy(taskTypes) && !Truthy(parameters)
    ensures GenTaskSchema(taskTypes, required, parameters).Ok?
    ensures GenTaskSchema(taskTypes, required, parameters).value.parameters ==
      Obj([("type", Str("object")), ("properties", Obj([("strategy", Strategy)]))])
  {
    DefaultPatch(parameters);
  }

  lemma {:induction false} DefaultPatch(parameters: Json)
    requires !Truthy(parameters)
    ensures PatchParameters(parameters) == Ok(Obj([("type", Str("object")), ("properties", Obj([("strategy", Strategy)]))]))
  {
    var d := [("type", Str("object"))];
    assert DefaultParameters.fields == d;
    assert Keys(d) == ["type"];
    var withProps := d + [("properties", Obj([]))];
    assert SetDefault(d, "properties", Obj([])) == withProps;
    SetDefaultLookup(d, "properties", Obj([]), "properties");
    assert Lookup(withProps, "properties") == Some(Obj([]));
    var newProps := [("strategy", Strategy)];
    assert SetDefault([], "strategy", Strategy) == newProps;
    assert withProps[1..] == [("properties", Obj([]))];
    assert Put(withProps[1..], "properties", Obj(newProps)) == [("properties", Obj(newProps))];
    assert Put(withProps, "properties", Obj(newProps)) == [withProps[0]] + Put(withProps[1..], "properties", Obj(newProps));
    var p := if Truthy(parameters) then parameters else DefaultParameters;
    assert p == DefaultParameters;
    assert SetDefault(p.fields, "properties", Obj([])) == withProps;
    assert Lookup(SetDefault(p.fields, "properties", Obj([])), "properties").value == Obj([]);
    assert PatchParameters(parameters) == Ok(Obj(Put(withProps, "properties", Obj(SetDefault([], "strategy", Strategy)))));
    assert [withProps[0]] + [("properties", Obj(newProps))] == [("type", Str("object")), ("properties", Obj(newProps))];
  }

  // ---------------------------------------------------------------------
  // The per-type schemas
  // ---------------------------------------------------------------------

  function Required(names: seq<string>): Json {
    List(seq(|names|, i requires 0 <= i < |names| => Str(names[i])))
  }

  function Pattern(p: string): Json {
    Obj([("type", Str("string")), ("pattern", Str(p))])
  }

  const FilePermissionsPattern := "^[0-7]{4}$"

  const CopyFilesParameters: Json := Obj([
    ("type", Str("object")),
    ("required", Required(["files"])),
    ("properties", Obj([
      ("files", Obj([
        ("type", Str("array")),
        ("minItems", Int(1)),
        ("items", Obj([
          ("type", Str("object")),
          ("required", Required(["src", "dst"])),
          ("properties", Obj([("src", TypeOnly("string")), ("dst", TypeOnly("string"))]))]))])),
      ("permissions", Pattern(FilePermissionsPattern)),
      ("dir_permissions", Pattern(FilePermissionsPattern))]))])

  const PuppetParameters: Json := Obj([
    ("type", Str("object")),
    ("required", Required(["puppet_manifest", "puppet_modules", "timeout"])),
    ("properties", Obj([
      ("puppet_manifest", Obj([("type", Str("string")), ("minLength", Int(1))])),
      ("puppet_modules", Obj([("type", Str("string")), ("minLength", Int(1))])),
      ("timeout", TypeOnly("integer")),
      ("retries", TypeOnly("integer"))]))])

  const RebootParameters: Json := Obj([
    ("type", Str("object")),
    ("properties", Obj([("timeout", TypeOnly("integer"))]))])

  const ShellParameters: Json := Obj([
    ("type", Str("object")),
    ("required", Required(["cmd"])),
    ("properties", Obj([
      ("cmd", TypeOnly("string")),
      ("retries", TypeOnly("integer")),
      ("interval", TypeOnly("integer")),
      ("timeout", TypeOnly("integer"))]))])

  const SyncParameters: Json := Obj([
    ("type", Str("object")),
    ("required", Required(["src", "dst"])),
    ("properties", Obj([
      ("src", TypeOnly("string")),
      ("dst", TypeOnly("string")),
      ("timeout", TypeOnly("integer"))]))])

  const UploadFileParameters: Json := Obj([
    ("type", Str("object")),
    ("required", Required(["path", "data"])),
    ("properties", Obj([("path", TypeOnly("string")), ("data", TypeOnly("string"))]))])

  /** The arguments each per-type property passes to the generator:
      (extra required fields, parameters schema). */
  function TypeArguments(name: string): Option<(seq<string>, Json)> {
    match name
    case "copy_files" => Some((["parameters"], CopyFilesParameters))
    case "group" => Some(([], Null))
    case "puppet" => Some(([], PuppetParameters))
    case "reboot" => Some(([], RebootParameters))
    case "shell" => Some(([], ShellParameters))
    case "skipped" => Some(([], Null))
    case "stage" => Some(([], Null))
    case "sync" => Some((["parameters"], SyncParameters))
    case "upload_file" => Some((["parameters"], UploadFileParameters))
    case _ => None
  }

  /** The task types the `tasks` schema enumerates, in its order. */
  const TaskTypes: seq<string> := ["copy_files", "group", "reboot", "shell", "skipped", "stage", "sync", "puppet", "upload_file"]

  /** The schema of one task type, as its `*_task` property builds it. */
  function TypeSchema(name: string): (r: Result<TaskSchema>)
    ensures name !in TaskTypes ==> r == Err(Error(AttributeError, name + "_task"))
  {
    match TypeArguments(name)
    case None => Err(Error(AttributeError, name + "_task"))
    case Some((required, parameters)) => GenTaskSchema(Str(name), required, parameters)
  }

  /** A parameters schema whose `properties` is a dictionary patches cleanly. */
  lemma {:induction false} PatchesCleanly(parameters: Json, properties: Json)
    requires parameters.Obj? && parameters.fields != []
    requires Lookup(parameters.fields, "properties") == Some(properties) && properties.Obj?
    ensures PatchParameters(parameters).Ok?
  {
  }

  /** Each built-in parameters schema has a `properties` dictionary. */
  lemma {:induction false} BuiltinPatches(parameters: Json)
    requires parameters in {CopyFilesParameters, PuppetParameters, RebootParameters, ShellParameters,
                            SyncParameters, UploadFileParameters, Null}
    ensures PatchParameters(parameters).Ok?
  {
    if parameters == Null {
      DefaultPatch(parameters);
    } else if parameters == RebootParameters {
      PatchesCleanly(parameters, parameters.fields[1].1);
    } else {
      PatchesCleanly(parameters, parameters.fields[2].1);
    }
  }

  /** A single type name generates the one-element enum of that name. */
  lemma {:induction false} SingleTypeShape(name: string, required: seq<string>, parameters: Json)
    requires name != "" && PatchParameters(parameters).Ok?
    ensures GenTaskSchema(Str(name), required, parameters).Ok?
    ensures GenTaskSchema(Str(name), required, parameters).value.typeEnum == List([Str(name)])
    ensures "parameters" in GenTaskSchema(Str(name), required, parameters).value.required <==> "parameters" in required
  {
  }

  /** Every known task type has a schema whose enum is exactly that type;
      exactly `copy_files`, `sync` and `upload_file` require `parameters`. */
  lemma {:induction false} TypeSchemaShape(name: string)
    requires name in TaskTypes
    ensures TypeSchema(name).Ok?
    ensures TypeSchema(name).value.typeEnum == List([Str(name)])
    ensures "parameters" in TypeSchema(name).value.required <==> name in {"copy_files", "sync", "upload_file"}
  {
    var required, parameters := TypeArgumentsKnown(name);
    BuiltinPatches(parameters);
    SingleTypeShape(name, required, parameters);
  }

  /** Each known task type has generator arguments: a built-in parameters
      schema, and `parameters` among the extra required fields exactly for
      `copy_files`, `sync` and `upload_file`. */
  lemma {:induction false} TypeArgumentsKnown(name: string) returns (required: seq<string>, parameters: Json)
    requires name in TaskTypes
    ensures name != "" && TypeArguments(name) == Some((required, parameters))
    ensures parameters in {CopyFilesParameters, PuppetParameters, RebootParameters, ShellParameters,
                           SyncParameters, UploadFileParameters, Null}
    ensures "parameters" in required <==> name in {"copy_files", "sync", "upload_file"}
  {
    required, parameters := TypeArguments(name).value.0, TypeArguments(name).value.1;
    var i :| 0 <= i < |TaskTypes| && TaskTypes[i] == name;
    assert i == 0 || i == 1 || i == 2 || i == 3 || i == 4 || i == 5 || i == 6 || i == 7 || i == 8;
  }

  /** The `tasks` schema: one generated item schema over all nine types. */
  function TasksSchema(): (r: TaskSchema)
    ensures r.typeEnum.List? && |r.typeEnum.items| == 9
    ensures forall t :: Str(t) in r.typeEnum.items <==> t in TaskTypes
    ensures r.required == ObligatoryFields
  {
    var items := seq(|TaskTypes|, i requires 0 <= i < |TaskTypes| => Str(TaskTypes[i]));
    var types := List(items);
    DefaultParametersSchema(types, [], Null);
    forall t ensures Str(t) in items <==> t in TaskTypes {
      if t in TaskTypes {
        var i :| 0 <= i < |TaskTypes| && TaskTypes[i] == t;
        assert items[i] == Str(t);
      }
    }
    GenTaskSchema(types, [], Null).value
  }
}

=== FILE: text.dfy ===
/**
 String helpers shared by the Ruby and Python models: `join`, `split`,
 `strip`, ASCII case mapping and decimal rendering of naturals, each with the
 law that ties it to its inverse or to an independent description.
 */
module Text {
  import opened Base

  /** Python's `sep.join(parts)` and Ruby's `Array#join(sep)`. */
  function Join(parts: seq<string>, sep: string): string
  {
    if |parts| == 0 then ""
    else if |parts| == 1 then parts[0]
    else parts[0] + sep + Join(parts[1..], sep)
  }

  /** Total length of a list of strings. */
  function TotalLength(parts: seq<string>): nat
  {
    if |parts| == 0 then 0 else |parts[0]| + TotalLength(parts[1..])
  }

  lemma {:induction false} JoinLength(parts: seq<string>, sep: string)
    requires |parts| > 0
    ensures |Join(parts, sep)| == TotalLength(parts) + (|parts| - 1) * |sep|
  {
    if |parts| > 1 {
      JoinLength(parts[1..], sep);
    }
  }

  /** Joining a one-element list gives that element; a two-element list
      gives both with the separator between them. */
  lemma {:induction false} JoinSmall(a: string, b: string, sep: string)
    ensures Join([a], sep) == a
    ensures Join([a, b], sep) == a + sep + b
  {
    assert [a, b][1..] == [b];
  }

  lemma {:induction false} JoinThree(a: string, b: string, c: string, sep: string)
    ensures Join([a, b, c], sep) == a + sep + b + sep + c
  {
    assert [a, b, c][1..] == [b, c];
    JoinSmall(b, c, sep);
  }

  /** Joining two non-empty lists is joining each and putting the
      separator between them. */
  lemma {:induction false} JoinConcat(a: seq<string>, b: seq<string>, sep: string)
    requires |a| > 0 && |b| > 0
    ensures Join(a + b, sep) == Join(a, sep) + sep + Join(b, sep)
  {
    if |a| == 1 {
      assert (a + b)[1..] == b;
    } else {
      assert (a + b)[1..] == a[1..] + b;
      JoinConcat(a[1..], b, sep);
    }
  }

  /** Every character of a part occurs in the joined text. */
  lemma {:induction false} JoinMember(parts: seq<string>, sep: string, i: nat)
    requires i < |parts|
    ensures forall x :: x in parts[i] ==> x in Join(parts, sep)
  {
    if |parts| > 1 {
      var rest := Join(parts[1..], sep);
      assert Join(parts, sep) == parts[0] + sep + rest;
      if i > 0 {
        JoinMember(parts[1..], sep, i - 1);
        assert parts[1..][i - 1] == parts[i];
      }
    }
  }

  /** Position of the first occurrence of `c` in `s`. */
  function IndexOf(s: string, c: char): (r: Option<nat>)
    ensures r.None? <==> c !in s
    ensures r.Some? ==> r.value < |s| && s[r.value] == c && c !in s[..r.value]
  {
    if |s| == 0 then None
    else if s[0] == c then Some(0)
    else
      match IndexOf(s[1..], c)
      case None => None
      case Some(i) =>
        assert s[..i + 1] == [s[0]] + s[1..][..i];
        Some(i + 1)
  }

  /** Position of the last occurrence of `c` in `s` (Python's `rfind`). */
  function LastIndexOf(s: string, c: char): (r: Option<nat>)
    ensures r.None? <==> c !in s
    ensures r.Some? ==> r.value < |s| && s[r.value] == c && c !in s[r.value + 1..]
  {
    if |s| == 0 then None
    else if s[|s| - 1] == c then
      assert s[|s|..] == [];
      Some(|s| - 1)
    else
      var init := s[..|s| - 1];
      match LastIndexOf(init, c)
      case None =>
        assert s == init + [s[|s| - 1]];
        None
      case Some(i) =>
        assert s[i + 1..] == init[i + 1..] + [s[|s| - 1]];
        Some(i)
  }

  /** Python's `s.split(c)` for a one-character separator: never empty, and
      the pieces contain no separator. */
  function Split(s: string, c: char): (r: seq<string>)
    ensures |r| >= 1
    ensures forall i :: 0 <= i < |r| ==> c !in r[i]
    decreases |s|
  {
    match IndexOf(s, c)
    case None => [s]
    case Some(i) => [s[..i]] + Split(s[i + 1..], c)
  }

  /** Splitting and joining back with the same separator restores the text. */
  lemma {:induction false} JoinSplit(s: string, c: char)
    ensures Join(Split(s, c), [c]) == s
    decreases |s|
  {
    match IndexOf(s, c)
    case None =>
    case Some(i) =>
      var rest := Split(s[i + 1..], c);
      JoinSplit(s[i + 1..], c);
      assert Split(s, c) == [s[..i]] + rest;
      assert ([s[..i]] + rest)[1..] == rest;
      assert s == s[..i] + [c] + s[i + 1..];
  }

  /** Joining pieces that hold no separator and splitting again restores the
      pieces. */
  lemma {:induction false} SplitJoin(parts: seq<string>, c: char)
    requires |parts| >= 1
    requires forall i :: 0 <= i < |parts| ==> c !in parts[i]
    ensures Split(Join(parts, [c]), c) == parts
  {
    if |parts| == 1 {
      assert IndexOf(parts[0], c).None?;
    } else {
      var tail := Join(parts[1..], [c]);
      assert Join(parts, [c]) == parts[0] + [c] + tail;
      SplitAtFirst(parts[0], c, tail);
      SplitJoin(parts[1..], c);
      assert parts == [parts[0]] + parts[1..];
    }
  }

  /** Splitting a text whose first separator follows the piece `p`. */
  lemma {:induction false} SplitAtFirst(p: string, c: char, tail: string)
    requires c !in p
    ensures Split(p + [c] + tail, c) == [p] + Split(tail, c)
  {
    var s := p + [c] + tail;
    var n := |p|;
    assert IndexOf(s, c) == Some(n) by {
      assert s[n] == c && s[..n] == p;
    }
    assert s[..n] == p && s[n + 1..] == tail;
  }

  /** Python's `s.strip(c)` for one character: drops every leading and
      trailing `c`. */
  function Strip(s: string, c: char): (r: string)
    ensures |r| <= |s|
    decreases |s|
  {
    if |s| > 0 && s[0] == c then Strip(s[1..], c)
    else RStrip(s, c)
  }

  /** Python's `s.rstrip(c)` for one character. */
  function RStrip(s: string, c: char): (r: string)
    ensures r <= s
    ensures |r| > 0 ==> r[|r| - 1] != c
    ensures forall i :: |r| <= i < |s| ==> s[i] == c
    decreases |s|
  {
    if |s| > 0 && s[|s| - 1] == c then RStrip(s[..|s| - 1], c) else s
  }

  /** A stripped string neither starts nor ends with the stripped character,
      and a string without that character is left as it is. */
  lemma {:induction false} StripEnds(s: string, c: char)
    ensures var r := Strip(s, c);
      |r| > 0 ==> r[0] != c && r[|r| - 1] != c
    ensures c !in s ==> Strip(s, c) == s
    decreases |s|
  {
    if |s| > 0 && s[0] == c {
      StripEnds(s[1..], c);
    } else {
      var r := RStrip(s, c);
      if |r| > 0 {
        assert r[0] == s[0];
      }
      if c !in s && |s| > 0 {
        assert s[|s| - 1] in s;
      }
    }
  }

  /** `c * n` in Python: `n` copies of the character `c`. */
  function Repeat(c: char, n: nat): (r: string)
    ensures |r| == n && forall i :: 0 <= i < n ==> r[i] == c
  {
    if n == 0 then "" else Repeat(c, n - 1) + [c]
  }

  function Spaces(n: nat): (r: string)
    ensures |r| == n
    ensures forall i :: 0 <= i < n ==> r[i] == ' '
  {
    if n == 0 then "" else " " + Spaces(n - 1)
  }

  function LowerChar(c: char): char
  {
    if 'A' <= c <= 'Z' then (c as int + 32) as char else c
  }

  function UpperChar(c: char): char
  {
    if 'a' <= c <= 'z' then (c as int - 32) as char else c
  }

  /** Python's `str.lower()` restricted to ASCII letters. */
  function Lower(s: string): (r: string)
    ensures |r| == |s|
    ensures forall i :: 0 <= i < |s| ==> r[i] == LowerChar(s[i])
  {
    if |s| == 0 then "" else [LowerChar(s[0])] + Lower(s[1..])
  }

  /** Python's `str.upper()` restricted to ASCII letters. */
  function Upper(s: string): (r: string)
    ensures |r| == |s|
    ensures forall i :: 0 <= i < |s| ==> r[i] == UpperChar(s[i])
  {
    if |s| == 0 then "" else [UpperChar(s[0])] + Upper(s[1..])
  }

  /** Lower-casing is idempotent and leaves no ASCII capital behind. */
  lemma {:induction false} LowerIdempotent(s: string)
    ensures Lower(Lower(s)) == Lower(s)
    ensures forall i :: 0 <= i < |s| ==> !('A' <= Lower(s)[i] <= 'Z')
  {
  }

  predicate IsDigit(c: char) {
    '0' <= c <= '9'
  }

  predicate AllDigits(s: string) {
    forall i :: 0 <= i < |s| ==> IsDigit(s[i])
  }

  function DigitChar(d: nat): char
    requires d < 10
  {
    ('0' as int + d) as char
  }

  /** Decimal rendering of a natural, as Python's `str(n)` and Ruby's `to_s`. */
  function NatToString(n: nat): (r: string)
    ensures |r| >= 1 && AllDigits(r)
    ensures n > 0 ==> r[0] != '0'
  {
    if n < 10 then [DigitChar(n)]
    else NatToString(n / 10) + [DigitChar(n % 10)]
  }

  /** Value of a run of decimal digits, leading zeros allowed, as Python's
      `int()` reads it. */
  function DigitsValue(s: string): nat
    requires AllDigits(s)
  {
    if |s| == 0 then 0
    else DigitsValue(s[..|s| - 1]) * 10 + (s[|s| - 1] as int - '0' as int)
  }

  /** Reading back a rendered natural gives the natural. */
  lemma {:induction false} DigitsValueOfNatToString(n: nat)
    ensures DigitsValue(NatToString(n)) == n
  {
    if n >= 10 {
      var prefix := NatToString(n / 10);
      var s := prefix + [DigitChar(n % 10)];
      assert s[..|s| - 1] == prefix;
      DigitsValueOfNatToString(n / 10);
    }
  }

  /** Distinct naturals render to distinct strings. */
  lemma {:induction false} NatToStringInjective(m: nat, n: nat)
    requires NatToString(m) == NatToString(n)
    ensures m == n
  {
    DigitsValueOfNatToString(m);
    DigitsValueOfNatToString(n);
  }

  /** Python's string comparison `a <= b`: lexicographic by code point, a
      proper prefix coming first. */
  predicate StrLe(a: string, b: string)
    decreases |a|
  {
    |a| == 0 || (|b| > 0 && (a[0] < b[0] || (a[0] == b[0] && StrLe(a[1..], b[1..]))))
  }

  lemma {:induction false} StrLeTotal(a: string, b: string)
    ensures StrLe(a, b) || StrLe(b, a)
    decreases |a|
  {
    if |a| > 0 && |b| > 0 && a[0] == b[0] {
      StrLeTotal(a[1..], b[1..]);
    }
  }

  lemma {:induction false} StrLeTransitive(a: string, b: string, c: string)
    requires StrLe(a, b) && StrLe(b, c)
    ensures StrLe(a, c)
    decreases |a|
  {
    if |a| > 0 && a[0] == b[0] && b[0] == c[0] {
      StrLeTransitive(a[1..], b[1..], c[1..]);
    }
  }

  /** Only equal strings are each other's lower bound. */
  lemma {:induction false} StrLeAntisymmetric(a: string, b: string)
    requires StrLe(a, b) && StrLe(b, a)
    ensures a == b
    decreases |a|
  {
    if |a| > 0 {
      StrLeAntisymmetric(a[1..], b[1..]);
      assert a == [a[0]] + a[1..] && b == [b[0]] + b[1..];
    }
  }
}

=== FILE: validator_base.dfy ===
/**
 The validators of plugin package version 5: `ValidatorBase.validate`, which
 runs the compatibility check and then three groups of schema checks driven
 by per-class tables keyed by data-tree branch, and `ValidatorV5.validate`,
 which appends the metadata, deprecation, node-attribute and per-release
 graph checks to that report.
 */
module ValidatorBase {
  import opened Base
  import opened Json
  import opened SchemaErrors
  import opened Reports
  import opened Checks
  import Namespaces

  /** The three schemas `env_attributes` takes, in its argument order. */
  datatype EnvSchemas = EnvSchemas(root: Json, attribute: Json, meta: Json)

  /** The class attributes a concrete validator sets: the minimal Fuel
      version and the three branch tables (dictionaries, in their
      iteration order). */
  datatype Validator = Validator(
    minimalFuelVersion: string,
    branchSchemas: seq<(string, Json)>,
    multiSchemas: seq<(string, Fields)>,
    envAttributes: seq<(string, EnvSchemas)>)

  /** `ValidatorBase`'s own class attributes, which `ValidatorV5` keeps. */
  const Defaults: Validator := Validator("0.1", [], [], [])

  // ---------------------------------------------------------------------
  // Branch selection
  // ---------------------------------------------------------------------

  /** What one table entry selects, as (title, schema, value): with
      `emptyIsTree`, the empty key stands for the whole tree under the
      title `metadata`; any other key selects its value only when it is
      present and truthy. */
  function Pick<S>(key: string, schema: S, tree: Json, emptyIsTree: bool): (r: Option<(string, S, Json)>)
    ensures emptyIsTree && key == "" ==> r == Some(("metadata", schema, tree))
    ensures !(emptyIsTree && key == "") ==> (r.Some? <==> GetTruthy(tree, key).Some?)
    ensures r.Some? && !(emptyIsTree && key == "") ==>
      Get(tree, key).Some? && r.value == (key, schema, Get(tree, key).value) && Truthy(r.value.2)
  {
    if emptyIsTree && key == "" then Some(("metadata", schema, tree))
    else match GetTruthy(tree, key)
      case Some(v) => Some((key, schema, v))
      case None => None
  }

  /** The entries a table selects from a tree, in table order. */
  function Select<S>(table: seq<(string, S)>, tree: Json, emptyIsTree: bool): (r: seq<(string, S, Json)>)
    ensures |r| <= |table|
  {
    if |table| == 0 then []
    else
      var rest := Select(table[1..], tree, emptyIsTree);
      match Pick(table[0].0, table[0].1, tree, emptyIsTree)
      case Some(p) => [p] + rest
      case None => rest
  }

  /** Every selected entry is what some table entry picks, and every table
      entry that picks something has it selected. */
  lemma {:induction false} SelectMembers<S>(table: seq<(string, S)>, tree: Json, emptyIsTree: bool)
    ensures forall j :: 0 <= j < |Select(table, tree, emptyIsTree)| ==>
      exists i :: 0 <= i < |table| && Pick(table[i].0, table[i].1, tree, emptyIsTree) == Some(Select(table, tree, emptyIsTree)[j])
    ensures forall i :: 0 <= i < |table| && Pick(table[i].0, table[i].1, tree, emptyIsTree).Some? ==>
      Pick(table[i].0, table[i].1, tree, emptyIsTree).value in Select(table, tree, emptyIsTree)
  {
    if |table| > 0 {
      SelectMembers(table[1..], tree, emptyIsTree);
      var rest := Select(table[1..], tree, emptyIsTree);
      var sel := Select(table, tree, emptyIsTree);
      var head := Pick(table[0].0, table[0].1, tree, emptyIsTree);
      assert sel == if head.Some? then [head.value] + rest else rest;
      forall j | 0 <= j < |sel|
        ensures exists i :: 0 <= i < |table| && Pick(table[i].0, table[i].1, tree, emptyIsTree) == Some(sel[j])
      {
        if head.Some? && j == 0 {
          assert Pick(table[0].0, table[0].1, tree, emptyIsTree) == Some(sel[j]);
        } else {
          var r := if head.Some? then j - 1 else j;
          assert sel[j] == rest[r];
          var i :| 0 <= i < |table[1..]| && Pick(table[1..][i].0, table[1..][i].1, tree, emptyIsTree) == Some(rest[r]);
          assert table[1..][i] == table[i + 1];
          assert Pick(table[i + 1].0, table[i + 1].1, tree, emptyIsTree) == Some(sel[j]);
        }
      }
      forall i | 0 <= i < |table| && Pick(table[i].0, table[i].1, tree, emptyIsTree).Some?
        ensures Pick(table[i].0, table[i].1, tree, emptyIsTree).value in sel
      {
        if i > 0 {
          assert table[i] == table[1..][i - 1];
          assert Pick(table[i].0, table[i].1, tree, emptyIsTree).value in rest;
        }
      }
    } else {
      assert Select(table, tree, emptyIsTree) == [];
    }
  }

  /** Selection keeps table order: the entries of a concatenated table are
      those of its first part followed by those of its second. */
  lemma {:induction false} SelectAppend<S>(a: seq<(string, S)>, b: seq<(string, S)>, tree: Json, emptyIsTree: bool)
    ensures Select(a + b, tree, emptyIsTree) == Select(a, tree, emptyIsTree) + Select(b, tree, emptyIsTree)
  {
    if |a| > 0 {
      assert (a + b)[0] == a[0];
      assert (a + b)[1..] == a[1..] + b;
      SelectAppend(a[1..], b, tree, emptyIsTree);
    } else {
      assert a + b == b;
    }
  }

  /** Whether some entry needs `data_tree.get`, which only a dictionary
      has. */
  predicate NeedsGet<S>(table: seq<(string, S)>, emptyIsTree: bool) {
    exists i :: 0 <= i < |table| && !(emptyIsTree && table[i].0 == "")
  }

  // ---------------------------------------------------------------------
  // Groups of branch checks
  // ---------------------------------------------------------------------

  /** One node per selected entry, titled with it and holding its check's
      report; the first check that raises stops the group. */
  function CheckPicked<S>(picked: seq<(string, S, Json)>, results: seq<Result<Node>>): (r: Result<seq<Node>>)
    requires |results| == |picked|
    ensures r.Ok? <==> forall i :: 0 <= i < |results| ==> results[i].Ok?
    ensures r.Ok? ==> |r.value| == |picked|
    ensures r.Ok? ==> forall i :: 0 <= i < |picked| ==>
      r.value[i] == AddNodes(Titled(picked[i].0), [results[i].value])
  {
    if |picked| == 0 then Ok([])
    else
      var n :- results[0];
      var rest :- CheckPicked(picked[1..], results[1..]);
      PickedShift(picked, results);
      Ok([AddNodes(Titled(picked[0].0), [n])] + rest)
  }

  lemma {:induction false} PickedShift<S>(picked: seq<(string, S, Json)>, results: seq<Result<Node>>)
    requires |results| == |picked| > 0
    ensures forall i :: 1 <= i < |picked| ==> picked[i] == picked[1..][i - 1] && results[i] == results[1..][i - 1]
  {}

  /** A titled wrapper around one report fails exactly when that report
      does. */
  lemma {:induction false} WrapperClean(title: string, n: Node)
    ensures FailedCount(Flatten(AddNodes(Titled(title), [n]))) == FailedCount(Flatten(n))
  {
    var w := AddNodes(Titled(title), [n]);
    assert w.children == [n];
    assert FlattenAll([n]) == Flatten(n) + FlattenAll([]);
    assert Flatten(w) == [w] + Flatten(n);
    FailedCountAppend([w], Flatten(n));
  }

  /** A group title node carries no level and no failed flag, so a group
      is successful exactly when every node added to it is. */
  lemma {:induction false} GroupClean(title: string, nodes: seq<Node>)
    ensures IsSuccessful(AddNodes(Titled(title), nodes)) <==>
      forall i :: 0 <= i < |nodes| ==> FailedCount(Flatten(nodes[i])) == 0
  {
    AddNodesCounts(Titled(title), nodes, 0);
    FlattenAllClean(nodes);
  }

  /** A group of wrapped check reports (the nodes `CheckPicked` builds) is
      successful exactly when every report is. */
  lemma {:induction false} PickedSuccess<S>(title: string, picked: seq<(string, S, Json)>, results: seq<Result<Node>>, nodes: seq<Node>)
    requires |results| == |picked| == |nodes|
    requires forall i :: 0 <= i < |results| ==> results[i].Ok?
    requires forall i :: 0 <= i < |picked| ==> nodes[i] == AddNodes(Titled(picked[i].0), [results[i].value])
    ensures IsSuccessful(AddNodes(Titled(title), nodes)) <==>
      forall i :: 0 <= i < |results| ==> IsSuccessful(results[i].value)
  {
    GroupClean(title, nodes);
    if IsSuccessful(AddNodes(Titled(title), nodes)) {
      forall i | 0 <= i < |results|
        ensures IsSuccessful(results[i].value)
      {
        WrapperSuccess(picked[i].0, results[i].value);
      }
    } else {
      var i :| 0 <= i < |nodes| && FailedCount(Flatten(nodes[i])) != 0;
      WrapperSuccess(picked[i].0, results[i].value);
      assert !IsSuccessful(results[i].value);
    }
  }

  /** A titled wrapper around one report holds no failure exactly when the
      report is successful. */
  lemma {:induction false} WrapperSuccess(title: string, n: Node)
    ensures FailedCount(Flatten(AddNodes(Titled(title), [n]))) == 0 <==> IsSuccessful(n)
  {
    WrapperClean(title, n);
    CountFailuresIsFailedNodes(n, 0);
  }


  /** `check_data_tree_*`: a group node with one titled node per selected
      branch, successful exactly when every branch report is. */
  function Group<S>(title: string, picked: seq<(string, S, Json)>, results: seq<Result<Node>>): (r: Result<Node>)
    requires |results| == |picked|
    ensures r.Ok? <==> forall i :: 0 <= i < |results| ==> results[i].Ok?
    ensures r.Ok? ==> r.value.text == title && r.value.level == NoLevel && !r.value.failed
    ensures r.Ok? ==> |r.value.children| == |picked|
    ensures r.Ok? ==> forall i :: 0 <= i < |picked| ==>
      r.value.children[i].text == picked[i].0 && r.value.children[i].children == [results[i].value]
    ensures r.Ok? ==> (IsSuccessful(r.value) <==>
      forall i :: 0 <= i < |results| ==> IsSuccessful(results[i].value))
  {
    var nodes :- CheckPicked(picked, results);
    PickedSuccess(title, picked, results, nodes);
    Ok(AddNodes(Titled(title), nodes))
  }

  const AttributeErrorGet: Error := Error(AttributeError, "object has no attribute 'get'")

  /** `check_data_tree_branches_schema`: each selected branch holds the
      schema report of its value (the whole tree for the empty key), and
      the group is successful exactly when every selected value conforms;
      a tree that is not a dictionary raises once a key is looked up. */
  function CheckBranches(engine: Engine, v: Validator, tree: Json): (r: Result<Node>)
    ensures r.Ok? <==> tree.Obj? || !NeedsGet(v.branchSchemas, true)
    ensures r.Ok? ==> r.value.text == "Checking schemas"
    ensures r.Ok? ==> |r.value.children| == |Select(v.branchSchemas, tree, true)|
    ensures r.Ok? ==> forall i :: 0 <= i < |r.value.children| ==>
      var p := Select(v.branchSchemas, tree, true)[i];
      r.value.children[i].text == p.0 && r.value.children[i].children == [JsonSchemaIsValid(engine, p.1, p.2)]
    ensures r.Ok? ==> (IsSuccessful(r.value) <==>
      forall i :: 0 <= i < |Select(v.branchSchemas, tree, true)| ==>
        var p := Select(v.branchSchemas, tree, true)[i];
        engine(p.2, p.1) == [])
  {
    if !tree.Obj? && NeedsGet(v.branchSchemas, true) then Err(AttributeErrorGet)
    else
      var picked := Select(v.branchSchemas, tree, true);
      var results := seq(|picked|, i requires 0 <= i < |picked| => Ok(JsonSchemaIsValid(engine, picked[i].1, picked[i].2)));
      SchemaGroup(engine, "Checking schemas", picked, results);
      Group("Checking schemas", picked, results)
  }

  /** A group of schema reports, one per selected branch: it succeeds, and
      it is successful exactly when every selected value conforms. */
  lemma SchemaGroup(engine: Engine, title: string, picked: seq<(string, Json, Json)>, results: seq<Result<Node>>)
    requires |results| == |picked|
    requires forall i :: 0 <= i < |picked| ==> results[i] == Ok(JsonSchemaIsValid(engine, picked[i].1, picked[i].2))
    ensures Group(title, picked, results).Ok?
    ensures var r := Group(title, picked, results).value;
      && r.text == title && |r.children| == |picked|
      && (forall i :: 0 <= i < |picked| ==>
            r.children[i].text == picked[i].0 && r.children[i].children == [JsonSchemaIsValid(engine, picked[i].1, picked[i].2)])
      && (IsSuccessful(r) <==> forall i :: 0 <= i < |picked| ==> engine(picked[i].2, picked[i].1) == [])
  {
    var r := Group(title, picked, results).value;
    assert (forall i :: 0 <= i < |results| ==> IsSuccessful(results[i].value))
      <==> forall i :: 0 <= i < |picked| ==> engine(picked[i].2, picked[i].1) == [];
  }

  /** The multi-schema check of one selected branch. */
  function MultiCheck(engine: Engine, show: Json -> string, p: (string, Fields, Json)): Result<Node> {
    MultiJsonSchemaIsValid(engine, p.1, show, p.2)
  }

  /** The environment-attributes check of one selected branch. Every
      validator leaves `_validator` as `None`, so the attributes, like the
      root, are checked by the default `Draft4Validator`: one engine serves
      both. */
  function EnvCheck(engine: Engine, p: (string, EnvSchemas, Json)): Result<Node> {
    EnvAttributes(engine, engine, p.2, p.1.root, p.1.attribute, p.1.meta)
  }

  /** `MultiCheck` and `EnvCheck` as closures, one term per engine. */
  function MultiChecker(engine: Engine, show: Json -> string): (f: ((string, Fields, Json)) -> Result<Node>)
    ensures forall p :: f(p) == MultiCheck(engine, show, p)
  {
    p => MultiCheck(engine, show, p)
  }

  function EnvChecker(engine: Engine): (f: ((string, EnvSchemas, Json)) -> Result<Node>)
    ensures forall p :: f(p) == EnvCheck(engine, p)
  {
    p => EnvCheck(engine, p)
  }

  /** A group over results computed branch by branch is built exactly when
      the check succeeds on every branch. */
  lemma {:induction false} GroupEachOk<S>(title: string, picked: seq<(string, S, Json)>, check: ((string, S, Json)) -> Result<Node>)
    ensures Group(title, picked, Each(picked, check)).Ok? <==> forall i :: 0 <= i < |picked| ==> check(picked[i]).Ok?
  {
    var results := Each(picked, check);
    if !Group(title, picked, results).Ok? {
      var i :| 0 <= i < |results| && !results[i].Ok?;
      assert !check(picked[i]).Ok?;
    }
  }

  /** `check_data_tree_multi_branches_schema`: each present, truthy branch
      holds the multi-schema report of its value. */
  function CheckMultiBranches(engine: Engine, show: Json -> string, v: Validator, tree: Json): (r: Result<Node>)
    ensures !tree.Obj? && v.multiSchemas != [] ==> r.Err?
    ensures r.Ok? ==> r.value.text == "Checking multi schemas"
    ensures r.Ok? ==> |r.value.children| == |Select(v.multiSchemas, tree, false)|
  {
    if !tree.Obj? && v.multiSchemas != [] then Err(AttributeErrorGet)
    else
      var picked := Select(v.multiSchemas, tree, false);
      Group("Checking multi schemas", picked, Each(picked, MultiChecker(engine, show)))
  }

  /** `check_data_tree_env_attributes`: each present, truthy branch holds
      the environment-attributes report of its value. */
  function CheckEnvAttributes(engine: Engine, v: Validator, tree: Json): (r: Result<Node>)
    ensures !tree.Obj? && v.envAttributes != [] ==> r.Err?
    ensures r.Ok? ==> r.value.text == "Checking env attributes schemas"
    ensures r.Ok? ==> |r.value.children| == |Select(v.envAttributes, tree, false)|
  {
    if !tree.Obj? && v.envAttributes != [] then Err(AttributeErrorGet)
    else
      var picked := Select(v.envAttributes, tree, false);
      Group("Checking env attributes schemas", picked, Each(picked, EnvChecker(engine)))
  }

  /** On a dictionary, or with no multi-schema table, the group is built
      exactly when every selected branch's multi-schema check is. */
  lemma {:induction false} CheckMultiBranchesOk(engine: Engine, show: Json -> string, v: Validator, tree: Json)
    requires tree.Obj? || v.multiSchemas == []
    ensures CheckMultiBranches(engine, show, v, tree).Ok? <==>
      forall i :: 0 <= i < |Select(v.multiSchemas, tree, false)| ==> MultiCheck(engine, show, Select(v.multiSchemas, tree, false)[i]).Ok?
  {
    GroupEachOk("Checking multi schemas", Select(v.multiSchemas, tree, false), MultiChecker(engine, show));
  }

  /** Each node of the multi-schema group holds the multi-schema report of
      its branch, and the group is successful exactly when every one is. */
  lemma {:induction false} CheckMultiBranchesReports(engine: Engine, show: Json -> string, v: Validator, tree: Json)
    requires CheckMultiBranches(engine, show, v, tree).Ok?
    ensures forall i :: 0 <= i < |CheckMultiBranches(engine, show, v, tree).value.children| ==>
      && MultiCheck(engine, show, Select(v.multiSchemas, tree, false)[i]).Ok?
      && CheckMultiBranches(engine, show, v, tree).value.children[i].text == Select(v.multiSchemas, tree, false)[i].0
      && CheckMultiBranches(engine, show, v, tree).value.children[i].children == [MultiCheck(engine, show, Select(v.multiSchemas, tree, false)[i]).value]
    ensures IsSuccessful(CheckMultiBranches(engine, show, v, tree).value) <==>
      forall i :: 0 <= i < |Select(v.multiSchemas, tree, false)| ==> IsSuccessful(MultiCheck(engine, show, Select(v.multiSchemas, tree, false)[i]).value)
  {
    var picked := Select(v.multiSchemas, tree, false);
    var results := Each(picked, MultiChecker(engine, show));
    assert CheckMultiBranches(engine, show, v, tree) == Group("Checking multi schemas", picked, results);
    forall i | 0 <= i < |picked|
      ensures results[i] == MultiCheck(engine, show, picked[i])
    {}
  }

  /** On a dictionary, or with no environment-attributes table, the group
      is built exactly when every selected branch's check is. */
  lemma {:induction false} CheckEnvAttributesOk(engine: Engine, v: Validator, tree: Json)
    requires tree.Obj? || v.envAttributes == []
    ensures CheckEnvAttributes(engine, v, tree).Ok? <==>
      forall i :: 0 <= i < |Select(v.envAttributes, tree, false)| ==> EnvCheck(engine, Select(v.envAttributes, tree, false)[i]).Ok?
  {
    GroupEachOk("Checking env attributes schemas", Select(v.envAttributes, tree, false), EnvChecker(engine));
  }

  /** Each node of the environment-attributes group holds the report of
      its branch, and the group is successful exactly when every one is. */
  lemma {:induction false} CheckEnvAttributesReports(engine: Engine, v: Validator, tree: Json)
    requires CheckEnvAttributes(engine, v, tree).Ok?
    ensures forall i :: 0 <= i < |CheckEnvAttributes(engine, v, tree).value.children| ==>
      && EnvCheck(engine, Select(v.envAttributes, tree, false)[i]).Ok?
      && CheckEnvAttributes(engine, v, tree).value.children[i].text == Select(v.envAttributes, tree, false)[i].0
      && CheckEnvAttributes(engine, v, tree).value.children[i].children == [EnvCheck(engine, Select(v.envAttributes, tree, false)[i]).value]
    ensures IsSuccessful(CheckEnvAttributes(engine, v, tree).value) <==>
      forall i :: 0 <= i < |Select(v.envAttributes, tree, false)| ==> IsSuccessful(EnvCheck(engine, Select(v.envAttributes, tree, false)[i]).value)
  {
    var picked := Select(v.envAttributes, tree, false);
    var results := Each(picked, EnvChecker(engine));
    assert CheckEnvAttributes(engine, v, tree) == Group("Checking env attributes schemas", picked, results);
    forall i | 0 <= i < |picked|
      ensures results[i] == EnvCheck(engine, picked[i])
    {}
  }

  // ---------------------------------------------------------------------
  // ValidatorBase.validate
  // ---------------------------------------------------------------------

  const ValidateTitle: string := "Validating data"

  /** `ValidatorBase.validate(data_tree)`: the compatibility check, then
      the branch, multi-branch and environment-attribute groups, in that
      order; the report is successful exactly when all four are. */
  function Validate(engine: Engine, show: Json -> string, v: Validator, tree: Json): (r: Result<Node>)
    ensures r.Ok? <==>
      && FuelVerCompatible(v.minimalFuelVersion, tree, show).Ok?
      && CheckBranches(engine, v, tree).Ok?
      && CheckMultiBranches(engine, show, v, tree).Ok?
      && CheckEnvAttributes(engine, v, tree).Ok?
    ensures r.Ok? ==> tree.Obj?
    ensures r.Ok? ==> r.value.text == ValidateTitle && !r.value.failed
    ensures r.Ok? ==> r.value.children == [
      FuelVerCompatible(v.minimalFuelVersion, tree, show).value,
      CheckBranches(engine, v, tree).value,
      CheckMultiBranches(engine, show, v, tree).value,
      CheckEnvAttributes(engine, v, tree).value]
    ensures r.Ok? ==> (IsSuccessful(r.value) <==>
      && IsSuccessful(FuelVerCompatible(v.minimalFuelVersion, tree, show).value)
      && IsSuccessful(CheckBranches(engine, v, tree).value)
      && IsSuccessful(CheckMultiBranches(engine, show, v, tree).value)
      && IsSuccessful(CheckEnvAttributes(engine, v, tree).value))
  {
    var compat :- FuelVerCompatible(v.minimalFuelVersion, tree, show);
    assert FuelVersions(tree).Ok?;
    var branches := CheckBranches(engine, v, tree).value;
    var multi :- CheckMultiBranches(engine, show, v, tree);
    var env :- CheckEnvAttributes(engine, v, tree);
    FourClean(ValidateTitle, compat, branches, multi, env);
    Ok(AddNodes(Titled(ValidateTitle), [compat, branches, multi, env]))
  }

  /** `ValidatorBase.validate` as written: its first statement is
      `utils.ReportNode('Validating data')`, which the `utils` package does
      not bind, so it raises before any check runs; `ValidatorV5.validate`
      calls it first and raises the same way (and would again at its own
      `utils.ReportNode('Checking release:')`). */
  function ValidateAsWritten(engine: Engine, show: Json -> string, v: Validator, tree: Json): (r: Result<Node>)
    ensures r == Err(Namespaces.NoAttribute("ReportNode"))
  {
    Namespaces.UtilsLacksReportNode();
    Err(Namespaces.Attribute(Namespaces.UtilsNames, "ReportNode").error)
  }

  /** With the base class's tables, empty metadata validates successfully
      under the corrected definition and raises under the one as written. */
  lemma {:induction false} ValidateDiscrepancy(engine: Engine, show: Json -> string)
    ensures Validate(engine, show, Defaults, Obj([])).Ok?
    ensures IsSuccessful(Validate(engine, show, Defaults, Obj([])).value)
    ensures ValidateAsWritten(engine, show, Defaults, Obj([])).Err?
  {
    var tree := Obj([]);
    assert FuelVersions(tree) == Ok([]);
    assert BelowMinimal([], "0.1") == Ok([]);
    DefaultsVerdict(engine, show, tree);
  }

  /** A title node over four reports is successful exactly when all four
      are. */
  lemma {:induction false} FourClean(title: string, a: Node, b: Node, c: Node, d: Node)
    ensures IsSuccessful(AddNodes(Titled(title), [a, b, c, d])) <==>
      IsSuccessful(a) && IsSuccessful(b) && IsSuccessful(c) && IsSuccessful(d)
  {
    GroupSuccess(title, [a, b, c, d]);
    AllSuccessfulFour(a, b, c, d);
  }

  lemma AllSuccessfulFour(a: Node, b: Node, c: Node, d: Node)
    ensures AllSuccessful([a, b, c, d]) <==> IsSuccessful(a) && IsSuccessful(b) && IsSuccessful(c) && IsSuccessful(d)
  {
    var nodes := [a, b, c, d];
    assert nodes[0] == a && nodes[1] == b && nodes[2] == c && nodes[3] == d;
  }

  /** A title node is successful exactly when every node added to it is. */
  lemma {:induction false} GroupSuccess(title: string, nodes: seq<Node>)
    ensures IsSuccessful(AddNodes(Titled(title), nodes)) <==> forall i :: 0 <= i < |nodes| ==> IsSuccessful(nodes[i])
  {
    GroupClean(title, nodes);
    forall i | 0 <= i < |nodes|
      ensures IsSuccessful(nodes[i]) <==> FailedCount(Flatten(nodes[i])) == 0
    {
      CountFailuresIsFailedNodes(nodes[i], 0);
    }
  }

  /** With the base class's empty tables the three groups are empty, and
      the verdict is the compatibility check's alone. */
  lemma {:induction false} DefaultsVerdict(engine: Engine, show: Json -> string, tree: Json)
    ensures Validate(engine, show, Defaults, tree).Ok? ==>
      var r := Validate(engine, show, Defaults, tree).value;
      && |r.children| == 4
      && r.children[1].children == [] && r.children[2].children == [] && r.children[3].children == []
      && (IsSuccessful(r) <==> IsSuccessful(FuelVerCompatible("0.1", tree, show).value))
  {
    if Validate(engine, show, Defaults, tree).Err? { return; }
    var r := Validate(engine, show, Defaults, tree).value;
    var b := CheckBranches(engine, Defaults, tree).value;
    var m := CheckMultiBranches(engine, show, Defaults, tree).value;
    var e := CheckEnvAttributes(engine, Defaults, tree).value;
    assert r.children == [FuelVerCompatible("0.1", tree, show).value, b, m, e];
    assert b.children == [] && m.children == [] && e.children == [];
    assert CountFailures(b, 0) == 0;
    assert CountFailures(m, 0) == 0;
    assert CountFailures(e, 0) == 0;
  }

  // ---------------------------------------------------------------------
  // ValidatorV5.validate
  // ---------------------------------------------------------------------

  const PackageVersionV5: string := "5.0.0"

  /** The task-type table of `ValidatorV5`: the nine types of the v2.1.0
      task schemas, then three that v2.2.0 adds. */
  const TaskTypesV5: seq<string> := [
    "puppet", "shell", "group", "skipped", "copy_files", "sync",
    "upload_file", "stage", "reboot",
    "move_to_bootstrap", "master_shell", "erase_node"]

  /** The schemas `ValidatorV5.validate` applies. */
  datatype SchemasV5 = SchemasV5(metadata: Json, nodeAttributes: Json, nicAttributes: Json, graph: Json)

  /** The optional node-attribute sections: NIC and bond metadata share
      the NIC schema. */
  function AttributeTable(s: SchemasV5): (r: seq<(string, Json)>)
    ensures |r| == 3
    ensures r[0] == ("node_attributes_metadata", s.nodeAttributes)
    ensures r[1].1 == r[2].1 == s.nicAttributes
  {
    [("node_attributes_metadata", s.nodeAttributes),
     ("nic_attributes_metadata", s.nicAttributes),
     ("bond_attributes_metadata", s.nicAttributes)]
  }

  /** The schema reports of the selected entries, untitled. */
  function SchemaReports(engine: Engine, picked: seq<(string, Json, Json)>): (r: seq<Node>)
    ensures |r| == |picked|
    ensures forall i :: 0 <= i < |picked| ==> r[i] == JsonSchemaIsValid(engine, picked[i].1, picked[i].2)
  {
    seq(|picked|, i requires 0 <= i < |picked| => JsonSchemaIsValid(engine, picked[i].1, picked[i].2))
  }

  /** `'Graph: "{}"'.format(graph.get('type'))`, a missing type showing
      as `None`. */
  function GraphLine(graph: Json, show: Json -> string): (r: string)
    ensures Get(graph, "type").Some? && Get(graph, "type").value.Str? ==>
      r == "Graph: \"" + Get(graph, "type").value.s + "\""
  {
    var t := if Get(graph, "type").Some? then Get(graph, "type").value else Null;
    "Graph: \"" + Display(t, show) + "\""
  }

  /** The info line naming a graph's type. */
  function GraphInfo(show: Json -> string, graph: Json): Node {
    MakeNode(GraphLine(graph, show), InfoLevel, [], None)
  }

  /** The lines one release contributes: per graph, an info line naming
      its type and then its schema report. */
  function GraphNodes(engine: Engine, graphSchema: Json, show: Json -> string, graphs: seq<Json>): (r: seq<Node>)
    ensures |r| == 2 * |graphs|
  {
    Interleave(graphs, g => GraphInfo(show, g), g => JsonSchemaIsValid(engine, graphSchema, g))
  }

  /** Per graph, in order: the info line naming its type, then its schema
      report. */
  lemma {:induction false} GraphNodesAt(engine: Engine, graphSchema: Json, show: Json -> string, graphs: seq<Json>, i: nat)
    requires i < |graphs|
    ensures GraphNodes(engine, graphSchema, show, graphs)[2 * i] == MakeNode(GraphLine(graphs[i], show), InfoLevel, [], None)
    ensures GraphNodes(engine, graphSchema, show, graphs)[2 * i + 1] == JsonSchemaIsValid(engine, graphSchema, graphs[i])
  {
    InterleaveAt(graphs, g => GraphInfo(show, g), g => JsonSchemaIsValid(engine, graphSchema, g), i);
  }

  /** The graph lines hold no failure exactly when every graph conforms to
      the graph schema: the info lines never fail. */
  lemma {:induction false} GraphNodesClean(engine: Engine, graphSchema: Json, show: Json -> string, graphs: seq<Json>)
    ensures FailedCount(FlattenAll(GraphNodes(engine, graphSchema, show, graphs))) == 0 <==>
      forall i :: 0 <= i < |graphs| ==> engine(graphs[i], graphSchema) == []
  {
    if |graphs| > 0 {
      var rest := GraphNodes(engine, graphSchema, show, graphs[1..]);
      GraphNodesClean(engine, graphSchema, show, graphs[1..]);
      var info := GraphInfo(show, graphs[0]);
      var check := JsonSchemaIsValid(engine, graphSchema, graphs[0]);
      Base.AllSplit(graphs, g => engine(g, graphSchema) == []);
      assert GraphNodes(engine, graphSchema, show, graphs) == [info, check] + rest;
      LeafThenReport(info, check, rest);
      SchemaReportClean(engine, graphSchema, graphs[0]);
    } else {
      assert FlattenAll(GraphNodes(engine, graphSchema, show, graphs)) == [];
    }
  }

  /** A leaf that is not failed adds nothing to the failures of the list it
      heads. */
  lemma {:induction false} LeafThenReport(leaf: Node, n: Node, rest: seq<Node>)
    requires !leaf.failed && leaf.children == []
    ensures FailedCount(FlattenAll([leaf, n] + rest)) == FailedCount(Flatten(n)) + FailedCount(FlattenAll(rest))
  {
    FlattenAllAppend([leaf, n], rest);
    assert [leaf, n][1..] == [n];
    assert [n][1..] == [];
    assert FlattenAll([n]) == Flatten(n);
    assert Flatten(leaf) == [leaf];
    assert FlattenAll([leaf, n]) == [leaf] + Flatten(n);
    FailedCountAppend([leaf], Flatten(n));
    FailedCountAppend([leaf] + Flatten(n), FlattenAll(rest));
  }

  /** A release's node: "Checking release:" holding its graph lines; a
      release or graph that is not a dictionary has no `get` and raises. */
  function ReleaseNode(engine: Engine, graphSchema: Json, show: Json -> string, release: Json): (r: Result<Node>)
    ensures r.Ok? <==> release.Obj? && Iter(GetOr(release, "graphs", List([])).value).Ok?
                       && forall i :: 0 <= i < |Iter(GetOr(release, "graphs", List([])).value).value| ==>
                            Iter(GetOr(release, "graphs", List([])).value).value[i].Obj?
    ensures r.Ok? ==> r.value.text == "Checking release:" && !r.value.failed
    ensures r.Ok? ==> var graphs := Iter(GetOr(release, "graphs", List([])).value).value;
      && r.value.children == GraphNodes(engine, graphSchema, show, graphs)
      && (IsSuccessful(r.value) <==> forall i :: 0 <= i < |graphs| ==> engine(graphs[i], graphSchema) == [])
  {
    var gs :- GetOr(release, "graphs", List([]));
    var graphs :- Iter(gs);
    if exists i :: 0 <= i < |graphs| && !graphs[i].Obj? then Err(AttributeErrorGet)
    else
      var nodes := GraphNodes(engine, graphSchema, show, graphs);
      GraphNodesClean(engine, graphSchema, show, graphs);
      GroupClean("Checking release:", nodes);
      FlattenAllClean(nodes);
      Ok(AddNodes(Titled("Checking release:"), nodes))
  }

  /** One release node per entry of `data_tree.get('releases', [])`. */
  function ReleaseNodes(engine: Engine, graphSchema: Json, show: Json -> string, releases: seq<Json>): (r: Result<seq<Node>>)
    ensures r.Ok? <==> forall i :: 0 <= i < |releases| ==> ReleaseNode(engine, graphSchema, show, releases[i]).Ok?
    ensures r.Ok? ==> |r.value| == |releases|
    ensures r.Ok? ==> forall i :: 0 <= i < |releases| ==> r.value[i] == ReleaseNode(engine, graphSchema, show, releases[i]).value
  {
    if |releases| == 0 then Ok([])
    else
      var n :- ReleaseNode(engine, graphSchema, show, releases[0]);
      var rest :- ReleaseNodes(engine, graphSchema, show, releases[1..]);
      assert forall i :: 1 <= i < |releases| ==> releases[i] == releases[1..][i - 1];
      Ok([n] + rest)
  }

  /** The releases a tree lists. */
  function Releases(tree: Json): Result<seq<Json>> {
    var rs :- GetOr(tree, "releases", List([]));
    Iter(rs)
  }

  /** The reports `ValidatorV5.validate` appends, in order: the metadata
      schema, mode-directive and legacy `fuel_version` checks (always), the
      node, NIC and bond attribute checks (each only when its branch is
      present and truthy), and one node per release. */
  function SectionsV5(engine: Engine, show: Json -> string, s: SchemasV5, tree: Json): (r: Result<seq<Node>>)
    ensures r.Ok? <==> tree.Obj? && Releases(tree).Ok? && ReleaseNodes(engine, s.graph, show, Releases(tree).value).Ok?
    ensures r.Ok? ==> (r.value ==
      [JsonSchemaIsValid(engine, s.metadata, tree), ModeDirective(tree).value, LegacyFuelVersion(tree).value]
      + SchemaReports(engine, Select(AttributeTable(s), tree, false))
      + ReleaseNodes(engine, s.graph, show, Releases(tree).value).value)
  {
    var mode :- ModeDirective(tree);
    var legacy := LegacyFuelVersion(tree).value;
    var releases :- Releases(tree);
    var releaseNodes :- ReleaseNodes(engine, s.graph, show, releases);
    Ok([JsonSchemaIsValid(engine, s.metadata, tree), mode, legacy]
       + SchemaReports(engine, Select(AttributeTable(s), tree, false)) + releaseNodes)
  }

  /** `ValidatorV5.validate(data_tree)`: the base report (with the base
      class's empty tables) with the V5 sections appended after its own
      four children. */
  function ValidateV5(engine: Engine, show: Json -> string, s: SchemasV5, tree: Json): (r: Result<Node>)
    ensures r.Ok? <==> Validate(engine, show, Defaults, tree).Ok? && SectionsV5(engine, show, s, tree).Ok?
    ensures r.Ok? ==> r.value.text == ValidateTitle && !r.value.failed
    ensures r.Ok? ==> r.value.children == Validate(engine, show, Defaults, tree).value.children + SectionsV5(engine, show, s, tree).value
    ensures r.Ok? ==> (CountFailures(r.value, 0) ==
      CountFailures(Validate(engine, show, Defaults, tree).value, 0) + FailedCount(FlattenAll(SectionsV5(engine, show, s, tree).value)))
  {
    var base := Validate(engine, show, Defaults, tree);
    if base.Err? then Err(base.error)
    else
      var sections := SectionsV5(engine, show, s, tree);
      if sections.Err? then Err(sections.error)
      else
        AppendSections(base.value, sections.value);
        Ok(AddNodes(base.value, sections.value))
  }

  /** Appending the V5 sections keeps the base report's title, state and
      children, and adds the sections' failures to its count. */
  lemma AppendSections(base: Node, sections: seq<Node>)
    requires base.text == ValidateTitle && !base.failed
    ensures var r := AddNodes(base, sections);
      && r.text == ValidateTitle && !r.failed
      && r.children == base.children + sections
      && CountFailures(r, 0) == CountFailures(base, 0) + FailedCount(FlattenAll(sections))
  {
    AddNodesCounts(base, sections, 0);
  }

  /** A list of reports holds no failure exactly when each is successful. */
  lemma {:induction false} NodesClean(ns: seq<Node>)
    ensures FailedCount(FlattenAll(ns)) == 0 <==> AllSuccessful(ns)
  {
    FlattenAllClean(ns);
    forall i | 0 <= i < |ns|
      ensures IsSuccessful(ns[i]) <==> FailedCount(Flatten(ns[i])) == 0
    {
      CountFailuresIsFailedNodes(ns[i], 0);
    }
  }

  /** The attribute reports hold no failure exactly when every selected
      attribute branch conforms to its schema. */
  lemma {:induction false} SchemaReportsClean(engine: Engine, picked: seq<(string, Json, Json)>)
    ensures FailedCount(FlattenAll(SchemaReports(engine, picked))) == 0 <==> AllConform(engine, picked)
  {
    NodesClean(SchemaReports(engine, picked));
  }

  /** Every report of a list is successful. */
  predicate AllSuccessful(ns: seq<Node>) {
    forall i :: 0 <= i < |ns| ==> IsSuccessful(ns[i])
  }

  /** Every selected value conforms to its schema. */
  predicate AllConform(engine: Engine, picked: seq<(string, Json, Json)>) {
    forall i :: 0 <= i < |picked| ==> engine(picked[i].2, picked[i].1) == []
  }

  /** The V5 sections hold no failure exactly when the metadata conforms,
      every selected attribute branch conforms and every release node is
      successful: the deprecation checks only warn. */
  lemma {:induction false} SectionsV5Clean(engine: Engine, show: Json -> string, s: SchemasV5, tree: Json)
    ensures SectionsV5(engine, show, s, tree).Ok? ==>
      (FailedCount(FlattenAll(SectionsV5(engine, show, s, tree).value)) == 0 <==>
        && engine(tree, s.metadata) == []
        && AllConform(engine, Select(AttributeTable(s), tree, false))
        && AllSuccessful(ReleaseNodes(engine, s.graph, show, Releases(tree).value).value))
  {
    if SectionsV5(engine, show, s, tree).Err? { return; }
    var picked := Select(AttributeTable(s), tree, false);
    var fixed := [JsonSchemaIsValid(engine, s.metadata, tree), ModeDirective(tree).value, LegacyFuelVersion(tree).value];
    var reports := SchemaReports(engine, picked);
    var rel := ReleaseNodes(engine, s.graph, show, Releases(tree).value).value;
    assert SectionsV5(engine, show, s, tree).value == fixed + reports + rel;
    PartsClean(fixed, reports, rel);
    NodesClean(rel);
    FixedClean(engine, s, tree);
    SchemaReportsClean(engine, picked);
  }

  /** The V5 report is successful exactly when its base report is (which
      `DefaultsVerdict` reduces to the compatibility check) and the appended
      sections hold no failure (which `SectionsV5Clean` spells out). */
  lemma {:induction false} ValidateV5Verdict(engine: Engine, show: Json -> string, s: SchemasV5, tree: Json)
    ensures ValidateV5(engine, show, s, tree).Ok? ==>
      (IsSuccessful(ValidateV5(engine, show, s, tree).value) <==>
        IsSuccessful(Validate(engine, show, Defaults, tree).value)
        && FailedCount(FlattenAll(SectionsV5(engine, show, s, tree).value)) == 0)
  {
    var r := ValidateV5(engine, show, s, tree);
    if r.Ok? {
      AppendedSuccess(Validate(engine, show, Defaults, tree).value, SectionsV5(engine, show, s, tree).value, r.value);
    }
  }

  /** A report whose failures are the base report's plus those of appended
      sections is successful exactly when both parts are clean. */
  lemma AppendedSuccess(base: Node, sections: seq<Node>, r: Node)
    requires CountFailures(r, 0) == CountFailures(base, 0) + FailedCount(FlattenAll(sections))
    ensures IsSuccessful(r) <==> IsSuccessful(base) && FailedCount(FlattenAll(sections)) == 0
  {
    CountFailuresIsFailedNodes(base, 0);
  }

  /** Three lists of reports concatenated hold no failure exactly when none
      of the three does. */
  lemma {:induction false} PartsClean(a: seq<Node>, b: seq<Node>, c: seq<Node>)
    ensures FailedCount(FlattenAll(a + b + c)) == 0 <==>
      FailedCount(FlattenAll(a)) == 0 && FailedCount(FlattenAll(b)) == 0 && FailedCount(FlattenAll(c)) == 0
  {
    FlattenAllAppend(a + b, c);
    FlattenAllAppend(a, b);
    FailedCountAppend(FlattenAll(a) + FlattenAll(b), FlattenAll(c));
    FailedCountAppend(FlattenAll(a), FlattenAll(b));
  }

  /** Of the three fixed V5 checks only the metadata schema can fail. */
  lemma {:induction false} FixedClean(engine: Engine, s: SchemasV5, tree: Json)
    requires ModeDirective(tree).Ok? && LegacyFuelVersion(tree).Ok?
    ensures FailedCount(FlattenAll([JsonSchemaIsValid(engine, s.metadata, tree), ModeDirective(tree).value, LegacyFuelVersion(tree).value])) == 0
            <==> engine(tree, s.metadata) == []
  {
    var fixed := [JsonSchemaIsValid(engine, s.metadata, tree), ModeDirective(tree).value, LegacyFuelVersion(tree).value];
    NodesClean(fixed);
    assert fixed[0] == JsonSchemaIsValid(engine, s.metadata, tree);
    assert IsSuccessful(fixed[1]) && IsSuccessful(fixed[2]);
  }

  /** The attribute checks run exactly for the present, truthy branches, the
      NIC and bond ones against the same schema. */
  lemma {:induction false} AttributeSectionsSelected(s: SchemasV5, tree: Json, key: string)
    requires key in ["node_attributes_metadata", "nic_attributes_metadata", "bond_attributes_metadata"]
    ensures (exists j :: 0 <= j < |Select(AttributeTable(s), tree, false)| && Select(AttributeTable(s), tree, false)[j].0 == key)
            <==> GetTruthy(tree, key).Some?
    ensures key != "node_attributes_metadata" ==>
      forall j :: 0 <= j < |Select(AttributeTable(s), tree, false)| && Select(AttributeTable(s), tree, false)[j].0 == key ==>
        Select(AttributeTable(s), tree, false)[j].1 == s.nicAttributes
  {
    var table := AttributeTable(s);
    var sel := Select(table, tree, false);
    SelectMembers(table, tree, false);
    forall j | 0 <= j < |sel| && sel[j].0 == key
      ensures GetTruthy(tree, key).Some?
      ensures key != "node_attributes_metadata" ==> sel[j].1 == s.nicAttributes
    {
      var k :| 0 <= k < |table| && Pick(table[k].0, table[k].1, tree, false) == Some(sel[j]);
      assert table[k].0 == key;
      assert k != 0 ==> table[k].1 == s.nicAttributes;
    }
    if GetTruthy(tree, key).Some? {
      var i := if key == "node_attributes_metadata" then 0 else if key == "nic_attributes_metadata" then 1 else 2;
      assert table[i].0 == key;
      var p := Pick(table[i].0, table[i].1, tree, false);
      assert p.Some? && p.value.0 == key;
      assert p.value in sel;
      var j :| 0 <= j < |sel| && sel[j] == p.value;
      assert 0 <= j < |Select(AttributeTable(s), tree, false)| && Select(AttributeTable(s), tree, false)[j].0 == key;
    } else {
      assert !exists j :: 0 <= j < |sel| && sel[j].0 == key;
    }
  }

}

=== FILE: validator_checks.dfy ===
/**
 The check classes of `fuel_plugin_builder/validators/checks.py`, on the
 simpler report node of `validators/base.py`. Every check starts from an
 empty report node (what `check_path`/`check_file` of the base class
 return), reads its YAML file through a parameter, and adds `ERROR:` and
 `INFO:` lines; a Python exception raised on malformed data is an `Err`.
 */
module ValidatorChecks {
  import opened Base
  import opened Text
  import opened Json
  import opened Versions
  import opened SchemaErrors
  import opened Inspection
  import Paths
  import Namespaces
  import Checks
  import LegacyValidator

  /** The report node a check starts from. */
  const Blank: ReportNode := ReportNode("", [], false)

  /** An error on the empty node is its only child and its one failure;
      an info line is its only child and no failure. */
  lemma {:induction false} MessageOnBlank(msg: string)
    ensures AddError(Blank, msg).children == [ReportNode("ERROR: " + msg, [], true)]
    ensures CountFailures(AddError(Blank, msg), 0) == 1
    ensures AddInfo(Blank, msg).children == [ReportNode("INFO: " + msg, [], false)]
    ensures CountFailures(AddInfo(Blank, msg), 0) == 0
  {
    var e := ReportNode("ERROR: " + msg, [], true);
    var i := ReportNode("INFO: " + msg, [], false);
    assert Blank.children == [];
    assert [] + [e] == [e] && [] + [i] == [i];
    assert [e][1..] == [] && [i][1..] == [];
    assert CountFailures(e, 0) == 1;
    assert CountFailures(i, 0) == 0;
    assert CountFailures(AddError(Blank, msg), 0) == CountChildren([e], 0) == CountChildren([], 1);
    assert CountFailures(AddInfo(Blank, msg), 0) == CountChildren([i], 0) == CountChildren([], 0);
  }

  // ---------------------------------------------------------------------
  // Loading YAML
  // ---------------------------------------------------------------------

  /** What reading and parsing a YAML file gives: the data, an `IOError`
      with its number and text, or a YAML error with or without a position
      (zero-based line and column). */
  datatype LoadOutcome =
    | Loaded(data: Json)
    | IoFailure(errno: int, strerror: string)
    | ParseFailure(mark: Option<(nat, nat)>)

  /** The error `_load_yaml` reports for a failed load; positions are shown
      one-based. */
  function LoadMessage(o: LoadOutcome): (m: string)
    requires !o.Loaded?
    ensures o.ParseFailure? ==> "Can't parse YAML file" <= m
    ensures o.ParseFailure? && o.mark.None? ==> m == "Can't parse YAML file"
    ensures o.IoFailure? ==> "I/O error(" <= m
  {
    match o
    case IoFailure(errno, strerror) => "I/O error(" + IntToString(errno) + "): " + strerror
    case ParseFailure(mark) =>
      "Can't parse YAML file"
        + (if mark.Some? then ", error position: (" + NatToString(mark.value.0 + 1) + ":"
                              + NatToString(mark.value.1 + 1) + ")"
           else "")
  }

  /** `_load_yaml(path, report)`: the data, or `None` with one error added
      to the report. */
  function LoadYaml(load: string -> LoadOutcome, path: string, report: ReportNode): (r: (Json, ReportNode))
    ensures load(path).Loaded? ==> r == (load(path).data, report)
    ensures !load(path).Loaded? ==> r.0 == Null && r.1 == AddError(report, LoadMessage(load(path)))
    ensures CountFailures(r.1, 0) == CountFailures(report, 0) + (if load(path).Loaded? then 0 else 1)
  {
    var o := load(path);
    if o.Loaded? then (o.data, report)
    else
      var msg := LoadMessage(o);
      AddNodesCounts(report, [ReportNode("ERROR: " + msg, [], true)], 0);
      assert FlattenAll([ReportNode("ERROR: " + msg, [], true)]) == [ReportNode("ERROR: " + msg, [], true)];
      (Null, AddError(report, msg))
  }

  // ---------------------------------------------------------------------
  // JSON-Schema errors as report nodes
  // ---------------------------------------------------------------------

  /** `make_exceptions_report(errors, node)`: one node per error, in path
      order, titled with its value path, holding an error line when the
      error has a message and then the nodes of its sub-errors. */
  function ExceptionsReport(errors: seq<SchemaError>): (r: seq<ReportNode>)
    ensures |r| == |errors|
    decreases errors, 1
  {
    SortByPathMembers(errors);
    ExceptionsSorted(SortByPath(errors), errors)
  }

  function ExceptionsSorted(sorted: seq<SchemaError>, bound: seq<SchemaError>): (r: seq<ReportNode>)
    requires forall i :: 0 <= i < |sorted| ==> sorted[i] in bound
    ensures |r| == |sorted|
    decreases bound, 0, |sorted|
  {
    if |sorted| == 0 then []
    else
      assert sorted[0] in bound;
      [ErrorNode(sorted[0], ExceptionsReport(sorted[0].context))] + ExceptionsSorted(sorted[1..], bound)
  }

  /** The error nodes follow the errors sorted by path, each titled with
      its error's value path. */
  lemma {:induction false} ExceptionsReportOrder(errors: seq<SchemaError>)
    ensures forall i :: 0 <= i < |errors| ==>
      ExceptionsReport(errors)[i].text == PathText(SortByPath(errors)[i].path) && !ExceptionsReport(errors)[i].failed
    ensures forall i, j :: 0 <= i < j < |errors| ==> PathLe(SortByPath(errors)[i].path, SortByPath(errors)[j].path)
  {
    SortByPathMembers(errors);
    ExceptionsSortedTitles(SortByPath(errors), errors);
  }

  lemma {:induction false} ExceptionsSortedTitles(sorted: seq<SchemaError>, bound: seq<SchemaError>)
    requires forall i :: 0 <= i < |sorted| ==> sorted[i] in bound
    ensures forall i :: 0 <= i < |sorted| ==>
      ExceptionsSorted(sorted, bound)[i].text == PathText(sorted[i].path) && !ExceptionsSorted(sorted, bound)[i].failed
  {
    if |sorted| > 0 {
      var r := ExceptionsSorted(sorted, bound);
      var rest := ExceptionsSorted(sorted[1..], bound);
      assert r == [ErrorNode(sorted[0], ExceptionsReport(sorted[0].context))] + rest by {
        assert sorted[0] in bound;
      }
      assert forall j :: 0 <= j < |sorted[1..]| ==> rest[j].text == PathText(sorted[1..][j].path) && !rest[j].failed by {
        ExceptionsSortedTitles(sorted[1..], bound);
      }
      forall i | 0 <= i < |sorted| ensures r[i].text == PathText(sorted[i].path) && !r[i].failed {
        if i > 0 {
          assert r[i] == rest[i - 1] && sorted[i] == sorted[1..][i - 1];
        }
      }
    }
  }

  /** The node of one error, given the nodes of its sub-errors. */
  function ErrorNode(e: SchemaError, nested: seq<ReportNode>): (n: ReportNode)
    ensures n.text == PathText(e.path) && !n.failed
    ensures e.message != "" ==> n.children == [ReportNode("ERROR: " + e.message, [], true)] + nested
    ensures e.message == "" ==> n.children == nested
  {
    var sub := ReportNode(PathText(e.path), [], false);
    AddNodes(if e.message != "" then AddError(sub, e.message) else sub, nested)
  }

  lemma {:induction false} ErrorNodeCounts(e: SchemaError, nested: seq<ReportNode>)
    ensures FailedCount(Flatten(ErrorNode(e, nested))) == (if e.message != "" then 1 else 0) + FailedCount(FlattenAll(nested))
  {
    var sub := ReportNode(PathText(e.path), [], false);
    var withMsg := if e.message != "" then AddError(sub, e.message) else sub;
    AddNodesCounts(withMsg, nested, 0);
    CountFailuresIsFailedNodes(ErrorNode(e, nested), 0);
    CountFailuresIsFailedNodes(withMsg, 0);
    var leaf := ReportNode("ERROR: " + e.message, [], true);
    assert Flatten(leaf) == [leaf];
    assert FlattenAll([leaf]) == [leaf] by {
      assert [leaf][1..] == [];
    }
    assert Flatten(sub) == [sub];
    if e.message != "" {
      assert Flatten(withMsg) == [withMsg, leaf];
    }
  }

  /** Each error with a message, at every depth, adds exactly one failure. */
  lemma {:induction false} ExceptionsReportCounts(errors: seq<SchemaError>)
    ensures FailedCount(FlattenAll(ExceptionsReport(errors))) == CountMessages(errors)
    decreases errors, 1
  {
    SortByPathMembers(errors);
    ExceptionsSortedCounts(SortByPath(errors), errors);
    SortByPathMessages(errors);
  }

  lemma {:induction false} ExceptionsSortedCounts(sorted: seq<SchemaError>, bound: seq<SchemaError>)
    requires forall i :: 0 <= i < |sorted| ==> sorted[i] in bound
    ensures FailedCount(FlattenAll(ExceptionsSorted(sorted, bound))) == CountMessages(sorted)
    decreases bound, 0, |sorted|
  {
    if |sorted| > 0 {
      assert sorted[0] in bound;
      var e := sorted[0];
      var nested := ExceptionsReport(e.context);
      var node := ErrorNode(e, nested);
      var rest := ExceptionsSorted(sorted[1..], bound);
      assert FailedCount(FlattenAll(ExceptionsSorted(sorted, bound))) ==
        FailedCount(Flatten(node)) + FailedCount(FlattenAll(rest)) by {
        assert ExceptionsSorted(sorted, bound) == [node] + rest;
        FlattenAllAppend([node], rest);
        FailedCountAppend(FlattenAll([node]), FlattenAll(rest));
        assert [node][1..] == [];
        assert FlattenAll([node]) == Flatten(node);
      }
      assert FailedCount(Flatten(node)) == (if e.message != "" then 1 else 0) + CountMessages(e.context) by {
        ErrorNodeCounts(e, nested);
        ExceptionsReportCounts(e.context);
      }
      assert FailedCount(FlattenAll(rest)) == CountMessages(sorted[1..]) by {
        ExceptionsSortedCounts(sorted[1..], bound);
      }
    }
  }

  /** `_check_json_schema(schema, data, report)`: the error nodes go under
      the report, which gains one failure per error with a message. */
  function CheckJsonSchema(engine: Engine, schema: Json, data: Json, report: ReportNode): (r: ReportNode)
    ensures r.text == report.text && r.failed == report.failed
    ensures |r.children| == |report.children| + |engine(data, schema)|
    ensures r.children[..|report.children|] == report.children
    ensures CountFailures(r, 0) == CountFailures(report, 0) + CountMessages(engine(data, schema))
  {
    var nodes := ExceptionsReport(engine(data, schema));
    ExceptionsReportCounts(engine(data, schema));
    AddNodesCounts(report, nodes, 0);
    assert (report.children + nodes)[..|report.children|] == report.children;
    AddNodes(report, nodes)
  }

  // ---------------------------------------------------------------------
  // The checks
  // ---------------------------------------------------------------------

  /** `JSONSchemaIsValid(schema).check_file(path)`: successful exactly when
      the file loads and every error the engine reports has an empty
      message (in practice: when there is no error). */
  function JsonSchemaIsValidFile(load: string -> LoadOutcome, engine: Engine, schema: Json, path: string): (r: ReportNode)
    ensures CountFailures(r, 0) == (if load(path).Loaded? then CountMessages(engine(load(path).data, schema))
                                   else 1 + CountMessages(engine(Null, schema)))
  {
    var (data, report) := LoadYaml(load, path, Blank);
    assert CountFailures(Blank, 0) == 0;
    CheckJsonSchema(engine, schema, data, report)
  }

  /** A record passes the multi-schema check when its type names a schema
      and the engine reports no message against it. */
  predicate RecordPasses(engine: Engine, schemas: Fields, record: Json) {
    && GetOr(record, "type", Str("")).Ok?
    && Checks.SchemaFor(schemas, GetOr(record, "type", Str("")).value).Ok?
    && Checks.SchemaFor(schemas, GetOr(record, "type", Str("")).value).value.Some?
    && CountMessages(engine(record, Checks.SchemaFor(schemas, GetOr(record, "type", Str("")).value).value.value)) == 0
  }

  /** The nodes one record adds: its schema errors, or one `Invalid type`
      error; no info line, unlike the newer check. */
  function RecordReport(engine: Engine, schemas: Fields, show: Json -> string, record: Json, index: nat): (r: Result<seq<ReportNode>>)
    ensures r.Ok? <==> record.Obj? && Checks.SchemaFor(schemas, GetOr(record, "type", Str("")).value).Ok?
    ensures r.Ok? ==> (FailedCount(FlattenAll(r.value)) == 0 <==> RecordPasses(engine, schemas, record))
  {
    var recordType :- GetOr(record, "type", Str(""));
    var schema :- Checks.SchemaFor(schemas, recordType);
    match schema
    case Some(s) =>
      ExceptionsReportCounts(engine(record, s));
      Ok(ExceptionsReport(engine(record, s)))
    case None =>
      var leaf := ReportNode("ERROR: Invalid type: " + Display(recordType, show) + " for record: " + NatToString(index), [], true);
      assert FlattenAll([leaf]) == [leaf] by {
        assert [leaf][1..] == [];
      }
      Ok([leaf])
  }

  function RecordsReport(engine: Engine, schemas: Fields, show: Json -> string, records: seq<Json>, start: nat): (r: Result<seq<ReportNode>>)
    ensures r.Ok? <==> forall i :: 0 <= i < |records| ==> RecordReport(engine, schemas, show, records[i], start + i).Ok?
    ensures r.Ok? ==> (FailedCount(FlattenAll(r.value)) == 0 <==>
                       forall i :: 0 <= i < |records| ==> RecordPasses(engine, schemas, records[i]))
    decreases |records|
  {
    if |records| == 0 then Ok([])
    else
      var rest := RecordsReport(engine, schemas, show, records[1..], start + 1);
      RecordsShift(engine, schemas, show, records, start);
      var head :- RecordReport(engine, schemas, show, records[0], start);
      var tail :- rest;
      FlattenAllAppend(head, tail);
      FailedCountAppend(FlattenAll(head), FlattenAll(tail));
      Ok(head + tail)
  }

  /** The per-record facts of a list are those of its head and its tail. */
  lemma RecordsShift(engine: Engine, schemas: Fields, show: Json -> string, records: seq<Json>, start: nat)
    requires |records| > 0
    ensures (forall i :: 0 <= i < |records| ==> RecordReport(engine, schemas, show, records[i], start + i).Ok?) <==>
      (&& RecordReport(engine, schemas, show, records[0], start).Ok?
       && forall i :: 0 <= i < |records[1..]| ==> RecordReport(engine, schemas, show, records[1..][i], start + 1 + i).Ok?)
    ensures (forall i :: 0 <= i < |records| ==> RecordPasses(engine, schemas, records[i])) <==>
      (RecordPasses(engine, schemas, records[0]) && forall i :: 0 <= i < |records[1..]| ==> RecordPasses(engine, schemas, records[1..][i]))
  {
    assert forall i :: 1 <= i < |records| ==> records[i] == records[1..][i - 1];
  }

  /** `MultiJSONSchemaIsValid(schemas).check_file(path)`: data that is not
      a list (an unreadable file included) gives one error and stops;
      otherwise the report is successful exactly when every record passes. */
  function MultiJsonSchemaIsValidFile(load: string -> LoadOutcome, engine: Engine, schemas: Fields, show: Json -> string,
                                      path: string): (r: Result<ReportNode>)
    ensures var (data, report) := LoadYaml(load, path, Blank);
      && (!data.List? ==> r == Ok(AddError(report, "Data should be a list of entities")))
      && (data.List? ==> (r.Ok? <==> forall i :: 0 <= i < |data.items| ==>
                                      RecordReport(engine, schemas, show, data.items[i], i).Ok?))
      && (data.List? && r.Ok? ==> (CountFailures(r.value, 0) == 0 <==>
                                   forall i :: 0 <= i < |data.items| ==> RecordPasses(engine, schemas, data.items[i])))
  {
    var (data, report) := LoadYaml(load, path, Blank);
    if !data.List? then Ok(AddError(report, "Data should be a list of entities"))
    else
      var nodes :- RecordsReport(engine, schemas, show, data.items, 0);
      AddNodesCounts(report, nodes, 0);
      assert CountFailures(Blank, 0) == 0;
      Ok(AddNodes(report, nodes))
  }

  /** `DoPathHaveFiles().check_path(path)`: one error exactly when the path
      holds no file; `required` plays no part. */
  function DoPathHaveFiles(filesInPath: string -> seq<string>, path: string): (r: ReportNode)
    ensures filesInPath(path) == [] ==> r.children == [ReportNode("ERROR: " + "Path contain no files", [], true)]
    ensures filesInPath(path) != [] ==> r.children == []
    ensures CountFailures(r, 0) == if filesInPath(path) == [] then 1 else 0
  {
    if filesInPath(path) == [] then
      MessageOnBlank("Path contain no files");
      AddError(Blank, "Path contain no files")
    else Blank
  }

  /** `IsFile(required).check_path(path)`: an existing non-file is an
      error; a missing path is one only when required. */
  function IsFile(fileExists: string -> bool, isFile: string -> bool, required: bool, path: string): (r: ReportNode)
    ensures fileExists(path) && !isFile(path) ==> r.children == [ReportNode("ERROR: " + "Path is not file", [], true)]
    ensures !fileExists(path) && required ==> r.children == [ReportNode("ERROR: " + "File not found", [], true)]
    ensures CountFailures(r, 0) == if (fileExists(path) && !isFile(path)) || (!fileExists(path) && required) then 1 else 0
  {
    if fileExists(path) then
      if !isFile(path) then
        MessageOnBlank("Path is not file");
        AddError(Blank, "Path is not file")
      else Blank
    else if required then
      MessageOnBlank("File not found");
      AddError(Blank, "File not found")
    else Blank
  }

  /** Whether a listed release is below the basic version. */
  predicate ReleaseBelow(release: Json, basic: string) {
    LegacyValidator.ParseValue(release).Ok? && Parse(basic).Ok?
    && Less(LegacyValidator.ParseValue(release).value, Parse(basic).value)
  }

  /** How many listed releases are below the basic version. */
  function CountBelow(releases: seq<Json>, basic: string): (n: nat)
    ensures n <= |releases|
  {
    if |releases| == 0 then 0
    else (if ReleaseBelow(releases[0], basic) then 1 else 0) + CountBelow(releases[1..], basic)
  }

  /** One error per release below the basic version, in order. */
  function ReleaseErrors(releases: seq<Json>, basic: string, meta: Json, show: Json -> string): (r: Result<seq<ReportNode>>)
    ensures r.Ok? ==> forall i :: 0 <= i < |releases| ==> LegacyValidator.ParseValue(releases[i]).Ok? && Parse(basic).Ok?
    ensures r.Ok? ==> |r.value| == CountBelow(releases, basic)
    ensures r.Ok? ==> forall i :: 0 <= i < |r.value| ==> r.value[i].failed && r.value[i].children == []
  {
    if |releases| == 0 then Ok([])
    else
      var rest := ReleaseErrors(releases[1..], basic, meta, show);
      ParsedSplit(releases);
      var v :- LegacyValidator.ParseValue(releases[0]);
      var b :- Parse(basic);
      if Less(v, b) then
        var pv :- Subscript(meta, "package_version");
        var msg := LegacyValidator.IncompatibleMessage(Display(pv, show), basic, Display(releases[0], show));
        var tail :- rest;
        FailedLeavesConcat([ReportNode("ERROR: " + msg, [], true)], tail);
        Ok([ReportNode("ERROR: " + msg, [], true)] + tail)
      else
        var tail :- rest;
        Ok(tail)
  }

  /** The first release below the basic version looks up `package_version`
      before any later release is parsed, so a missing key is reported even
      when a later release would not parse. */
  lemma {:induction false} ReleaseErrorsHeadFirst(releases: seq<Json>, basic: string, meta: Json, show: Json -> string)
    requires |releases| > 0 && meta.Obj? && "package_version" !in Keys(meta.fields)
    requires ReleaseBelow(releases[0], basic)
    ensures ReleaseErrors(releases, basic, meta, show) == Err(Error(KeyError, "package_version"))
  {
  }

  /** Every release parses exactly when the first one does and every later
      one does. */
  lemma {:induction false} ParsedSplit(releases: seq<Json>)
    requires |releases| > 0
    ensures (forall i :: 0 <= i < |releases| ==> LegacyValidator.ParseValue(releases[i]).Ok?) <==>
            (LegacyValidator.ParseValue(releases[0]).Ok? &&
             forall i :: 0 <= i < |releases[1..]| ==> LegacyValidator.ParseValue(releases[1..][i]).Ok?)
  {
    AllSplit(releases, (j: Json) => LegacyValidator.ParseValue(j).Ok?);
  }

  /** Nodes that are all failed leaves count one failure each. */
  lemma {:induction false} FailedLeavesCount(ns: seq<ReportNode>)
    requires forall i :: 0 <= i < |ns| ==> ns[i].failed && ns[i].children == []
    ensures FailedCount(FlattenAll(ns)) == |ns|
  {
    if |ns| > 0 {
      FailedLeavesCount(ns[1..]);
      assert Flatten(ns[0]) == [ns[0]];
      FailedCountAppend(Flatten(ns[0]), FlattenAll(ns[1..]));
    }
  }

  /** `data['fuel_version']`, iterated. */
  function FuelReleases(data: Json): (r: Result<seq<Json>>)
    ensures r.Ok? ==> data.Obj? && Subscript(data, "fuel_version").Ok?
    ensures r.Ok? <==> Subscript(data, "fuel_version").Ok? && Iter(Subscript(data, "fuel_version").value).Ok?
  {
    var listed :- Subscript(data, "fuel_version");
    Iter(listed)
  }

  /** `IsReleaseCompatible(basic).check_file(path)`: the expectation as an
      info line, then one error per `fuel_version` strictly below it. */
  function IsReleaseCompatible(load: string -> LoadOutcome, basic: string, show: Json -> string, path: string): (r: Result<ReportNode>)
    ensures r.Ok? ==> |r.value.children| >= 1 && r.value.children[0] == ReportNode("INFO: " + "Expected Fuel version >=" + basic, [], false)
    ensures r.Ok? ==> load(path).Loaded? && FuelReleases(load(path).data).Ok?
    ensures r.Ok? ==> CountFailures(r.value, 0) == CountBelow(FuelReleases(load(path).data).value, basic)
  {
    var report := AddInfo(Blank, "Expected Fuel version >=" + basic);
    var (data, loaded) := LoadYaml(load, path, report);
    var releases :- FuelReleases(data);
    var nodes :- ReleaseErrors(releases, basic, data, show);
    FailedLeavesCount(nodes);
    AddNodesCounts(loaded, nodes, 0);
    MessageOnBlank("Expected Fuel version >=" + basic);
    assert data.Obj?;
    Ok(AddNodes(loaded, nodes))
  }

  /** The fields each release names a directory in, checked in this order. */
  const ReleasePaths: seq<string> := ["deployment_scripts_path", "repository_path"]

  /** The errors of one path field of one release: "not specified" when the
      field is absent or `None` (and nothing else), otherwise an error
      exactly when the joined path does not exist. */
  function FieldErrors(fileExists: string -> bool, basePath: string, show: Json -> string, release: Json,
                       field: string): (r: Result<seq<ReportNode>>)
    ensures r.Ok? ==> |r.value| <= 1 && forall i :: 0 <= i < |r.value| ==> r.value[i].failed && r.value[i].children == []
    ensures release.Obj? && Get(release, field).None? ==>
      r == Ok([ReportNode("ERROR: Field " + field + " not specified for the release " + Display(release, show), [], true)])
    ensures release.Obj? && Get(release, field).Some? && Get(release, field).value.Null? ==> r.Ok? && |r.value| == 1
    ensures release.Obj? && Get(release, field).Some? && Get(release, field).value.Str? ==>
      r.Ok? && (|r.value| == 1 <==> !fileExists(Paths.Join(basePath, Get(release, field).value.s)))
    ensures r.Ok? <==> release.Obj? && (Get(release, field).None? || Get(release, field).value.Null? || Get(release, field).value.Str?)
  {
    var value :- GetOr(release, field, Null);
    if value.Null? then
      Ok([ReportNode("ERROR: Field " + field + " not specified for the release " + Display(release, show), [], true)])
    else if !value.Str? then Err(Error(AttributeError, "object has no attribute 'startswith'"))
    else
      var toCheck := Paths.Join(basePath, value.s);
      if !fileExists(toCheck) then
        Ok([ReportNode("ERROR: Cannot find directory " + toCheck + " for the release \"" + Display(release, show) + "\"", [], true)])
      else Ok([])
  }

  /** The errors of one release: its scripts path first, then its
      repository path. */
  function ReleasePathErrors(fileExists: string -> bool, basePath: string, show: Json -> string, release: Json): (r: Result<seq<ReportNode>>)
    ensures r.Ok? <==> FieldErrors(fileExists, basePath, show, release, ReleasePaths[0]).Ok?
                       && FieldErrors(fileExists, basePath, show, release, ReleasePaths[1]).Ok?
    ensures r.Ok? ==> r.value == FieldErrors(fileExists, basePath, show, release, ReleasePaths[0]).value
                                 + FieldErrors(fileExists, basePath, show, release, ReleasePaths[1]).value
  {
    var scripts :- FieldErrors(fileExists, basePath, show, release, ReleasePaths[0]);
    var repository :- FieldErrors(fileExists, basePath, show, release, ReleasePaths[1]);
    Ok(scripts + repository)
  }

  function AllReleasePathErrors(fileExists: string -> bool, basePath: string, show: Json -> string, releases: seq<Json>): (r: Result<seq<ReportNode>>)
    ensures r.Ok? <==> forall i :: 0 <= i < |releases| ==> ReleasePathErrors(fileExists, basePath, show, releases[i]).Ok?
    ensures r.Ok? ==> (r.value == [] <==> forall i :: 0 <= i < |releases| ==>
                         ReleasePathErrors(fileExists, basePath, show, releases[i]).value == [])
    ensures r.Ok? ==> forall i :: 0 <= i < |r.value| ==> r.value[i].failed && r.value[i].children == []
  {
    if |releases| == 0 then Ok([])
    else
      var rest := AllReleasePathErrors(fileExists, basePath, show, releases[1..]);
      ReleasesSplit(fileExists, basePath, show, releases);
      var head :- ReleasePathErrors(fileExists, basePath, show, releases[0]);
      var tail :- rest;
      FailedLeavesConcat(FieldErrors(fileExists, basePath, show, releases[0], ReleasePaths[0]).value,
                         FieldErrors(fileExists, basePath, show, releases[0], ReleasePaths[1]).value);
      FailedLeavesConcat(head, tail);
      Ok(head + tail)
  }

  /** Two runs of failed leaves make one. */
  lemma FailedLeavesConcat(a: seq<ReportNode>, b: seq<ReportNode>)
    requires forall i :: 0 <= i < |a| ==> a[i].failed && a[i].children == []
    requires forall i :: 0 <= i < |b| ==> b[i].failed && b[i].children == []
    ensures forall i :: 0 <= i < |a + b| ==> (a + b)[i].failed && (a + b)[i].children == []
  {
  }

  /** A test holds for every release exactly when it holds for the first
      one and for every later one. */
  lemma {:induction false} ReleasesSplit(fileExists: string -> bool, basePath: string, show: Json -> string, releases: seq<Json>)
    requires |releases| > 0
    ensures (forall i :: 0 <= i < |releases| ==> ReleasePathErrors(fileExists, basePath, show, releases[i]).Ok?) <==>
            (ReleasePathErrors(fileExists, basePath, show, releases[0]).Ok? &&
             forall i :: 0 <= i < |releases[1..]| ==> ReleasePathErrors(fileExists, basePath, show, releases[1..][i]).Ok?)
    ensures (forall i :: 0 <= i < |releases| ==> ReleasePathErrors(fileExists, basePath, show, releases[i]).Ok?) ==>
            ((forall i :: 0 <= i < |releases| ==> ReleasePathErrors(fileExists, basePath, show, releases[i]).value == []) <==>
             (ReleasePathErrors(fileExists, basePath, show, releases[0]).value == [] &&
              forall i :: 0 <= i < |releases[1..]| ==> ReleasePathErrors(fileExists, basePath, show, releases[1..][i]).value == []))
  {
    AllSplit(releases, (r: Json) => ReleasePathErrors(fileExists, basePath, show, r).Ok?);
    if forall i :: 0 <= i < |releases| ==> ReleasePathErrors(fileExists, basePath, show, releases[i]).Ok? {
      AllSplit(releases, (r: Json) => ReleasePathErrors(fileExists, basePath, show, r).Ok?
                                      && ReleasePathErrors(fileExists, basePath, show, r).value == []);
    }
  }

  /** `ScriptsAndRepoPathsIsValid(base).check_file(path)`: the report holds
      exactly the path errors of the releases, one failure each. */
  function ScriptsAndRepoPathsIsValid(load: string -> LoadOutcome, fileExists: string -> bool, basePath: string,
                                      show: Json -> string, path: string): (r: Result<ReportNode>)
    ensures r.Ok? ==> load(path).Loaded? && Subscript(load(path).data, "releases").Ok?
                      && Iter(Subscript(load(path).data, "releases").value).Ok?
    ensures r.Ok? ==> var releases := Iter(Subscript(load(path).data, "releases").value).value;
      AllReleasePathErrors(fileExists, basePath, show, releases).Ok?
      && r.value.children == AllReleasePathErrors(fileExists, basePath, show, releases).value
      && CountFailures(r.value, 0) == |r.value.children|
  {
    var (data, loaded) := LoadYaml(load, path, Blank);
    var listed :- Subscript(data, "releases");
    var releases :- Iter(listed);
    var nodes :- AllReleasePathErrors(fileExists, basePath, show, releases);
    FailedLeavesCount(nodes);
    AddNodesCounts(Blank, nodes, 0);
    assert data.Obj?;
    Ok(AddNodes(loaded, nodes))
  }

  /** The node of one attribute: `attributes -> <id>` holding the schema
      errors of its value. */
  function AttributeNode(engine: Engine, id: string, value: Json, elementSchema: Json, metaSchema: Json): (n: ReportNode)
    ensures n.text == "attributes -> " + id && !n.failed
    ensures FailedCount(Flatten(n)) == CountMessages(engine(value, Checks.AttributeSchema(id, elementSchema, metaSchema)))
  {
    var schemaReport := ReportNode("attributes -> " + id, [], false);
    var n := CheckJsonSchema(engine, Checks.AttributeSchema(id, elementSchema, metaSchema), value, schemaReport);
    assert CountFailures(schemaReport, 0) == 0;
    CountFailuresIsFailedNodes(n, 0);
    n
  }

  function AttributeNodes(engine: Engine, attrs: Fields, elementSchema: Json, metaSchema: Json): (r: seq<ReportNode>)
    ensures |r| == |attrs|
    ensures forall i :: 0 <= i < |attrs| ==> r[i] == AttributeNode(engine, attrs[i].0, attrs[i].1, elementSchema, metaSchema)
  {
    seq(|attrs|, i requires 0 <= i < |attrs| => AttributeNode(engine, attrs[i].0, attrs[i].1, elementSchema, metaSchema))
  }

  /** `EnvConfigAttrsIsValidV1().check_file(path)`: the root schema errors,
      then one node per attribute; unlike the newer check it goes on after
      a failed root. Successful exactly when the file loads and no schema
      reports a message. */
  function EnvConfigAttrsIsValidV1(load: string -> LoadOutcome, engine: Engine, rootSchema: Json, elementSchema: Json,
                                   metaSchema: Json, path: string): (r: Result<ReportNode>)
    ensures r.Ok? ==> Checks.Attributes(LoadYaml(load, path, Blank).0).Ok?
    ensures r.Ok? ==> var data := LoadYaml(load, path, Blank).0;
      var attrs := Checks.Attributes(data).value;
      var nodes := AttributeNodes(engine, attrs, elementSchema, metaSchema);
      && |r.value.children| == (if load(path).Loaded? then 0 else 1) + |engine(data, rootSchema)| + |attrs|
      && r.value.children[|r.value.children| - |attrs|..] == nodes
      && CountFailures(r.value, 0) == (if load(path).Loaded? then 0 else 1) + CountMessages(engine(data, rootSchema))
                                      + FailedCount(FlattenAll(nodes))
  {
    var (data, loaded) := LoadYaml(load, path, Blank);
    assert CountFailures(Blank, 0) == 0;
    var root := CheckJsonSchema(engine, rootSchema, data, loaded);
    var attrs :- Checks.Attributes(data);
    var nodes := AttributeNodes(engine, attrs, elementSchema, metaSchema);
    AddNodesCounts(root, nodes, 0);
    Ok(AddNodes(root, nodes))
  }

  /** The older environment-config check is successful exactly when the
      file loads and neither the root nor any attribute schema reports a
      message. */
  lemma {:induction false} EnvConfigAttrsVerdict(load: string -> LoadOutcome, engine: Engine, rootSchema: Json, elementSchema: Json,
                              metaSchema: Json, path: string)
    requires EnvConfigAttrsIsValidV1(load, engine, rootSchema, elementSchema, metaSchema, path).Ok?
    ensures var data := LoadYaml(load, path, Blank).0;
      var attrs := Checks.Attributes(data).value;
      CountFailures(EnvConfigAttrsIsValidV1(load, engine, rootSchema, elementSchema, metaSchema, path).value, 0) == 0 <==>
        && load(path).Loaded?
        && CountMessages(engine(data, rootSchema)) == 0
        && forall i :: 0 <= i < |attrs| ==>
             CountMessages(engine(attrs[i].1, Checks.AttributeSchema(attrs[i].0, elementSchema, metaSchema))) == 0
  {
    var data := LoadYaml(load, path, Blank).0;
    var attrs := Checks.Attributes(data).value;
    AttributeNodesClean(engine, attrs, elementSchema, metaSchema);
  }

  /** The attribute nodes hold no failure exactly when no attribute schema
      reports a message. */
  lemma AttributeNodesClean(engine: Engine, attrs: Fields, elementSchema: Json, metaSchema: Json)
    ensures FailedCount(FlattenAll(AttributeNodes(engine, attrs, elementSchema, metaSchema))) == 0 <==>
      forall i :: 0 <= i < |attrs| ==>
        CountMessages(engine(attrs[i].1, Checks.AttributeSchema(attrs[i].0, elementSchema, metaSchema))) == 0
  {
    var nodes := AttributeNodes(engine, attrs, elementSchema, metaSchema);
    FlattenAllClean(nodes);
    forall i | 0 <= i < |attrs|
      ensures FailedCount(Flatten(nodes[i])) ==
        CountMessages(engine(attrs[i].1, Checks.AttributeSchema(attrs[i].0, elementSchema, metaSchema)))
    {
      assert nodes[i] == AttributeNode(engine, attrs[i].0, attrs[i].1, elementSchema, metaSchema);
    }
  }

  // ---------------------------------------------------------------------
  // The names as written
  // ---------------------------------------------------------------------

  // The members above take what `utils.parse_yaml`, `utils.exists` and
  // `utils.isfile` evidently mean as the `load`, `fileExists` and `isFile`
  // parameters, and the module's base class as `Check`. As written the
  // module imports a name `validators/base.py` does not define, and each
  // of those reads raises.

  /** The module's imports as written: `BaseCheck` and `ReportNode` from
      `validators/base.py`. */
  function ChecksImportsAsWritten(): (r: Result<()>)
    ensures r == Err(Error(ImportError, "cannot import name BaseCheck"))
  {
    Namespaces.ImportFrom(Namespaces.ValidatorsBaseNames, ["BaseCheck", "ReportNode"])
  }

  /** The imports as evidently intended: the base class `validators/base.py`
      does define, `Check`. */
  function ChecksImports(): (r: Result<()>)
    ensures r.Ok?
  {
    Namespaces.ImportFrom(Namespaces.ValidatorsBaseNames, ["Check", "ReportNode"])
  }

  /** `_load_yaml` as written: `utils.parse_yaml` raises `AttributeError`,
      which neither of its handlers catches. */
  function LoadYamlAsWritten(load: string -> LoadOutcome, path: string, report: ReportNode): (r: Result<(Json, ReportNode)>)
    ensures r == Err(Namespaces.NoAttribute("parse_yaml"))
  {
    Namespaces.UtilsLacksParseYaml();
    Err(Namespaces.Attribute(Namespaces.UtilsNames, "parse_yaml").error)
  }

  /** A file that loads gives its data under the corrected reading and
      raises as written. */
  lemma {:induction false} LoadYamlDiscrepancy(load: string -> LoadOutcome, path: string, report: ReportNode)
    requires load(path).Loaded?
    ensures LoadYaml(load, path, report).0 == load(path).data
    ensures LoadYamlAsWritten(load, path, report).Err?
  {
  }

  /** `IsFile.check_path` as written: it reads `utils.exists` (and, for an
      existing path, `utils.isfile`). */
  function IsFileAsWritten(fileExists: string -> bool, isFile: string -> bool, required: bool, path: string): (r: Result<ReportNode>)
    ensures r == Err(Namespaces.NoAttribute("exists"))
  {
    Namespaces.UtilsLacksExists();
    Err(Namespaces.Attribute(Namespaces.UtilsNames, "exists").error)
  }

  /** An existing file passes the corrected check with no failure and
      raises as written. */
  lemma {:induction false} IsFileDiscrepancy(fileExists: string -> bool, isFile: string -> bool, required: bool, path: string)
    requires fileExists(path) && isFile(path)
    ensures CountFailures(IsFile(fileExists, isFile, required, path), 0) == 0
    ensures IsFileAsWritten(fileExists, isFile, required, path).Err?
    ensures Namespaces.Attribute(Namespaces.UtilsNames, "isfile").Err?
  {
    Namespaces.UtilsLacksIsfile();
  }

  /** The release path check as written: a path that is given is tested
      with `utils.exists`. */
  function FieldErrorsAsWritten(fileExists: string -> bool, basePath: string, show: Json -> string, release: Json,
                                field: string): (r: Result<seq<ReportNode>>)
    ensures release.Obj? && Get(release, field).Some? && Get(release, field).value.Str? ==>
      r == Err(Namespaces.NoAttribute("exists"))
    ensures r.Ok? ==> release.Obj? && (Get(release, field).None? || Get(release, field).value.Null?)
  {
    var value :- GetOr(release, field, Null);
    if value.Null? then
      Ok([ReportNode("ERROR: Field " + field + " not specified for the release " + Display(release, show), [], true)])
    else if !value.Str? then Err(Error(AttributeError, "object has no attribute 'startswith'"))
    else
      Namespaces.UtilsLacksExists();
      Err(Namespaces.Attribute(Namespaces.UtilsNames, "exists").error)
  }

  /** A release whose directory exists passes the corrected check and
      raises as written. */
  lemma {:induction false} FieldErrorsDiscrepancy(fileExists: string -> bool, basePath: string, show: Json -> string,
                                                  release: Json, field: string)
    requires release.Obj? && Get(release, field).Some? && Get(release, field).value.Str?
    requires fileExists(Paths.Join(basePath, Get(release, field).value.s))
    ensures FieldErrors(fileExists, basePath, show, release, field) == Ok([])
    ensures FieldErrorsAsWritten(fileExists, basePath, show, release, field).Err?
  {
  }
}

=== FILE: version_mapping.dfy ===
/**
 Which templates, loader, validator and builder serve a plugin package
 version: the newer tree's table (package version 5.0.0 only) and the older
 tree's table (1.0.0 only), the lookups that raise
 `WrongPackageVersionError` for any other version, and the lookup from a
 plugin directory through the `package_version` of its metadata.
 */
module VersionMapping {
  import opened Base
  import opened Json
  import Reports
  import Namespaces

  /** The classes a table entry names. */
  datatype LoaderClass = LoaderV5
  datatype ValidatorClass = ValidatorV1 | ValidatorV5
  datatype BuilderClass = BuildPluginV5

  /** One entry of the newer table. */
  datatype Mapping = Mapping(version: string, templates: seq<string>, loader: LoaderClass,
                             validator: ValidatorClass, builder: BuilderClass)

  /** The only package version the newer table knows, and its entry. */
  const V5 := "5.0.0"
  const V5Mapping := Mapping(V5, ["templates/base", "templates/v5/plugin_data/"], LoaderV5, ValidatorV5, BuildPluginV5)

  /** `get_mapping(version)`: the table's `dict.get`; a list or dictionary
      cannot be a dictionary key, so Python raises `TypeError` for it. */
  function GetMapping(version: Json): (r: Result<Option<Mapping>>)
    ensures r.Err? <==> version.List? || version.Obj?
    ensures r.Err? ==> r.error.kind == TypeError
    ensures r.Ok? ==> (r.value.Some? <==> version == Str("5.0.0"))
    ensures r.Ok? && r.value.Some? ==> r.value.value.version == version.s
  {
    if version.List? || version.Obj? then Err(Error(TypeError, "unhashable type"))
    else if version == Str(V5) then Ok(Some(V5Mapping))
    else Ok(None)
  }

  /** `get_mapping` as written: the table it builds names
      `build.BuildPluginV5`, which `actions/build.py` does not define, so
      building the table raises before any lookup. */
  function GetMappingAsWritten(version: Json): (r: Result<Option<Mapping>>)
    ensures r.Err? && r.error.kind == AttributeError
  {
    Err(Namespaces.Attribute(Namespaces.BuildActionNames, "BuildPluginV5").error)
  }

  /** For the one version the table knows, the corrected table has an entry
      and the table as written raises. */
  lemma {:induction false} GetMappingDiscrepancy()
    ensures GetMapping(Str("5.0.0")) == Ok(Some(V5Mapping))
    ensures GetMappingAsWritten(Str("5.0.0")).error
      == Namespaces.NoAttribute("BuildPluginV5")
  {
  }

  function WrongVersion(version: Json, show: Json -> string): Error {
    Error(WrongPackageVersionError, "Wrong package version \"" + Display(version, show) + "\"")
  }

  /** `get_plugin_for_version(version)`: the entry, or
      `WrongPackageVersionError` naming the version. */
  function GetPluginForVersion(version: Json, show: Json -> string): (r: Result<Mapping>)
    ensures r.Ok? <==> version == Str("5.0.0")
    ensures r.Ok? ==> r.value.version == version.s && r.value.validator == ValidatorV5
    ensures r.Err? && !(version.List? || version.Obj?) ==> r.error == WrongVersion(version, show)
  {
    var data :- GetMapping(version);
    if data.None? then Err(WrongVersion(version, show)) else Ok(data.value)
  }

  /** Looking up the version an entry records gives that entry back, and
      every other string is refused with a message that names it. */
  lemma {:induction false} GetPluginForVersionRoundTrip(v: string, show: Json -> string)
    ensures GetPluginForVersion(Str(v), show).Ok? ==> GetPluginForVersion(Str(GetPluginForVersion(Str(v), show).value.version), show) == GetPluginForVersion(Str(v), show)
    ensures GetPluginForVersion(Str(v), show).Err? ==>
      GetPluginForVersion(Str(v), show).error == Error(WrongPackageVersionError, "Wrong package version \"" + v + "\"")
  {
  }

  const MetadataFile := "metadata.yaml"

  /** The error a missing or unreadable `metadata.yaml` gives. */
  function MetadataMissing(): (e: Error)
    ensures e.kind == WrongPluginDirectoryError
  {
    Error(WrongPluginDirectoryError, "Wrong path to the plugin, cannot find \"" + MetadataFile + "\" file")
  }

  /** `get_version_mapping_from_plugin(plugin_path)`: `meta` is what loading
      the plugin's `metadata.yaml` gives; any load failure becomes
      `WrongPluginDirectoryError`, data that is not a dictionary has no
      `get`, and the `package_version` it holds picks the entry. */
  function GetVersionMappingFromPlugin(meta: Result<Json>, show: Json -> string): (r: Result<Mapping>)
    ensures meta.Err? ==> r == Err(MetadataMissing())
    ensures meta.Ok? && !meta.value.Obj? ==> r.Err? && r.error.kind == AttributeError
  {
    if meta.Err? then Err(MetadataMissing())
    else
      var version :- GetOr(meta.value, "package_version", Null);
      GetPluginForVersion(version, show)
  }

  /** A plugin maps to an entry exactly when its metadata loads as a
      dictionary whose `package_version` is a known version, and then to
      that version's entry; a metadata file without the key is refused as
      the version `None`. */
  lemma {:induction false} MappingFromPluginVersion(fields: Fields, show: Json -> string)
    ensures var r := GetVersionMappingFromPlugin(Ok(Obj(fields)), show);
      (r.Ok? <==> Lookup(fields, "package_version") == Some(Str("5.0.0")))
      && (r.Ok? ==> r.value == V5Mapping)
    ensures Lookup(fields, "package_version").None? ==>
      GetVersionMappingFromPlugin(Ok(Obj(fields)), show) == Err(WrongVersion(Null, show))
  {
  }

  const TupleMessage := "('Wrong path to the plugin, cannot find \"%s\" file', 'metadata.yaml')"

  /** `get_version_mapping_from_plugin` as written: its first statement
      imports `loaders`, and importing the loader module reads
      `consts.PATHS_SUFFIX` in a class body (`Loaders.NewLoaderAsWritten`),
      so every call raises there, before the metadata is loaded. `loaded`
      is what loading `metadata.yaml` would give: the `(data, report)` pair
      `load` returns, or the exception it raises. */
  function GetVersionMappingFromPluginAsWritten(loaded: Result<(Json, Reports.Node)>): (r: Result<Mapping>)
    ensures r == Err(Namespaces.NoAttribute("PATHS_SUFFIX"))
  {
    Namespaces.ConstsLacksPathsSuffix();
    Err(Namespaces.Attribute(Namespaces.ConstsNames, "PATHS_SUFFIX").error)
  }

  /** The same function past its import, with the rest as written: a load
      that raises gives a `WrongPluginDirectoryError` whose message is never
      formatted (the file name is passed as a second exception argument, so
      Python shows both as a tuple); a load that returns gives the
      `(data, report)` pair, which has no `get`, so no call reaches
      `get_plugin_for_version`. */
  function LoadedMappingAsWritten(loaded: Result<(Json, Reports.Node)>): (r: Result<Mapping>)
    ensures loaded.Err? ==> r == Err(Error(WrongPluginDirectoryError, TupleMessage))
    ensures loaded.Ok? ==> r == Err(Error(AttributeError, "'tuple' object has no attribute 'get'"))
  {
    if loaded.Err? then Err(Error(WrongPluginDirectoryError, TupleMessage))
    else Err(Error(AttributeError, "'tuple' object has no attribute 'get'"))
  }

  /** A plugin directory without metadata: the message as written shows a
      `%s` placeholder, the corrected one the file name. */
  lemma {:induction false} MetadataMessageDiscrepancy(e: Error, show: Json -> string)
    ensures GetVersionMappingFromPlugin(Err(e), show).error.message
      == "Wrong path to the plugin, cannot find \"metadata.yaml\" file"
    ensures LoadedMappingAsWritten(Err(e)).error.message == TupleMessage
  {
  }

  /** A plugin whose metadata names the known package version: the
      corrected lookup, which reads the data half of the pair, finds the
      5.0.0 entry; as written the lookup raises, at the import and, past
      it, on the pair's missing `get`. */
  lemma {:induction false} LoadedMappingDiscrepancy(report: Reports.Node, show: Json -> string)
    ensures var data := Obj([("package_version", Str("5.0.0"))]);
      GetVersionMappingFromPlugin(Ok(data), show) == Ok(V5Mapping)
      && LoadedMappingAsWritten(Ok((data, report))).error.kind == AttributeError
      && GetVersionMappingFromPluginAsWritten(Ok((data, report))).Err?
  {
    MappingFromPluginVersion([("package_version", Str("5.0.0"))], show);
  }

  // The older tree's table.

  /** One entry of the older table: a single template directory. */
  datatype LegacyMapping = LegacyMapping(version: string, validator: ValidatorClass, templates: string)

  const LatestVesion := "1.0.0"
  const LegacyMappings: seq<LegacyMapping> := [LegacyMapping("1.0.0", ValidatorV1, "templates/v1/")]

  /** `filter(lambda p: p['version'] == version, mapping)`. */
  function Matching(entries: seq<LegacyMapping>, version: Json): (r: seq<LegacyMapping>)
    ensures |r| <= |entries|
    ensures forall m :: m in r <==> m in entries && Str(m.version) == version
  {
    if |entries| == 0 then []
    else (if Str(entries[0].version) == version then [entries[0]] else []) + Matching(entries[1..], version)
  }

  /** The older `get_plugin_for_version(version)`: the first entry with
      that version, or `WrongPackageVersionError`. */
  function LegacyGetPluginForVersion(version: Json, show: Json -> string): (r: Result<LegacyMapping>)
    ensures r.Err? ==> r.error == WrongVersion(version, show)
  {
    var data := Matching(LegacyMappings, version);
    if |data| == 0 then Err(WrongVersion(version, show)) else Ok(data[0])
  }

  /** Only `1.0.0` is known, its entry uses `ValidatorV1` and the
      `templates/v1/` directory, and the latest version resolves. */
  lemma {:induction false} LegacyGetPluginForVersionKnown(version: Json, show: Json -> string)
    ensures LegacyGetPluginForVersion(version, show).Ok? <==> version == Str("1.0.0")
    ensures LegacyGetPluginForVersion(version, show).Ok? ==>
      LegacyGetPluginForVersion(version, show).value == LegacyMapping("1.0.0", ValidatorV1, "templates/v1/")
    ensures LegacyGetPluginForVersion(Str(LatestVesion), show).Ok?
  {
    var data := Matching(LegacyMappings, version);
    if version == Str("1.0.0") {
      assert LegacyMappings[0] in data;
    }
    if |data| > 0 {
      assert data[0] in data;
    }
    assert LegacyMappings[0] in Matching(LegacyMappings, Str(LatestVesion));
  }

  /** What the older builder and validator manager evidently expect of
      `get_version_mapping_from_plugin`: the entry for the `package_version`
      of the plugin's metadata. */
  function LegacyVersionMappingFromPlugin(meta: Result<Json>, show: Json -> string): (r: Result<LegacyMapping>)
    ensures meta.Err? ==> r == Err(MetadataMissing())
    ensures meta.Ok? && !meta.value.Obj? ==> r.Err? && r.error.kind == AttributeError
  {
    if meta.Err? then Err(MetadataMissing())
    else
      var version :- GetOr(meta.value, "package_version", Null);
      LegacyGetPluginForVersion(version, show)
  }

  /** The older tree as written: `actions/build.py` and
      `validators/manager.py` call `get_version_mapping_from_plugin`, which
      the older `version_mapping.py` does not define. */
  function LegacyVersionMappingFromPluginAsWritten(meta: Result<Json>, show: Json -> string): (r: Result<LegacyMapping>)
    ensures r.Err? && r.error.kind == AttributeError
  {
    Err(Namespaces.Attribute(Namespaces.OlderVersionMappingNames, "get_version_mapping_from_plugin").error)
  }

  /** A plugin whose metadata names version 1.0.0 resolves under the
      corrected lookup and raises under the one as written. */
  lemma {:induction false} LegacyMappingDiscrepancy(show: Json -> string)
    ensures LegacyVersionMappingFromPlugin(Ok(Obj([("package_version", Str("1.0.0"))])), show)
      == Ok(LegacyMapping("1.0.0", ValidatorV1, "templates/v1/"))
    ensures LegacyVersionMappingFromPluginAsWritten(Ok(Obj([("package_version", Str("1.0.0"))])), show).Err?
  {
    LegacyGetPluginForVersionKnown(Str("1.0.0"), show);
  }
}

=== FILE: versions.dfy ===
/**
 Dotted release numbers as `distutils.version.StrictVersion` reads them
 (`X.Y` or `X.Y.Z`, the patch number defaulting to 0), their ordering, and
 the rpm name/version split of `utils/version.py`.
 */
module Versions {
  import opened Base
  import opened Text
  import Namespaces

  datatype Version = Version(major: nat, minor: nat, patch: nat)

  /** StrictVersion's ordering: lexicographic on (major, minor, patch). */
  predicate Less(a: Version, b: Version) {
    a.major < b.major
    || (a.major == b.major && a.minor < b.minor)
    || (a.major == b.major && a.minor == b.minor && a.patch < b.patch)
  }

  predicate LessOrEqual(a: Version, b: Version) {
    a == b || Less(a, b)
  }

  /** The ordering is a strict total order. */
  lemma {:induction false} LessIsStrictTotalOrder(a: Version, b: Version, c: Version)
    ensures !Less(a, a)
    ensures Less(a, b) ==> !Less(b, a)
    ensures Less(a, b) && Less(b, c) ==> Less(a, c)
    ensures a == b || Less(a, b) || Less(b, a)
  {
  }

  /** A dotted component: one or more ASCII digits. */
  predicate IsNumber(s: string) {
    |s| > 0 && AllDigits(s)
  }

  /** The dotted components `StrictVersion` matches: its pattern ends in `$`,
      which also matches before one final newline, so a single trailing '\n'
      is dropped from the last component. */
  function Components(s: string): (r: seq<string>)
    ensures |r| == |Split(s, '.')| >= 1
    ensures r[..|r| - 1] == Split(s, '.')[..|r| - 1]
  {
    var parts := Split(s, '.');
    var last := parts[|parts| - 1];
    if |last| > 0 && last[|last| - 1] == '\n' then parts[..|parts| - 1] + [last[..|last| - 1]] else parts
  }

  /** The error of an empty version: `StrictVersion("")` skips parsing, so the
      first comparison or split reads a `version` attribute that was never set. */
  const EmptyVersionError := Error(AttributeError, "StrictVersion instance has no attribute 'version'")

  /** `StrictVersion(s)`: two or three dot-separated numbers, anything else a
      `ValueError`, and the empty text the `AttributeError` of its first use. */
  function Parse(s: string): (r: Result<Version>)
    ensures r.Ok? <==> var parts := Components(s);
              (|parts| == 2 || |parts| == 3) && forall i :: 0 <= i < |parts| ==> IsNumber(parts[i])
    ensures r.Ok? && |Split(s, '.')| == 2 ==> r.value.patch == 0
    ensures r.Err? ==> r.error.kind == (if s == "" then AttributeError else ValueError)
  {
    var parts := Components(s);
    if (|parts| == 2 || |parts| == 3) && forall i :: 0 <= i < |parts| ==> IsNumber(parts[i]) then
      var patch := if |parts| == 3 then DigitsValue(parts[2]) else 0;
      Ok(Version(DigitsValue(parts[0]), DigitsValue(parts[1]), patch))
    else if s == "" then
      Err(EmptyVersionError)
    else
      Err(Error(ValueError, "invalid version number '" + s + "'"))
  }

  /** The canonical three-part spelling `X.Y.Z`. */
  function Render(v: Version): (r: string)
    ensures |Split(r, '.')| == 3
  {
    RenderParts(v);
    Join([NatToString(v.major), NatToString(v.minor), NatToString(v.patch)], ".")
  }

  lemma {:induction false} NoDotInDigits(s: string)
    requires AllDigits(s)
    ensures '.' !in s
  {
    assert forall i :: 0 <= i < |s| ==> s[i] != '.';
  }

  lemma {:induction false} RenderParts(v: Version)
    ensures var parts := [NatToString(v.major), NatToString(v.minor), NatToString(v.patch)];
      Split(Join(parts, "."), '.') == parts && Components(Join(parts, ".")) == parts
  {
    var parts := [NatToString(v.major), NatToString(v.minor), NatToString(v.patch)];
    NoDotInDigits(parts[0]);
    NoDotInDigits(parts[1]);
    NoDotInDigits(parts[2]);
    SplitJoin(parts, '.');
    assert IsDigit(parts[2][|parts[2]| - 1]);
  }

  /** Reading back the canonical spelling gives the version. */
  lemma {:induction false} ParseRender(v: Version)
    ensures Parse(Render(v)) == Ok(v)
  {
    RenderParts(v);
    DigitsValueOfNatToString(v.major);
    DigitsValueOfNatToString(v.minor);
    DigitsValueOfNatToString(v.patch);
  }

  /** Components of three dot-free pieces: the pieces, a trailing newline
      dropped from the last. */
  lemma {:induction false} ComponentsOfThree(a: string, b: string, c: string)
    requires '.' !in a && '.' !in b && '.' !in c
    ensures Components(Join([a, b, c], ".")) ==
      if |c| > 0 && c[|c| - 1] == '\n' then [a, b, c[..|c| - 1]] else [a, b, c]
  {
    SplitJoin([a, b, c], '.');
  }

  /** One trailing newline is read past: `X.Y.Z\n` is `X.Y.Z`. */
  lemma {:induction false} ParseTrailingNewline(v: Version)
    ensures Parse(Render(v) + "\n") == Ok(v)
  {
    var parts := [NatToString(v.major), NatToString(v.minor), NatToString(v.patch)];
    assert Components(Render(v) + "\n") == parts by {
      NoDotInDigits(parts[0]);
      NoDotInDigits(parts[1]);
      NoDotInDigits(parts[2]);
      var last := parts[2] + "\n";
      JoinThree(parts[0], parts[1], parts[2], ".");
      JoinThree(parts[0], parts[1], last, ".");
      assert Render(v) + "\n" == Join([parts[0], parts[1], last], ".");
      ComponentsOfThree(parts[0], parts[1], last);
      assert last[..|last| - 1] == parts[2];
    }
    assert IsNumber(parts[0]) && IsNumber(parts[1]) && IsNumber(parts[2]);
    DigitsValueOfNatToString(v.major);
    DigitsValueOfNatToString(v.minor);
    DigitsValueOfNatToString(v.patch);
  }

  /** Only one newline is read past: `X.Y.Z\n\n` is a `ValueError`. */
  lemma {:induction false} ParseTwoNewlines(v: Version)
    ensures Parse(Render(v) + "\n\n").Err?
  {
    var parts := [NatToString(v.major), NatToString(v.minor), NatToString(v.patch)];
    NoDotInDigits(parts[0]);
    NoDotInDigits(parts[1]);
    NoDotInDigits(parts[2]);
    var last := parts[2] + "\n\n";
    JoinThree(parts[0], parts[1], parts[2], ".");
    JoinThree(parts[0], parts[1], last, ".");
    assert Render(v) + "\n\n" == Join([parts[0], parts[1], last], ".");
    ComponentsOfThree(parts[0], parts[1], last);
    var kept := last[..|last| - 1];
    assert kept[|kept| - 1] == '\n' && !IsDigit(kept[|kept| - 1]);
  }

  /** The empty text is not a `ValueError` but the `AttributeError` of the
      unset version. */
  lemma {:induction false} ParseEmpty()
    ensures Parse("") == Err(EmptyVersionError)
  {
    assert Split("", '.') == [""];
  }

  /** `X.Y` and `X.Y.0` are the same version. */
  lemma {:induction false} ShortFormHasZeroPatch(major: nat, minor: nat)
    ensures Parse(Join([NatToString(major), NatToString(minor)], ".")) == Ok(Version(major, minor, 0))
  {
    var parts := [NatToString(major), NatToString(minor)];
    NoDotInDigits(parts[0]);
    NoDotInDigits(parts[1]);
    SplitJoin(parts, '.');
    assert IsDigit(parts[1][|parts[1]| - 1]);
    DigitsValueOfNatToString(major);
    DigitsValueOfNatToString(minor);
  }

  /** `version_split_name_rpm`: the first two numbers joined by '.', and the
      version text unchanged. */
  function SplitNameRpm(version: string): (r: Result<(string, string)>)
    ensures r.Ok? <==> Parse(version).Ok?
    ensures r.Ok? ==> r.value.1 == version
    ensures r.Ok? ==> var v := Parse(version).value;
              r.value.0 == NatToString(v.major) + "." + NatToString(v.minor)
  {
    var v :- Parse(version);
    Ok((NatToString(v.major) + "." + NatToString(v.minor), version))
  }

  /** `version_split_name_rpm` as written: it reads `StrictVersion` from the
      `distutils` package, which does not define it (the class lives in
      `distutils.version`), so every call raises. */
  function SplitNameRpmAsWritten(version: string): (r: Result<(string, string)>)
    ensures r.Err? && r.error.kind == AttributeError
  {
    Err(Namespaces.NoAttribute("StrictVersion"))
  }

  /** Versions that differ only in the patch number share an rpm name part,
      and the name part tells major and minor apart. */
  lemma {:induction false} SplitNameRpmIgnoresPatch(a: string, b: string)
    requires Parse(a).Ok? && Parse(b).Ok?
    ensures var va := Parse(a).value; var vb := Parse(b).value;
      (va.major == vb.major && va.minor == vb.minor) <==> SplitNameRpm(a).value.0 == SplitNameRpm(b).value.0
  {
    var va := Parse(a).value;
    var vb := Parse(b).value;
    var x := NatToString(va.major) + "." + NatToString(va.minor);
    var y := NatToString(vb.major) + "." + NatToString(vb.minor);
    if x == y {
      NoDotInDigits(NatToString(va.major));
      NoDotInDigits(NatToString(va.minor));
      NoDotInDigits(NatToString(vb.major));
      NoDotInDigits(NatToString(vb.minor));
      JoinSmall(NatToString(va.major), NatToString(va.minor), ".");
      JoinSmall(NatToString(vb.major), NatToString(vb.minor), ".");
      SplitJoin([NatToString(va.major), NatToString(va.minor)], '.');
      SplitJoin([NatToString(vb.major), NatToString(vb.minor)], '.');
      NatToStringInjective(va.major, vb.major);
      NatToStringInjective(va.minor, vb.minor);
    }
  }

  /** The canonical spelling of a version splits into its `major.minor`
      name part and itself. */
  lemma {:induction false} SplitNameRpmOfRender(v: Version)
    ensures SplitNameRpm(Render(v)) == Ok((NatToString(v.major) + "." + NatToString(v.minor), Render(v)))
  {
    ParseRender(v);
  }

  lemma {:induction false} RenderExample()
    ensures Render(Version(1, 2, 3)) == "1.2.3"
  {
    assert NatToString(1) == "1" && NatToString(2) == "2" && NatToString(3) == "3";
    assert Join(["3"], ".") == "3";
    assert Join(["2", "3"], ".") == "2.3" by { assert ["2", "3"][1..] == ["3"]; }
    assert Join(["1", "2", "3"], ".") == "1.2.3" by { assert ["1", "2", "3"][1..] == ["2", "3"]; }
  }

  /** `1.2.3` parses to version 1.2.3. */
  lemma {:induction false} ParseExample()
    ensures Parse("1.2.3") == Ok(Version(1, 2, 3))
  {
    var v := Version(1, 2, 3);
    RenderExample();
    ParseRender(v);
  }

  /** The example the builder tests rely on: `1.2.3` splits to `1.2`. */
  lemma {:induction false} SplitNameRpmExample()
    ensures SplitNameRpm("1.2.3") == Ok(("1.2", "1.2.3"))
  {
    ParseExample();
    assert NatToString(1) + "." + NatToString(2) == "1.2" by {
      assert NatToString(1) == "1" && NatToString(2) == "2";
    }
  }

  /** The version the builder tests use splits under the corrected
      definition and raises under the one as written. */
  lemma {:induction false} SplitNameRpmDiscrepancy()
    ensures SplitNameRpm("1.2.3") == Ok(("1.2", "1.2.3"))
    ensures SplitNameRpmAsWritten("1.2.3").Err?
  {
    SplitNameRpmExample();
  }

  /** `strict_version(s) >= strict_version(minimum)`, the test every
      compatibility check applies; an unparsable side raises as `Parse` says. */
  function AtLeast(s: string, minimum: string): (r: Result<bool>)
    ensures r.Ok? <==> Parse(s).Ok? && Parse(minimum).Ok?
    ensures r.Ok? ==> (r.value <==> !Less(Parse(s).value, Parse(minimum).value))
  {
    var v :- Parse(s);
    var m :- Parse(minimum);
    Ok(!Less(v, m))
  }
}
